=== FILE: README.md ===
# Contingency Comparator — a Dafny model of its table logic

The Contingency Comparator is a desktop tool for power-system planning studies. It reads
PowerWorld violation exports and "Combined_ViolationCTG_Comparison" workbooks. It filters the
exported violation tables, compares two scenario sheets contingency by contingency, and lays out
formatted pair sheets. It also follows how the worst loading of each resulting issue trends across
sheets, ranks help topics against a search query, and classifies the `.pwb` cases found in a folder.

This project models the pure table logic under the Excel, pandas and Tk plumbing.

- **Sheets and workbooks.** A worksheet is a sparse grid of optional cells (`Cells.Sheet`, 1-based
  like openpyxl). A workbook is a sequence of named sheets.
- **CSV exports.** An exported CSV is a `Table` of column names and rows of cells.
- **Numbers.** Percentages read as numbers are `Option<real>`, with `None` standing for NaN.
- **Operations.** Every operation is a pure function, or a method with loop invariants where the
  source loops. Where the program can fail, the model returns a `Result`.

Modules, following the program's files:

| module | models |
|---|---|
| `Comparator` | `core/comparator.py`: header roles, scenario-sheet block parsing, keep-worst de-duplication, outer join, limit display, worst-first order, pair rows, batch sheet names |
| `ColumnBlacklist` | `core/column_blacklist.py`: column blacklist, LimViolCat row filter, LimViolID grouping and ranking, primary rows, helper columns |
| `CaseProcessor` | the pure part of `core/case_processor.py`: `os.path.splitext` and the filtered-file name, reading the export's records, the transform order |
| `CaseFinder` | `core/case_finder.py`: `.pwb` selection, classification, folder scan |
| `Trends` | `core/trends.py`: normalisation, category blocks, per-sheet maxima, trend building |
| `TrendsView` | the pure helpers of `gui/trends_view.py`: table detection, case-type inference, merging, top-N ranking |
| `HelpSearch` | `core/help_search.py`: normalisation, tokens, scoring, ranking |
| `PairLayout`, `BatchSheetWriter`, `BatchWorkbookWriter` | the row plans of the two `write_formatted_pair_sheet` writers |
| `Cells`, `Numeric`, `Text`, `Seqs`, `Sorting`, `Wrappers` | cells and the shared float coercion, decimal parsing, ASCII string helpers, de-duplication and grouping, a stable sort, `Option`/`Result` |

Three kinds of value are passed in as parameters instead of being modelled:

- Python's float renderings: `fmtG` for `:g`, `fmt2` for `.2f`, and `repr`/`shown` for `str(float)`.
- The list of file names a folder holds.
- The lines of a CSV file, already split into records.

## Model

| member | source | states |
|---|---|---|
| Cells.ToNumber | core/comparator.py:85-97 | the float coercion: a missing cell and blank text are NaN, and a number is itself |
| Cells.ToNumberPercentText | core/trends.py:71-77 | a whole percentage written with a trailing '%' reads as its number |
| Cells.FindSheet | core/comparator.py:160-163 | a sheet is found exactly when the workbook has one with that name, and the sheet found is that one |
| Comparator.NormHeader | core/comparator.py:38-41 | the header is the stripped cell text with each newline turned into a space and each letter lower-cased, character by character |
| Comparator.Detect | core/comparator.py:54-82 | each detected role maps to a column whose header has that role, and no later column has it; every role some header has is detected |
| Comparator.DetectColumns | core/comparator.py:44-82 | only columns B..H are inspected; each role maps to the last of them whose header has the role; every header role found is mapped |
| Comparator.ValueHeaderNotLimit | core/comparator.py:61-72 | a header containing "value" is never a limit column, and is a contingency column only when it names CTGLabel |
| Comparator.ContingencyValueIsValue | core/comparator.py:61-76 | "contingency value" headers are value columns, not contingency columns |
| Comparator.LayoutOf | core/comparator.py:178-192 | detected columns win; undetected contingency and issue fall back to B and C; with neither value nor percent detected the old layout D/E is used; a value in E without percent implies percent in F; percent stays unknown exactly when a value but no percent was detected outside E |
| Comparator.CanonicalCaseType | core/comparator.py:197-202 | every block title canonicalises to one of the three case types |
| Comparator.BlockEnd | core/comparator.py:204-210 | a block's data runs up to the first row whose contingency and issue cells are both blank, or past the last row |
| Comparator.BlockRows | core/comparator.py:204-229 | the block's rows are exactly the rows from its first data row up to its end, each read with the block's columns |
| Comparator.ScanBlocks | core/comparator.py:166-235 | the scan reads the blocks at the titles it stops at, and every row it yields carries a canonical case type |
| Comparator.StartsComplete | core/comparator.py:169-235 | every start position the scan does not jump over is found |
| Comparator.BlockStarts | core/comparator.py:169-235 | the titles the scan stops at are in range, hold a block title, and each lies past the block before it |
| Comparator.BlockStartsComplete | core/comparator.py:169-235 | every title row not inside an earlier block is a title the scan stops at |
| Comparator.NoTitleNoRows | core/comparator.py:169-173 | a sheet whose column B never holds "ACCA LongTerm", "ACCA" or "DCwAC" yields no rows |
| Comparator.FillIds | core/comparator.py:241-244 | the forward fill keeps every row and changes only the LimViolID, to the row's own or the inherited one |
| Comparator.FillFrom | core/comparator.py:241-244 | from a row on, each row is kept with its LimViolID replaced by its filled value, given the last id seen per case type |
| Comparator.LastIdIsNearest | core/comparator.py:242-243 | a blank LimViolID inherits the id of the nearest earlier row of the same case type that has one, and stays blank when there is none |
| Comparator.ParseScenarioSheet | core/comparator.py:165-250 | the parsed rows are the scanned block rows, one for one and in order, each with its LimViolID forward-filled within its case type |
| Comparator.SelectCaseType | core/comparator.py:272-280 | the rows kept are exactly the scored rows of the requested case type |
| Comparator.Keys | core/comparator.py:283-290 | the distinct (CTGLabel, LimViolID) keys, each once, covering every row |
| Comparator.KeepWorst | core/comparator.py:283-290 | one row per distinct key, the one keep-worst chooses for it |
| Comparator.WorstOfSpec | core/comparator.py:283-290 | the row kept for a key is an input row with that key whose percent is at least every other percent of the key (NaN last), and no earlier row of the key has as large a percent |
| Comparator.KeepWorstKeys | core/comparator.py:283-290 | after keep-worst every key occurs once, every input key survives, and every kept row is an input row |
| Comparator.FindSide | core/comparator.py:295-300 | a side is found for a key exactly when a row has that key, and it carries that row's percent and limit |
| Comparator.OuterJoin | core/comparator.py:295-300 | each merged row carries what the left and the right have for its key |
| Comparator.OuterJoinKeys | core/comparator.py:295-300 | the merged keys are the union of both sides' keys, each once, and every merged row has at least one side |
| Comparator.ChooseLimit | core/comparator.py:104-126 | with one side blank the other is shown |
| Comparator.ChooseLimitNumbers | core/comparator.py:114-121 | two numeric limits within 1e-9 show the left one through `:g`, and otherwise "L:left \| R:right" through `:g` |
| Comparator.ChooseLimitAgree | core/comparator.py:114-123 | equal limits show one value, the number through `:g` when it parses |
| Comparator.ChooseLimitDiffer | core/comparator.py:114-124 | different limits that are not both numbers show "L:left \| R:right" |
| Comparator.LimitText | core/comparator.py:111-112 | corrected reading: a missing side is blank, a present one is its stripped text |
| Comparator.LimitTextAsWritten | core/comparator.py:295-305 | as written: the outer merge leaves a missing side as NaN, whose text is "nan" |
| Comparator.RightOnlyLimitAsWritten | core/comparator.py:104-126 | a right-only key with limit 100 displays "L:nan \| R:100" as written, and "100" when read as corrected |
| Comparator.NanIsNotNumber | core/comparator.py:116-118 | the text "nan" never compares as a number |
| Comparator.OneSidedLimit | core/comparator.py:126 | corrected: a key present on one side only shows that side's limit |
| Comparator.Delta | core/comparator.py:307-314 | a delta exists exactly when both percents are numbers, and then left + delta = right |
| Comparator.ToCompRow | core/comparator.py:302-314 | the display row keeps the key, both percents and their delta; its limit is the one side present, or the two sides' stripped limits chosen between |
| Comparator.MaxPct | core/comparator.py:317-319 | the maximum is missing exactly when both percents are, and otherwise is one of them and at least each present one |
| Comparator.WorstFirstIsPreorder | core/comparator.py:320 | the order by larger maximum, missing last, then contingency, then issue, is total and transitive |
| Comparator.OrderWorstFirst | core/comparator.py:316-321 | the ordered rows are a permutation of the merged rows, sorted worst first |
| Comparator.Truncate | core/comparator.py:325-326 | the rows are cut to `max_rows` only when it is given and positive |
| Comparator.ParseNamedSheet | core/comparator.py:160-161 | a missing sheet is the "Sheet not found" error, and only a missing sheet is |
| Comparator.CompareParsed | core/comparator.py:256-328 | an empty parsed sheet on either side is the missing CaseType column error, and only that; a result is sorted worst first and no longer than a positive `max_rows` |
| Comparator.CompareRows | core/comparator.py:272-323 | the comparison of one case type is ordered worst first |
| Comparator.BuildCaseTypeComparison | core/comparator.py:256-328 | a missing base sheet, then a missing new sheet, is an error naming it; otherwise the result is the comparison of the two parsed sheets, sorted worst first and no longer than a positive `max_rows` |
| Comparator.FindSideKeepWorst | core/comparator.py:283-300 | the join sees, for each key, exactly the row keep-worst kept for it |
| Comparator.JoinedRowsSpec | core/comparator.py:283-314 | before ordering there is one row per key of either side, each with both sides' kept percents and limits |
| Comparator.CompareRowsSpec | core/comparator.py:272-323 | the comparison holds exactly one row per key of either side, each with the kept percent and limit of each side that has the key, and their delta |
| Comparator.DeltaDisplay | core/comparator.py:365-372 | "Only in right" or "Only in left" when one side is missing, the two-decimal delta when both are present, blank otherwise |
| Comparator.PairRowsFor | core/comparator.py:356-384 | each pair row carries the case type and has a maximum at or above the threshold; there are no more of them than comparison rows |
| Comparator.PairRowsForSpec | core/comparator.py:356-384 | a pair row is produced exactly for each comparison row with a side present and a maximum at or above the threshold |
| Comparator.PairRowsAllSpec | core/comparator.py:343-384 | across case types the pair rows are exactly those of each case type's comparison rows meeting the threshold |
| Comparator.PairsParsed | core/comparator.py:343-386 | with case types to compare, an empty parsed sheet is the missing CaseType column error, and only that |
| Comparator.PairsParsedStep | core/comparator.py:343-384 | the pair rows of several case types are those of the first, then those of the rest, failing when the first fails |
| Comparator.PairRowsOf | core/comparator.py:343-384 | a missing left, then right, sheet is an error naming it; otherwise the pair rows of that case type's comparison, each carrying the case type and meeting the threshold |
| Comparator.PairDisplayMatchesDelta | core/comparator.py:365-372 | the status is the formatted delta exactly when the comparison has one, else it names the side present |
| Comparator.PairRowsFrom | core/comparator.py:343-386 | a missing left, then right, sheet is an error naming it; otherwise the result is the pair rows of each given case type in turn, or the first failure |
| Comparator.BuildPairComparison | core/comparator.py:331-386 | a missing left, then right, sheet is an error naming it; otherwise the rows are those of the three case types in order, each from its comparison, and all carry a canonical case type and meet the threshold |
| Comparator.PairSheetName | core/comparator.py:424-426 | "left vs right" with no '/' or '\\', cut to 31 characters |
| Comparator.PairSheetNameUnchanged | core/comparator.py:424-426 | a short name without slashes is kept as it is |
| Comparator.PairSheetOf | core/comparator.py:412-428 | a missing left, then right, sheet is an error naming it; a sheet is built exactly when the pair can be compared, named from the pair and holding its rows |
| Comparator.PairSheets | core/comparator.py:412-428 | one sheet per pair, in order, each named from its pair and holding that pair's rows; a failure means some pair cannot be compared |
| Comparator.BuildBatchComparison | core/comparator.py:398-428 | no pairs is an error; otherwise one sheet per pair, in order, each holding its pair's rows under a name of at most 31 characters without '/' or '\\'; a failure means some pair cannot be compared |
| ColumnBlacklist.ColumnIndex | core/column_blacklist.py:110 | a column is found exactly when the frame has it, at its first position |
| ColumnBlacklist.BeforeColon | core/column_blacklist.py:51 | the prefix before the first ':', which is all of the name when there is none |
| ColumnBlacklist.IsBlacklistedIff | core/column_blacklist.py:49-59 | a column is blacklisted exactly when it is a base name alone or followed by ':', or an exact name |
| ColumnBlacklist.HelpersNotBlacklisted | core/column_blacklist.py:40-59 | the grouping's helper columns are never blacklisted |
| ColumnBlacklist.UnderscoreNotBlacklisted | core/column_blacklist.py:25-59 | no name starting with '_' is blacklisted |
| ColumnBlacklist.DropColumns | core/column_blacklist.py:77-81 | the kept columns are the ones not dropped, in order, and every row stays, reduced to its cells in the kept columns |
| ColumnBlacklist.KeptPositions | core/column_blacklist.py:77-81 | the positions of the kept columns, increasing, each kept and every kept one listed |
| ColumnBlacklist.DropNothing | core/column_blacklist.py:77-81 | dropping no column gives back the table |
| ColumnBlacklist.ApplyBlacklist | core/column_blacklist.py:62-82 | an empty frame passes unchanged with nothing removed; otherwise the blacklisted columns are dropped and reported in their order |
| ColumnBlacklist.BlacklistPartition | core/column_blacklist.py:77-82 | the kept and removed columns together are the original ones, each once; kept means not blacklisted |
| ColumnBlacklist.BlacklistIdempotent | core/column_blacklist.py:62-82 | a table with no blacklisted column passes unchanged with nothing removed |
| ColumnBlacklist.FilterRows | core/column_blacklist.py:126 | a row is kept exactly when its LimViolCat is a kept category |
| ColumnBlacklist.ApplyRowFilter | core/column_blacklist.py:94-130 | with no rows, no LimViolCat column or an empty keep set the table is unchanged with 0 removed; the columns stay, and removed = before − after |
| ColumnBlacklist.RowFilterKeeps | core/column_blacklist.py:115-126 | otherwise exactly the rows of a kept category remain, with `None` meaning {"Branch MVA"} |
| ColumnBlacklist.FilterRowsSubsequence | core/column_blacklist.py:126 | filtering keeps the original row order |
| ColumnBlacklist.GroupOrderIsPreorder | core/column_blacklist.py:197-201 | the order by LimViolID, then larger percent with NaN last, is total and transitive |
| ColumnBlacklist.ApplyLimViolIdGrouping | core/column_blacklist.py:166-224 | without rows or a LimViolID column the frame passes with zero statistics; otherwise no row is lost or added, the columns stay, and groups + child rows = rows |
| ColumnBlacklist.ChildRowsCount | core/column_blacklist.py:206-211 | the child rows and the distinct ids add up to all rows |
| ColumnBlacklist.MembersRanks | core/column_blacklist.py:204-205 | each row's rank counts the earlier rows of its id, and its size is the size of its group |
| ColumnBlacklist.RankBounds | core/column_blacklist.py:204-205 | ranks run from 1 to the group size |
| ColumnBlacklist.RankOneIffFirst | core/column_blacklist.py:204 | rank 1 holds exactly for the first row of each id |
| ColumnBlacklist.RankIncreasing | core/column_blacklist.py:204 | ranks strictly grow within a group |
| ColumnBlacklist.RankLastIsSize | core/column_blacklist.py:204-205 | the last row of a group has rank equal to the group size |
| ColumnBlacklist.MembersPrimaryMax | core/column_blacklist.py:196-204 | after the sort the rank-1 row of each id carries its largest percent, NaN counting least |
| ColumnBlacklist.MembersContiguous | core/column_blacklist.py:196-201 | after the sort the rows of one id are adjacent |
| ColumnBlacklist.GroupingSpec | core/column_blacklist.py:166-211 | grouping keeps every row, puts each id's rows together, ranks them 1..size and puts the largest percent at rank 1 |
| ColumnBlacklist.ChildIffLaterRank | core/column_blacklist.py:206 | `__IsChild` holds exactly for rows after the first of their id |
| ColumnBlacklist.GetPrimaryRowsOnly | core/column_blacklist.py:227-238 | an empty or ungrouped frame is returned as it is; otherwise exactly the rank-1 rows remain, with their helper values |
| ColumnBlacklist.StripGroupHelperColumns | core/column_blacklist.py:241-249 | only the helper columns are dropped, and an empty frame is returned as it is |
| ColumnBlacklist.WithHelperColumns | core/column_blacklist.py:204-206 | a grouped frame holds the helper columns after the original ones |
| ColumnBlacklist.StripRestores | core/column_blacklist.py:241-249 | stripping the helper columns from a grouped frame gives back the frame without them |
| ColumnBlacklist.ApplyLimViolIdMaxFilter | core/column_blacklist.py:256-280 | 0 rows are always reported removed, and a frame without rows or a LimViolID column passes unchanged |
| ColumnBlacklist.PrimaryIdsAreDistinct | core/column_blacklist.py:227-238 | the rank-1 rows' ids are the distinct ids in order |
| ColumnBlacklist.PrimaryKeepsMax | core/column_blacklist.py:227-238 | each primary row carries the top percent of its group |
| ColumnBlacklist.MaxFilterOnePerId | core/column_blacklist.py:256-280 | the max filter returns one row per LimViolID, as many as there are groups, each with its group's top percent |
| ColumnBlacklist.EveryIdHasPrimary | core/column_blacklist.py:256-280 | every input LimViolID keeps a primary row |
| CaseProcessor.SepEnd | core/case_processor.py:15 | the last path component starts after the last '\\' or '/' |
| CaseProcessor.DotBefore | core/case_processor.py:15 | the position of the last '.' before a bound, or none |
| CaseProcessor.SplitExt | core/case_processor.py:15 | stem + extension is the path; an extension starts with its only '.' and holds no separator |
| CaseProcessor.MakeFilteredPath | core/case_processor.py:14-18 | the filtered path is the stem, "_Filtered" and the extension, or ".csv" without one |
| CaseProcessor.FilteredPathKeepsExtension | core/case_processor.py:14-18 | "x.pwb.csv" style names keep their last extension after "_Filtered" |
| CaseProcessor.SplitExtDotted | core/case_processor.py:15 | the extension is taken from the last '.' of the last component |
| CaseProcessor.FilteredPathDefaultsToCsv | core/case_processor.py:16-17 | a last component without '.' gets "_Filtered.csv" |
| CaseProcessor.FilteredPathHiddenFile | core/case_processor.py:15-17 | a leading-dot name such as ".csv" has no extension and gets "_Filtered.csv" |
| CaseProcessor.ReadExport | core/case_processor.py:35-53 | after the skipped first line the next record is the header; fewer than one data row, or a record wider than the header, gives no table |
| CaseProcessor.PostProcess | core/case_processor.py:21-109 | a result exists exactly when the export reads; it is the filtered path with the transformed table |
| CaseProcessor.TransformHasNoBlacklisted | core/case_processor.py:59-84 | whenever rows survive, no blacklisted column is left |
| CaseProcessor.TransformWithoutDedup | core/case_processor.py:59-84 | without de-duplication each output row is the row filter's row at the same position, reduced to its cells in the columns that are not blacklisted |
| CaseProcessor.TransformWithDedup | core/case_processor.py:59-84 | with de-duplication the output has one row per LimViolID group and keeps the helper columns |
| CaseFinder.FindPwbFiles | core/case_finder.py:13-15 | exactly the names ending in ".pwb", in any case |
| CaseFinder.Classify | core/case_finder.py:18-23 | the first target pattern, in declaration order, that the name contains decides the type |
| CaseFinder.ClassifySpec | core/case_finder.py:18-23 | "Other" exactly when the name contains no pattern, and a target type's pattern is in the name |
| CaseFinder.ClassifyPattern | core/case_finder.py:18-23 | a name holding a type's pattern, and no earlier type's, is that type |
| CaseFinder.JoinPath | core/case_finder.py:52 | the path is the folder, then '\\' unless the folder is empty, ends with a separator or is a bare drive, then the name |
| CaseFinder.JoinPathLastComponent | core/case_finder.py:52 | joined to a folder that is neither empty nor a bare drive, a name without separators is the last component of the path |
| CaseFinder.NameOrderIsPreorder | core/case_finder.py:51 | string order on names is total and transitive |
| CaseFinder.EntryFor | core/case_finder.py:52-73 | an entry carries the name, its path, its type, and is a target exactly when the type is not "Other" |
| CaseFinder.TargetsOf | core/case_finder.py:56-63 | the target map holds exactly the target types found, each with the path of its first file |
| CaseFinder.ScanFolder | core/case_finder.py:26-83 | no `.pwb` files give empty results; otherwise one entry per `.pwb` file in sorted name order, and each target type found maps to its first file's path |
| CaseFinder.ScanSorted | core/case_finder.py:51-73 | the loop builds one entry per sorted name and the target map of those entries |
| Trends.NormalizeSpec | core/trends.py:47-63 | a normalised text is upper case, stripped and has only single spaces between words; normalising twice changes nothing |
| Trends.NormalizeOfNormal | core/trends.py:47-51 | text already stripped and collapsed normalises to its upper case |
| Trends.HeaderText | core/trends.py:149 | a text cell reads as its normal form; only a non-zero number makes the header read raise |
| Trends.LabelKey | core/trends.py:119-121 | a category is found only for its own normalised label |
| Trends.LabelKeyOfLabel | core/trends.py:119-135 | each category label leads back to its category |
| Trends.MaxValue | core/trends.py:89-92 | missing exactly when every value is, otherwise a present value at least every present one |
| Trends.CountPresent | core/trends.py:94-96 | at most the number of sheets, and zero exactly when the maximum is missing |
| Trends.CountPresentSpec | core/trends.py:94-96 | the count is the number of sheet positions holding a value |
| Trends.HeaderTexts | core/trends.py:149 | each header text is the normal form of its cell, and the read fails exactly when a cell raises |
| Trends.LabelRows | core/trends.py:124-137 | each listed row lies in the scanned range and carries the listed category |
| Trends.LabelRowsIncreasing | core/trends.py:140 | the labelled rows are in row order |
| Trends.LabelRowsComplete | core/trends.py:124-137 | every labelled row is listed |
| Trends.FindHeader | core/trends.py:146-157 | the header row found is the first in range naming issue, percent and contingency; a raising row before it fails the scan |
| Trends.DataEnd | core/trends.py:159-184 | data rows are the neither-labelled-nor-blank rows after the header, up to the next label or blank row |
| Trends.NextLabel | core/trends.py:143 | the next labelled row, or one past the sheet |
| Trends.NextLabelInList | core/trends.py:142-143 | following the sorted label list finds the same next label |
| Trends.BlockOf | core/trends.py:142-187 | a block found satisfies the block conditions for its label row |
| Trends.BlocksFrom | core/trends.py:142-187 | every block recorded satisfies the block conditions and starts at or after the first label considered, and the blocks are in row order |
| Trends.BlocksFromSpec | core/trends.py:142-187 | the scan from a label on fails exactly when the block of one of those labels fails, and otherwise holds exactly the blocks found at those labels |
| Trends.CollectSomeFails | core/trends.py:142-187 | collecting the blocks fails exactly when opening one of them fails |
| Trends.CollectSomeHolds | core/trends.py:142-187 | a collection holds exactly the blocks found |
| Trends.CollectSomeOrdered | core/trends.py:142-187 | collected blocks keep the order of the labels they were found at |
| Trends.CategoryBlocks | core/trends.py:107-189 | every block satisfies the block conditions, and the blocks are in row order |
| Trends.CategoryBlocksSpec | core/trends.py:107-189 | the block scan fails exactly when the block at some labelled row fails, and otherwise holds exactly the blocks found at labelled rows |
| Trends.LastColumn | core/trends.py:207-220 | the column of the last header in the vocabulary, or none when no header is |
| Trends.RowEntry | core/trends.py:225-237 | a row gives an entry exactly when its issue is non-blank and its percent numeric; the key is the normal form of the issue |
| Trends.RowEntries | core/trends.py:225-240 | every entry comes from a row in range |
| Trends.RowEntriesComplete | core/trends.py:225-240 | every row in range that gives an entry has it in the list, after the entries of the rows before it |
| Trends.RowEntriesOrder | core/trends.py:225-240 | entries keep row order |
| Trends.RowEntriesPrefix | core/trends.py:225-240 | reading fewer rows gives a prefix of the entries |
| Trends.SheetMaxSpec | core/trends.py:238-240 | each key keeps its first entry with the largest percent |
| Trends.ExtractSheetCategoryMax | core/trends.py:192-242 | the sheet's map keeps, per issue key, the first entry with the largest percent, and fails exactly when the block scan fails |
| Trends.Collect | core/trends.py:261-264 | the per-sheet results in order, or the first failure |
| Trends.PerSheet | core/trends.py:271-276 | every sheet has an entry for the issue, missing where the sheet lacks it |
| Trends.FirstDisplayIsFirst | core/trends.py:265-267 | the display text is the first one seen |
| Trends.BuildTrends | core/trends.py:245-287 | the sheet order is the workbook's; every trend covers every sheet and reaches the threshold; a failure is the failure of the first sheet that fails, every earlier sheet having been read |
| Trends.ReachesSome | core/trends.py:278-279 | the threshold is reached exactly when some sheet holds a value at or above it |
| Trends.IssuesKeptIff | core/trends.py:264-280 | an issue is kept exactly when some sheet lists it with a percent at or above the threshold |
| Trends.BuildTrendsKept | core/trends.py:261-280 | on success every sheet was read, and an issue is kept exactly when some sheet's worst entry for it reaches the threshold |
| Trends.BuildTrendsValues | core/trends.py:271-276 | a kept issue's value in each sheet is that sheet's worst percent for it, and absent where the sheet does not list it |
| Trends.BuildTrendsDisplay | core/trends.py:261-267 | a kept issue shows the text of the first sheet that lists it |
| Trends.IssuesSpec | core/trends.py:264-280 | an issue is kept exactly when it occurs and its maximum reaches the threshold; its values per sheet, and its first-seen display |
| TrendsView.SafeFloat | gui/trends_view.py:27-38 | missing, blank and unparseable values are `None`; numbers pass through |
| TrendsView.SafeFloatIsToNumber | gui/trends_view.py:27-38 | the view reads cells exactly as the trend builder does |
| TrendsView.GridRow | gui/trends_view.py:374-384 | the grid covers columns 1..min(max_column, 30), each cell stripped |
| TrendsView.LineCaseType | gui/trends_view.py:440-449 | the long-term names win over "dcwac", which wins over "acca" |
| TrendsView.LabelNamesItsCaseType | gui/trends_view.py:440-449 | each case type's own label is read as that case type |
| TrendsView.InferFrom | gui/trends_view.py:439-449 | the first row naming a case type decides it; none when no row names one |
| TrendsView.LastWhere | gui/trends_view.py:454-459 | the last position satisfying the test, or none |
| TrendsView.FirstWhere | gui/trends_view.py:461-466 | the first position satisfying the test, or none |
| TrendsView.FindIssueAndPctCols | gui/trends_view.py:451-467 | issue is the last "resulting issue" column; percent is the last percent-loading column, else the first "percent" column |
| TrendsView.TableLines | gui/trends_view.py:408-410 | each row as the reader sees it: stripped issue and percent |
| TrendsView.PairOf | gui/trends_view.py:426-427 | a row is kept exactly when it has an issue and a numeric percent |
| TrendsView.ReadRows | gui/trends_view.py:406-429 | every row read has an issue |
| TrendsView.ReadRowsUntilStop | gui/trends_view.py:406-429 | reading stops at the first blank row followed by up to three blank rows, and reads every issue row before it |
| TrendsView.TableAt | gui/trends_view.py:394-432 | a table exists exactly at a header row with an inferred case type and both columns found; it has that case type and the rows read below the header |
| TrendsView.ParseUpTo | gui/trends_view.py:365-432 | every case type has a row list, and every row has an issue |
| TrendsView.ParseSheet | gui/trends_view.py:356-434 | the parsed sheet carries its name and a row list for every case type |
| TrendsView.TablesFor | gui/trends_view.py:365-432 | what each header row gives a case type, in row order |
| TrendsView.ParseUpToSpec | gui/trends_view.py:365-432 | the rows a case type collects are the rows of each of its tables, in header-row order |
| TrendsView.ParseSheetSpec | gui/trends_view.py:356-434 | every case type's rows are the rows of all its tables in the sheet, in row order |
| TrendsView.AddPoint | gui/trends_view.py:489-492 | the issue table stays well formed |
| TrendsView.AddRows | gui/trends_view.py:488-492 | the issue table stays well formed |
| TrendsView.AddRowsSpec | gui/trends_view.py:488-499 | merging appends to each stripped issue key exactly its rows' points, in order, and keeps earlier keys first |
| TrendsView.AddPointSpec | gui/trends_view.py:489-492 | a point goes to its own key only, and a new key is listed last |
| TrendsView.MergeCase | gui/trends_view.py:482-492 | the sheet name is listed once, and each issue key gains exactly the points of its rows, after its earlier points |
| TrendsView.MergeParsed | gui/trends_view.py:479-495 | the case types stay the same, and each one's data becomes its old data merged with the rows the sheet parsed for it, under the sheet's name |
| TrendsView.Trunc | gui/trends_view.py:580 | `int()` truncates toward zero |
| TrendsView.GetTopN | gui/trends_view.py:578-583 | always within 1..50, 8 when the entry is not a number, else truncated and clamped |
| TrendsView.GetMinPct | gui/trends_view.py:572-576 | the number entered, 80 when it is not a number |
| TrendsView.InputReadsNat | gui/trends_view.py:572-583 | a count written in digits reads as itself |
| TrendsView.MaxPoint | gui/trends_view.py:598-601 | the largest of the points, one of them |
| TrendsView.CandidatesUpTo | gui/trends_view.py:597-604 | exactly the issues with points whose maximum reaches the threshold, each with its maximum |
| TrendsView.CandidatesInKeyOrder | gui/trends_view.py:597-604 | the candidates come in the issues' key order: the m-th is the issue at the m-th position that qualifies |
| TrendsView.SortedKeepsHigher | gui/trends_view.py:606-607 | cutting a ranking keeps every issue higher than one it keeps |
| TrendsView.Take | gui/trends_view.py:607 | a prefix of length at most n |
| TrendsView.RankTop | gui/trends_view.py:596-607 | at most top-N candidates, highest first, none left out that is higher than one kept, all of them when top-N allows, none kept twice; among issues with equal maxima, the ones kept are the first in key order, in that order (the sort is stable) |
| TrendsView.AutoPlotTop | gui/trends_view.py:585-609 | at most fifty issues, each with points and a maximum reaching the threshold |
| TrendsView.CandidatesBound | gui/trends_view.py:597-604 | no more candidates than issues |
| TrendsView.IssueList | gui/trends_view.py:532-557 | the full ranking, each issue with its maximum and its number of sheets |
| TrendsView.IssueListSpec | gui/trends_view.py:541-553 | the issue list holds exactly the candidates, highest first |
| HelpSearch.Normalize | core/help_search.py:19-22 | lower case, single spaces, stripped, and no longer than the input |
| HelpSearch.NormalizeIdempotent | core/help_search.py:19-22 | normalising twice changes nothing |
| HelpSearch.RunLen | core/help_search.py:30 | the leading run of token characters, ended by a non-token character |
| HelpSearch.Runs | core/help_search.py:30 | every token found is a non-empty run of token characters |
| HelpSearch.RunsCoverTokenChars | core/help_search.py:30 | the tokens found are all the token characters of the text, in order |
| HelpSearch.RunsOccur | core/help_search.py:30 | every token found occurs in the text |
| HelpSearch.Tokenize | core/help_search.py:25-38 | the tokens are distinct, non-empty, and exactly those found in the normalised query |
| HelpSearch.TokensOccur | core/help_search.py:25-38 | every token occurs in the normalised query |
| HelpSearch.FlattenHasContents | core/help_search.py:41-47 | every present content is part of the flattened text |
| HelpSearch.FlattenAllMissing | core/help_search.py:41-47 | missing contents are skipped, so blocks with none give "" |
| HelpSearch.TitleScore | core/help_search.py:77-80 | a multiple of 20, at most 20 per token; positive exactly when some token is in the title |
| HelpSearch.TitleScoreHits | core/help_search.py:77-80 | the title weight is 20 for each token position whose token the title contains |
| HelpSearch.BodyScore | core/help_search.py:82-86 | even; positive exactly when some token occurs in the body |
| HelpSearch.BodyScoreSum | core/help_search.py:82-86 | the body weight is twice the total of each token's `count` in the body |
| HelpSearch.ScoreExact | core/help_search.py:75-95 | the score is 20 per title hit, 2 per body occurrence, and 10 more when every token is found |
| HelpSearch.ScorePositive | core/help_search.py:75-98 | a topic scores exactly when some token is in its title or body |
| HelpSearch.SingleTitleMatch | core/help_search.py:75-95 | a one-token query found only in the title scores 20 + 10 |
| HelpSearch.Scored | core/help_search.py:70-98 | exactly the topics with a positive score, each with its score |
| HelpSearch.ScoredTopics | core/help_search.py:70-98 | the scored entries name the scoring topics of `topics`, once per occurrence and in topic order (an independent filter of the topics) |
| HelpSearch.ScoreFirstIsPreorder | core/help_search.py:100 | the order by score descending, then lower-cased name, is total and transitive |
| HelpSearch.ScoreFirstTie | core/help_search.py:100 | two entries tie under the sort key exactly when their scores and lower-cased names are equal |
| HelpSearch.RankTopics | core/help_search.py:50-101 | a blank or token-less query returns the topics unchanged; otherwise a permutation of the scoring topics (each once per occurrence), best first, ties by lower-cased name, and topics with the same score and lower-cased name in their order in `topics` |
| HelpSearch.Ranked | core/help_search.py:68-101 | a permutation of the scoring topics, best first, ties by lower-cased name; the stable sort keeps topics with equal keys in their order in `topics` |
| Sorting.Sort | core/comparator.py:284 | the stable sort is a permutation of its input |
| Sorting.SortSorted | core/comparator.py:320 | under a total preorder the result is sorted |
| Sorting.SortStable | core/batch_sheet_writer.py:191 | equivalent elements keep their relative order, as with `kind="mergesort"` |
| Sorting.SortHead | core/batch_sheet_writer.py:198-199 | the first sorted element is the first least one of the input |
| PairLayout.DataLines | core/batch_sheet_writer.py:130-140 | one data line per item, and the data lines write exactly those items in order |
| PairLayout.DataLinesAt | core/batch_sheet_writer.py:130-140 | each data row is written on the row after the previous, carrying the next item |
| PairLayout.BlockLines | core/batch_sheet_writer.py:177-178 | a block is two lines longer than its items: its title, then its header on the next row |
| PairLayout.BlockLinesAt | core/batch_sheet_writer.py:97-140 | the i-th line of a block is on the i-th row; only the first is a title and only the second a header |
| PairLayout.BlockLinesSteps | core/batch_sheet_writer.py:97-140 | every written row advances by one, and the header follows the title |
| PairLayout.BlockLinesItems | core/batch_sheet_writer.py:174-259 | a block writes its items, in order |
| PairLayout.PlaceBlocks | core/batch_sheet_writer.py:174-259 | the first written line is the first block's title |
| PairLayout.PlaceBlocksSteps | core/batch_sheet_writer.py:143-145 | rows advance one at a time with one blank row before each later title |
| PairLayout.PlaceBlocksRows | core/batch_sheet_writer.py:164 | nothing is written above the starting row |
| PairLayout.PlaceBlocksItems | core/batch_sheet_writer.py:174-259 | the blocks write all their items, block after block |
| PairLayout.PlaceBlocksTitles | core/batch_sheet_writer.py:174-178 | the title rows are the blocks' titles, in block order |
| PairLayout.GroupRows | core/batch_sheet_writer.py:197-241 | the first row of a group is the summary; the rest are hidden details |
| PairLayout.GroupedItems | core/batch_sheet_writer.py:190-241 | the groups write their rows, group after group |
| PairLayout.FlatItems | core/batch_sheet_writer.py:245-257 | rows written in order, each with its issue, none bold or outlined |
| PairLayout.DistinctIssueRuns | core/batch_workbook_writer.py:176 | grouping by each issue once gives non-empty single-issue groups |
| PairLayout.GroupedMarks | core/batch_sheet_writer.py:197-241 | summaries are exactly the group starts and details the others; a summary is collapsed exactly when details follow it |
| BatchSheetWriter.PrettyCaseNameRoundTrip | core/batch_sheet_writer.py:22-26 | the pretty names are the comparator's block titles and lead back to the same case types |
| BatchSheetWriter.FmtPct | core/batch_sheet_writer.py:33-43 | missing is blank, text passes through, numbers get two decimals |
| BatchSheetWriter.ToFloatIsToNumber | core/batch_sheet_writer.py:46-58 | the writer reads percents as the comparator does |
| BatchSheetWriter.MaxFirstIsPreorder | core/batch_sheet_writer.py:198 | larger maximum first, NaN last, is total and transitive |
| BatchSheetWriter.IssueThenMaxTies | core/batch_sheet_writer.py:191 | rows are tied under the issue-then-maximum order exactly when they share the issue and the maximum |
| BatchSheetWriter.ByIssue | core/batch_sheet_writer.py:191 | the block reordered by issue, then worst first |
| BatchSheetWriter.IssueGroups | core/batch_sheet_writer.py:190-198 | one group per issue, in issue order, each re-sorted worst first |
| BatchSheetWriter.GroupAlreadySorted | core/batch_sheet_writer.py:191-198 | re-sorting a group changes nothing |
| BatchSheetWriter.IssueGroupsAscend | core/batch_sheet_writer.py:190-193 | groups are non-empty single issues in strictly ascending order |
| BatchSheetWriter.IssueGroupsWorstFirst | core/batch_sheet_writer.py:197-199 | each group starts with its worst row |
| BatchSheetWriter.IssueGroupsPartition | core/batch_sheet_writer.py:190-193 | the groups hold the block's rows, each once |
| BatchSheetWriter.IssueGroupsAreGroups | core/batch_sheet_writer.py:190-198 | the groups are those of the ordered block |
| BatchSheetWriter.IssueGroupsStable | core/batch_sheet_writer.py:191-198 | rows of one issue with the same maximum keep their order |
| BatchSheetWriter.BlockItemsKeep | core/batch_sheet_writer.py:188-257 | a block's data rows are its frame rows, each once |
| BatchSheetWriter.Blocks | core/batch_sheet_writer.py:174-175 | one block per case type, in first-appearance order, titled by its pretty name |
| BatchSheetWriter.WriteSheet | core/batch_sheet_writer.py:150-259 | an empty frame writes title, header and "No rows" at rows 2-4; otherwise the blocks from row 2 with a blank row between them, every frame row once |
| BatchSheetWriter.WriteSheetBlocks | core/batch_sheet_writer.py:174-178 | a non-empty frame's title rows are the pretty names of its case types, in order of first appearance and each once; its data rows are, block after block, the rows of each case type |
| BatchSheetWriter.SheetKeepsRows | core/batch_sheet_writer.py:174-259 | the blocks write every frame row once |
| BatchSheetWriter.RowValues | core/batch_sheet_writer.py:130-140 | six values from column B; a detail row's issue is blank |
| BatchSheetWriter.NoRowsValues | core/batch_sheet_writer.py:171 | the empty-frame row reads "No rows" in bold |
| BatchSheetWriter.SheetIssueColumn | core/batch_sheet_writer.py:188-257 | in the expandable view the issue is written and bold exactly on group starts; the flat view writes every issue and nothing bold |
| BatchSheetWriter.PctCell | core/batch_sheet_writer.py:181-182 | a percent cell reads back as its value |
| BatchSheetWriter.Frames | core/comparator.py:374-386 | the frame rows keep the case type, the issue and the maximum of the pair rows |
| BatchSheetWriter.SheetRowsMeetThreshold | core/batch_sheet_writer.py:181-186 | every row the sheet writes for a thresholded comparison has a maximum at or above the threshold |
| BatchWorkbookWriter.Clean | core/batch_workbook_writer.py:38-39 | each invalid character becomes '_', the rest stay |
| BatchWorkbookWriter.SanitizeSheetName | core/batch_workbook_writer.py:34-43 | 1..31 characters, no invalid character, no leading space; "Sheet" for a blank name, else the stripped cleaned name cut to 31 characters |
| BatchWorkbookWriter.SanitizeReplaces | core/batch_workbook_writer.py:38-43 | a short name without surrounding space only has its invalid characters replaced |
| BatchWorkbookWriter.SanitizeKeepsValid | core/batch_workbook_writer.py:38-43 | a valid name is kept |
| BatchWorkbookWriter.BlockItems | core/batch_workbook_writer.py:155-204 | the block's rows, each once, in frame order in the flat view |
| BatchWorkbookWriter.ExpandMarks | core/batch_workbook_writer.py:176-204 | the first row of each issue group is a collapsed, visible summary; every other row is a hidden detail |
| BatchWorkbookWriter.BlocksForFiltered | core/batch_workbook_writer.py:142-145 | block j is titled with the j-th name that has rows and holds the rows of that case type |
| BatchWorkbookWriter.BlocksForRows | core/batch_workbook_writer.py:142-207 | the blocks write exactly the rows of their titles |
| BatchWorkbookWriter.WriteSheet | core/batch_workbook_writer.py:111-207 | an empty frame writes only the notice at B2; otherwise blocks from row 2 with a blank row between them, a row written exactly when its case type is "ACCA LongTerm", "ACCA" or "DCwAC" |
| BatchWorkbookWriter.WriteSheetTitles | core/batch_workbook_writer.py:141-148 | the title rows are "ACCA LongTerm", "ACCA", "DCwAC" restricted to those with rows, in order and each once, and block j holds the rows of the j-th |
| BatchWorkbookWriter.WrittenRows | core/batch_workbook_writer.py:142-145 | the rows written are those whose case type is a title |
| BatchWorkbookWriter.BlocksForAbsent | core/batch_workbook_writer.py:142-145 | no block is written for a title no row carries |
| BatchWorkbookWriter.CanonicalFrameWritesNothing | core/batch_workbook_writer.py:141-145 | a frame with the comparator's canonical case types writes an empty sheet |
| BatchWorkbookWriter.RowValues | core/batch_workbook_writer.py:88-89 | five values from column B |

## Left out

- Excel and CSV I/O (openpyxl loading and saving, pandas `read_csv`/`to_csv`), cell styling, fills, fonts, borders, column widths and merged cells: the model works on abstract grids and returns the rows to write.
- Logging through `log_func`: it has no effect on the results.
- `process_case`, the PowerWorld SimAuto export and the file deletion in `core/case_processor.py`: foreign calls and filesystem effects.
- `list_sheets`, the workbook loading in `_parse_scenario_sheet` and `build_trends`, and `os.listdir`: I/O; the sheets and file names are parameters.
- Tk widgets, threading, queues, colour assignment and plotting in `gui/trends_view.py`.
- Float formatting (`:g`, `.2f`, `str(float)`): these are passed in as functions `fmtG`, `fmt2` and `repr`/`shown`.
- Float parsing: `Numeric.ParseFloat` accepts the decimal subset (sign, digits, one optional point). Exponents, "inf", "nan" and underscores are not read as numbers, and "nan" reads as no number; `_choose_limit` treats both the same way.
- Text: whitespace is the ASCII whitespace of `str.isspace()` (including the separators U+001C..U+001F); Unicode whitespace beyond ASCII, such as U+0085 and U+00A0, is not, and case mapping is ASCII only.
- `ROW_FILTER_ENABLED` and `GROUPING_ENABLED` are taken as their value `True`.
- ColumnBlacklist.ApplyLimViolIdGrouping: LimViolIDs are compared as text with a missing id as ""; pandas sorts NaN ids last and `groupby` drops them, which is not modelled.
- CaseProcessor.ReadExport: `read_csv`'s skipping of blank lines and its type inference are not modelled; cells arrive already typed.
- CaseProcessor.PostProcess: exceptions other than a malformed export do not arise in the model, so only that path yields no result.
- Trends.BuildTrends: sheet names are assumed distinct, as a Python dict keyed by name would collapse them; the issues are a map, so their dict order is not modelled.
- Trends.HeaderText: `normalize_header` on a non-zero numeric cell raises in the source; the model returns this as the `NumericHeaderCell` error, and the zero number reads as "".
- TrendsView.ParseSheet: a single blank row does not end a table; the source needs four blank rows in a row, so a table can run into the next block. This is modelled as written.
- BatchWorkbookWriter.WriteSheet: it selects rows by the pretty names "ACCA LongTerm", "ACCA" and "DCwAC", while the comparator's frames carry canonical names (`CanonicalFrameWritesNothing`). Nothing in the program calls this writer.
- BatchWorkbookWriter.SanitizeSheetName: applying it twice is not the same as once (cutting to 31 characters can expose trailing spaces that the next pass strips), so no idempotence is claimed.
- BatchSheetWriter.WriteSheet: the `"ResultingIssue" in block.columns` test is taken as true, because the pair frame always has that column.
- Comparator.OuterJoin: the merged rows are produced in first-appearance order of the keys; the comparison sorts them by a strict order on distinct keys, so pandas' merge order is not observable.
- Comparator.BuildCaseTypeComparison: a sheet that parses to no rows makes pandas raise `KeyError('CaseType')`; the model returns `NoCaseTypeColumn`.
- Comparator.ToCompRow: a key present on one side only shows that side's limit, the corrected reading of `_choose_limit` recorded under Findings; the source as written shows "L:nan \| R:…" (`LimitTextAsWritten`).
- Comparator.BuildBatchComparison: `create_sheet` is not modelled. It rejects a title holding ':', '*', '?', '[' or ']' with `ValueError`, and renames a title that repeats an earlier one; the model names each sheet with the text `safe_name` computes and succeeds.
- Comparator.PairSheets: a failure is stated only as "some pair cannot be compared"; which pair's error is returned (the first failing pair's, as the source loop stops there) is stated only for a missing first left sheet.
- CaseProcessor.ReadExport: duplicate header names are kept as they are. In pandas two "LimViolID" (or "LimViolCat") columns make the later sort or filter raise, so `post_process_csv` returns None; the model instead uses the first such column (ColumnBlacklist.ColumnIndex) and returns a table.

## Findings

| source | as written | input that shows it | evidently intended | confidence | as-written member | corrected member |
|---|---|---|---|---|---|---|
| core/comparator.py:295-305 | after the outer merge a key present on one side only has NaN in the other side's limit column, and `_choose_limit` turns it into the text "nan", so the limit reads "L:nan \| R:100" | a key only in the right sheet, with limit cell 100 | "Else show whichever exists" (core/comparator.py:109): the limit "100" | not executed | Comparator.RightOnlyLimitAsWritten | Comparator.OneSidedLimit |

=== FILE: batch_sheet_writer.dfy ===
/** The formatted sheet of one left/right comparison pair: case-type blocks in first-appearance
    order, and inside each block either issue groups (the worst row first, bold, with the other rows
    hidden under it) or all rows worst first. */
module BatchSheetWriter {
  import opened Wrappers
  import opened Text
  import opened Numeric
  import opened Cells
  import opened Sorting
  import opened Seqs
  import opened PairLayout
  import Comparator

  /** `PRETTY_CASE_NAMES.get(case_type, str(case_type))`. */
  function PrettyCaseName(ct: string): string {
    if ct == "ACCA_LongTerm" then "ACCA LongTerm"
    else if ct == "ACCA_P1,2,4,7" then "ACCA"
    else if ct == "DCwACver_P1-7" then "DCwAC"
    else ct
  }

  /** The titles given to the canonical case types are the block titles a scenario sheet is parsed
      by, and they lead back to the same case types. */
  lemma PrettyCaseNameRoundTrip(ct: string)
    requires ct in Comparator.CaseTypes
    ensures Comparator.IsBlockTitle(PrettyCaseName(ct))
    ensures Comparator.CanonicalCaseType(PrettyCaseName(ct)) == ct
  {
  }

  /** `_fmt_pct`: a missing or NaN value is blank, text passes through, and a number is written
      with two decimals by `fmt2`. */
  function FmtPct(c: Cell, fmt2: real -> string): (t: string)
    ensures c.Empty? ==> t == ""
    ensures c.Str? ==> t == c.s
    ensures c.Num? ==> t == fmt2(c.value)
  {
    match c
    case Empty => ""
    case Str(s) => s
    case Num(v, _) => fmt2(v)
  }

  /** `_to_float`: a missing value is NaN, a number is itself, and text is stripped, loses its '%'
      signs and is parsed, NaN when it does not parse. */
  function ToFloat(c: Cell): Option<real> {
    match c
    case Empty => None
    case Num(v, _) => Some(v)
    case Str(s) => ParseFloat(RemoveChar(Strip(s), '%'))
  }

  /** `_to_float` reads a cell as the comparator's coercion does. */
  lemma ToFloatIsToNumber(c: Cell)
    ensures ToFloat(c) == ToNumber(c)
  {
    if c.Str? {
      StripSpec(c.s);
    }
  }

  /** The `_max` column: the larger of the two percents, NaN when neither is a number. */
  function RowMax(r: FrameRow): Option<real> {
    Comparator.MaxPct(ToFloat(r.left), ToFloat(r.right))
  }

  /** `sort_values(by=["_max"], ascending=[False])`: larger maximum first, NaN last. */
  predicate MaxFirst(a: FrameRow, b: FrameRow) {
    PctFirst(RowMax(a), RowMax(b))
  }

  lemma MaxFirstIsPreorder()
    ensures TotalPreorder(MaxFirst)
  {
  }

  /** `sort_values(by=["ResultingIssue", "_max"], ascending=[True, False])`. */
  predicate IssueThenMax(a: FrameRow, b: FrameRow) {
    LexLess(a.issue, b.issue) || (a.issue == b.issue && MaxFirst(a, b))
  }

  lemma IssueThenMaxIsPreorder()
    ensures TotalPreorder(IssueThenMax)
  {
    forall a, b ensures IssueThenMax(a, b) || IssueThenMax(b, a) {
      LexLessTotal(a.issue, b.issue);
    }
    forall a, b, c | IssueThenMax(a, b) && IssueThenMax(b, c) ensures IssueThenMax(a, c) {
      if LexLess(a.issue, b.issue) && LexLess(b.issue, c.issue) {
        LexLessTransitive(a.issue, b.issue, c.issue);
      }
    }
  }

  /** Being tied under the issue-then-maximum order is having the same issue and the same maximum. */
  lemma IssueThenMaxTies(x: FrameRow, c: FrameRow)
    ensures (IssueThenMax(x, c) && IssueThenMax(c, x)) <==> x.issue == c.issue && MaxFirst(x, c) && MaxFirst(c, x)
  {
    if LexLess(x.issue, c.issue) {
      LexLessAsymmetric(x.issue, c.issue);
    }
    LexLessIrreflexive(x.issue);
  }

  // ------------------------------------------------------------------
  // Issue groups of the expandable view

  /** The block ordered by issue, then worst first. */
  function ByIssue(block: seq<FrameRow>): (sorted: seq<FrameRow>)
    ensures multiset(sorted) == multiset(block)
    ensures SortedBy(sorted, IssueThenMax)
  {
    IssueThenMaxIsPreorder();
    SortSorted(block, IssueThenMax);
    Sort(block, IssueThenMax)
  }

  /** The issues of the ordered block, each once. */
  function GroupIssues(block: seq<FrameRow>): seq<string> {
    Distinct(MapSeq(ByIssue(block), IssueOf))
  }

  /** `groupby("ResultingIssue", sort=True)` over the ordered block, each group ordered worst first
      again: the groups in the order of their issues. */
  function IssueGroups(block: seq<FrameRow>): (gs: seq<seq<FrameRow>>)
    ensures |gs| == |GroupIssues(block)|
    ensures forall j :: 0 <= j < |gs| ==> gs[j] == Sort(Group(ByIssue(block), IssueOf, GroupIssues(block)[j]), MaxFirst)
  {
    var sorted, keys := ByIssue(block), GroupIssues(block);
    seq(|keys|, j requires 0 <= j < |keys| => Sort(Group(sorted, IssueOf, keys[j]), MaxFirst))
  }

  /** Within one issue the ordered block is already worst first, so ordering a group again
      changes nothing. */
  lemma {:induction false} GroupAlreadySorted(block: seq<FrameRow>, k: string)
    ensures SortedBy(Group(ByIssue(block), IssueOf, k), MaxFirst)
    ensures Sort(Group(ByIssue(block), IssueOf, k), MaxFirst) == Group(ByIssue(block), IssueOf, k)
  {
    var g := Group(ByIssue(block), IssueOf, k);
    GroupSorted(ByIssue(block), IssueOf, k, IssueThenMax);
    forall i, j | 0 <= i < j < |g| ensures MaxFirst(g[i], g[j]) {
      assert IssueThenMax(g[i], g[j]);
      assert g[i].issue == g[j].issue == k;
      LexLessIrreflexive(k);
    }
    SortOfSorted(g, MaxFirst);
  }

  /** The group of an issue that occurs holds a row. */
  lemma GroupPresent(s: seq<FrameRow>, k: string)
    requires k in MapSeq(s, IssueOf)
    ensures |Group(s, IssueOf, k)| > 0
  {
    var i :| 0 <= i < |s| && MapSeq(s, IssueOf)[i] == k;
    assert s[i] in Group(s, IssueOf, k);
  }

  /** Each group is one non-empty issue, the groups' issues strictly ascend, and so neighbouring
      groups differ. */
  lemma {:induction false} IssueGroupsAscend(block: seq<FrameRow>)
    ensures var gs := IssueGroups(block);
      && IssueRuns(gs)
      && forall j, j' :: 0 <= j < j' < |gs| ==> LexLess(gs[j][0].issue, gs[j'][0].issue)
  {
    var sorted, keys, gs := ByIssue(block), GroupIssues(block), IssueGroups(block);
    var ks := MapSeq(sorted, IssueOf);
    forall j | 0 <= j < |gs| ensures OneIssue(gs[j]) && gs[j][0].issue == keys[j] {
      GroupAlreadySorted(block, keys[j]);
      GroupPresent(sorted, keys[j]);
    }
    DistinctOrder(ks);
    forall j, j' | 0 <= j < j' < |gs| ensures LexLess(gs[j][0].issue, gs[j'][0].issue) {
      var p, q := FirstIndex(ks, keys[j]), FirstIndex(ks, keys[j']);
      assert p < q;
      assert IssueThenMax(sorted[p], sorted[q]);
      assert keys[j] != keys[j'];
    }
  }

  /** Each group is ordered worst first. */
  lemma IssueGroupsWorstFirst(block: seq<FrameRow>, j: int)
    requires 0 <= j < |IssueGroups(block)|
    ensures SortedBy(IssueGroups(block)[j], MaxFirst)
  {
    GroupAlreadySorted(block, GroupIssues(block)[j]);
  }

  /** The groups hold the rows of the block, each once. */
  lemma IssueGroupsPartition(block: seq<FrameRow>)
    ensures multiset(Flatten(IssueGroups(block))) == multiset(block)
  {
    var sorted, keys := ByIssue(block), GroupIssues(block);
    IssueGroupsAreGroups(block);
    KeysCover(sorted, IssueOf);
    GroupsPartition(sorted, IssueOf, keys);
  }

  /** Ordering each group again changes nothing, so the groups are those of the ordered block. */
  lemma IssueGroupsAreGroups(block: seq<FrameRow>)
    ensures IssueGroups(block) == GroupsOf(ByIssue(block), IssueOf, GroupIssues(block))
  {
    var sorted, keys := ByIssue(block), GroupIssues(block);
    var gs, hs := IssueGroups(block), GroupsOf(sorted, IssueOf, keys);
    forall j | 0 <= j < |keys| ensures gs[j] == hs[j] {
      GroupAlreadySorted(block, keys[j]);
    }
  }

  /** Rows of one issue with the same maximum keep their order in the block (the sorts are stable). */
  lemma IssueGroupsStable(block: seq<FrameRow>, j: int, c: FrameRow)
    requires 0 <= j < |IssueGroups(block)| && c in IssueGroups(block)[j]
    ensures Class(IssueGroups(block)[j], c, MaxFirst) == Class(block, c, IssueThenMax)
  {
    var sorted, keys := ByIssue(block), GroupIssues(block);
    GroupAlreadySorted(block, keys[j]);
    assert c.issue == keys[j];
    forall x ensures (IssueThenMax(x, c) && IssueThenMax(c, x)) <==> IssueOf(x) == IssueOf(c) && MaxFirst(x, c) && MaxFirst(c, x) {
      IssueThenMaxTies(x, c);
    }
    ClassOfGroup(sorted, IssueOf, c, IssueThenMax, MaxFirst);
    IssueThenMaxIsPreorder();
    SortStable(block, c, IssueThenMax);
  }

  // ------------------------------------------------------------------
  // Blocks and the sheet

  /** The data rows of one case-type block: issue groups with a bold summary and hidden details
      outlined only under a summary that has them, or all rows worst first. */
  function BlockItems(block: seq<FrameRow>, expandable: bool): seq<Item> {
    if expandable then GroupedItems(IssueGroups(block), true, false, false)
    else
      MaxFirstIsPreorder();
      FlatItems(Sort(block, MaxFirst))
  }

  /** A block's data rows are its frame rows, each once. */
  lemma BlockItemsKeep(block: seq<FrameRow>, expandable: bool)
    ensures multiset(Sources(BlockItems(block, expandable))) == multiset(block)
  {
    if expandable {
      IssueGroupsPartition(block);
    }
  }

  /** The case types in order of first appearance: `groupby("CaseType", sort=False)`. */
  function CaseTypeOrder(rows: seq<FrameRow>): seq<string> {
    Distinct(MapSeq(rows, CaseTypeOf))
  }

  function Blocks(rows: seq<FrameRow>, expandable: bool): (bs: seq<Block>)
    ensures |bs| == |CaseTypeOrder(rows)|
    ensures forall j :: 0 <= j < |bs| ==>
      (bs[j] == Block(PrettyCaseName(CaseTypeOrder(rows)[j]), BlockItems(Group(rows, CaseTypeOf, CaseTypeOrder(rows)[j]), expandable)))
  {
    var cts := CaseTypeOrder(rows);
    seq(|cts|, j requires 0 <= j < |cts| => Block(PrettyCaseName(cts[j]), BlockItems(Group(rows, CaseTypeOf, cts[j]), expandable)))
  }

  /** The row written when the frame is empty. */
  const NoRows: Item := Item(FrameRow("", "No rows", "", "", Empty, Empty, ""), true, true, false, false)

  /** `write_formatted_pair_sheet`, as the rows it writes. An empty frame gives a title, a header and
      one bold "No rows" row from row 2. Otherwise every case-type block is written from row 2 on,
      each row right after the previous, a blank row between blocks, and every frame row once. */
  function WriteSheet(rows: seq<FrameRow>, leftLabel: string, rightLabel: string, expandable: bool): (lines: seq<Line>)
    ensures |rows| == 0 ==> lines == [Title(2, leftLabel + " vs " + rightLabel), Header(3), Data(4, NoRows)]
    ensures |rows| > 0 ==> |lines| > 0 && lines[0] == Title(2, PrettyCaseName(rows[0].caseType))
    ensures Steps(lines) && HeadedBlocks(lines)
    ensures forall i :: 0 <= i < |lines| ==> !lines[i].Notice? && lines[i].row >= 2
    ensures |rows| > 0 ==> multiset(Sources(DataItems(lines))) == multiset(rows)
  {
    if |rows| == 0 then
      var ls := [Title(2, leftLabel + " vs " + rightLabel), Header(3), Data(4, NoRows)];
      assert DataItems(ls[2..]) == [NoRows];
      ls
    else
      var bs := Blocks(rows, expandable);
      assert CaseTypeOrder(rows)[0] == rows[0].caseType by {
        assert MapSeq(rows, CaseTypeOf)[0] == rows[0].caseType;
        DistinctHead(MapSeq(rows, CaseTypeOf));
      }
      SheetKeepsRows(rows, expandable);
      PlaceBlocksSteps(bs, 2);
      PlaceBlocksRows(bs, 2);
      PlaceBlocksItems(bs, 2);
      PlaceBlocks(bs, 2)
  }

  /** A non-empty frame's sheet has one title row per case type, in order of first appearance, each
      shown by its pretty name; its data rows are, block after block, the items of that case type's
      rows. */
  lemma WriteSheetBlocks(rows: seq<FrameRow>, leftLabel: string, rightLabel: string, expandable: bool)
    requires |rows| > 0
    ensures var cts := CaseTypeOrder(rows);
      var lines := WriteSheet(rows, leftLabel, rightLabel, expandable);
      && TitleTexts(lines) == seq(|cts|, j requires 0 <= j < |cts| => PrettyCaseName(cts[j]))
      && DataItems(lines) == Flatten(seq(|cts|, j requires 0 <= j < |cts| => BlockItems(Group(rows, CaseTypeOf, cts[j]), expandable)))
  {
    var bs := Blocks(rows, expandable);
    assert WriteSheet(rows, leftLabel, rightLabel, expandable) == PlaceBlocks(bs, 2);
    PlaceBlocksTitles(bs, 2);
    PlaceBlocksItems(bs, 2);
    AllItemsFlatten(bs);
    BlocksParts(rows, expandable);
  }

  /** The titles and the items of the case-type blocks. */
  lemma BlocksParts(rows: seq<FrameRow>, expandable: bool)
    ensures var cts := CaseTypeOrder(rows);
      && Titles(Blocks(rows, expandable)) == seq(|cts|, j requires 0 <= j < |cts| => PrettyCaseName(cts[j]))
      && ItemsOf(Blocks(rows, expandable)) == seq(|cts|, j requires 0 <= j < |cts| => BlockItems(Group(rows, CaseTypeOf, cts[j]), expandable))
  {
    var cts := CaseTypeOrder(rows);
    var bs := Blocks(rows, expandable);
    var titles := seq(|cts|, j requires 0 <= j < |cts| => PrettyCaseName(cts[j]));
    var items := seq(|cts|, j requires 0 <= j < |cts| => BlockItems(Group(rows, CaseTypeOf, cts[j]), expandable));
    forall j | 0 <= j < |cts| ensures Titles(bs)[j] == titles[j] && ItemsOf(bs)[j] == items[j] {
      assert bs[j] == Block(titles[j], items[j]);
    }
    assert Titles(bs) == titles && ItemsOf(bs) == items;
  }

  /** The first distinct value is the first value. */
  lemma DistinctHead(s: seq<string>)
    requires |s| > 0
    ensures |Distinct(s)| > 0 && Distinct(s)[0] == s[0]
  {
    DistinctOrder(s);
    var d := Distinct(s);
    assert s[0] in d;
    var k :| 0 <= k < |d| && d[k] == s[0];
    assert FirstIndex(s, d[k]) == 0;
    assert FirstIndex(s, d[0]) <= FirstIndex(s, d[k]);
  }

  /** The blocks together write every frame row once. */
  lemma SheetKeepsRows(rows: seq<FrameRow>, expandable: bool)
    ensures multiset(Sources(AllItems(Blocks(rows, expandable)))) == multiset(rows)
  {
    var cts, bs := CaseTypeOrder(rows), Blocks(rows, expandable);
    var groups := GroupsOf(rows, CaseTypeOf, cts);
    AllSources(bs);
    forall j | 0 <= j < |bs| ensures multiset(BlockSources(bs)[j]) == multiset(groups[j]) {
      BlockItemsKeep(Group(rows, CaseTypeOf, cts[j]), expandable);
    }
    FlattenSameElements(BlockSources(bs), groups);
    KeysCover(rows, CaseTypeOf);
    GroupsPartition(rows, CaseTypeOf, cts);
  }

  /** `_write_header_row`: the six header texts from column B. */
  function HeaderTexts(leftLabel: string, rightLabel: string): seq<string> {
    ["Contingency Events", "Resulting Issue", "Limit", leftLabel, rightLabel, "\U{0394}% (Right - Left) /\nStatus"]
  }

  /** `_write_data_row`: the six texts from column B; a detail row leaves its issue blank. */
  function RowValues(item: Item, fmt2: real -> string): (texts: seq<string>)
    ensures |texts| == 6
    ensures texts[1] == (if item.showIssue then item.src.issue else "")
  {
    var r := item.src;
    [r.contingency, if item.showIssue then r.issue else "", r.limit, FmtPct(r.left, fmt2), FmtPct(r.right, fmt2), r.delta]
  }

  /** The row an empty frame writes reads "No rows" in column B and is blank elsewhere. */
  lemma NoRowsValues(fmt2: real -> string)
    ensures RowValues(NoRows, fmt2) == ["No rows", "", "", "", "", ""]
    ensures NoRows.bold
  {
  }

  /** In the expandable view a row's issue is written exactly when it starts its issue group, and
      a row is bold exactly when it does; the flat view writes every issue and nothing bold. */
  lemma SheetIssueColumn(block: seq<FrameRow>, expandable: bool, i: int, fmt2: real -> string)
    requires 0 <= i < |BlockItems(block, expandable)|
    ensures var items := BlockItems(block, expandable);
      var rows := Sources(items);
      && (expandable ==> (RowValues(items[i], fmt2)[1] == "" <==> !IsHead(rows, i) || rows[i].issue == ""))
      && (expandable ==> (items[i].bold <==> IsHead(rows, i)))
      && (!expandable ==> RowValues(items[i], fmt2)[1] == rows[i].issue && !items[i].bold)
  {
    if expandable {
      IssueGroupsAscend(block);
      GroupedMarks(IssueGroups(block), true, false, false, i);
    }
  }

  // ------------------------------------------------------------------
  // The frame handed over by the comparator

  /** A comparator percent as a frame cell: NaN is missing, and a number keeps the text `repr` shows
      for it. */
  function PctCell(o: Option<real>, repr: real -> string): (c: Cell)
    ensures ToFloat(c) == o
  {
    match o
    case None => Empty
    case Some(v) => Num(v, repr(v))
  }

  /** The pair frame `build_batch_comparison_workbook` hands to the sheet writer. */
  function Frames(ps: seq<Comparator.PairRow>, repr: real -> string): (rows: seq<FrameRow>)
    ensures |rows| == |ps|
    ensures forall i :: 0 <= i < |ps| ==> RowMax(rows[i]) == Comparator.MaxPct(ps[i].left, ps[i].right)
    ensures forall i :: 0 <= i < |ps| ==> rows[i].caseType == ps[i].caseType && rows[i].issue == ps[i].issue
  {
    seq(|ps|, i requires 0 <= i < |ps| =>
      FrameRow(ps[i].caseType, ps[i].contingency, ps[i].issue, ps[i].limit,
               PctCell(ps[i].left, repr), PctCell(ps[i].right, repr), ps[i].display))
  }

  /** Every row the sheet writes for a comparison that kept only rows at or above the threshold
      recomputes a maximum at or above it, so the sheet shows no row below the threshold. */
  lemma SheetRowsMeetThreshold(ps: seq<Comparator.PairRow>, threshold: real, repr: real -> string,
                               leftLabel: string, rightLabel: string, expandable: bool)
    requires forall i :: 0 <= i < |ps| ==> Comparator.PairMeets(ps[i], threshold)
    ensures var srcs := Sources(DataItems(WriteSheet(Frames(ps, repr), leftLabel, rightLabel, expandable)));
      |ps| > 0 ==> forall i :: 0 <= i < |srcs| ==> RowMax(srcs[i]).Some? && RowMax(srcs[i]).value >= threshold
  {
    var rows := Frames(ps, repr);
    var srcs := Sources(DataItems(WriteSheet(rows, leftLabel, rightLabel, expandable)));
    if |ps| > 0 {
      forall i | 0 <= i < |srcs| ensures RowMax(srcs[i]).Some? && RowMax(srcs[i]).value >= threshold {
        assert srcs[i] in multiset(srcs);
        assert srcs[i] in rows;
      }
    }
  }
}

=== FILE: batch_workbook_writer.dfy ===
/** The older workbook writer: one sheet per pair with the three case-type blocks in a fixed order,
    rows in frame order, and in the expandable view every issue's first row as the visible summary. */
module BatchWorkbookWriter {
  import opened Text
  import opened Cells
  import opened Seqs
  import opened PairLayout
  import Comparator

  /** Characters a sheet name may not hold. */
  predicate InvalidSheetChar(ch: char) {
    ch in "[]:*?/\\"
  }

  /** Each invalid character replaced by '_'. */
  function Clean(name: string): (r: string)
    ensures |r| == |name|
    ensures forall i :: 0 <= i < |name| ==> r[i] == if InvalidSheetChar(name[i]) then '_' else name[i]
  {
    seq(|name|, i requires 0 <= i < |name| => if InvalidSheetChar(name[i]) then '_' else name[i])
  }

  /** `sanitize_sheet_name`: invalid characters become '_', surrounding whitespace goes, a blank
      name becomes "Sheet", and the result is cut to 31 characters. */
  function SanitizeSheetName(name: string): (r: string)
    ensures 0 < |r| <= 31
    ensures forall i :: 0 <= i < |r| ==> !InvalidSheetChar(r[i])
    ensures !IsSpace(r[0])
    ensures Blank(name) ==> r == "Sheet"
    ensures !Blank(name) ==> var s := Strip(Clean(name)); r == if |s| <= 31 then s else s[..31]
  {
    var c := Clean(name);
    var cleaned := Strip(c);
    StripSpec(c);
    assert forall i :: 0 <= i < |cleaned| ==> !InvalidSheetChar(cleaned[i]) by {
      var lo, hi := StripSlice(c);
      assert forall i :: 0 <= i < |cleaned| ==> cleaned[i] == c[lo + i];
    }
    assert Blank(name) <==> Blank(c);
    var named := if |cleaned| == 0 then "Sheet" else cleaned;
    if |named| <= 31 then named else named[..31]
  }

  /** A name of at most 31 characters that neither starts nor ends with whitespace only has its
      invalid characters replaced. */
  lemma SanitizeReplaces(name: string)
    requires 0 < |name| <= 31
    requires !IsSpace(name[0]) && !IsSpace(name[|name| - 1])
    ensures SanitizeSheetName(name) == Clean(name)
  {
    StripUnchanged(Clean(name));
  }

  /** A name that already is a valid sheet name is kept as it is. */
  lemma SanitizeKeepsValid(name: string)
    requires 0 < |name| <= 31
    requires forall i :: 0 <= i < |name| ==> !InvalidSheetChar(name[i])
    requires !IsSpace(name[0]) && !IsSpace(name[|name| - 1])
    ensures SanitizeSheetName(name) == name
  {
    SanitizeReplaces(name);
    assert Clean(name) == name;
  }

  /** The block titles, in the order they are written. */
  const PrettyOrder: seq<string> := ["ACCA LongTerm", "ACCA", "DCwAC"]

  /** The data rows of one block: every row in frame order, or grouped by issue in order of first
      appearance, each issue's first row the summary, the others hidden details that still show the
      issue, and every summary marked collapsed. */
  function BlockItems(sub: seq<FrameRow>, expandIssues: bool): (items: seq<Item>)
    ensures multiset(Sources(items)) == multiset(sub)
    ensures !expandIssues ==> Sources(items) == sub
  {
    if expandIssues then
      var keys := Distinct(MapSeq(sub, IssueOf));
      KeysCover(sub, IssueOf);
      GroupsPartition(sub, IssueOf, keys);
      GroupedItems(GroupsOf(sub, IssueOf, keys), false, true, true)
    else FlatItems(sub)
  }

  /** In the expandable view the first row of each issue group is a visible, collapsed summary and
      every other row is a hidden detail; all rows show their issue and none is bold. */
  lemma ExpandMarks(sub: seq<FrameRow>, i: int)
    requires 0 <= i < |BlockItems(sub, true)|
    ensures var items := BlockItems(sub, true);
      var rows := Sources(items);
      && items[i].showIssue && !items[i].bold
      && items[i].collapsed == IsHead(rows, i)
      && items[i].detail == !IsHead(rows, i)
  {
    var keys := Distinct(MapSeq(sub, IssueOf));
    DistinctIssueRuns(sub);
    GroupedMarks(GroupsOf(sub, IssueOf, keys), false, true, true, i);
  }

  /** Whether the frame has a row of case type `n`. */
  function HasRows(rows: seq<FrameRow>): (p: string -> bool)
    ensures forall n :: p(n) == (|Group(rows, CaseTypeOf, n)| > 0)
  {
    n => |Group(rows, CaseTypeOf, n)| > 0
  }

  /** The block written for the case type `n`: its title and the items of its rows. */
  function MakeBlock(rows: seq<FrameRow>, expandIssues: bool): (f: string -> Block)
    ensures forall n :: f(n) == Block(n, BlockItems(Group(rows, CaseTypeOf, n), expandIssues))
  {
    n => Block(n, BlockItems(Group(rows, CaseTypeOf, n), expandIssues))
  }

  /** The blocks for the titles of `names` whose rows are present, in that order. */
  function BlocksFor(rows: seq<FrameRow>, names: seq<string>, expandIssues: bool): seq<Block> {
    if |names| == 0 then []
    else
      var sub := Group(rows, CaseTypeOf, names[0]);
      var rest := BlocksFor(rows, names[1..], expandIssues);
      if |sub| == 0 then rest else [Block(names[0], BlockItems(sub, expandIssues))] + rest
  }

  /** Block `j` is titled with the `j`-th name that has rows and holds the rows of that case type. */
  lemma {:induction false} BlocksForFiltered(rows: seq<FrameRow>, names: seq<string>, expandIssues: bool)
    ensures var bs := BlocksFor(rows, names, expandIssues);
      var titles := Filter(names, HasRows(rows));
      |bs| == |titles| && forall j :: 0 <= j < |bs| ==> bs[j] == MakeBlock(rows, expandIssues)(titles[j])
    decreases |names|
  {
    if |names| > 0 {
      BlocksForFiltered(rows, names[1..], expandIssues);
      FilteredCons(names, HasRows(rows), MakeBlock(rows, expandIssues), BlocksFor(rows, names[1..], expandIssues));
    }
  }

  /** The blocks write exactly the rows whose case type is one of the titles, each once. */
  lemma {:induction false} BlocksForRows(rows: seq<FrameRow>, names: seq<string>, expandIssues: bool)
    ensures multiset(Sources(AllItems(BlocksFor(rows, names, expandIssues)))) == multiset(Flatten(GroupsOf(rows, CaseTypeOf, names)))
  {
    if |names| > 0 {
      var sub := Group(rows, CaseTypeOf, names[0]);
      var rest := BlocksFor(rows, names[1..], expandIssues);
      BlocksForRows(rows, names[1..], expandIssues);
      var gs := GroupsOf(rows, CaseTypeOf, names);
      assert gs[0] == sub && gs[1..] == GroupsOf(rows, CaseTypeOf, names[1..]);
      if |sub| > 0 {
        var b := Block(names[0], BlockItems(sub, expandIssues));
        assert ([b] + rest)[1..] == rest;
        SourcesAppend(b.items, AllItems(rest));
      }
    }
  }

  /** `write_formatted_pair_sheet` of the workbook writer, as the rows it writes. An empty frame gives
      only the notice in B2. Otherwise the blocks "ACCA LongTerm", "ACCA" and "DCwAC" that have rows
      are written from row 2, and a row is written exactly when its case type is one of those
      titles. */
  function WriteSheet(rows: seq<FrameRow>, expandIssues: bool): (lines: seq<Line>)
    ensures |rows| == 0 ==> lines == [Notice(2, "No rows above threshold.")]
    ensures |rows| > 0 ==> Steps(lines) && HeadedBlocks(lines)
    ensures |rows| > 0 ==> forall i :: 0 <= i < |lines| ==> !lines[i].Notice? && lines[i].row >= 2
    ensures |rows| > 0 ==> forall r ::
      multiset(Sources(DataItems(lines)))[r] == if r.caseType in PrettyOrder then multiset(rows)[r] else 0
  {
    if |rows| == 0 then [Notice(2, "No rows above threshold.")]
    else
      var bs := BlocksFor(rows, PrettyOrder, expandIssues);
      WrittenRows(rows, expandIssues);
      PlaceBlocksSteps(bs, 2);
      PlaceBlocksRows(bs, 2);
      PlaceBlocksItems(bs, 2);
      PlaceBlocks(bs, 2)
  }

  /** The title rows of a non-empty frame's sheet are "ACCA LongTerm", "ACCA" and "DCwAC" restricted
      to the case types that have rows, in that order and each once; block `j` holds the rows of the
      `j`-th of them. */
  lemma WriteSheetTitles(rows: seq<FrameRow>, expandIssues: bool)
    requires |rows| > 0
    ensures var titles := Filter(PrettyOrder, HasRows(rows));
      && TitleTexts(WriteSheet(rows, expandIssues)) == titles
      && NoRepeats(titles)
      && (forall t :: t in titles <==> t in PrettyOrder && |Group(rows, CaseTypeOf, t)| > 0)
      && var bs := BlocksFor(rows, PrettyOrder, expandIssues);
         |bs| == |titles| && forall j :: 0 <= j < |bs| ==> bs[j] == MakeBlock(rows, expandIssues)(titles[j])
  {
    var bs := BlocksFor(rows, PrettyOrder, expandIssues);
    BlocksForFiltered(rows, PrettyOrder, expandIssues);
    PlaceBlocksTitles(bs, 2);
    PrettyOrderDistinct();
    FilterNoRepeats(PrettyOrder, HasRows(rows));
    assert Titles(bs) == Filter(PrettyOrder, HasRows(rows));
  }

  /** The rows the blocks write are the rows whose case type is a title. */
  lemma WrittenRows(rows: seq<FrameRow>, expandIssues: bool)
    ensures forall r ::
      (multiset(Sources(AllItems(BlocksFor(rows, PrettyOrder, expandIssues))))[r] ==
       if r.caseType in PrettyOrder then multiset(rows)[r] else 0)
  {
    var written := multiset(Sources(AllItems(BlocksFor(rows, PrettyOrder, expandIssues))));
    var grouped := multiset(Flatten(GroupsOf(rows, CaseTypeOf, PrettyOrder)));
    BlocksForRows(rows, PrettyOrder, expandIssues);
    PrettyOrderDistinct();
    GroupsSelect(rows, CaseTypeOf, PrettyOrder);
    forall r ensures written[r] == if r.caseType in PrettyOrder then multiset(rows)[r] else 0 {
      assert written[r] == grouped[r];
      assert CaseTypeOf(r) == r.caseType;
    }
  }

  /** The three titles differ. */
  lemma PrettyOrderDistinct()
    ensures NoRepeats(PrettyOrder)
  {
    assert |PrettyOrder[0]| == 13 && |PrettyOrder[1]| == 4 && |PrettyOrder[2]| == 5;
  }

  /** No blocks are written for titles that no row carries. */
  lemma {:induction false} BlocksForAbsent(rows: seq<FrameRow>, names: seq<string>, expandIssues: bool)
    requires forall r :: r in rows ==> r.caseType !in names
    ensures BlocksFor(rows, names, expandIssues) == []
  {
    if |names| > 0 {
      var n := names[0];
      var sub := Group(rows, CaseTypeOf, n);
      assert n in names;
      assert |sub| > 0 ==> sub[0] in rows && sub[0].caseType == n;
      assert |sub| == 0;
      BlocksForAbsent(rows, names[1..], expandIssues);
    }
  }

  /** The comparator labels rows with the canonical case types, never with the titles this writer
      selects on, so a non-empty comparison frame handed to it writes an empty sheet. */
  lemma CanonicalFrameWritesNothing(rows: seq<FrameRow>, expandIssues: bool)
    requires forall i :: 0 <= i < |rows| ==> rows[i].caseType in Comparator.CaseTypes
    ensures |rows| > 0 ==> WriteSheet(rows, expandIssues) == []
  {
    assert forall ct :: ct in Comparator.CaseTypes ==> ct !in PrettyOrder;
    BlocksForAbsent(rows, PrettyOrder, expandIssues);
  }

  /** `_write_data_row`: the five cells from column B, the percents written as they are. */
  function RowValues(item: Item): (cells: seq<Cell>)
    ensures |cells| == 5
  {
    [Str(item.src.contingency), Str(item.src.issue), item.src.left, item.src.right, Str(item.src.delta)]
  }

  /** `_write_header_row`. */
  const HeaderTexts: seq<string> := ["Contingency Events", "Resulting Issue", "Left %", "Right %", "\U{0394}% (Right - Left) / Status"]
}

=== FILE: case_finder.dfy ===
/** Finding the PowerWorld cases (`.pwb` files) of a folder and classifying them by contingency set. */
module CaseFinder {
  import opened Text
  import opened Sorting
  import opened Seqs
  import CaseProcessor

  /** The case types: the three target contingency sets, and everything else. */
  datatype CaseType = AccaLongTerm | AccaP1247 | DcwAcP17 | Other

  /** The target types in declaration order. */
  const Targets: seq<CaseType> := [AccaLongTerm, AccaP1247, DcwAcP17]

  /** The label a type is reported under. */
  function TypeLabel(t: CaseType): string {
    match t
    case AccaLongTerm => "ACCA_LongTerm"
    case AccaP1247 => "ACCA_P1,2,4,7"
    case DcwAcP17 => "DCwACver_P1-7"
    case Other => "Other"
  }

  /** The file-name fragment that marks a target type (the same text as its label). */
  function Pattern(t: CaseType): string
    requires t != Other
  {
    TypeLabel(t)
  }

  /** `f.lower().endswith(".pwb")`. */
  predicate IsPwb(f: string) {
    EndsWith(Lower(f), ".pwb")
  }

  /** `_find_pwb_files`, over the names the folder lists: the `.pwb` files, any case, in listing order. */
  function FindPwbFiles(names: seq<string>): (r: seq<string>)
    ensures |r| <= |names|
    ensures forall f :: f in r <==> f in names && IsPwb(f)
  {
    Filter(names, IsPwb)
  }

  /** `_classify_case`: the first target type, in declaration order, whose fragment the name contains. */
  function Classify(filename: string): (t: CaseType)
    ensures t == AccaLongTerm <==> Contains(filename, Pattern(AccaLongTerm))
    ensures t == AccaP1247 <==> !Contains(filename, Pattern(AccaLongTerm)) && Contains(filename, Pattern(AccaP1247))
    ensures t == DcwAcP17 <==>
      !Contains(filename, Pattern(AccaLongTerm)) && !Contains(filename, Pattern(AccaP1247))
      && Contains(filename, Pattern(DcwAcP17))
  {
    if Contains(filename, Pattern(AccaLongTerm)) then AccaLongTerm
    else if Contains(filename, Pattern(AccaP1247)) then AccaP1247
    else if Contains(filename, Pattern(DcwAcP17)) then DcwAcP17
    else Other
  }

  /** A name with none of the fragments is "Other", and a name is classified by a fragment it holds. */
  lemma ClassifySpec(filename: string)
    ensures Classify(filename) == Other <==> forall t :: t in Targets ==> !Contains(filename, Pattern(t))
    ensures Classify(filename) != Other ==> Contains(filename, Pattern(Classify(filename)))
  {
  }

  /** Each target type's own fragment classifies a name as that type, whatever surrounds it, unless an
      earlier type's fragment is present too. */
  lemma ClassifyPattern(prefix: string, t: CaseType, suffix: string)
    requires t != Other
    requires forall u :: u in Targets[..TypeIndex(t)] ==> !Contains(prefix + Pattern(t) + suffix, Pattern(u))
    ensures Classify(prefix + Pattern(t) + suffix) == t
  {
    var f := prefix + Pattern(t) + suffix;
    assert f[|prefix|..|prefix| + |Pattern(t)|] == Pattern(t);
    ContainsAt(f, Pattern(t), |prefix|);
    assert Targets[..1] == [AccaLongTerm] && Targets[..2] == [AccaLongTerm, AccaP1247];
  }

  /** The position of a target type in declaration order. */
  function TypeIndex(t: CaseType): (k: nat)
    requires t != Other
    ensures k < |Targets| && Targets[k] == t
  {
    match t
    case AccaLongTerm => 0
    case AccaP1247 => 1
    case DcwAcP17 => 2
  }

  /** A folder `os.path.join` appends to directly: empty, ending with a separator, or a bare drive
      such as "C:". */
  predicate JoinsDirectly(folder: string) {
    |folder| == 0 || CaseProcessor.IsSep(folder[|folder| - 1]) || (|folder| == 2 && folder[1] == ':')
  }

  /** `os.path.join(folder, name)` on Windows, for a plain file name: a backslash goes between unless
      the folder is empty, ends with a separator, or is a bare drive such as "C:". */
  function JoinPath(folder: string, name: string): (r: string)
    ensures folder <= r && EndsWith(r, name)
    ensures |r| == |folder| + |name| + (if JoinsDirectly(folder) then 0 else 1)
    ensures !JoinsDirectly(folder) ==> r[|folder|] == '\\'
  {
    if JoinsDirectly(folder) then folder + name
    else folder + "\\" + name
  }

  /** Joined to a folder that is neither empty nor a bare drive, a name without separators is the
      last component of the path. */
  lemma JoinPathLastComponent(folder: string, name: string)
    requires |folder| > 0 && !(|folder| == 2 && folder[1] == ':')
    requires forall i :: 0 <= i < |name| ==> !CaseProcessor.IsSep(name[i])
    ensures var p := JoinPath(folder, name);
      CaseProcessor.ComponentStart(p) == |p| - |name| && p[CaseProcessor.ComponentStart(p)..] == name
  {
    var p := JoinPath(folder, name);
    var k := |p| - |name|;
    assert CaseProcessor.IsSep(p[k - 1]);
    assert forall i :: k <= i < |p| ==> p[i] == name[i - k];
    SepEndAfter(p, |p|, k);
  }

  /** The last separator before `n` ends at `k` when `p[k - 1]` is one and none follows it. */
  lemma {:induction false} SepEndAfter(p: string, n: nat, k: nat)
    requires 0 < k <= n <= |p| && CaseProcessor.IsSep(p[k - 1])
    requires forall i :: k <= i < n ==> !CaseProcessor.IsSep(p[i])
    ensures CaseProcessor.SepEnd(p, n) == k
    decreases n
  {
    if n > k {
      SepEndAfter(p, n - 1, k);
    }
  }

  /** One found case. */
  datatype CaseEntry = CaseEntry(filename: string, path: string, ctype: CaseType, isTarget: bool)

  /** Python's `sorted` on file names: `<=` on strings. */
  lemma NameOrderIsPreorder()
    ensures TotalPreorder(LexLessEq)
  {
    forall a: string, b: string ensures LexLessEq(a, b) || LexLessEq(b, a) {
      LexLessTotal(a, b);
    }
    forall a: string, b: string, c: string | LexLessEq(a, b) && LexLessEq(b, c) ensures LexLessEq(a, c) {
      if a != b && b != c {
        LexLessTransitive(a, b, c);
      }
    }
  }

  /** The file names of the entries. */
  function Filenames(cases: seq<CaseEntry>): (r: seq<string>)
    ensures |r| == |cases| && forall i :: 0 <= i < |cases| ==> r[i] == cases[i].filename
  {
    seq(|cases|, i requires 0 <= i < |cases| => cases[i].filename)
  }

  /** The entry for one file name. */
  function EntryFor(folder: string, fname: string): (e: CaseEntry)
    ensures e.filename == fname && e.path == JoinPath(folder, fname)
    ensures e.ctype == Classify(fname) && (e.isTarget <==> e.ctype != Other)
  {
    var t := Classify(fname);
    CaseEntry(fname, JoinPath(folder, fname), t, t != Other)
  }

  /** The entry at `i` is the first of its type. */
  predicate FirstOfType(cases: seq<CaseEntry>, i: int) {
    0 <= i < |cases| && forall j :: 0 <= j < i ==> cases[j].ctype != cases[i].ctype
  }

  /** The types the entries have. */
  function Types(cases: seq<CaseEntry>): set<CaseType> {
    set i | 0 <= i < |cases| :: cases[i].ctype
  }

  /** The `target_cases` the scan loop builds from the entries: each target type that occurs, with the
      path of its first entry. */
  function TargetsOf(cases: seq<CaseEntry>): (m: map<CaseType, string>)
    ensures forall t :: t in m <==> t != Other && t in Types(cases)
    ensures forall i :: FirstOfType(cases, i) && cases[i].ctype != Other ==>
      cases[i].ctype in m && m[cases[i].ctype] == cases[i].path
  {
    if |cases| == 0 then map[]
    else
      var m := TargetsOf(cases[..|cases| - 1]);
      TargetsStep(cases, m);
      var e := cases[|cases| - 1];
      if e.ctype != Other && e.ctype !in m then m[e.ctype := e.path] else m
  }

  /** One entry more: its type is added with its path when it is a target type not seen before. */
  lemma TargetsStep(cases: seq<CaseEntry>, m: map<CaseType, string>)
    requires |cases| > 0
    requires var init := cases[..|cases| - 1];
      && (forall t :: t in m <==> t != Other && t in Types(init))
      && forall i :: FirstOfType(init, i) && init[i].ctype != Other ==> init[i].ctype in m && m[init[i].ctype] == init[i].path
    ensures var e := cases[|cases| - 1];
      var m' := if e.ctype != Other && e.ctype !in m then m[e.ctype := e.path] else m;
      && (forall t :: t in m' <==> t != Other && t in Types(cases))
      && forall i :: FirstOfType(cases, i) && cases[i].ctype != Other ==> cases[i].ctype in m' && m'[cases[i].ctype] == cases[i].path
  {
    var init := cases[..|cases| - 1];
    var e := cases[|cases| - 1];
    var m' := if e.ctype != Other && e.ctype !in m then m[e.ctype := e.path] else m;
    assert Types(cases) == Types(init) + {e.ctype} by {
      assert forall i :: 0 <= i < |init| ==> init[i] == cases[i];
    }
    forall i | FirstOfType(cases, i) && cases[i].ctype != Other
      ensures cases[i].ctype in m' && m'[cases[i].ctype] == cases[i].path
    {
      if i < |init| {
        assert FirstOfType(init, i) && init[i] == cases[i];
      } else {
        assert e.ctype !in Types(init);
      }
    }
  }

  lemma TargetsOfSnoc(cases: seq<CaseEntry>, e: CaseEntry)
    ensures TargetsOf(cases + [e]) ==
      var m := TargetsOf(cases);
      if e.ctype != Other && e.ctype !in m then m[e.ctype := e.path] else m
  {
    assert (cases + [e])[..|cases|] == cases;
  }

  /** `scan_folder`, over the names the folder lists: one entry per `.pwb` file in sorted name order,
      and for each target type found the path of its first file. */
  method ScanFolder(folder: string, names: seq<string>) returns (cases: seq<CaseEntry>, targets: map<CaseType, string>)
    ensures FindPwbFiles(names) == [] ==> cases == [] && targets == map[]
    ensures multiset(Filenames(cases)) == multiset(FindPwbFiles(names))
    ensures forall i, j :: 0 <= i < j < |cases| ==> LexLessEq(cases[i].filename, cases[j].filename)
    ensures forall i :: 0 <= i < |cases| ==> cases[i] == EntryFor(folder, cases[i].filename)
    ensures forall t :: t in targets <==> t != Other && t in Types(cases)
    ensures forall i :: FirstOfType(cases, i) && cases[i].isTarget ==>
      cases[i].ctype in targets && targets[cases[i].ctype] == cases[i].path
  {
    cases := [];
    targets := map[];
    var pwb := FindPwbFiles(names);
    if |pwb| == 0 {
      return;
    }
    NameOrderIsPreorder();
    SortSorted(pwb, LexLessEq);
    var sorted := Sort(pwb, LexLessEq);
    cases, targets := ScanSorted(folder, sorted);
    assert Filenames(cases) == sorted;
  }

  /** The entries of the names, in order. */
  function Entries(folder: string, names: seq<string>): (r: seq<CaseEntry>)
    ensures |r| == |names| && forall k :: 0 <= k < |names| ==> r[k] == EntryFor(folder, names[k])
  {
    seq(|names|, k requires 0 <= k < |names| => EntryFor(folder, names[k]))
  }

  lemma EntriesSnoc(folder: string, names: seq<string>, i: nat)
    requires i < |names|
    ensures Entries(folder, names[..i + 1]) == Entries(folder, names[..i]) + [EntryFor(folder, names[i])]
  {
    var a, b := Entries(folder, names[..i + 1]), Entries(folder, names[..i]) + [EntryFor(folder, names[i])];
    forall k | 0 <= k <= i ensures a[k] == b[k] {
      assert names[..i + 1][k] == names[k];
      if k < i {
        assert names[..i][k] == names[k];
      }
    }
  }

  /** The scan loop over the sorted names: an entry each, and the first path of each target type. */
  method ScanSorted(folder: string, sorted: seq<string>) returns (cases: seq<CaseEntry>, targets: map<CaseType, string>)
    ensures |cases| == |sorted| && forall k :: 0 <= k < |sorted| ==> cases[k] == EntryFor(folder, sorted[k])
    ensures targets == TargetsOf(cases)
  {
    cases := [];
    targets := map[];
    var i := 0;
    while i < |sorted|
      invariant 0 <= i <= |sorted|
      invariant cases == Entries(folder, sorted[..i])
      invariant targets == TargetsOf(cases)
    {
      var e := EntryFor(folder, sorted[i]);
      TargetsOfSnoc(cases, e);
      EntriesSnoc(folder, sorted, i);
      if e.isTarget && e.ctype !in targets {
        targets := targets[e.ctype := e.path];
      }
      cases := cases + [e];
      i := i + 1;
    }
    assert sorted[..i] == sorted;
  }
}

=== FILE: case_processor.dfy ===
/** Post-processing of one exported ViolationCTG table: the filtered file's name and the in-memory
    transform (header split, row filter, optional LimViolID filter, column blacklist). */
module CaseProcessor {
  import opened Wrappers
  import opened Text
  import opened Cells
  import opened Seqs
  import opened ColumnBlacklist

  // ------------------------------------------------------------------
  // File naming

  /** Windows path separators, as `os.path` on Windows recognises them. */
  predicate IsSep(c: char) {
    c == '\\' || c == '/'
  }

  /** The position just after the last separator among the first `n` characters, or 0. */
  function SepEnd(p: string, n: nat): (k: nat)
    requires n <= |p|
    ensures k <= n
    ensures k > 0 ==> IsSep(p[k - 1])
    ensures forall i :: k <= i < n ==> !IsSep(p[i])
  {
    if n == 0 then 0
    else if IsSep(p[n - 1]) then n
    else SepEnd(p, n - 1)
  }

  /** The position where the last path component starts. */
  function ComponentStart(p: string): (k: nat)
    ensures k <= |p|
  {
    SepEnd(p, |p|)
  }

  /** The position of the last '.' among the first `n` characters, if any. */
  function DotBefore(s: string, n: nat): (d: Option<nat>)
    requires n <= |s|
    ensures d.None? <==> forall i :: 0 <= i < n ==> s[i] != '.'
    ensures d.Some? ==> d.value < n && s[d.value] == '.' && forall i :: d.value < i < n ==> s[i] != '.'
  {
    if n == 0 then None
    else if s[n - 1] == '.' then Some(n - 1)
    else DotBefore(s, n - 1)
  }

  /** The position of the last '.', if any. */
  function LastDot(s: string): (d: Option<nat>)
  {
    DotBefore(s, |s|)
  }

  lemma {:induction false} DotBeforeIs(s: string, n: nat, d: nat)
    requires d < n <= |s| && s[d] == '.' && forall i :: d < i < n ==> s[i] != '.'
    ensures DotBefore(s, n) == Some(d)
    decreases n
  {
    if n - 1 > d {
      DotBeforeIs(s, n - 1, d);
    }
  }

  predicate AllDots(s: string) {
    forall i :: 0 <= i < |s| ==> s[i] == '.'
  }

  /** `os.path.splitext`: the extension is the last component's text from its last '.', unless only dots
      precede that '.' in the component (a leading-dot name has no extension). */
  function SplitExt(p: string): (r: (string, string))
    ensures r.0 + r.1 == p
    ensures r.1 == "" || (r.1[0] == '.' && forall i :: 1 <= i < |r.1| ==> r.1[i] != '.' && !IsSep(r.1[i]))
  {
    var k := ComponentStart(p);
    var name := p[k..];
    match LastDot(name)
    case None => (p, "")
    case Some(d) =>
      if AllDots(name[..d]) then (p, "")
      else
        var ext := p[k + d..];
        assert forall i :: 1 <= i < |ext| ==> ext[i] == name[d + i];
        (p[..k + d], ext)
  }

  /** `_make_filtered_path`: the stem, "_Filtered", and the extension or ".csv" when there is none. */
  function MakeFilteredPath(p: string): (r: string)
    ensures var (stem, ext) := SplitExt(p);
      stem <= r && r[|stem|..] == "_Filtered" + (if ext == "" then ".csv" else ext)
  {
    var (stem, ext) := SplitExt(p);
    stem + "_Filtered" + (if ext == "" then ".csv" else ext)
  }

  lemma {:induction false} SepEndAppend(a: string, b: string, n: nat)
    requires |a| <= n <= |a + b| && forall i :: |a| <= i < n ==> !IsSep((a + b)[i])
    ensures SepEnd(a + b, n) == SepEnd(a, |a|)
    decreases n
  {
    if n > |a| {
      SepEndAppend(a, b, n - 1);
    } else {
      SepEndPrefix(a, b, n);
    }
  }

  lemma {:induction false} SepEndPrefix(a: string, b: string, n: nat)
    requires n <= |a|
    ensures SepEnd(a + b, n) == SepEnd(a, n)
    decreases n
  {
    if n > 0 {
      assert (a + b)[n - 1] == a[n - 1];
      SepEndPrefix(a, b, n - 1);
    }
  }

  lemma ComponentStartAppend(a: string, b: string)
    requires forall i :: 0 <= i < |b| ==> !IsSep(b[i])
    ensures ComponentStart(a + b) == ComponentStart(a)
  {
    SepEndAppend(a, b, |a + b|);
  }

  lemma SplitExtAt(p: string, d: nat)
    requires LastDot(p[ComponentStart(p)..]) == Some(d) && !AllDots(p[ComponentStart(p)..][..d])
    ensures SplitExt(p) == (p[..ComponentStart(p) + d], p[ComponentStart(p) + d..])
  {
  }

  lemma SplitExtNone(p: string)
    requires '.' !in p[ComponentStart(p)..]
    ensures SplitExt(p) == (p, "")
  {
  }

  /** A file name with a proper extension keeps it: "x.pwb.csv" becomes "x.pwb_Filtered.csv". */
  lemma FilteredPathKeepsExtension(stem: string, e: string)
    requires forall i :: 0 <= i < |e| ==> e[i] != '.' && !IsSep(e[i])
    requires exists i :: ComponentStart(stem) <= i < |stem| && stem[i] != '.'
    ensures SplitExt(stem + "." + e) == (stem, "." + e)
    ensures MakeFilteredPath(stem + "." + e) == stem + "_Filtered." + e
  {
    SplitExtDotted(stem, e);
    assert stem + "_Filtered" + ("." + e) == stem + "_Filtered." + e;
  }

  lemma SplitExtDotted(stem: string, e: string)
    requires forall i :: 0 <= i < |e| ==> e[i] != '.' && !IsSep(e[i])
    requires exists i :: ComponentStart(stem) <= i < |stem| && stem[i] != '.'
    ensures SplitExt(stem + "." + e) == (stem, "." + e)
  {
    var tail := "." + e;
    var p := stem + tail;
    assert stem + "." + e == p;
    var k := ComponentStart(stem);
    var d := |stem| - k;
    ComponentStartAppend(stem, tail);
    DottedLastDot(stem, e);
    DottedNotAllDots(stem, e);
    SplitExtAt(p, d);
    assert p[..k + d] == stem;
    assert p[k + d..] == tail;
  }

  /** The last '.' of the last component is the one before the extension. */
  lemma DottedLastDot(stem: string, e: string)
    requires forall i :: 0 <= i < |e| ==> e[i] != '.' && !IsSep(e[i])
    ensures var k := ComponentStart(stem); LastDot((stem + ("." + e))[k..]) == Some(|stem| - k)
  {
    var k := ComponentStart(stem);
    var name := (stem + ("." + e))[k..];
    var d := |stem| - k;
    assert name == stem[k..] + ("." + e);
    assert name[d] == '.';
    forall i | d < i < |name| ensures name[i] != '.' {
      assert name[i] == e[i - d - 1];
    }
    DotBeforeIs(name, |name|, d);
  }

  /** Something other than a dot precedes the extension in the last component. */
  lemma DottedNotAllDots(stem: string, e: string)
    requires exists i :: ComponentStart(stem) <= i < |stem| && stem[i] != '.'
    ensures var k := ComponentStart(stem); !AllDots((stem + ("." + e))[k..][..|stem| - k])
  {
    var k := ComponentStart(stem);
    var name := (stem + ("." + e))[k..];
    var j :| k <= j < |stem| && stem[j] != '.';
    assert name[..|stem| - k][j - k] == stem[j];
  }

  /** A last component without any '.' gets ".csv". */
  lemma FilteredPathDefaultsToCsv(p: string)
    requires forall i :: ComponentStart(p) <= i < |p| ==> p[i] != '.'
    ensures SplitExt(p) == (p, "")
    ensures MakeFilteredPath(p) == p + "_Filtered.csv"
  {
    var k := ComponentStart(p);
    var name := p[k..];
    assert '.' !in name by {
      forall i | 0 <= i < |name| ensures name[i] != '.' {
        assert name[i] == p[k + i];
      }
    }
    SplitExtNone(p);
  }

  /** A name made only of a leading dot and text, like ".csv", has no extension. */
  lemma FilteredPathHiddenFile(dir: string, e: string)
    requires forall i :: 0 <= i < |e| ==> e[i] != '.' && !IsSep(e[i])
    ensures MakeFilteredPath(dir + "\\." + e) == dir + "\\." + e + "_Filtered.csv"
  {
    var tail := "." + e;
    var p := (dir + "\\") + tail;
    assert dir + "\\." + e == p;
    var k := |dir| + 1;
    assert ComponentStart(p) == k by {
      ComponentStartAppend(dir + "\\", tail);
    }
    assert p[k..] == tail;
    assert LastDot(tail) == Some(0) by {
      forall i | 0 < i < |tail| ensures tail[i] != '.' {
        assert tail[i] == e[i - 1];
      }
      DotBeforeIs(tail, |tail|, 0);
    }
    assert AllDots(tail[..0]);
  }

  // ------------------------------------------------------------------
  // Reading the exported table

  /** The text pandas gives a header cell: its text, or "nan" for a missing one. */
  function HeaderName(c: Cell): string {
    if c.Empty? then "nan" else CellText(c)
  }

  /** The records after the skipped first line: the header row, then the data rows, each padded with
      missing cells to the header's width. A record wider than the header is a tokenizing error. */
  function ReadExport(lines: seq<seq<Cell>>): (r: Option<Table>)
    ensures r.Some? <==>
      |lines| >= 3 && forall i :: 1 <= i < |lines| ==> |lines[i]| <= |lines[1]|
    ensures r.Some? ==>
      && |r.value.columns| == |lines[1]|
      && |r.value.rows| == |lines| - 2
      && Rectangular(r.value)
      && (forall k :: 0 <= k < |lines[1]| ==> r.value.columns[k] == HeaderName(lines[1][k]))
      && (forall i, k :: 0 <= i < |r.value.rows| && 0 <= k < |lines[i + 2]| ==> r.value.rows[i][k] == lines[i + 2][k])
  {
    if |lines| < 3 then None
    else if exists i :: 1 <= i < |lines| && |lines[i]| > |lines[1]| then None
    else
      var w := |lines[1]|;
      var header := seq(w, k requires 0 <= k < w => HeaderName(lines[1][k]));
      var rows := seq(|lines| - 2, i requires 0 <= i < |lines| - 2 => Pad(lines[i + 2], w));
      Some(Table(header, rows))
  }

  /** The three in-memory steps of `post_process_csv`, in order: row filter, LimViolID max filter when
      enabled, column blacklist. */
  function Transform(data: Table, dedup: bool, keep: Option<set<string>>, shown: real -> string): (r: Table)
  {
    var filtered := ApplyRowFilter(data, keep).0;
    var frame := if dedup then ApplyLimViolIdMaxFilter(filtered).0 else Frame(filtered, None);
    ApplyBlacklist(WithHelperColumns(frame, shown)).0
  }

  /** `post_process_csv` on the records of the exported file: the filtered file's path and contents, or
      `None` when the file has no header or no data rows, or cannot be tokenized. */
  function PostProcess(path: string, lines: seq<seq<Cell>>, dedup: bool, keep: Option<set<string>>,
                       shown: real -> string): (r: Option<(string, Table)>)
    ensures r.None? <==> ReadExport(lines).None?
    ensures r.Some? ==> r.value.0 == MakeFilteredPath(path)
    ensures r.Some? ==> r.value.1 == Transform(ReadExport(lines).value, dedup, keep, shown)
  {
    match ReadExport(lines)
    case None => None
    case Some(data) => Some((MakeFilteredPath(path), Transform(data, dedup, keep, shown)))
  }

  /** Whenever rows survive, no blacklisted column is left in the output. */
  lemma TransformHasNoBlacklisted(data: Table, dedup: bool, keep: Option<set<string>>, shown: real -> string)
    ensures var out := Transform(data, dedup, keep, shown);
      |out.rows| > 0 ==> forall c :: c in out.columns ==> !IsBlacklisted(c)
  {
    var filtered := ApplyRowFilter(data, keep).0;
    var frame := if dedup then ApplyLimViolIdMaxFilter(filtered).0 else Frame(filtered, None);
    var t := WithHelperColumns(frame, shown);
    if !IsEmpty(t) {
      BlacklistPartition(t);
    }
  }

  /** Without the LimViolID filter, the output rows are the rows the category filter keeps, in order,
      each reduced to its cells in the columns that are not blacklisted, and the helper columns never
      appear. */
  lemma TransformWithoutDedup(data: Table, keep: Option<set<string>>, shown: real -> string)
    ensures var out := Transform(data, false, keep, shown);
      var filtered := ApplyRowFilter(data, keep).0;
      && |out.rows| == |filtered.rows|
      && (forall c :: c in out.columns ==> c in data.columns)
      && (IsEmpty(filtered) ==> out == filtered)
      && (!IsEmpty(filtered) ==> var idx := KeptPositions(filtered.columns, IsBlacklisted);
           && |out.columns| == |idx|
           && (forall k :: 0 <= k < |idx| ==> out.columns[k] == filtered.columns[idx[k]])
           && forall i :: 0 <= i < |filtered.rows| ==> out.rows[i] == Project(filtered.rows[i], idx))
  {
    var filtered := ApplyRowFilter(data, keep).0;
    if !IsEmpty(filtered) {
      BlacklistPartition(filtered);
    }
  }

  /** With the LimViolID filter on a table that has the column and keeps rows, the output has one row per
      distinct LimViolID among the kept rows, and the helper columns after the original ones. */
  lemma TransformWithDedup(data: Table, keep: Option<set<string>>, shown: real -> string)
    requires var filtered := ApplyRowFilter(data, keep).0;
      !IsEmpty(filtered) && IdColumn in filtered.columns
    ensures var filtered := ApplyRowFilter(data, keep).0;
      var (f, info) := ApplyLimViolIdGrouping(filtered);
      var out := Transform(data, true, keep, shown);
      |out.rows| == info.groups
      && forall h :: h in HelperColumnOrder ==> h in out.columns
  {
    var filtered := ApplyRowFilter(data, keep).0;
    var frame := ApplyLimViolIdMaxFilter(filtered).0;
    assert |frame.table.rows| == ApplyLimViolIdGrouping(filtered).1.groups && frame.members.Some? by {
      MaxFilterOnePerId(filtered);
    }
    var t := WithHelperColumns(frame, shown);
    assert Transform(data, true, keep, shown) == ApplyBlacklist(t).0;
    forall h | h in HelperColumnOrder ensures h in ApplyBlacklist(t).0.columns {
      HelperSurvives(t, frame.table.columns, h);
    }
  }

  lemma HelperSurvives(t: Table, columns: seq<string>, h: string)
    requires t.columns == columns + HelperColumnOrder && h in HelperColumnOrder
    ensures h in ApplyBlacklist(t).0.columns
  {
    assert h in GroupHelperColumns;
    HelpersNotBlacklisted(h);
    var k :| 0 <= k < |HelperColumnOrder| && HelperColumnOrder[k] == h;
    assert t.columns[|columns| + k] == h;
    if !IsEmpty(t) {
      BlacklistPartition(t);
    }
  }
}

=== FILE: cells.dfy ===
/** Worksheet and CSV cells, and worksheets as sparse grids.
    Rows and columns are 1-based, as in openpyxl. */
module Cells {
  import opened Wrappers
  import opened Text
  import opened Numeric

  /** One cell value. `Empty` is openpyxl's `None` or pandas' NaN; a number carries its value
      and the text Python's `str()` renders for it. Booleans and dates are not part of the model. */
  datatype Cell = Empty | Str(s: string) | Num(value: real, shown: string)

  /** `str(v)` for a present value, and "" for a missing one. */
  function CellText(c: Cell): string {
    match c
    case Empty => ""
    case Str(s) => s
    case Num(_, t) => t
  }

  /** `"" if v is None else str(v).strip()`. */
  function StrippedText(c: Cell): string {
    Strip(CellText(c))
  }

  /** The numeric reading shared by the float coercion helpers: missing and unparseable values
      give `None`, numbers pass through, text is stripped, loses its '%' signs and is parsed. */
  function ToNumber(c: Cell): (r: Option<real>)
    ensures c.Empty? ==> r == None
    ensures c.Num? ==> r == Some(c.value)
    ensures c.Str? && Blank(c.s) ==> r == None
  {
    match c
    case Empty => None
    case Num(v, _) => Some(v)
    case Str(s) =>
      var t := Strip(s);
      StripSpec(s);
      if t == "" then None else ParseFloat(RemoveChar(t, '%'))
  }

  /** Descending order on percents read as numbers: a larger number first, NaN (`None`) after every
      number. */
  predicate PctFirst(a: Option<real>, b: Option<real>) {
    b.None? || (a.Some? && a.value >= b.value)
  }

  /** A percentage written with a trailing '%' reads as its number. */
  lemma ToNumberPercentText(n: nat)
    ensures ToNumber(Str(NatText(n) + "%")) == Some(n as real)
  {
    var s := NatText(n) + "%";
    assert s[|s| - 1] == '%' && s[0] == NatText(n)[0];
    DigitsValueNatText(n);
    StripUnchanged(s);
    assert RemoveChar(s, '%') == NatText(n) by {
      RemoveTrailing(NatText(n), '%');
    }
    ParseNatText(n);
  }

  lemma {:induction false} RemoveTrailing(t: string, c: char)
    requires c !in t
    ensures RemoveChar(t + [c], c) == t
    decreases |t|
  {
    if |t| > 0 {
      assert (t + [c])[1..] == t[1..] + [c];
      RemoveTrailing(t[1..], c);
      assert t == [t[0]] + t[1..];
    }
  }

  /** A worksheet: the cells present, keyed by (row, column), and openpyxl's `max_row`/`max_column`. */
  datatype Sheet = Sheet(cells: map<(int, int), Cell>, maxRow: nat, maxCol: nat)

  /** `ws.cell(r, c).value`: a cell that was never written is `None`. */
  function At(ws: Sheet, r: int, c: int): Cell {
    if (r, c) in ws.cells then ws.cells[(r, c)] else Empty
  }

  /** A workbook: its sheets with their names, in workbook order. */
  type Workbook = seq<(string, Sheet)>

  /** `wb[name]`: the sheet with that name, if any. */
  function FindSheet(wb: Workbook, name: string): (r: Option<Sheet>)
    ensures r.Some? <==> exists i :: 0 <= i < |wb| && wb[i].0 == name
    ensures r.Some? ==> exists i :: 0 <= i < |wb| && wb[i] == (name, r.value)
  {
    if |wb| == 0 then None
    else if wb[0].0 == name then Some(wb[0].1)
    else
      var r := FindSheet(wb[1..], name);
      assert forall i :: 1 <= i < |wb| ==> wb[i] == wb[1..][i - 1];
      r
  }
}

=== FILE: column_blacklist.dfy ===
/** The filter pipeline's table logic: the column blacklist, the LimViolCat row filter and the
    non-destructive LimViolID grouping with its primary-row view. */
module ColumnBlacklist {
  import opened Wrappers
  import opened Text
  import opened Cells
  import opened Sorting
  import opened Seqs

  /** A data frame read from an exported CSV: header names and rows of cells, `Empty` standing for a
      missing value. Cells past the end of a short row read as missing. */
  datatype Table = Table(columns: seq<string>, rows: seq<seq<Cell>>)

  /** `df.empty`: no rows or no columns. */
  predicate IsEmpty(t: Table) {
    |t.rows| == 0 || |t.columns| == 0
  }

  function CellOf(row: seq<Cell>, c: int): Cell {
    if 0 <= c < |row| then row[c] else Empty
  }

  /** The position of the first column called `name`, if any. */
  function ColumnIndex(columns: seq<string>, name: string): (k: Option<nat>)
    ensures k.None? <==> name !in columns
    ensures k.Some? ==> k.value < |columns| && columns[k.value] == name && name !in columns[..k.value]
  {
    if |columns| == 0 then None
    else if columns[0] == name then Some(0)
    else
      match ColumnIndex(columns[1..], name)
      case None => None
      case Some(k) =>
        assert columns[..k + 1] == [columns[0]] + columns[1..][..k];
        Some(k + 1)
  }

  // ------------------------------------------------------------------
  // Column blacklist

  const BlacklistBaseNames: set<string> := {"BusNum", "BusName", "BusNomVolt", "AreaNum", "AreaName", "ZoneNum"}

  const BlacklistExactNames: set<string> := {}

  /** The columns the grouping adds. */
  const GroupHelperColumns: set<string> := {"__LimViolPct_num", "__GroupRank", "__GroupSize", "__IsChild"}

  /** `name.split(":", 1)[0]`: the text before the first ':', or all of it. */
  function BeforeColon(name: string): (b: string)
    ensures b <= name
    ensures ':' !in b
    ensures |b| < |name| ==> name[|b|] == ':'
  {
    if |name| == 0 || name[0] == ':' then ""
    else [name[0]] + BeforeColon(name[1..])
  }

  predicate IsBlacklisted(name: string) {
    BeforeColon(name) in BlacklistBaseNames || name in BlacklistExactNames
  }

  /** A column is blacklisted exactly when it is a blacklisted base name, alone or followed by ':'
      and anything, or a blacklisted exact name. */
  lemma IsBlacklistedIff(name: string)
    ensures IsBlacklisted(name) <==>
      (exists b :: b in BlacklistBaseNames && (name == b || b + ":" <= name)) || name in BlacklistExactNames
  {
    var b := BeforeColon(name);
    if b in BlacklistBaseNames {
      if |b| < |name| {
        assert (b + ":") == name[..|b| + 1];
      } else {
        assert name == b;
      }
    }
    forall b' | b' in BlacklistBaseNames && (name == b' || b' + ":" <= name)
      ensures BeforeColon(name) == b'
    {
      assert ':' !in b';
      if name == b' {
        NoColonBefore(name);
      } else {
        ColonAfter(b', name);
      }
    }
  }

  lemma {:induction false} NoColonBefore(s: string)
    requires ':' !in s
    ensures BeforeColon(s) == s
  {
    if |s| > 0 {
      NoColonBefore(s[1..]);
    }
  }

  lemma {:induction false} ColonAfter(b: string, s: string)
    requires ':' !in b && b + ":" <= s
    ensures BeforeColon(s) == b
  {
    if |b| > 0 {
      assert b[1..] + ":" <= s[1..];
      ColonAfter(b[1..], s[1..]);
      assert s[0] == b[0];
      assert [b[0]] + b[1..] == b;
    }
  }

  /** The helper columns of the grouping are never blacklisted. */
  lemma HelpersNotBlacklisted(name: string)
    requires name in GroupHelperColumns
    ensures !IsBlacklisted(name)
  {
    assert |name| > 0 && name[0] == '_';
    UnderscoreNotBlacklisted(name);
  }

  /** No blacklisted base name starts with '_', so no name starting with '_' is blacklisted. */
  lemma UnderscoreNotBlacklisted(name: string)
    requires |name| > 0 && name[0] == '_'
    ensures !IsBlacklisted(name)
  {
    var b := BeforeColon(name);
    assert b == [name[0]] + BeforeColon(name[1..]);
    assert forall x :: x in BlacklistBaseNames ==> x[0] != '_';
  }

  /** `df[keep_cols]`: one cell of a row per kept position. */
  function Project(row: seq<Cell>, idx: seq<nat>): (r: seq<Cell>)
    ensures |r| == |idx| && forall k :: 0 <= k < |idx| ==> r[k] == CellOf(row, idx[k])
  {
    seq(|idx|, k requires 0 <= k < |idx| => CellOf(row, idx[k]))
  }

  function ProjectRows(rows: seq<seq<Cell>>, idx: seq<nat>): (r: seq<seq<Cell>>)
    ensures |r| == |rows| && forall i :: 0 <= i < |rows| ==> r[i] == Project(rows[i], idx)
  {
    seq(|rows|, i requires 0 <= i < |rows| => Project(rows[i], idx))
  }

  predicate NotDropped(drop: string -> bool, name: string) {
    !drop(name)
  }

  /** The positions of the columns `drop` does not select, in increasing order. */
  function KeptPositions(columns: seq<string>, drop: string -> bool): (idx: seq<nat>)
    ensures forall k :: 0 <= k < |idx| ==> idx[k] < |columns| && !drop(columns[idx[k]])
    ensures forall k, l :: 0 <= k < l < |idx| ==> idx[k] < idx[l]
    ensures forall c :: 0 <= c < |columns| && !drop(columns[c]) ==> c in idx
  {
    TrueIndices(MapSeq(columns, name => NotDropped(drop, name)))
  }

  /** The table without the columns `drop` selects, the other columns keeping their order, and every
      row reduced to its cells in the kept columns. */
  function DropColumns(t: Table, drop: string -> bool): (r: Table)
    ensures r.columns == Filter(t.columns, name => NotDropped(drop, name))
    ensures var idx := KeptPositions(t.columns, drop);
      && |r.columns| == |idx|
      && (forall k :: 0 <= k < |idx| ==> r.columns[k] == t.columns[idx[k]])
      && |r.rows| == |t.rows|
      && forall i :: 0 <= i < |t.rows| ==> r.rows[i] == Project(t.rows[i], idx)
  {
    var keep := name => NotDropped(drop, name);
    var idx := KeptPositions(t.columns, drop);
    GatherKeepMask(t.columns, keep);
    Table(Gather(t.columns, idx), ProjectRows(t.rows, idx))
  }

  /** Every row has one cell per column, as in a data frame. */
  predicate Rectangular(t: Table) {
    forall i :: 0 <= i < |t.rows| ==> |t.rows[i]| == |t.columns|
  }

  /** Dropping nothing gives back a rectangular table. */
  lemma DropNothing(t: Table, drop: string -> bool)
    requires Rectangular(t) && forall k :: 0 <= k < |t.columns| ==> !drop(t.columns[k])
    ensures DropColumns(t, drop) == t
  {
    var keep := name => NotDropped(drop, name);
    var mask := MapSeq(t.columns, keep);
    assert forall i :: 0 <= i < |mask| ==> mask[i];
    TrueIndicesBelow(mask, |t.columns|);
    var idx := Range(|t.columns|);
    assert Gather(t.columns, idx) == t.columns;
    assert ProjectRows(t.rows, idx) == t.rows by {
      forall i | 0 <= i < |t.rows| ensures Project(t.rows[i], idx) == t.rows[i] {
      }
    }
  }

  /** `apply_blacklist`: the table without its blacklisted columns, and the removed names in their original
      order. An empty frame is returned as it is, with nothing removed. */
  function ApplyBlacklist(t: Table): (r: (Table, seq<string>))
    ensures IsEmpty(t) ==> r == (t, [])
    ensures !IsEmpty(t) ==> r.0 == DropColumns(t, IsBlacklisted) && r.1 == Filter(t.columns, IsBlacklisted)
    ensures |r.0.rows| == |t.rows|
  {
    if IsEmpty(t) then (t, [])
    else (DropColumns(t, IsBlacklisted), Filter(t.columns, IsBlacklisted))
  }

  /** Every column survives the blacklist or is reported removed, never both and never twice; the kept
      columns are exactly the ones that are not blacklisted, in their original order. */
  lemma BlacklistPartition(t: Table)
    requires !IsEmpty(t)
    ensures multiset(ApplyBlacklist(t).0.columns) + multiset(ApplyBlacklist(t).1) == multiset(t.columns)
    ensures forall c :: c in ApplyBlacklist(t).0.columns <==> c in t.columns && !IsBlacklisted(c)
    ensures forall c :: c in ApplyBlacklist(t).1 <==> c in t.columns && IsBlacklisted(c)
  {
    FilterSplits(t.columns, name => NotDropped(IsBlacklisted, name), IsBlacklisted);
  }

  /** A table without blacklisted columns passes the blacklist unchanged. */
  lemma BlacklistIdempotent(t: Table)
    requires Rectangular(t) && forall k :: 0 <= k < |t.columns| ==> !IsBlacklisted(t.columns[k])
    ensures ApplyBlacklist(t).0 == t && ApplyBlacklist(t).1 == []
  {
    if !IsEmpty(t) {
      DropNothing(t, IsBlacklisted);
      FilterNone(t.columns, IsBlacklisted);
    }
  }

  // ------------------------------------------------------------------
  // Row filter

  const RowFilterColumn: string := "LimViolCat"

  const DefaultKeepValues: set<string> := {"Branch MVA"}

  /** `df[col].isin(keep)` for one cell: the exported text is one of the kept categories. */
  predicate CategoryKept(c: Cell, keep: set<string>) {
    c.Str? && c.s in keep
  }

  function FilterRows(rows: seq<seq<Cell>>, col: nat, keep: set<string>): (r: seq<seq<Cell>>)
    ensures |r| <= |rows|
    ensures forall row :: row in r <==> row in rows && CategoryKept(CellOf(row, col), keep)
  {
    if |rows| == 0 then []
    else
      assert rows == [rows[0]] + rows[1..];
      (if CategoryKept(CellOf(rows[0], col), keep) then [rows[0]] else []) + FilterRows(rows[1..], col, keep)
  }

  /** `apply_row_filter`: `None` means the default categories; an empty frame, a frame without the
      LimViolCat column or an empty set of categories pass unchanged. Returns the table and the number of
      rows removed. */
  function ApplyRowFilter(t: Table, keepValues: Option<set<string>>): (r: (Table, nat))
    ensures IsEmpty(t) || RowFilterColumn !in t.columns || keepValues == Some({}) ==> r == (t, 0)
    ensures r.0.columns == t.columns
    ensures r.1 == |t.rows| - |r.0.rows|
  {
    var keep := if keepValues.None? then DefaultKeepValues else keepValues.value;
    if IsEmpty(t) then (t, 0)
    else
      match ColumnIndex(t.columns, RowFilterColumn)
      case None => (t, 0)
      case Some(col) =>
        if keep == {} then (t, 0)
        else
          var kept := FilterRows(t.rows, col, keep);
          (Table(t.columns, kept), |t.rows| - |kept|)
  }

  /** When the filter applies, it keeps exactly the rows whose LimViolCat is a kept category, in order. */
  lemma RowFilterKeeps(t: Table, keepValues: Option<set<string>>)
    requires !IsEmpty(t) && RowFilterColumn in t.columns
    ensures var keep := keepValues.GetOr(DefaultKeepValues);
      var col := ColumnIndex(t.columns, RowFilterColumn).value;
      keep != {} ==> ApplyRowFilter(t, keepValues).0.rows == FilterRows(t.rows, col, keep)
  {
  }

  /** Filtering preserves the original order: the kept rows are a subsequence of the input. */
  lemma {:induction false} FilterRowsSubsequence(rows: seq<seq<Cell>>, col: nat, keep: set<string>, n: nat)
    requires n <= |rows|
    ensures FilterRows(rows[..n], col, keep) <= FilterRows(rows, col, keep)
    decreases n
  {
    if n > 0 {
      FilterRowsSubsequence(rows[1..], col, keep, n - 1);
      assert rows[..n][1..] == rows[1..][..n - 1];
      assert rows[..n] == [rows[0]] + rows[..n][1..];
    }
  }

  // ------------------------------------------------------------------
  // LimViolID grouping

  const IdColumn: string := "LimViolID"

  const PctColumn: string := "LimViolPct"

  /** The helper columns in the order the grouping appends them. */
  const HelperColumnOrder: seq<string> := ["__LimViolPct_num", "__GroupRank", "__GroupSize", "__IsChild"]

  /** What the grouping records for one row: its LimViolID, its numeric LimViolPct, its rank inside the
      LimViolID group (1 = primary) and the size of that group. */
  datatype Member = Member(id: string, pct: Option<real>, rank: nat, size: nat)

  /** A data frame with, after grouping, the helper columns held apart as one `Member` per row. */
  datatype Frame = Frame(table: Table, members: Option<seq<Member>>)

  /** The statistics the grouping reports. */
  datatype GroupInfo = GroupInfo(groups: nat, groupsWithChildren: nat, childRows: nat)

  /** The helper columns hold one entry per row. */
  predicate WellFormed(f: Frame) {
    f.members.Some? ==> |f.members.value| == |f.table.rows|
  }

  /** The LimViolID of a row, as text. */
  function RowId(row: seq<Cell>, idCol: nat): string {
    CellText(CellOf(row, idCol))
  }

  /** `__LimViolPct_num`: the LimViolPct cell read as a number, `None` (NaN) without the column. */
  function RowPct(row: seq<Cell>, pctCol: Option<nat>): Option<real> {
    if pctCol.None? then None else ToNumber(CellOf(row, pctCol.value))
  }

  /** `sort_values([LimViolID, __LimViolPct_num], ascending=[True, False], na_position="last")`: by id,
      then larger percent first with NaN last. */
  predicate IdThenPct(idCol: nat, pctCol: Option<nat>, a: seq<Cell>, b: seq<Cell>) {
    LexLess(RowId(a, idCol), RowId(b, idCol))
    || (RowId(a, idCol) == RowId(b, idCol) && PctFirst(RowPct(a, pctCol), RowPct(b, pctCol)))
  }

  function GroupOrder(idCol: nat, pctCol: Option<nat>): (seq<Cell>, seq<Cell>) -> bool {
    (a, b) => IdThenPct(idCol, pctCol, a, b)
  }

  lemma GroupOrderIsPreorder(idCol: nat, pctCol: Option<nat>)
    ensures TotalPreorder(GroupOrder(idCol, pctCol))
  {
    var le := GroupOrder(idCol, pctCol);
    forall a, b ensures le(a, b) || le(b, a) {
      LexLessTotal(RowId(a, idCol), RowId(b, idCol));
    }
    forall a, b, c | le(a, b) && le(b, c) ensures le(a, c) {
      var x, y, z := RowId(a, idCol), RowId(b, idCol), RowId(c, idCol);
      if LexLess(x, y) && LexLess(y, z) {
        LexLessTransitive(x, y, z);
      }
    }
  }

  function Ids(rows: seq<seq<Cell>>, idCol: nat): (ids: seq<string>)
    ensures |ids| == |rows| && forall i :: 0 <= i < |rows| ==> ids[i] == RowId(rows[i], idCol)
  {
    seq(|rows|, i requires 0 <= i < |rows| => RowId(rows[i], idCol))
  }

  /** `cumcount() + 1` and `transform("size")` over LimViolID, for rows already in group order. */
  function Members(rows: seq<seq<Cell>>, idCol: nat, pctCol: Option<nat>): (m: seq<Member>)
    ensures |m| == |rows|
  {
    var ids := Ids(rows, idCol);
    seq(|rows|, i requires 0 <= i < |rows| =>
      Member(ids[i], RowPct(rows[i], pctCol), Occ(ids[..i], ids[i]) + 1, Occ(ids, ids[i])))
  }

  /** `__IsChild` per row. */
  function ChildFlags(m: seq<Member>): (c: seq<bool>)
    ensures |c| == |m| && forall i :: 0 <= i < |m| ==> c[i] == (m[i].rank > 1)
  {
    seq(|m|, i requires 0 <= i < |m| => m[i].rank > 1)
  }

  /** Per distinct id, whether its group has more than one row. */
  function MultiRowGroups(ids: seq<string>): (c: seq<bool>)
    ensures |c| == |Distinct(ids)|
  {
    var d := Distinct(ids);
    seq(|d|, k requires 0 <= k < |d| => Occ(ids, d[k]) > 1)
  }

  /** `apply_limviolid_grouping`: without rows, columns or a LimViolID column the frame passes unchanged with
      zero statistics; otherwise every row is kept, reordered by id and descending percent, and ranked. */
  function ApplyLimViolIdGrouping(t: Table): (r: (Frame, GroupInfo))
    ensures IsEmpty(t) || IdColumn !in t.columns ==> r == (Frame(t, None), GroupInfo(0, 0, 0))
    ensures !IsEmpty(t) && IdColumn in t.columns ==>
      && r.0.table.columns == t.columns
      && multiset(r.0.table.rows) == multiset(t.rows)
      && r.0.members.Some?
      && r.1.groups + r.1.childRows == |t.rows|
      && r.1.groupsWithChildren <= r.1.groups
    ensures WellFormed(r.0)
  {
    if IsEmpty(t) then (Frame(t, None), GroupInfo(0, 0, 0))
    else
      match ColumnIndex(t.columns, IdColumn)
      case None => (Frame(t, None), GroupInfo(0, 0, 0))
      case Some(idCol) =>
        var sorted := Sort(t.rows, GroupOrder(idCol, ColumnIndex(t.columns, PctColumn)));
        var m := Members(sorted, idCol, ColumnIndex(t.columns, PctColumn));
        var ids := Ids(sorted, idCol);
        ChildRowsCount(sorted, idCol, ColumnIndex(t.columns, PctColumn));
        (Frame(Table(t.columns, sorted), Some(m)),
         GroupInfo(|Distinct(ids)|, CountTrue(MultiRowGroups(ids)), CountTrue(ChildFlags(m))))
  }

  /** Each row is a child exactly when its id occurred before, so child rows and groups add up to all rows. */
  lemma ChildRowsCount(rows: seq<seq<Cell>>, idCol: nat, pctCol: Option<nat>)
    ensures |Distinct(Ids(rows, idCol))| + CountTrue(ChildFlags(Members(rows, idCol, pctCol))) == |rows|
  {
    var ids := Ids(rows, idCol);
    var flags := ChildFlags(Members(rows, idCol, pctCol));
    assert flags == seq(|ids|, i requires 0 <= i < |ids| => ids[i] in ids[..i]);
    DistinctPlusRepeats(ids);
  }

  /** Ranks count the earlier rows of the same id: they start at 1, grow within a group and end at its size. */
  predicate RanksCount(m: seq<Member>) {
    && (forall i :: 0 <= i < |m| ==> 1 <= m[i].rank <= m[i].size)
    && (forall i :: 0 <= i < |m| ==> (m[i].rank == 1 <==> forall j :: 0 <= j < i ==> m[j].id != m[i].id))
    && (forall i, j :: 0 <= i < j < |m| && m[i].id == m[j].id ==> m[i].rank < m[j].rank)
    && (forall i :: 0 <= i < |m| && (forall j :: i < j < |m| ==> m[j].id != m[i].id) ==> m[i].rank == m[i].size)
  }

  /** The primary row of a group carries its largest percent, NaN counting as smallest. */
  predicate PrimaryIsMax(m: seq<Member>) {
    forall i, j :: 0 <= i < |m| && 0 <= j < |m| && m[i].rank == 1 && m[j].id == m[i].id ==> PctFirst(m[i].pct, m[j].pct)
  }

  /** The rows of one id are adjacent. */
  predicate GroupsContiguous(m: seq<Member>) {
    forall i, j, k :: 0 <= i < j < k < |m| && m[i].id == m[k].id ==> m[j].id == m[i].id
  }

  lemma {:induction false} OccOnlyHead(s: seq<string>, x: string)
    requires |s| > 0 && s[0] == x && x !in s[1..]
    ensures Occ(s, x) == 1
  {
    assert s == [x] + s[1..];
    OccAppend([x], s[1..], x);
    assert [x] == [] + [x];
  }

  lemma MembersRanks(rows: seq<seq<Cell>>, idCol: nat, pctCol: Option<nat>)
    ensures var m := Members(rows, idCol, pctCol);
      && (forall i :: 0 <= i < |m| ==> m[i].id == RowId(rows[i], idCol) && m[i].pct == RowPct(rows[i], pctCol))
      && RanksCount(m)
  {
    var m := Members(rows, idCol, pctCol);
    assert forall i :: 0 <= i < |m| ==> m[i].id == RowId(rows[i], idCol) && m[i].pct == RowPct(rows[i], pctCol);
    RankBounds(rows, idCol, pctCol);
    RankOneIffFirst(rows, idCol, pctCol);
    RankIncreasing(rows, idCol, pctCol);
    RankLastIsSize(rows, idCol, pctCol);
  }

  lemma RankBounds(rows: seq<seq<Cell>>, idCol: nat, pctCol: Option<nat>)
    ensures var m := Members(rows, idCol, pctCol);
      forall i :: 0 <= i < |m| ==> 1 <= m[i].rank <= m[i].size
  {
    var ids := Ids(rows, idCol);
    forall i | 0 <= i < |rows| ensures Occ(ids[..i], ids[i]) + 1 <= Occ(ids, ids[i]) {
      OccPrefixBound(ids, i);
    }
  }

  lemma RankOneIffFirst(rows: seq<seq<Cell>>, idCol: nat, pctCol: Option<nat>)
    ensures var m := Members(rows, idCol, pctCol);
      forall i :: 0 <= i < |m| ==> (m[i].rank == 1 <==> forall j :: 0 <= j < i ==> m[j].id != m[i].id)
  {
    var ids := Ids(rows, idCol);
    var m := Members(rows, idCol, pctCol);
    forall i | 0 <= i < |m| ensures m[i].rank == 1 <==> forall j :: 0 <= j < i ==> m[j].id != m[i].id {
      if Occ(ids[..i], ids[i]) != 0 {
        assert ids[i] in ids[..i];
        var j :| 0 <= j < i && ids[..i][j] == ids[i];
        assert m[j].id == m[i].id;
      } else {
        assert ids[i] !in ids[..i];
        forall j | 0 <= j < i ensures m[j].id != m[i].id {
          assert ids[..i][j] == ids[j];
        }
      }
    }
  }

  lemma RankIncreasing(rows: seq<seq<Cell>>, idCol: nat, pctCol: Option<nat>)
    ensures var m := Members(rows, idCol, pctCol);
      forall i, j :: 0 <= i < j < |m| && m[i].id == m[j].id ==> m[i].rank < m[j].rank
  {
    var ids := Ids(rows, idCol);
    forall i, j | 0 <= i < j < |rows| && ids[i] == ids[j] ensures Occ(ids[..i], ids[i]) < Occ(ids[..j], ids[j]) {
      OccPrefixIncreasing(ids, i, j);
    }
  }

  lemma RankLastIsSize(rows: seq<seq<Cell>>, idCol: nat, pctCol: Option<nat>)
    ensures var m := Members(rows, idCol, pctCol);
      forall i :: 0 <= i < |m| && (forall j :: i < j < |m| ==> m[j].id != m[i].id) ==> m[i].rank == m[i].size
  {
    var ids := Ids(rows, idCol);
    var m := Members(rows, idCol, pctCol);
    forall i | 0 <= i < |m| && (forall j :: i < j < |m| ==> m[j].id != m[i].id) ensures m[i].rank == m[i].size {
      forall j | i < j < |ids| ensures ids[j] != ids[i] {
        assert m[j].id == ids[j];
      }
      LastOccurrence(ids, i);
    }
  }

  lemma LastOccurrence(ids: seq<string>, i: int)
    requires 0 <= i < |ids| && forall j :: i < j < |ids| ==> ids[j] != ids[i]
    ensures Occ(ids[..i], ids[i]) + 1 == Occ(ids, ids[i])
  {
    var tail := ids[i..];
    assert ids == ids[..i] + tail;
    OccAppend(ids[..i], tail, ids[i]);
    assert ids[i] !in tail[1..] by {
      forall j | 0 <= j < |tail[1..]| ensures tail[1..][j] != ids[i] {
        assert tail[1..][j] == ids[i + 1 + j];
      }
    }
    OccOnlyHead(tail, ids[i]);
  }

  lemma MembersPrimaryMax(rows: seq<seq<Cell>>, idCol: nat, pctCol: Option<nat>)
    requires SortedBy(rows, GroupOrder(idCol, pctCol))
    ensures PrimaryIsMax(Members(rows, idCol, pctCol))
  {
    var m := Members(rows, idCol, pctCol);
    MembersRanks(rows, idCol, pctCol);
    forall i, j | 0 <= i < |m| && 0 <= j < |m| && m[i].rank == 1 && m[j].id == m[i].id
      ensures PctFirst(m[i].pct, m[j].pct)
    {
      if i < j {
        assert IdThenPct(idCol, pctCol, rows[i], rows[j]);
        LexLessIrreflexive(m[i].id);
      }
    }
  }

  lemma MembersContiguous(rows: seq<seq<Cell>>, idCol: nat, pctCol: Option<nat>)
    requires SortedBy(rows, GroupOrder(idCol, pctCol))
    ensures GroupsContiguous(Members(rows, idCol, pctCol))
  {
    var m := Members(rows, idCol, pctCol);
    assert forall i :: 0 <= i < |m| ==> m[i].id == RowId(rows[i], idCol);
    forall i, j, k | 0 <= i < j < k < |m| && m[i].id == m[k].id ensures m[j].id == m[i].id {
      IdBetween(idCol, pctCol, rows[i], rows[j], rows[k]);
    }
  }

  /** A row ordered between two rows of one LimViolID has that LimViolID too. */
  lemma IdBetween(idCol: nat, pctCol: Option<nat>, a: seq<Cell>, b: seq<Cell>, c: seq<Cell>)
    requires IdThenPct(idCol, pctCol, a, b) && IdThenPct(idCol, pctCol, b, c)
    requires RowId(a, idCol) == RowId(c, idCol)
    ensures RowId(b, idCol) == RowId(a, idCol)
  {
    var x, y := RowId(a, idCol), RowId(b, idCol);
    if x != y {
      LexLessAsymmetric(x, y);
    }
  }

  /** Grouping keeps every row, orders the rows of one LimViolID together, ranks them 1..GroupSize and puts
      the highest LimViolPct at rank 1. */
  lemma GroupingSpec(t: Table)
    requires !IsEmpty(t) && IdColumn in t.columns
    ensures var f := ApplyLimViolIdGrouping(t).0;
      var m := f.members.value;
      && multiset(f.table.rows) == multiset(t.rows)
      && (forall i :: 0 <= i < |m| ==> m[i].id == RowId(f.table.rows[i], ColumnIndex(t.columns, IdColumn).value))
      && RanksCount(m) && PrimaryIsMax(m) && GroupsContiguous(m)
  {
    var idCol := ColumnIndex(t.columns, IdColumn).value;
    var pctCol := ColumnIndex(t.columns, PctColumn);
    GroupOrderIsPreorder(idCol, pctCol);
    SortSorted(t.rows, GroupOrder(idCol, pctCol));
    var sorted := Sort(t.rows, GroupOrder(idCol, pctCol));
    MembersRanks(sorted, idCol, pctCol);
    MembersPrimaryMax(sorted, idCol, pctCol);
    MembersContiguous(sorted, idCol, pctCol);
  }

  /** `__IsChild` holds exactly for the rows ranked after the first. */
  lemma ChildIffLaterRank(t: Table)
    requires !IsEmpty(t) && IdColumn in t.columns
    ensures var m := ApplyLimViolIdGrouping(t).0.members.value;
      forall i :: 0 <= i < |m| ==> (ChildFlags(m)[i] <==> exists j :: 0 <= j < i && m[j].id == m[i].id)
  {
    var idCol := ColumnIndex(t.columns, IdColumn).value;
    var pctCol := ColumnIndex(t.columns, PctColumn);
    MembersRanks(Sort(t.rows, GroupOrder(idCol, pctCol)), idCol, pctCol);
  }

  // ------------------------------------------------------------------
  // Primary rows, helper columns and the compatibility filter

  function MemberIds(m: seq<Member>): (ids: seq<string>)
    ensures |ids| == |m| && forall i :: 0 <= i < |m| ==> ids[i] == m[i].id
  {
    seq(|m|, i requires 0 <= i < |m| => m[i].id)
  }

  function PrimaryMask(m: seq<Member>): (mask: seq<bool>)
    ensures |mask| == |m| && forall i :: 0 <= i < |m| ==> mask[i] == (m[i].rank == 1)
  {
    seq(|m|, i requires 0 <= i < |m| => m[i].rank == 1)
  }

  /** `get_primary_rows_only`: the rows ranked 1, in order, with their helper entries. A frame that is empty
      or carries no helper columns is returned as it is. */
  function GetPrimaryRowsOnly(f: Frame): (r: Frame)
    requires WellFormed(f)
    ensures WellFormed(r)
    ensures IsEmpty(f.table) || f.members.None? ==> r == f
    ensures !IsEmpty(f.table) && f.members.Some? ==>
      && r.table.columns == f.table.columns
      && r.members.Some?
      && (forall k :: 0 <= k < |r.table.rows| ==>
            (exists i :: 0 <= i < |f.table.rows| && f.members.value[i].rank == 1 &&
               r.table.rows[k] == f.table.rows[i] && r.members.value[k] == f.members.value[i]))
      && (forall i :: 0 <= i < |f.table.rows| && f.members.value[i].rank == 1 ==>
            (exists k :: 0 <= k < |r.table.rows| &&
               r.table.rows[k] == f.table.rows[i] && r.members.value[k] == f.members.value[i]))
  {
    if IsEmpty(f.table) || f.members.None? then f
    else
      var m := f.members.value;
      var idx := TrueIndices(PrimaryMask(m));
      var rows := Gather(f.table.rows, idx);
      var pm := Gather(m, idx);
      assert forall k :: 0 <= k < |idx| ==> rows[k] == f.table.rows[idx[k]] && pm[k] == m[idx[k]] && m[idx[k]].rank == 1;
      assert forall i :: 0 <= i < |m| && m[i].rank == 1 ==> exists k :: 0 <= k < |idx| && idx[k] == i;
      Frame(Table(f.table.columns, rows), Some(pm))
  }

  predicate IsHelper(name: string) {
    name in GroupHelperColumns
  }

  /** `strip_group_helper_columns`: drops the helper columns present and nothing else; an empty frame is
      returned as it is. */
  function StripGroupHelperColumns(t: Table): (r: Table)
    ensures IsEmpty(t) ==> r == t
    ensures !IsEmpty(t) ==> r == DropColumns(t, IsHelper)
    ensures forall c :: c in r.columns ==> c in t.columns && (IsEmpty(t) || !IsHelper(c))
    ensures forall c :: c in t.columns && !IsHelper(c) ==> c in r.columns
  {
    if IsEmpty(t) then t else DropColumns(t, IsHelper)
  }

  /** `row` cut or padded with missing cells to `w` cells. */
  function Pad(row: seq<Cell>, w: nat): (r: seq<Cell>)
    ensures |r| == w && forall k :: 0 <= k < w ==> r[k] == CellOf(row, k)
  {
    seq(w, k requires 0 <= k < w => CellOf(row, k))
  }

  /** The four helper cells of a row, as `to_csv` writes them; `shown` is the float rendering. */
  function HelperCells(m: Member, shown: real -> string): (r: seq<Cell>)
    ensures |r| == |HelperColumnOrder|
  {
    [ if m.pct.Some? then Num(m.pct.value, shown(m.pct.value)) else Empty,
      Num(m.rank as real, NatText(m.rank)),
      Num(m.size as real, NatText(m.size)),
      Str(if m.rank > 1 then "True" else "False") ]
  }

  /** The frame as pandas holds it: the helper columns appended after the original ones. */
  function WithHelperColumns(f: Frame, shown: real -> string): (t: Table)
    requires WellFormed(f)
    ensures f.members.None? ==> t == f.table
    ensures f.members.Some? ==> t.columns == f.table.columns + HelperColumnOrder && Rectangular(t)
    ensures |t.rows| == |f.table.rows|
  {
    if f.members.None? then f.table
    else
      var m := f.members.value;
      var w := |f.table.columns|;
      Table(f.table.columns + HelperColumnOrder,
            seq(|f.table.rows|, i requires 0 <= i < |f.table.rows| => Pad(f.table.rows[i], w) + HelperCells(m[i], shown)))
  }

  /** Stripping the helper columns from a grouped frame gives back its table. */
  lemma StripRestores(f: Frame, shown: real -> string)
    requires WellFormed(f) && Rectangular(f.table)
    requires forall k :: 0 <= k < |f.table.columns| ==> !IsHelper(f.table.columns[k])
    requires f.members.Some? ==> !IsEmpty(f.table)
    ensures StripGroupHelperColumns(WithHelperColumns(f, shown)) == f.table
  {
    if f.members.None? {
      if !IsEmpty(f.table) {
        DropNothing(f.table, IsHelper);
      }
    } else {
      var t := WithHelperColumns(f, shown);
      var c := f.table.columns;
      var keep := name => NotDropped(IsHelper, name);
      var mask := MapSeq(t.columns, keep);
      forall i | 0 <= i < |mask| ensures mask[i] <==> i < |c| {
        if i >= |c| {
          assert t.columns[i] == HelperColumnOrder[i - |c|];
        }
      }
      TrueIndicesBelow(mask, |c|);
      var idx := Range(|c|);
      var r := DropColumns(t, IsHelper);
      assert r.columns == c by {
        assert Gather(t.columns, idx) == c;
      }
      forall i | 0 <= i < |t.rows| ensures r.rows[i] == f.table.rows[i] {
        assert Project(t.rows[i], idx) == f.table.rows[i];
      }
    }
  }

  /** `apply_limviolid_max_filter`: the primary rows of the grouping, with zero rows reported removed. */
  function ApplyLimViolIdMaxFilter(t: Table): (r: (Frame, nat))
    ensures r.1 == 0
    ensures WellFormed(r.0)
    ensures IsEmpty(t) || IdColumn !in t.columns ==> r.0 == Frame(t, None)
  {
    (GetPrimaryRowsOnly(ApplyLimViolIdGrouping(t).0), 0)
  }

  /** Every member of `p` carries the top percent of its group in `m`. */
  predicate TopOfGroups(p: seq<Member>, m: seq<Member>) {
    forall k, j :: 0 <= k < |p| && 0 <= j < |m| && m[j].id == p[k].id ==> PctFirst(p[k].pct, m[j].pct)
  }

  lemma PrimaryMembers(f: Frame)
    requires WellFormed(f) && f.members.Some? && !IsEmpty(f.table)
    ensures GetPrimaryRowsOnly(f).members == Some(Gather(f.members.value, TrueIndices(PrimaryMask(f.members.value))))
  {
  }

  lemma MemberIdsGather(m: seq<Member>, idx: seq<nat>)
    requires forall k :: 0 <= k < |idx| ==> idx[k] < |m|
    ensures MemberIds(Gather(m, idx)) == Gather(MemberIds(m), idx)
  {
  }

  lemma MemberIdsAreIds(rows: seq<seq<Cell>>, idCol: nat, pctCol: Option<nat>)
    ensures MemberIds(Members(rows, idCol, pctCol)) == Ids(rows, idCol)
  {
  }

  lemma PrimaryMaskIsFirst(rows: seq<seq<Cell>>, idCol: nat, pctCol: Option<nat>)
    ensures PrimaryMask(Members(rows, idCol, pctCol)) == FirstMask(Ids(rows, idCol))
  {
    var m := Members(rows, idCol, pctCol);
    var ids := Ids(rows, idCol);
    RankOneIffFirst(rows, idCol, pctCol);
    MemberIdsAreIds(rows, idCol, pctCol);
    forall i | 0 <= i < |m| ensures PrimaryMask(m)[i] == FirstMask(ids)[i] {
      NotInPrefix(ids, i);
    }
  }

  /** The rank-1 rows of a ranking are the first occurrences of each id. */
  lemma PrimaryIdsAreDistinct(columns: seq<string>, rows: seq<seq<Cell>>, idCol: nat, pctCol: Option<nat>)
    requires !IsEmpty(Table(columns, rows))
    ensures var p := GetPrimaryRowsOnly(Frame(Table(columns, rows), Some(Members(rows, idCol, pctCol))));
      p.members.Some? && MemberIds(p.members.value) == Distinct(Ids(rows, idCol))
  {
    var m := Members(rows, idCol, pctCol);
    var ids := Ids(rows, idCol);
    PrimaryMembers(Frame(Table(columns, rows), Some(m)));
    MemberIdsAreIds(rows, idCol, pctCol);
    PrimaryMaskIsFirst(rows, idCol, pctCol);
    MemberIdsGather(m, TrueIndices(PrimaryMask(m)));
    GatherFirstIsDistinct(ids);
  }

  /** Each primary row keeps the top percent of its group. */
  lemma PrimaryKeepsMax(f: Frame)
    requires WellFormed(f) && f.members.Some? && !IsEmpty(f.table) && PrimaryIsMax(f.members.value)
    ensures TopOfGroups(GetPrimaryRowsOnly(f).members.value, f.members.value)
  {
  }

  /** The grouping of a frame with rows and a LimViolID column, spelled out. */
  lemma GroupingShape(t: Table)
    requires !IsEmpty(t) && IdColumn in t.columns
    ensures var idCol := ColumnIndex(t.columns, IdColumn).value;
      var pctCol := ColumnIndex(t.columns, PctColumn);
      var sorted := Sort(t.rows, GroupOrder(idCol, pctCol));
      && ApplyLimViolIdGrouping(t).0 == Frame(Table(t.columns, sorted), Some(Members(sorted, idCol, pctCol)))
      && ApplyLimViolIdGrouping(t).1.groups == |Distinct(Ids(sorted, idCol))|
      && ApplyLimViolIdMaxFilter(t).0 == GetPrimaryRowsOnly(ApplyLimViolIdGrouping(t).0)
  {
  }

  /** The compatibility filter returns one row per LimViolID: the primary rows' ids are the distinct ids in
      order, one per group, each row carrying the top percent of its group. */
  lemma MaxFilterOnePerId(t: Table)
    requires !IsEmpty(t) && IdColumn in t.columns
    ensures var f := ApplyLimViolIdGrouping(t).0;
      var p := ApplyLimViolIdMaxFilter(t).0;
      && p.members.Some?
      && MemberIds(p.members.value) == Distinct(MemberIds(f.members.value))
      && |p.table.rows| == ApplyLimViolIdGrouping(t).1.groups
      && TopOfGroups(p.members.value, f.members.value)
  {
    var idCol := ColumnIndex(t.columns, IdColumn).value;
    var pctCol := ColumnIndex(t.columns, PctColumn);
    var sorted := Sort(t.rows, GroupOrder(idCol, pctCol));
    var m := Members(sorted, idCol, pctCol);
    var f := Frame(Table(t.columns, sorted), Some(m));
    GroupingShape(t);
    MemberIdsAreIds(sorted, idCol, pctCol);
    PrimaryIdsAreDistinct(t.columns, sorted, idCol, pctCol);
    var p := GetPrimaryRowsOnly(f);
    assert |p.table.rows| == |p.members.value| == |Distinct(Ids(sorted, idCol))|;
    MaxFilterTop(t);
  }

  lemma MaxFilterTop(t: Table)
    requires !IsEmpty(t) && IdColumn in t.columns
    ensures TopOfGroups(ApplyLimViolIdMaxFilter(t).0.members.value, ApplyLimViolIdGrouping(t).0.members.value)
  {
    GroupingSpec(t);
    GroupingShape(t);
    PrimaryKeepsMax(ApplyLimViolIdGrouping(t).0);
  }

  /** Every LimViolID of the input keeps a primary row. */
  lemma EveryIdHasPrimary(t: Table, row: seq<Cell>)
    requires !IsEmpty(t) && IdColumn in t.columns && row in t.rows
    ensures RowId(row, ColumnIndex(t.columns, IdColumn).value) in MemberIds(ApplyLimViolIdMaxFilter(t).0.members.value)
  {
    var idCol := ColumnIndex(t.columns, IdColumn).value;
    var pctCol := ColumnIndex(t.columns, PctColumn);
    var sorted := Sort(t.rows, GroupOrder(idCol, pctCol));
    GroupingShape(t);
    MemberIdsAreIds(sorted, idCol, pctCol);
    var ids := Ids(sorted, idCol);
    assert row in multiset(sorted);
    var i :| 0 <= i < |sorted| && sorted[i] == row;
    assert ids[i] == RowId(row, idCol);
    assert RowId(row, idCol) in Distinct(ids);
    MaxFilterOnePerId(t);
  }
}

=== FILE: comparator.dfy ===
/** The scenario comparison engine: reading the blocks of a scenario sheet, keeping the worst
    row per (contingency, issue), joining two sheets and ordering the result by worst loading. */
module Comparator {
  import opened Wrappers
  import opened Text
  import opened Numeric
  import opened Cells
  import opened Sorting

  // ------------------------------------------------------------------
  // Header detection

  /** `_norm_header`: the stripped, lower-cased header text with newlines as spaces. */
  function NormHeader(c: Cell): (h: string)
    ensures |h| <= |CellText(c)|
    ensures '\n' !in h
    ensures forall i :: 0 <= i < |h| ==> !('A' <= h[i] <= 'Z')
    ensures |h| == |StrippedText(c)| && forall i :: 0 <= i < |h| ==>
      h[i] == if StrippedText(c)[i] == '\n' then ' ' else LowerChar(StrippedText(c)[i])
  {
    ReplaceChar(Lower(Strip(CellText(c))), '\n', ' ')
  }

  /** The semantic columns of a scenario block. */
  datatype Role = Ctg | Issue | Limit | Value | Pct

  /** The role one normalised header text gets; the tests are tried in this order and the first wins. */
  function RoleOf(h: string): Option<Role> {
    if h == "" then None
    else if (Contains(h, "contingency") && !Contains(h, "value")) || Contains(h, "ctglabel") then Some(Ctg)
    else if Contains(h, "resulting issue") || Contains(h, "limviolid")
         || (Contains(h, "issue") && Contains(h, "resulting")) then Some(Issue)
    else if Contains(h, "limit") && !Contains(h, "value") then Some(Limit)
    else if Contains(h, "mva") || Contains(h, "contingency value") || h == "value"
         || Contains(h, "limviolvalue") then Some(Value)
    else if Contains(h, "percent") || Contains(h, "loading") || Contains(h, "pct")
         || Contains(h, "limviolpct") then Some(Pct)
    else None
  }

  /** The role of the header cell in column `c` of row `hr`. */
  function RoleAt(ws: Sheet, hr: int, c: int): Option<Role> {
    RoleOf(NormHeader(At(ws, hr, c)))
  }

  /** The header cells in columns B..H (2..8) of row `hr`, column B first. */
  function HeaderCells(ws: Sheet, hr: int): (cells: seq<Cell>)
    ensures |cells| == 7 && forall i :: 0 <= i < 7 ==> cells[i] == At(ws, hr, i + 2)
  {
    seq(7, i requires 0 <= i < 7 => At(ws, hr, i + 2))
  }

  /** The role of each header cell. */
  function Roles(cells: seq<Cell>): (roles: seq<Option<Role>>)
    ensures |roles| == |cells| && forall i :: 0 <= i < |cells| ==> roles[i] == RoleOf(NormHeader(cells[i]))
  {
    seq(|cells|, i requires 0 <= i < |cells| => RoleOf(NormHeader(cells[i])))
  }

  /** The roles of the header cells in columns B..H (2..8) of row `hr`, column B first. */
  function HeaderRoles(ws: Sheet, hr: int): (roles: seq<Option<Role>>)
    ensures |roles| == 7 && forall i :: 0 <= i < 7 ==> roles[i] == RoleAt(ws, hr, i + 2)
  {
    Roles(HeaderCells(ws, hr))
  }

  /** The last index holding `role` among the first `n` roles, or -1 when none does. */
  function LastIndex(roles: seq<Option<Role>>, role: Role, n: nat): (k: int)
    requires n <= |roles|
    ensures -1 <= k < n
    ensures k >= 0 ==> roles[k] == Some(role)
    ensures forall i :: k < i < n ==> roles[i] != Some(role)
  {
    if n == 0 then -1
    else if roles[n - 1] == Some(role) then n - 1
    else LastIndex(roles, role, n - 1)
  }

  /** Detection over header roles where entry `i` is column `i + 2`: each role maps to the last
      column that has it, so a later column overrides an earlier one. */
  function Detect(roles: seq<Option<Role>>): (m: map<Role, int>)
    ensures forall role :: role in m ==> 2 <= m[role] < |roles| + 2 && roles[m[role] - 2] == Some(role)
    ensures forall role, i :: role in m && m[role] - 2 < i < |roles| ==> roles[i] != Some(role)
    ensures forall i :: 0 <= i < |roles| && roles[i].Some? ==> roles[i].value in m
  {
    var m := map role | role in {Ctg, Issue, Limit, Value, Pct} && LastIndex(roles, role, |roles|) >= 0
      :: LastIndex(roles, role, |roles|) + 2;
    forall i | 0 <= i < |roles| && roles[i].Some?
      ensures roles[i].value in m
    {
      var role := roles[i].value;
      assert role.Ctg? || role.Issue? || role.Limit? || role.Value? || role.Pct?;
      assert LastIndex(roles, role, |roles|) >= i;
    }
    m
  }

  /** `_detect_columns`: each role maps to the LAST column among B..H (2..8) whose header has that role. */
  function DetectColumns(ws: Sheet, hr: int): (m: map<Role, int>)
    ensures forall role :: role in m ==> 2 <= m[role] <= 8 && RoleAt(ws, hr, m[role]) == Some(role)
    ensures forall role, c :: role in m && m[role] < c <= 8 ==> RoleAt(ws, hr, c) != Some(role)
    ensures forall c :: 2 <= c <= 8 && RoleAt(ws, hr, c).Some? ==> RoleAt(ws, hr, c).value in m
  {
    var roles := HeaderRoles(ws, hr);
    var m := Detect(roles);
    assert forall c :: 2 <= c <= 8 ==> RoleAt(ws, hr, c) == roles[c - 2];
    m
  }

  lemma ContainsTrans(s: string, p: string, q: string)
    requires Contains(s, p) && Contains(p, q)
    ensures Contains(s, q)
  {
    var i := ContainsWitness(s, p);
    assert s[i..i + |p|] == p;
    ContainsInSlice(s, i, i + |p|, q);
  }

  /** A header containing "value" is never a limit column, and never a contingency column unless it
      names the CTGLabel field. */
  lemma ValueHeaderNotLimit(h: string)
    requires Contains(h, "value")
    ensures RoleOf(h) != Some(Limit)
    ensures RoleOf(h) == Some(Ctg) ==> Contains(h, "ctglabel")
  {
  }

  /** "Contingency Value (MVA)" and the like are value columns, not contingency columns. */
  lemma ContingencyValueIsValue(h: string)
    requires Contains(h, "contingency value")
    requires !Contains(h, "ctglabel") && !Contains(h, "limviolid") && !Contains(h, "resulting")
    ensures RoleOf(h) == Some(Value)
  {
    ContainsAt("contingency value", "value", 12);
    ContainsTrans(h, "contingency value", "value");
    assert Contains(h, "resulting issue") ==> Contains(h, "resulting") by {
      if Contains(h, "resulting issue") {
        ContainsAt("resulting issue", "resulting", 0);
        ContainsTrans(h, "resulting issue", "resulting");
      }
    }
  }

  /** The columns a block is read from, after the fallbacks for undetected headers. */
  datatype Layout = Layout(ctg: int, issue: int, limit: Option<int>, value: Option<int>, pct: Option<int>)

  function Lookup(m: map<Role, int>, role: Role): Option<int> {
    if role in m then Some(m[role]) else None
  }

  /** Detected columns win; otherwise contingency is B and issue is C; with neither value nor percent
      detected the old layout (D value, E percent) applies; a value in E without percent implies F. */
  function LayoutOf(m: map<Role, int>): (lay: Layout)
    ensures Ctg in m ==> lay.ctg == m[Ctg]
    ensures Issue in m ==> lay.issue == m[Issue]
    ensures lay.limit == Lookup(m, Limit)
    ensures Pct in m ==> lay.pct == Some(m[Pct])
    ensures Value in m ==> lay.value == Some(m[Value])
    ensures lay.pct.None? <==> Pct !in m && Value in m && m[Value] != 5
    ensures Ctg !in m ==> lay.ctg == 2
    ensures Issue !in m ==> lay.issue == 3
    ensures Value !in m && Pct !in m ==> lay.value == Some(4) && lay.pct == Some(5)
    ensures Value !in m && Pct in m ==> lay.value == None
    ensures Pct !in m && Value in m && m[Value] == 5 ==> lay.pct == Some(6)
  {
    var v0 := Lookup(m, Value);
    var p0 := Lookup(m, Pct);
    var v1 := if v0.None? && p0.None? then Some(4) else v0;
    var p1 := if v0.None? && p0.None? then Some(5) else p0;
    var p2 := if p1.None? && v1 == Some(5) then Some(6) else p1;
    Layout(if Ctg in m then m[Ctg] else 2, if Issue in m then m[Issue] else 3, Lookup(m, Limit), v1, p2)
  }

  // ------------------------------------------------------------------
  // Scenario sheet parsing

  /** One row of a parsed scenario sheet. `limit`, `value` and `pct` keep the raw cell, with a
      missing cell read as the empty string. */
  datatype ScenarioRow = ScenarioRow(caseType: string, ctg: string, id: string, limit: Cell, value: Cell, pct: Cell)

  /** The canonical case types, in the order pair sheets list them. */
  const CaseTypes: seq<string> := ["ACCA_LongTerm", "ACCA_P1,2,4,7", "DCwACver_P1-7"]

  predicate IsBlockTitle(t: string) {
    t == "ACCA LongTerm" || t == "ACCA" || t == "DCwAC"
  }

  /** The case type a block title stands for. */
  function CanonicalCaseType(title: string): (ct: string)
    requires IsBlockTitle(title)
    ensures ct in CaseTypes
  {
    if title == "ACCA LongTerm" then "ACCA_LongTerm"
    else if title == "ACCA" then "ACCA_P1,2,4,7"
    else "DCwACver_P1-7"
  }

  /** `ws.max_row or 1`. */
  function MaxR(ws: Sheet): nat {
    if ws.maxRow == 0 then 1 else ws.maxRow
  }

  /** `"" if v is None else v`. */
  function Present(c: Cell): Cell {
    if c.Empty? then Str("") else c
  }

  function CellIn(ws: Sheet, r: int, col: Option<int>): Cell {
    match col
    case None => Empty
    case Some(c) => At(ws, r, c)
  }

  function RowAt(ws: Sheet, lay: Layout, ct: string, r: int): ScenarioRow {
    ScenarioRow(ct, StrippedText(At(ws, r, lay.ctg)), StrippedText(At(ws, r, lay.issue)),
                Present(CellIn(ws, r, lay.limit)), Present(CellIn(ws, r, lay.value)),
                Present(CellIn(ws, r, lay.pct)))
  }

  /** A row whose contingency and issue cells are both blank ends a block. */
  predicate BlankRow(ws: Sheet, lay: Layout, r: int) {
    StrippedText(At(ws, r, lay.ctg)) == "" && StrippedText(At(ws, r, lay.issue)) == ""
  }

  /** The first row at or after `r` that is blank or past the sheet: the row that ends a block read from `r`. */
  function BlockEnd(ws: Sheet, lay: Layout, r: int): (e: int)
    ensures r <= e && (e <= MaxR(ws) + 1 || e == r)
    ensures forall k :: r <= k < e ==> !BlankRow(ws, lay, k)
    ensures e <= MaxR(ws) ==> BlankRow(ws, lay, e)
    decreases if r <= MaxR(ws) then MaxR(ws) + 1 - r else 0
  {
    if r > MaxR(ws) || BlankRow(ws, lay, r) then r else BlockEnd(ws, lay, r + 1)
  }

  /** The data rows of the block read from row `r`: every row up to the one that ends the block. */
  function BlockRows(ws: Sheet, lay: Layout, ct: string, r: int): (rows: seq<ScenarioRow>)
    ensures |rows| == BlockEnd(ws, lay, r) - r
    ensures forall i :: 0 <= i < |rows| ==> rows[i] == RowAt(ws, lay, ct, r + i)
    ensures forall i :: 0 <= i < |rows| ==> rows[i].caseType == ct
  {
    var e := BlockEnd(ws, lay, r);
    seq(e - r, i requires 0 <= i < e - r => RowAt(ws, lay, ct, r + i))
  }

  /** The stripped text of column B of row `t`, where block titles are looked for. */
  function TitleAt(ws: Sheet, t: int): string {
    StrippedText(At(ws, t, 2))
  }

  /** The columns of the block titled at row `t`, detected on the header row `t + 1`. */
  function LayoutAt(ws: Sheet, t: int): Layout {
    LayoutOf(DetectColumns(ws, t + 1))
  }

  /** The data rows of the block titled at row `t`: read from row `t + 2` up to the row that ends it. */
  function TitleBlock(ws: Sheet, t: int): (rows: seq<ScenarioRow>)
    requires IsBlockTitle(TitleAt(ws, t))
    ensures |rows| == BlockEnd(ws, LayoutAt(ws, t), t + 2) - (t + 2)
    ensures forall i :: 0 <= i < |rows| ==> rows[i] == RowAt(ws, LayoutAt(ws, t), CanonicalCaseType(TitleAt(ws, t)), t + 2 + i)
    ensures forall i :: 0 <= i < |rows| ==> rows[i].caseType in CaseTypes
  {
    BlockRows(ws, LayoutAt(ws, t), CanonicalCaseType(TitleAt(ws, t)), t + 2)
  }

  /** The row the scan resumes at after the block titled at row `t`: one past the row that ended it. */
  function Resume(ws: Sheet, t: int): (n: int)
    ensures n >= t + 3
  {
    BlockEnd(ws, LayoutAt(ws, t), t + 2) + 1
  }

  /** The rows a scan over `r..last` starts at: a row where `isStart` holds is a start, after which the
      scan jumps to `next` of it; any other row is passed over. */
  function Starts(isStart: int -> bool, next: int -> int, r: int, last: int): (ts: seq<int>)
    requires forall t :: next(t) > t
    ensures forall i :: 0 <= i < |ts| ==> r <= ts[i] <= last && isStart(ts[i])
    ensures forall i :: 0 < i < |ts| ==> next(ts[i - 1]) <= ts[i]
    decreases if r <= last then last + 1 - r else 0
  {
    if r > last then []
    else if isStart(r) then
      var rest := Starts(isStart, next, next(r), last);
      assert forall i :: 0 < i < |rest| + 1 ==> ([r] + rest)[i] == rest[i - 1];
      [r] + rest
    else Starts(isStart, next, r + 1, last)
  }

  /** Every row of `r..last` where `isStart` holds is a start, unless the scan jumped over it. */
  lemma {:induction false} StartsComplete(isStart: int -> bool, next: int -> int, r: int, last: int, k: int)
    requires forall t :: next(t) > t
    requires r <= k <= last && isStart(k)
    requires forall t :: t in Starts(isStart, next, r, last) ==> !(t < k < next(t))
    ensures k in Starts(isStart, next, r, last)
    decreases if r <= last then last + 1 - r else 0
  {
    var ts := Starts(isStart, next, r, last);
    if r < k {
      if isStart(r) {
        var rest := Starts(isStart, next, next(r), last);
        assert ts == [r] + rest;
        StartsComplete(isStart, next, next(r), last, k);
      } else {
        StartsComplete(isStart, next, r + 1, last, k);
      }
    }
  }

  /** A scan over rows none of which is a start starts nowhere. */
  lemma {:induction false} StartsNone(isStart: int -> bool, next: int -> int, r: int, last: int)
    requires forall t :: next(t) > t
    requires forall t :: r <= t <= last ==> !isStart(t)
    ensures Starts(isStart, next, r, last) == []
    decreases if r <= last then last + 1 - r else 0
  {
    if r <= last {
      StartsNone(isStart, next, r + 1, last);
    }
  }

  /** The test for a block title in column B. */
  function TitleTest(ws: Sheet): int -> bool {
    t => IsBlockTitle(TitleAt(ws, t))
  }

  /** The jump past the block titled at a row. */
  function ResumeAfter(ws: Sheet): (f: int -> int)
    ensures forall t :: f(t) > t
  {
    t => Resume(ws, t)
  }

  /** The rows at which the scan from row `r` starts a block, in order. */
  function BlockStarts(ws: Sheet, r: int): (ts: seq<int>)
    ensures forall i :: 0 <= i < |ts| ==> r <= ts[i] <= MaxR(ws) && IsBlockTitle(TitleAt(ws, ts[i]))
    ensures forall i :: 0 < i < |ts| ==> Resume(ws, ts[i - 1]) <= ts[i]
  {
    Starts(TitleTest(ws), ResumeAfter(ws), r, MaxR(ws))
  }

  /** Row `k` lies inside the span of the block titled at `t`: its header, data or ending row. */
  predicate Inside(ws: Sheet, t: int, k: int) {
    t < k < Resume(ws, t)
  }

  /** Every row from `r` on whose column B is a block title starts a block, unless it lies inside the
      span of a block started before it. */
  lemma BlockStartsComplete(ws: Sheet, r: int, k: int)
    requires r <= k <= MaxR(ws) && IsBlockTitle(TitleAt(ws, k))
    requires forall t :: t in BlockStarts(ws, r) ==> !Inside(ws, t, k)
    ensures k in BlockStarts(ws, r)
  {
    var f, g := TitleTest(ws), ResumeAfter(ws);
    assert f(k);
    assert forall t :: t in Starts(f, g, r, MaxR(ws)) ==> !(t < k < g(t)) by {
      forall t | t in Starts(f, g, r, MaxR(ws)) ensures !(t < k < g(t)) {
        assert !Inside(ws, t, k);
      }
    }
    StartsComplete(f, g, r, MaxR(ws), k);
  }

  /** The blocks titled at the rows `ts`, one after the other. */
  function BlocksAt(ws: Sheet, ts: seq<int>): (rows: seq<ScenarioRow>)
    requires forall i :: 0 <= i < |ts| ==> IsBlockTitle(TitleAt(ws, ts[i]))
    ensures forall i :: 0 <= i < |rows| ==> rows[i].caseType in CaseTypes
  {
    if |ts| == 0 then []
    else
      TitleBlock(ws, ts[0]) + BlocksAt(ws, ts[1..])
  }

  /** The scan over rows `r..`: a row whose column B is exactly a block title starts a block whose header
      is the next row, and after a block the scan resumes one row past the row that ended it. The rows
      are those of every block the scan starts, in row order. */
  function ScanBlocks(ws: Sheet, r: int): (rows: seq<ScenarioRow>)
    ensures forall i :: 0 <= i < |rows| ==> rows[i].caseType in CaseTypes
  {
    BlocksAt(ws, BlockStarts(ws, r))
  }

  /** A sheet in which column B never holds a block title yields no rows. */
  lemma NoTitleNoRows(ws: Sheet, r: int)
    requires forall k :: r <= k <= MaxR(ws) ==> !IsBlockTitle(TitleAt(ws, k))
    ensures ScanBlocks(ws, r) == []
  {
    StartsNone(TitleTest(ws), ResumeAfter(ws), r, MaxR(ws));
  }

  /** The id most recently given, before row `i`, by a row of case type `ct`; "" when there is none. */
  function LastId(rows: seq<ScenarioRow>, i: int, ct: string): string
    requires 0 <= i <= |rows|
    decreases i
  {
    if i == 0 then ""
    else if rows[i - 1].caseType == ct && rows[i - 1].id != "" then rows[i - 1].id
    else LastId(rows, i - 1, ct)
  }

  /** The id row `i` ends with: its own, or else the one it inherits within its case type. */
  function FilledId(rows: seq<ScenarioRow>, i: int): string
    requires 0 <= i < |rows|
  {
    if rows[i].id != "" then rows[i].id else LastId(rows, i, rows[i].caseType)
  }

  /** The forward fill over rows `i..`, carrying the last non-blank id per case type in `last`. */
  function FillFrom(rows: seq<ScenarioRow>, i: int, last: map<string, string>): (out: seq<ScenarioRow>)
    requires 0 <= i <= |rows|
    requires forall ct :: LastId(rows, i, ct) == (if ct in last then last[ct] else "")
    ensures |out| == |rows| - i
    ensures forall k :: 0 <= k < |out| ==> out[k] == rows[i + k].(id := FilledId(rows, i + k))
    decreases |rows| - i
  {
    if i == |rows| then []
    else
      var r := rows[i];
      var id := if r.id != "" then r.id else if r.caseType in last then last[r.caseType] else "";
      var last' := if r.id != "" then last[r.caseType := r.id] else last;
      assert id == FilledId(rows, i);
      LastIdStep(rows, i, last, last');
      var tail := FillFrom(rows, i + 1, last');
      [r.(id := id)] + tail
  }

  /** Stepping over row `i` keeps `last` the map of last ids: a row with an id records it for its case type. */
  lemma LastIdStep(rows: seq<ScenarioRow>, i: int, last: map<string, string>, last': map<string, string>)
    requires 0 <= i < |rows|
    requires forall ct :: LastId(rows, i, ct) == (if ct in last then last[ct] else "")
    requires last' == if rows[i].id != "" then last[rows[i].caseType := rows[i].id] else last
    ensures forall ct :: LastId(rows, i + 1, ct) == (if ct in last' then last'[ct] else "")
  {
  }

  /** `groupby("CaseType")["LimViolID"].ffill()` with blank ids as missing and "" where nothing precedes. */
  function FillIds(rows: seq<ScenarioRow>): (out: seq<ScenarioRow>)
    ensures |out| == |rows|
    ensures forall k :: 0 <= k < |rows| ==> out[k] == rows[k].(id := FilledId(rows, k))
  {
    FillFrom(rows, 0, map[])
  }

  /** A blank id takes the id of the nearest earlier row of the same case type that has one. */
  lemma {:induction false} LastIdIsNearest(rows: seq<ScenarioRow>, i: int, ct: string)
    requires 0 <= i <= |rows|
    ensures LastId(rows, i, ct) != "" ==>
      exists j :: 0 <= j < i && rows[j].caseType == ct && rows[j].id == LastId(rows, i, ct)
                  && forall k :: j < k < i ==> !(rows[k].caseType == ct && rows[k].id != "")
    ensures LastId(rows, i, ct) == "" ==> forall k :: 0 <= k < i ==> !(rows[k].caseType == ct && rows[k].id != "")
    decreases i
  {
    if i > 0 {
      LastIdIsNearest(rows, i - 1, ct);
      if !(rows[i - 1].caseType == ct && rows[i - 1].id != "") && LastId(rows, i, ct) != "" {
        var j :| 0 <= j < i - 1 && rows[j].caseType == ct && rows[j].id == LastId(rows, i - 1, ct)
                 && forall k :: j < k < i - 1 ==> !(rows[k].caseType == ct && rows[k].id != "");
        assert forall k :: j < k < i ==> !(rows[k].caseType == ct && rows[k].id != "");
      }
    }
  }

  /** `_parse_scenario_sheet` on the sheet itself: every block, in sheet order, with ids filled forward. */
  function ParseScenarioSheet(ws: Sheet): (rows: seq<ScenarioRow>)
    ensures forall i :: 0 <= i < |rows| ==> rows[i].caseType in CaseTypes
    ensures |rows| == |ScanBlocks(ws, 1)|
    ensures forall k :: 0 <= k < |rows| ==> rows[k] == ScanBlocks(ws, 1)[k].(id := FilledId(ScanBlocks(ws, 1), k))
  {
    FillIds(ScanBlocks(ws, 1))
  }

  // ------------------------------------------------------------------
  // Keep-worst de-duplication

  /** A row of one side reduced to what the comparison uses: its key, its percent read as a number
      (`None` standing for NaN) and its raw limit cell. */
  datatype Scored = Scored(ctg: string, id: string, pct: Option<real>, limit: Cell)

  function KeyOf(x: Scored): (string, string) {
    (x.ctg, x.id)
  }

  /** `_pct_num = _to_float(LimViolPct)`. */
  function ScoreRow(r: ScenarioRow): Scored {
    Scored(r.ctg, r.id, ToNumber(r.pct), r.limit)
  }

  /** The rows of case type `ct`, scored. */
  function SelectCaseType(rows: seq<ScenarioRow>, ct: string): (s: seq<Scored>)
    ensures |s| <= |rows|
    ensures forall x :: x in s <==> exists i :: 0 <= i < |rows| && rows[i].caseType == ct && x == ScoreRow(rows[i])
  {
    if |rows| == 0 then []
    else
      var rest := SelectCaseType(rows[1..], ct);
      assert forall i :: 0 < i < |rows| ==> rows[i] == rows[1..][i - 1];
      if rows[0].caseType == ct then [ScoreRow(rows[0])] + rest else rest
  }

  predicate WorseOrEqual(x: Scored, y: Scored) {
    PctFirst(x.pct, y.pct)
  }

  lemma WorseOrEqualIsPreorder()
    ensures TotalPreorder(WorseOrEqual)
  {
  }

  /** The distinct keys of `s`, in order of first appearance. */
  function Keys(s: seq<Scored>): (ks: seq<(string, string)>)
    ensures forall i, j :: 0 <= i < j < |ks| ==> ks[i] != ks[j]
    ensures forall i :: 0 <= i < |s| ==> KeyOf(s[i]) in ks
    ensures forall k :: k in ks ==> exists i :: 0 <= i < |s| && KeyOf(s[i]) == k
  {
    if |s| == 0 then []
    else
      var init := s[..|s| - 1];
      var ks := Keys(init);
      assert forall i :: 0 <= i < |s| - 1 ==> s[i] == init[i];
      if KeyOf(s[|s| - 1]) in ks then ks else ks + [KeyOf(s[|s| - 1])]
  }

  /** The rows of `s` with key `k`, in their original order. */
  function WithKey(s: seq<Scored>, k: (string, string)): (r: seq<Scored>)
    ensures forall i :: 0 <= i < |r| ==> r[i] in s && KeyOf(r[i]) == k
    ensures forall i :: 0 <= i < |s| && KeyOf(s[i]) == k ==> s[i] in r
  {
    if |s| == 0 then []
    else
      var rest := WithKey(s[1..], k);
      assert forall i :: 0 < i < |s| ==> s[i] == s[1..][i - 1];
      if KeyOf(s[0]) == k then [s[0]] + rest else rest
  }

  /** The row kept for key `k`: the first, in input order, of those with the largest percent. */
  function WorstOf(s: seq<Scored>, k: (string, string)): Scored
    requires k in Keys(s)
  {
    var i :| 0 <= i < |s| && KeyOf(s[i]) == k;
    assert s[i] in WithKey(s, k);
    FirstLeast(WithKey(s, k), WorseOrEqual)
  }

  /** Sorting by key and descending percent (NaN last) with a stable sort, then dropping all but
      the first row of each key: one row per key, the worst one, earliest on ties. */
  function KeepWorst(s: seq<Scored>): (r: seq<Scored>)
    ensures |r| == |Keys(s)|
    ensures forall i :: 0 <= i < |r| ==> r[i] == WorstOf(s, Keys(s)[i])
  {
    var ks := Keys(s);
    seq(|ks|, i requires 0 <= i < |ks| => WorstOf(s, ks[i]))
  }

  /** What keep-worst keeps for each key: a row of the input with that key whose percent is at least
      every other percent of the key (NaN counting as least), and no earlier row of the key has a
      percent as large. */
  lemma WorstOfSpec(s: seq<Scored>, k: (string, string)) returns (m: int)
    requires k in Keys(s)
    ensures WorstOf(s, k) in s && KeyOf(WorstOf(s, k)) == k
    ensures 0 <= m < |WithKey(s, k)| && WithKey(s, k)[m] == WorstOf(s, k)
    ensures forall i :: 0 <= i < |s| && KeyOf(s[i]) == k ==> PctFirst(WorstOf(s, k).pct, s[i].pct)
    ensures forall j :: 0 <= j < m ==> !PctFirst(WithKey(s, k)[j].pct, WorstOf(s, k).pct)
  {
    WorseOrEqualIsPreorder();
    var w := WithKey(s, k);
    assert |w| > 0 && WorstOf(s, k) == FirstLeast(w, WorseOrEqual);
    m := FirstLeastIsFirst(w, WorseOrEqual);
    forall i | 0 <= i < |s| && KeyOf(s[i]) == k
      ensures PctFirst(w[m].pct, s[i].pct)
    {
      assert s[i] in w;
      var j :| 0 <= j < |w| && w[j] == s[i];
      assert WorseOrEqual(w[m], w[j]);
    }
  }

  /** Keep-worst leaves exactly one row per key of its input, and every row it keeps is an input row. */
  lemma {:induction false} KeepWorstKeys(s: seq<Scored>)
    ensures forall i, j :: 0 <= i < j < |KeepWorst(s)| ==> KeyOf(KeepWorst(s)[i]) != KeyOf(KeepWorst(s)[j])
    ensures forall i :: 0 <= i < |s| ==> exists j :: 0 <= j < |KeepWorst(s)| && KeyOf(KeepWorst(s)[j]) == KeyOf(s[i])
    ensures forall j :: 0 <= j < |KeepWorst(s)| ==> KeepWorst(s)[j] in s
  {
    var r := KeepWorst(s);
    var ks := Keys(s);
    forall j | 0 <= j < |r|
      ensures KeyOf(r[j]) == ks[j] && r[j] in s
    {
      var _ := WorstOfSpec(s, ks[j]);
    }
    forall i | 0 <= i < |s|
      ensures exists j :: 0 <= j < |r| && KeyOf(r[j]) == KeyOf(s[i])
    {
      var j :| 0 <= j < |ks| && ks[j] == KeyOf(s[i]);
      assert KeyOf(r[j]) == KeyOf(s[i]);
    }
  }

  // ------------------------------------------------------------------
  // Outer join

  /** One side of a joined key: its kept percent and limit cell. */
  datatype Side = Side(pct: Option<real>, limit: Cell)

  /** The side the first row with key `k` gives, if any row has that key. */
  function FindSide(s: seq<Scored>, k: (string, string)): (o: Option<Side>)
    ensures o.Some? <==> exists i :: 0 <= i < |s| && KeyOf(s[i]) == k
    ensures o.Some? ==> exists i :: 0 <= i < |s| && KeyOf(s[i]) == k && o.value == Side(s[i].pct, s[i].limit)
  {
    if |s| == 0 then None
    else if KeyOf(s[0]) == k then Some(Side(s[0].pct, s[0].limit))
    else
      var o := FindSide(s[1..], k);
      assert forall i :: 0 < i < |s| ==> s[i] == s[1..][i - 1];
      o
  }

  /** A row of the outer merge on (CTGLabel, LimViolID). */
  datatype Joined = Joined(ctg: string, id: string, left: Option<Side>, right: Option<Side>)

  /** `pd.merge(left, right, on=keys, how="outer")` for inputs with one row per key: one row for every
      key of either side, carrying what each side has for it. Rows are in first-appearance order of
      the keys, left first; the comparison sorts them afterwards, so this order is not observable. */
  function OuterJoin(l: seq<Scored>, r: seq<Scored>): (j: seq<Joined>)
    ensures forall i :: 0 <= i < |j| ==>
      j[i].left == FindSide(l, (j[i].ctg, j[i].id)) && j[i].right == FindSide(r, (j[i].ctg, j[i].id))
  {
    var ks := Keys(l + r);
    seq(|ks|, i requires 0 <= i < |ks| => Joined(ks[i].0, ks[i].1, FindSide(l, ks[i]), FindSide(r, ks[i])))
  }

  /** The merged keys are exactly the keys of either side, each once, and each merged row has at least
      one side. */
  lemma {:induction false} OuterJoinKeys(l: seq<Scored>, r: seq<Scored>)
    ensures forall i, k :: 0 <= i < k < |OuterJoin(l, r)| ==>
      (OuterJoin(l, r)[i].ctg, OuterJoin(l, r)[i].id) != (OuterJoin(l, r)[k].ctg, OuterJoin(l, r)[k].id)
    ensures forall i :: 0 <= i < |OuterJoin(l, r)| ==> OuterJoin(l, r)[i].left.Some? || OuterJoin(l, r)[i].right.Some?
    ensures forall key :: (exists i :: 0 <= i < |OuterJoin(l, r)| && (OuterJoin(l, r)[i].ctg, OuterJoin(l, r)[i].id) == key)
                          <==> FindSide(l, key).Some? || FindSide(r, key).Some?
  {
    var j := OuterJoin(l, r);
    var lr := l + r;
    var ks := Keys(lr);
    assert forall i :: 0 <= i < |j| ==> (j[i].ctg, j[i].id) == ks[i];
    forall i | 0 <= i < |j|
      ensures j[i].left.Some? || j[i].right.Some?
    {
      assert ks[i] in ks;
      var n :| 0 <= n < |lr| && KeyOf(lr[n]) == ks[i];
      if n < |l| {
        assert lr[n] == l[n];
      } else {
        assert lr[n] == r[n - |l|];
      }
    }
    forall key | FindSide(l, key).Some? || FindSide(r, key).Some?
      ensures exists i :: 0 <= i < |j| && (j[i].ctg, j[i].id) == key
    {
      var n: int;
      if FindSide(l, key).Some? {
        n :| 0 <= n < |l| && KeyOf(l[n]) == key;
        assert lr[n] == l[n];
      } else {
        var m :| 0 <= m < |r| && KeyOf(r[m]) == key;
        n := |l| + m;
        assert lr[n] == r[m];
      }
      assert key in ks;
      var i :| 0 <= i < |ks| && ks[i] == key;
      assert (j[i].ctg, j[i].id) == key;
    }
  }

  // ------------------------------------------------------------------
  // Limit display

  /** Two limits closer than this count as the same number. */
  const LimitTolerance: real := 0.000000001

  /** `_choose_limit` on the stripped texts of the two sides: one value when the sides agree (as
      numbers within the tolerance, or as text), both labelled when they differ, and whichever exists
      when only one is non-blank. Numbers are shown through `fmtG`, the `:g` formatter. */
  function ChooseLimit(l: string, r: string, fmtG: real -> string): (out: string)
    ensures l == "" ==> out == r
    ensures r == "" ==> out == l
  {
    if l != "" && r != "" then
      var lf := ToNumber(Str(l));
      var rf := ToNumber(Str(r));
      if lf.Some? && rf.Some? then
        var d := lf.value - rf.value;
        if -LimitTolerance < d < LimitTolerance then fmtG(lf.value)
        else "L:" + fmtG(lf.value) + " | R:" + fmtG(rf.value)
      else if l == r then l
      else "L:" + l + " | R:" + r
    else if l != "" then l
    else r
  }

  /** Two non-blank limits that both read as numbers give one `:g` value when they agree within the
      tolerance, and both values labelled otherwise. */
  lemma ChooseLimitNumbers(l: string, r: string, fmtG: real -> string)
    requires l != "" && r != ""
    requires ToNumber(Str(l)).Some? && ToNumber(Str(r)).Some?
    ensures var lf, rf := ToNumber(Str(l)).value, ToNumber(Str(r)).value;
      ChooseLimit(l, r, fmtG) ==
        if -LimitTolerance < lf - rf < LimitTolerance then fmtG(lf) else "L:" + fmtG(lf) + " | R:" + fmtG(rf)
  {
  }

  /** Both sides showing the same limit give a single value, never an "L:… | R:…" pair. */
  lemma ChooseLimitAgree(x: string, fmtG: real -> string)
    requires x != ""
    ensures ChooseLimit(x, x, fmtG) == (if ToNumber(Str(x)).Some? then fmtG(ToNumber(Str(x)).value) else x)
  {
  }

  /** Two non-blank limits that differ as text, and are not both numbers, are shown side by side. */
  lemma ChooseLimitDiffer(l: string, r: string, fmtG: real -> string)
    requires l != "" && r != "" && l != r
    requires ToNumber(Str(l)).None? || ToNumber(Str(r)).None?
    ensures ChooseLimit(l, r, fmtG) == "L:" + l + " | R:" + r
  {
  }

  /** The text of a side's limit cell, `str(v).strip()`, with a missing side read as blank. */
  function LimitText(side: Option<Side>): (t: string)
    ensures side.None? ==> t == ""
    ensures side.Some? ==> t == StrippedText(side.value.limit)
  {
    match side
    case None => ""
    case Some(sd) => StrippedText(sd.limit)
  }

  /** What the merged frame hands `_choose_limit` for a side: the outer merge fills a missing side with
      NaN, whose text is "nan". */
  function LimitTextAsWritten(side: Option<Side>): (t: string)
    ensures side.None? ==> t == "nan" && t != LimitText(side)
    ensures side.Some? ==> t == LimitText(side)
  {
    if side.None? then "nan" else LimitText(side)
  }

  /** A key present only on the right, with limit cell `100`, is displayed as "L:nan | R:100" as
      written, where the corrected reading shows "100". */
  lemma RightOnlyLimitAsWritten(fmtG: real -> string)
    ensures ChooseLimit(LimitTextAsWritten(None), LimitTextAsWritten(Some(Side(None, Str("100")))), fmtG)
            == "L:" + "nan" + " | R:" + "100"
    ensures ChooseLimit(LimitText(None), LimitText(Some(Side(None, Str("100")))), fmtG) == "100"
  {
    HundredLimitText();
    NanVersusHundred(fmtG);
  }

  lemma HundredLimitText()
    ensures LimitTextAsWritten(Some(Side(None, Str("100")))) == "100"
    ensures LimitText(Some(Side(None, Str("100")))) == "100"
  {
    StripUnchanged("100");
  }

  lemma NanVersusHundred(fmtG: real -> string)
    ensures ChooseLimit("nan", "100", fmtG) == "L:" + "nan" + " | R:" + "100"
  {
    NanIsNotNumber();
    assert "nan"[0] != "100"[0];
    ChooseLimitDiffer("nan", "100", fmtG);
  }

  /** The text "nan" does not read as a number in the model; Python reads it as NaN, which
      `_choose_limit` treats the same way. */
  lemma NanIsNotNumber()
    ensures ToNumber(Str("nan")).None?
  {
    StripUnchanged("nan");
    var t := RemoveChar("nan", '%');
    assert forall i :: 0 <= i < |t| ==> t[i] in "nan";
    StripUnchanged(t);
    DecimalNeedsDigit(t);
  }

  /** With the corrected reading, a key present on one side only shows that side's limit. */
  lemma OneSidedLimit(side: Side, fmtG: real -> string)
    ensures ChooseLimit(LimitText(None), LimitText(Some(side)), fmtG) == StrippedText(side.limit)
    ensures ChooseLimit(LimitText(Some(side)), LimitText(None), fmtG) == StrippedText(side.limit)
  {
  }

  // ------------------------------------------------------------------
  // Comparison rows

  /** A row of a case-type comparison. `None` percents and delta stand for NaN. */
  datatype CompRow = CompRow(contingency: string, issue: string, limit: string,
                             left: Option<real>, right: Option<real>, delta: Option<real>)

  function PctOf(side: Option<Side>): Option<real> {
    match side
    case None => None
    case Some(sd) => sd.pct
  }

  /** `_delta`: right minus left when both percents are numbers. */
  function Delta(l: Option<real>, r: Option<real>): (d: Option<real>)
    ensures d.Some? <==> l.Some? && r.Some?
    ensures d.Some? ==> l.value + d.value == r.value
  {
    if l.Some? && r.Some? then Some(r.value - l.value) else None
  }

  /** The display row of one merged key. */
  function ToCompRow(j: Joined, fmtG: real -> string): (c: CompRow)
    ensures c.contingency == j.ctg && c.issue == j.id
    ensures c.left == PctOf(j.left) && c.right == PctOf(j.right)
    ensures c.delta == Delta(c.left, c.right)
    ensures j.left.None? ==> c.limit == LimitText(j.right)
    ensures j.right.None? ==> c.limit == LimitText(j.left)
    ensures j.left.Some? && j.right.Some? ==>
      c.limit == ChooseLimit(StrippedText(j.left.value.limit), StrippedText(j.right.value.limit), fmtG)
  {
    CompRow(j.ctg, j.id, ChooseLimit(LimitText(j.left), LimitText(j.right), fmtG),
            PctOf(j.left), PctOf(j.right), Delta(PctOf(j.left), PctOf(j.right)))
  }

  /** The larger of the numeric percents of a row, `None` when neither side has one. */
  function MaxPct(l: Option<real>, r: Option<real>): (m: Option<real>)
    ensures m.None? <==> l.None? && r.None?
    ensures m.Some? ==> (l.Some? ==> l.value <= m.value) && (r.Some? ==> r.value <= m.value)
    ensures m.Some? ==> m == l || m == r
  {
    if l.Some? && r.Some? then Some(if l.value >= r.value then l.value else r.value)
    else if l.Some? then l
    else r
  }

  function RowMax(c: CompRow): Option<real> {
    MaxPct(c.left, c.right)
  }

  /** The output order: larger maximum first, rows without a maximum last, then contingency and
      resulting issue ascending. */
  predicate WorstFirst(a: CompRow, b: CompRow) {
    var ma := RowMax(a);
    var mb := RowMax(b);
    if ma.Some? && mb.Some? && ma.value != mb.value then ma.value > mb.value
    else if ma.Some? != mb.Some? then ma.Some?
    else if a.contingency != b.contingency then LexLess(a.contingency, b.contingency)
    else LexLessEq(a.issue, b.issue)
  }

  lemma WorstFirstTotal(a: CompRow, b: CompRow)
    ensures WorstFirst(a, b) || WorstFirst(b, a)
  {
    LexLessTotal(a.contingency, b.contingency);
    LexLessTotal(a.issue, b.issue);
  }

  lemma WorstFirstTransitive(a: CompRow, b: CompRow, c: CompRow)
    requires WorstFirst(a, b) && WorstFirst(b, c)
    ensures WorstFirst(a, c)
  {
    if a.contingency != b.contingency && LexLess(a.contingency, b.contingency)
       && b.contingency != c.contingency && LexLess(b.contingency, c.contingency) {
      LexLessTransitive(a.contingency, b.contingency, c.contingency);
    }
    if a.contingency != b.contingency && LexLess(a.contingency, b.contingency) && a.contingency == c.contingency {
      LexLessAsymmetric(a.contingency, b.contingency);
    }
    if LexLess(a.issue, b.issue) && LexLess(b.issue, c.issue) {
      LexLessTransitive(a.issue, b.issue, c.issue);
    }
    if LexLess(a.issue, b.issue) && a.issue == c.issue {
      LexLessAsymmetric(a.issue, b.issue);
    }
  }

  lemma WorstFirstIsPreorder()
    ensures TotalPreorder(WorstFirst)
  {
    forall a, b ensures WorstFirst(a, b) || WorstFirst(b, a) {
      WorstFirstTotal(a, b);
    }
    forall a, b, c | WorstFirst(a, b) && WorstFirst(b, c) ensures WorstFirst(a, c) {
      WorstFirstTransitive(a, b, c);
    }
  }

  /** The merged rows ordered worst first. The keys are distinct, so the order is strict and the
      result does not depend on the merge order. */
  function OrderWorstFirst(rows: seq<CompRow>): (out: seq<CompRow>)
    ensures multiset(out) == multiset(rows)
    ensures SortedBy(out, WorstFirst)
  {
    WorstFirstIsPreorder();
    SortSorted(rows, WorstFirst);
    Sort(rows, WorstFirst)
  }

  /** `out.head(max_rows)` when `max_rows` is given and positive. */
  function Truncate(rows: seq<CompRow>, maxRows: Option<int>): (out: seq<CompRow>)
    ensures maxRows.Some? && maxRows.value > 0 && maxRows.value < |rows| ==> out == rows[..maxRows.value]
    ensures !(maxRows.Some? && maxRows.value > 0 && maxRows.value < |rows|) ==> out == rows
  {
    if maxRows.Some? && maxRows.value > 0 && maxRows.value < |rows| then rows[..maxRows.value] else rows
  }

  // ------------------------------------------------------------------
  // Comparisons

  /** The errors a comparison can end in. */
  datatype CompareError =
    | SheetNotFound(name: string)   // `ValueError("Sheet not found: …")`
    | NoCaseTypeColumn              // a sheet without any block parses to a frame without columns: `KeyError('CaseType')`
    | NoPairs                       // `ValueError("No comparison pairs provided.")`

  /** `_parse_scenario_sheet(workbook, name)`. */
  function ParseNamedSheet(wb: Workbook, name: string): (r: Result<seq<ScenarioRow>, CompareError>)
    ensures r.Failure? <==> FindSheet(wb, name).None?
    ensures r.Failure? ==> r.error == SheetNotFound(name)
  {
    match FindSheet(wb, name)
    case None => Failure(SheetNotFound(name))
    case Some(ws) => Success(ParseScenarioSheet(ws))
  }

  /** The display rows of the merged keys, in merge order. */
  function ToCompRows(j: seq<Joined>, fmtG: real -> string): (rows: seq<CompRow>)
    ensures |rows| == |j| && forall i :: 0 <= i < |j| ==> rows[i] == ToCompRow(j[i], fmtG)
  {
    seq(|j|, i requires 0 <= i < |j| => ToCompRow(j[i], fmtG))
  }

  /** The comparison of case type `ct` between two parsed sheets, before truncation: keep-worst on
      each side, outer join, display rows, worst first. */
  function CompareRows(base: seq<ScenarioRow>, next: seq<ScenarioRow>, ct: string, fmtG: real -> string): (out: seq<CompRow>)
    ensures SortedBy(out, WorstFirst)
  {
    var l := KeepWorst(SelectCaseType(base, ct));
    var r := KeepWorst(SelectCaseType(next, ct));
    OrderWorstFirst(ToCompRows(OuterJoin(l, r), fmtG))
  }

  /** The parsed rows of a sheet the workbook has. */
  function ParsedSheet(wb: Workbook, name: string): seq<ScenarioRow>
    requires FindSheet(wb, name).Some?
  {
    ParseScenarioSheet(FindSheet(wb, name).value)
  }

  /** The comparison of two parsed sheets: a sheet without rows is the `KeyError('CaseType')`, and
      otherwise the comparison is cut to `max_rows`. */
  function CompareParsed(base: seq<ScenarioRow>, next: seq<ScenarioRow>, ct: string, maxRows: Option<int>,
                         fmtG: real -> string): (r: Result<seq<CompRow>, CompareError>)
    ensures r.Failure? <==> |base| == 0 || |next| == 0
    ensures r.Failure? ==> r.error == NoCaseTypeColumn
    ensures r.Success? ==> SortedBy(r.value, WorstFirst)
    ensures r.Success? && maxRows.Some? && maxRows.value > 0 ==> |r.value| <= maxRows.value
  {
    if |base| == 0 || |next| == 0 then Failure(NoCaseTypeColumn)
    else Success(Truncate(CompareRows(base, next, ct, fmtG), maxRows))
  }

  /** `build_case_type_comparison`: a missing sheet is an error naming it; otherwise the comparison of
      the two parsed sheets. */
  method BuildCaseTypeComparison(wb: Workbook, baseSheet: string, newSheet: string, ct: string,
                                 maxRows: Option<int>, fmtG: real -> string) returns (r: Result<seq<CompRow>, CompareError>)
    ensures FindSheet(wb, baseSheet).None? ==> r == Failure(SheetNotFound(baseSheet))
    ensures FindSheet(wb, baseSheet).Some? && FindSheet(wb, newSheet).None? ==> r == Failure(SheetNotFound(newSheet))
    ensures FindSheet(wb, baseSheet).Some? && FindSheet(wb, newSheet).Some? ==>
      r == CompareParsed(ParsedSheet(wb, baseSheet), ParsedSheet(wb, newSheet), ct, maxRows, fmtG)
    ensures r.Success? ==> SortedBy(r.value, WorstFirst)
    ensures r.Success? && maxRows.Some? && maxRows.value > 0 ==> |r.value| <= maxRows.value
  {
    var base :- ParseNamedSheet(wb, baseSheet);
    var next :- ParseNamedSheet(wb, newSheet);
    r := CompareParsed(base, next, ct, maxRows, fmtG);
  }

  /** In rows with distinct keys, the side found for the key of row `n` is row `n`'s. */
  lemma FindSideUnique(s: seq<Scored>, n: int)
    requires 0 <= n < |s|
    requires forall i, j :: 0 <= i < j < |s| ==> KeyOf(s[i]) != KeyOf(s[j])
    ensures FindSide(s, KeyOf(s[n])) == Some(Side(s[n].pct, s[n].limit))
  {
    var fs := FindSide(s, KeyOf(s[n]));
    var m :| 0 <= m < |s| && KeyOf(s[m]) == KeyOf(s[n]) && fs.value == Side(s[m].pct, s[m].limit);
    assert m == n;
  }

  /** What one side contributes for key `k` after keep-worst: its worst row, when it has the key. */
  function SideOf(s: seq<Scored>, k: (string, string)): Option<Side> {
    if k in Keys(s) then Some(Side(WorstOf(s, k).pct, WorstOf(s, k).limit)) else None
  }

  /** The join sees of each side exactly what SideOf describes. */
  lemma FindSideKeepWorst(s: seq<Scored>, k: (string, string))
    ensures FindSide(KeepWorst(s), k) == SideOf(s, k)
  {
    var kw := KeepWorst(s);
    var ks := Keys(s);
    forall i | 0 <= i < |kw| ensures KeyOf(kw[i]) == ks[i] {
      var _ := WorstOfSpec(s, ks[i]);
    }
    if k in ks {
      var i :| 0 <= i < |ks| && ks[i] == k;
      FindSideUnique(kw, i);
    } else {
      assert forall i :: 0 <= i < |kw| ==> KeyOf(kw[i]) != k;
    }
  }

  /** A key of the comparison: its contingency and resulting issue. */
  function RowKey(c: CompRow): (string, string) {
    (c.contingency, c.issue)
  }

  /** The row the comparison shows for key `k`. */
  function ExpectedRow(ls: seq<Scored>, rs: seq<Scored>, k: (string, string), fmtG: real -> string): CompRow {
    ToCompRow(Joined(k.0, k.1, SideOf(ls, k), SideOf(rs, k)), fmtG)
  }

  /** Before ordering: one row per key of either side, in join order, each the expected one. */
  lemma {:induction false} JoinedRowsSpec(ls: seq<Scored>, rs: seq<Scored>, fmtG: real -> string)
    ensures var rows := ToCompRows(OuterJoin(KeepWorst(ls), KeepWorst(rs)), fmtG);
      && (forall i, j :: 0 <= i < j < |rows| ==> RowKey(rows[i]) != RowKey(rows[j]))
      && (forall i :: 0 <= i < |rows| ==> rows[i] == ExpectedRow(ls, rs, RowKey(rows[i]), fmtG))
      && (forall i :: 0 <= i < |rows| ==> RowKey(rows[i]) in Keys(ls) || RowKey(rows[i]) in Keys(rs))
      && (forall k :: k in Keys(ls) || k in Keys(rs) ==> exists i :: 0 <= i < |rows| && RowKey(rows[i]) == k)
  {
    var l := KeepWorst(ls);
    var r := KeepWorst(rs);
    var j := OuterJoin(l, r);
    var rows := ToCompRows(j, fmtG);
    OuterJoinKeys(l, r);
    assert forall i :: 0 <= i < |rows| ==> RowKey(rows[i]) == (j[i].ctg, j[i].id);
    forall i | 0 <= i < |rows|
      ensures rows[i] == ExpectedRow(ls, rs, RowKey(rows[i]), fmtG)
      ensures RowKey(rows[i]) in Keys(ls) || RowKey(rows[i]) in Keys(rs)
    {
      var k := RowKey(rows[i]);
      FindSideKeepWorst(ls, k);
      FindSideKeepWorst(rs, k);
      assert j[i] == Joined(k.0, k.1, SideOf(ls, k), SideOf(rs, k));
    }
    forall k | k in Keys(ls) || k in Keys(rs)
      ensures exists i :: 0 <= i < |rows| && RowKey(rows[i]) == k
    {
      FindSideKeepWorst(ls, k);
      FindSideKeepWorst(rs, k);
      assert FindSide(l, k).Some? || FindSide(r, k).Some?;
      var i :| 0 <= i < |j| && (j[i].ctg, j[i].id) == k;
      assert RowKey(rows[i]) == k;
    }
  }

  /** The comparison of one case type holds exactly one row per key of either side, each the expected
      one: the keep-worst percent and limit of each side that has the key, and their delta. */
  lemma {:induction false} CompareRowsSpec(base: seq<ScenarioRow>, next: seq<ScenarioRow>, ct: string, fmtG: real -> string)
    ensures var out := CompareRows(base, next, ct, fmtG);
      var ls := SelectCaseType(base, ct);
      var rs := SelectCaseType(next, ct);
      && (forall i, j :: 0 <= i < j < |out| ==> RowKey(out[i]) != RowKey(out[j]))
      && (forall c :: c in out ==> (RowKey(c) in Keys(ls) || RowKey(c) in Keys(rs)) && c == ExpectedRow(ls, rs, RowKey(c), fmtG))
      && (forall k :: k in Keys(ls) || k in Keys(rs) ==> ExpectedRow(ls, rs, k, fmtG) in out)
  {
    var ls := SelectCaseType(base, ct);
    var rs := SelectCaseType(next, ct);
    var rows := ToCompRows(OuterJoin(KeepWorst(ls), KeepWorst(rs)), fmtG);
    var out := CompareRows(base, next, ct, fmtG);
    assert multiset(out) == multiset(rows);
    JoinedRowsSpec(ls, rs, fmtG);
    DistinctKeysKept(rows, out);
    forall c | c in out
      ensures (RowKey(c) in Keys(ls) || RowKey(c) in Keys(rs)) && c == ExpectedRow(ls, rs, RowKey(c), fmtG)
    {
      assert c in multiset(rows);
      var i :| 0 <= i < |rows| && rows[i] == c;
    }
    forall k | k in Keys(ls) || k in Keys(rs)
      ensures ExpectedRow(ls, rs, k, fmtG) in out
    {
      var i :| 0 <= i < |rows| && RowKey(rows[i]) == k;
      assert rows[i] in multiset(out);
    }
  }

  /** A permutation of rows with distinct keys has distinct keys. */
  lemma DistinctKeysKept(a: seq<CompRow>, b: seq<CompRow>)
    requires multiset(a) == multiset(b)
    requires forall i, j :: 0 <= i < j < |a| ==> RowKey(a[i]) != RowKey(a[j])
    ensures forall i, j :: 0 <= i < j < |b| ==> RowKey(b[i]) != RowKey(b[j])
  {
    forall i, j | 0 <= i < j < |b|
      ensures RowKey(b[i]) != RowKey(b[j])
    {
      if RowKey(b[i]) == RowKey(b[j]) {
        assert b[i] in multiset(a) && b[j] in multiset(a);
        var x :| 0 <= x < |a| && a[x] == b[i];
        var y :| 0 <= y < |a| && a[y] == b[j];
        assert x == y;
        TwiceCounted(b, i, j);
        UniqueKeyCount(a, x);
      }
    }
  }

  /** Two positions holding the same row make it occur at least twice. */
  lemma TwiceCounted(b: seq<CompRow>, i: int, j: int)
    requires 0 <= i < j < |b| && b[i] == b[j]
    ensures multiset(b)[b[i]] >= 2
  {
    var e := b[i];
    assert b == b[..i] + [e] + b[i + 1..j] + [e] + b[j + 1..];
  }

  /** In rows with distinct keys, a row occurs once. */
  lemma UniqueKeyCount(a: seq<CompRow>, x: int)
    requires 0 <= x < |a|
    requires forall i, j :: 0 <= i < j < |a| ==> RowKey(a[i]) != RowKey(a[j])
    ensures multiset(a)[a[x]] == 1
  {
    var e := a[x];
    var pre := a[..x];
    var post := a[x + 1..];
    assert a == pre + [e] + post;
    assert e !in pre by {
      forall i | 0 <= i < |pre| ensures pre[i] != e { assert pre[i] == a[i]; }
    }
    assert e !in post by {
      forall i | 0 <= i < |post| ensures post[i] != e { assert post[i] == a[x + 1 + i]; }
    }
  }

  // ------------------------------------------------------------------
  // Pair sheets

  /** A row of a formatted pair sheet. */
  datatype PairRow = PairRow(caseType: string, contingency: string, issue: string, limit: string,
                             left: Option<real>, right: Option<real>, display: string)

  /** The status column: which side is missing, or the delta through `fmt2`, the `.2f` formatter. */
  function DeltaDisplay(l: Option<real>, r: Option<real>, fmt2: real -> string): (d: string)
    ensures l.None? && r.Some? ==> d == "Only in right"
    ensures l.Some? && r.None? ==> d == "Only in left"
    ensures l.Some? && r.Some? ==> d == fmt2(r.value - l.value)
    ensures l.None? && r.None? ==> d == ""
  {
    if l.None? && r.Some? then "Only in right"
    else if l.Some? && r.None? then "Only in left"
    else if l.Some? && r.Some? then fmt2(r.value - l.value)
    else ""
  }

  /** A comparison row reaches the pair sheet when at least one side has a percent and the larger
      percent is at least the threshold. */
  predicate MeetsThreshold(c: CompRow, threshold: real) {
    RowMax(c).Some? && RowMax(c).value >= threshold
  }

  /** The threshold test read off a pair row. */
  predicate PairMeets(p: PairRow, threshold: real) {
    MaxPct(p.left, p.right).Some? && MaxPct(p.left, p.right).value >= threshold
  }

  function ToPairRow(ct: string, c: CompRow, fmt2: real -> string): PairRow {
    PairRow(ct, c.contingency, c.issue, c.limit, c.left, c.right, DeltaDisplay(c.left, c.right, fmt2))
  }

  /** The pair-sheet rows of one case type, in comparison order. */
  function PairRowsFor(ct: string, rows: seq<CompRow>, threshold: real, fmt2: real -> string): (out: seq<PairRow>)
    ensures |out| <= |rows|
    ensures forall i :: 0 <= i < |out| ==> out[i].caseType == ct && PairMeets(out[i], threshold)
  {
    if |rows| == 0 then []
    else
      var rest := PairRowsFor(ct, rows[1..], threshold, fmt2);
      if MeetsThreshold(rows[0], threshold) then [ToPairRow(ct, rows[0], fmt2)] + rest else rest
  }

  /** A pair row is produced exactly for each comparison row that meets the threshold. */
  lemma {:induction false} PairRowsForSpec(ct: string, rows: seq<CompRow>, threshold: real, fmt2: real -> string)
    ensures forall p :: p in PairRowsFor(ct, rows, threshold, fmt2) <==>
      exists c :: c in rows && MeetsThreshold(c, threshold) && p == ToPairRow(ct, c, fmt2)
    decreases |rows|
  {
    if |rows| > 0 {
      PairRowsForSpec(ct, rows[1..], threshold, fmt2);
      assert forall c :: c in rows <==> c == rows[0] || c in rows[1..];
    }
  }

  /** On a pair sheet the status is the formatted delta exactly where the comparison has a delta, and
      "Only in left"/"Only in right" exactly where one side has no percent. */
  lemma PairDisplayMatchesDelta(ct: string, c: CompRow, threshold: real, fmt2: real -> string)
    requires MeetsThreshold(c, threshold)
    requires c.delta == Delta(c.left, c.right)
    ensures var p := ToPairRow(ct, c, fmt2);
      && (c.delta.Some? ==> p.display == fmt2(c.delta.value))
      && (c.delta.None? ==> p.display == (if c.left.None? then "Only in right" else "Only in left"))
  {
  }

  /** The comparison of a case type between two parsed sheets, as a function of the case type. */
  function CompareFor(base: seq<ScenarioRow>, next: seq<ScenarioRow>, fmtG: real -> string): (f: string -> seq<CompRow>)
    ensures forall ct :: f(ct) == CompareRows(base, next, ct, fmtG)
  {
    ct => CompareRows(base, next, ct, fmtG)
  }

  /** The pair rows of the case types `cts`, in that order, each from its comparison `cmp`. */
  function PairRowsAll(cts: seq<string>, cmp: string -> seq<CompRow>, threshold: real, fmt2: real -> string): (out: seq<PairRow>)
    ensures forall i :: 0 <= i < |out| ==> out[i].caseType in cts && PairMeets(out[i], threshold)
  {
    if |cts| == 0 then []
    else
      var rest := PairRowsAll(cts[1..], cmp, threshold, fmt2);
      assert forall i :: 0 <= i < |rest| ==> rest[i].caseType in cts;
      PairRowsFor(cts[0], cmp(cts[0]), threshold, fmt2) + rest
  }

  /** A pair row is produced exactly for each row of a case type's comparison that meets the threshold. */
  lemma {:induction false} PairRowsAllSpec(cts: seq<string>, cmp: string -> seq<CompRow>, threshold: real, fmt2: real -> string)
    ensures forall p :: p in PairRowsAll(cts, cmp, threshold, fmt2) <==>
      exists ct, c :: ct in cts && c in cmp(ct) && MeetsThreshold(c, threshold) && p == ToPairRow(ct, c, fmt2)
    decreases |cts|
  {
    if |cts| > 0 {
      PairRowsForSpec(cts[0], cmp(cts[0]), threshold, fmt2);
      PairRowsAllSpec(cts[1..], cmp, threshold, fmt2);
      assert forall ct :: ct in cts <==> ct == cts[0] || ct in cts[1..];
    }
  }

  /** The pair rows of two parsed sheets: a sheet without rows is the `KeyError('CaseType')` of the
      first case type compared; otherwise every case type's rows, in order. */
  function PairsParsed(base: seq<ScenarioRow>, next: seq<ScenarioRow>, cts: seq<string>, threshold: real,
                       fmtG: real -> string, fmt2: real -> string): (r: Result<seq<PairRow>, CompareError>)
    ensures r.Failure? <==> |cts| > 0 && (|base| == 0 || |next| == 0)
    ensures r.Failure? ==> r.error == NoCaseTypeColumn
  {
    if |cts| > 0 && (|base| == 0 || |next| == 0) then Failure(NoCaseTypeColumn)
    else Success(PairRowsAll(cts, CompareFor(base, next, fmtG), threshold, fmt2))
  }

  /** The pair rows of a single case type are those of its comparison. */
  lemma PairRowsAllOne(ct: string, cmp: string -> seq<CompRow>, threshold: real, fmt2: real -> string)
    ensures PairRowsAll([ct], cmp, threshold, fmt2) == PairRowsFor(ct, cmp(ct), threshold, fmt2)
  {
    assert [ct][1..] == [];
  }

  /** The pair rows of one case type are its unlimited comparison filtered by the threshold. */
  lemma PairsParsedOne(base: seq<ScenarioRow>, next: seq<ScenarioRow>, ct: string, threshold: real,
                       fmtG: real -> string, fmt2: real -> string)
    ensures CompareParsed(base, next, ct, None, fmtG).Failure? ==>
      PairsParsed(base, next, [ct], threshold, fmtG, fmt2) == Failure(CompareParsed(base, next, ct, None, fmtG).error)
    ensures CompareParsed(base, next, ct, None, fmtG).Success? ==>
      PairsParsed(base, next, [ct], threshold, fmtG, fmt2) ==
        Success(PairRowsFor(ct, CompareParsed(base, next, ct, None, fmtG).value, threshold, fmt2))
  {
    if |base| > 0 && |next| > 0 {
      var cmp := CompareFor(base, next, fmtG);
      assert CompareParsed(base, next, ct, None, fmtG) == Success(cmp(ct));
      PairRowsAllOne(ct, cmp, threshold, fmt2);
    }
  }

  /** The pair rows of several case types are those of the first followed by those of the rest. */
  lemma PairsParsedStep(base: seq<ScenarioRow>, next: seq<ScenarioRow>, cts: seq<string>, threshold: real,
                        fmtG: real -> string, fmt2: real -> string)
    requires |cts| > 0
    ensures PairsParsed(base, next, [cts[0]], threshold, fmtG, fmt2).Failure? ==>
      PairsParsed(base, next, cts, threshold, fmtG, fmt2) == PairsParsed(base, next, [cts[0]], threshold, fmtG, fmt2)
    ensures PairsParsed(base, next, [cts[0]], threshold, fmtG, fmt2).Success? ==>
      PairsParsed(base, next, cts, threshold, fmtG, fmt2) ==
        Success(PairsParsed(base, next, [cts[0]], threshold, fmtG, fmt2).value
                + PairsParsed(base, next, cts[1..], threshold, fmtG, fmt2).value)
  {
    var cmp := CompareFor(base, next, fmtG);
    PairRowsAllOne(cts[0], cmp, threshold, fmt2);
  }

  /** The pair rows of case type `ct`: its comparison without a row limit, filtered by the threshold. */
  method PairRowsOf(wb: Workbook, leftSheet: string, rightSheet: string, threshold: real,
                    fmtG: real -> string, fmt2: real -> string, ct: string) returns (r: Result<seq<PairRow>, CompareError>)
    ensures FindSheet(wb, leftSheet).None? ==> r == Failure(SheetNotFound(leftSheet))
    ensures FindSheet(wb, leftSheet).Some? && FindSheet(wb, rightSheet).None? ==> r == Failure(SheetNotFound(rightSheet))
    ensures FindSheet(wb, leftSheet).Some? && FindSheet(wb, rightSheet).Some? ==>
      r == PairsParsed(ParsedSheet(wb, leftSheet), ParsedSheet(wb, rightSheet), [ct], threshold, fmtG, fmt2)
    ensures r.Success? ==> forall k :: 0 <= k < |r.value| ==> r.value[k].caseType == ct && PairMeets(r.value[k], threshold)
  {
    var cmp := BuildCaseTypeComparison(wb, leftSheet, rightSheet, ct, None, fmtG);
    if cmp.Failure? {
      return Failure(cmp.error);
    }
    r := Success(PairRowsFor(ct, cmp.value, threshold, fmt2));
    if FindSheet(wb, leftSheet).Some? && FindSheet(wb, rightSheet).Some? {
      var base, next := ParsedSheet(wb, leftSheet), ParsedSheet(wb, rightSheet);
      PairsParsedOne(base, next, ct, threshold, fmtG, fmt2);
    }
  }

  /** The pair rows of the case types `cts`, in that order. */
  method PairRowsFrom(wb: Workbook, leftSheet: string, rightSheet: string, threshold: real,
                      fmtG: real -> string, fmt2: real -> string, cts: seq<string>) returns (r: Result<seq<PairRow>, CompareError>)
    ensures |cts| > 0 && FindSheet(wb, leftSheet).None? ==> r == Failure(SheetNotFound(leftSheet))
    ensures |cts| > 0 && FindSheet(wb, leftSheet).Some? && FindSheet(wb, rightSheet).None? ==>
      r == Failure(SheetNotFound(rightSheet))
    ensures FindSheet(wb, leftSheet).Some? && FindSheet(wb, rightSheet).Some? ==>
      r == PairsParsed(ParsedSheet(wb, leftSheet), ParsedSheet(wb, rightSheet), cts, threshold, fmtG, fmt2)
    ensures r.Success? ==> forall k :: 0 <= k < |r.value| ==> r.value[k].caseType in cts
    ensures r.Success? ==> forall k :: 0 <= k < |r.value| ==> PairMeets(r.value[k], threshold)
    decreases |cts|
  {
    if |cts| == 0 {
      return Success([]);
    }
    var here := PairRowsOf(wb, leftSheet, rightSheet, threshold, fmtG, fmt2, cts[0]);
    if here.Failure? {
      return Failure(here.error);
    }
    var rest := PairRowsFrom(wb, leftSheet, rightSheet, threshold, fmtG, fmt2, cts[1..]);
    assert rest.Success?;
    r := Success(here.value + rest.value);
    assert forall k :: 0 <= k < |rest.value| ==> rest.value[k].caseType in cts;
    if FindSheet(wb, leftSheet).Some? && FindSheet(wb, rightSheet).Some? {
      var base, next := ParsedSheet(wb, leftSheet), ParsedSheet(wb, rightSheet);
      PairsParsedStep(base, next, cts, threshold, fmtG, fmt2);
    }
  }

  /** `build_pair_comparison_df`: the three case types in their fixed order, each compared without a
      row limit and filtered by the threshold. */
  method BuildPairComparison(wb: Workbook, leftSheet: string, rightSheet: string, threshold: real,
                             fmtG: real -> string, fmt2: real -> string) returns (r: Result<seq<PairRow>, CompareError>)
    ensures FindSheet(wb, leftSheet).None? ==> r == Failure(SheetNotFound(leftSheet))
    ensures FindSheet(wb, leftSheet).Some? && FindSheet(wb, rightSheet).None? ==> r == Failure(SheetNotFound(rightSheet))
    ensures FindSheet(wb, leftSheet).Some? && FindSheet(wb, rightSheet).Some? ==>
      r == PairsParsed(ParsedSheet(wb, leftSheet), ParsedSheet(wb, rightSheet), CaseTypes, threshold, fmtG, fmt2)
    ensures r.Success? ==> forall i :: 0 <= i < |r.value| ==> r.value[i].caseType in CaseTypes
    ensures r.Success? ==> forall i :: 0 <= i < |r.value| ==> PairMeets(r.value[i], threshold)
  {
    r := PairRowsFrom(wb, leftSheet, rightSheet, threshold, fmtG, fmt2, CaseTypes);
  }

  /** The output sheet name of a pair: "left vs right" with '/' and '\' as '-', cut to 31 characters. */
  function PairSheetName(left: string, right: string): (name: string)
    ensures |name| <= 31
    ensures '/' !in name && '\\' !in name
    ensures |name| == if |left| + |right| + 4 <= 31 then |left| + |right| + 4 else 31
    ensures name <= ReplaceChar(ReplaceChar(left + " vs " + right, '/', '-'), '\\', '-')
  {
    var full := ReplaceChar(ReplaceChar(left + " vs " + right, '/', '-'), '\\', '-');
    if |full| <= 31 then full else full[..31]
  }

  /** A short name without slashes is used as it is. */
  lemma PairSheetNameUnchanged(left: string, right: string)
    requires |left + " vs " + right| <= 31
    requires '/' !in left + " vs " + right && '\\' !in left + " vs " + right
    ensures PairSheetName(left, right) == left + " vs " + right
  {
    var s := left + " vs " + right;
    assert ReplaceChar(s, '/', '-') == s;
    assert ReplaceChar(ReplaceChar(s, '/', '-'), '\\', '-') == s;
  }

  /** One sheet of the batch workbook: its name, the pair it compares and its rows. */
  datatype PairSheet = PairSheet(name: string, left: string, right: string, rows: seq<PairRow>)

  /** The pair rows of the pair `pair`, when both of its sheets exist. */
  function PairRowsOfPair(wb: Workbook, pair: (string, string), cts: seq<string>, threshold: real,
                          fmtG: real -> string, fmt2: real -> string): Result<seq<PairRow>, CompareError>
    requires FindSheet(wb, pair.0).Some? && FindSheet(wb, pair.1).Some?
  {
    PairsParsed(ParsedSheet(wb, pair.0), ParsedSheet(wb, pair.1), cts, threshold, fmtG, fmt2)
  }

  /** Whether a pair can be compared: both sheets exist and both have rows. */
  predicate PairComparable(wb: Workbook, pair: (string, string), cts: seq<string>, threshold: real, fmtG: real -> string, fmt2: real -> string)
  {
    FindSheet(wb, pair.0).Some? && FindSheet(wb, pair.1).Some? && PairRowsOfPair(wb, pair, cts, threshold, fmtG, fmt2).Success?
  }

  /** `s` is the sheet of `pair`: named from the pair, holding the pair's rows. */
  predicate IsPairSheet(wb: Workbook, pair: (string, string), cts: seq<string>, threshold: real, fmtG: real -> string, fmt2: real -> string,
                        s: PairSheet)
  {
    && PairComparable(wb, pair, cts, threshold, fmtG, fmt2)
    && s == PairSheet(PairSheetName(pair.0, pair.1), pair.0, pair.1, PairRowsOfPair(wb, pair, cts, threshold, fmtG, fmt2).value)
  }

  /** The sheet of one pair, named from the pair, comparing the case types `cts` (the batch passes
      the three case types). */
  method PairSheetOf(wb: Workbook, pair: (string, string), cts: seq<string>, threshold: real,
                     fmtG: real -> string, fmt2: real -> string) returns (r: Result<PairSheet, CompareError>)
    requires |cts| > 0
    ensures FindSheet(wb, pair.0).None? ==> r == Failure(SheetNotFound(pair.0))
    ensures FindSheet(wb, pair.0).Some? && FindSheet(wb, pair.1).None? ==> r == Failure(SheetNotFound(pair.1))
    ensures r.Success? <==> PairComparable(wb, pair, cts, threshold, fmtG, fmt2)
    ensures r.Success? ==> IsPairSheet(wb, pair, cts, threshold, fmtG, fmt2, r.value)
  {
    var rows :- PairRowsFrom(wb, pair.0, pair.1, threshold, fmtG, fmt2, cts);
    r := Success(PairSheet(PairSheetName(pair.0, pair.1), pair.0, pair.1, rows));
  }

  /** One sheet per pair, in order; the first failing pair ends the batch. */
  method PairSheets(wb: Workbook, pairs: seq<(string, string)>, cts: seq<string>, threshold: real,
                    fmtG: real -> string, fmt2: real -> string) returns (r: Result<seq<PairSheet>, CompareError>)
    requires |cts| > 0
    ensures |pairs| > 0 && FindSheet(wb, pairs[0].0).None? ==> r == Failure(SheetNotFound(pairs[0].0))
    ensures r.Failure? ==> exists i :: 0 <= i < |pairs| && !PairComparable(wb, pairs[i], cts, threshold, fmtG, fmt2)
    ensures r.Success? ==> |r.value| == |pairs|
    ensures r.Success? ==> forall i :: 0 <= i < |pairs| ==> IsPairSheet(wb, pairs[i], cts, threshold, fmtG, fmt2, r.value[i])
    decreases |pairs|
  {
    if |pairs| == 0 {
      return Success([]);
    }
    var sheet :- PairSheetOf(wb, pairs[0], cts, threshold, fmtG, fmt2);
    var rest := PairSheets(wb, pairs[1..], cts, threshold, fmtG, fmt2);
    if rest.Failure? {
      var i :| 0 <= i < |pairs[1..]| && !PairComparable(wb, pairs[1..][i], cts, threshold, fmtG, fmt2);
      assert pairs[1..][i] == pairs[i + 1];
      return Failure(rest.error);
    }
    r := Success([sheet] + rest.value);
    AllPairsCons(pairs, sheet, rest.value, (p: (string, string), s: PairSheet) => IsPairSheet(wb, p, cts, threshold, fmtG, fmt2, s));
  }

  /** A relation holding pointwise of heads and of tails holds pointwise of the whole sequences. */
  lemma AllPairsCons<A, B>(xs: seq<A>, y: B, ys: seq<B>, rel: (A, B) -> bool)
    requires |xs| == |ys| + 1 && rel(xs[0], y)
    requires forall i :: 0 <= i < |xs[1..]| ==> rel(xs[1..][i], ys[i])
    ensures forall i :: 0 <= i < |xs| ==> rel(xs[i], ([y] + ys)[i])
  {
    assert forall i :: 1 <= i < |xs| ==> xs[i] == xs[1..][i - 1];
  }

  /** The pair-validation and sheet-naming part of `build_batch_comparison_workbook`: no pairs is an
      error; otherwise one sheet per pair, in order. */
  method BuildBatchComparison(wb: Workbook, pairs: seq<(string, string)>, threshold: real,
                              fmtG: real -> string, fmt2: real -> string) returns (r: Result<seq<PairSheet>, CompareError>)
    ensures pairs == [] ==> r == Failure(NoPairs)
    ensures r.Success? ==> |r.value| == |pairs| > 0
    ensures pairs != [] && r.Failure? ==> exists i :: 0 <= i < |pairs| && !PairComparable(wb, pairs[i], CaseTypes, threshold, fmtG, fmt2)
    ensures r.Success? ==> forall i :: 0 <= i < |pairs| ==> IsPairSheet(wb, pairs[i], CaseTypes, threshold, fmtG, fmt2, r.value[i])
    ensures r.Success? ==> forall i :: 0 <= i < |r.value| ==>
      |r.value[i].name| <= 31 && '/' !in r.value[i].name && '\\' !in r.value[i].name
  {
    if |pairs| == 0 {
      return Failure(NoPairs);
    }
    r := PairSheets(wb, pairs, CaseTypes, threshold, fmtG, fmt2);
  }
}

=== FILE: help_search.dfy ===
/** Ranking of help topics against a search query: a topic scores for every query token found in
    its title or its text, and the topics that score are listed best first. */
module HelpSearch {
  import opened Wrappers
  import opened Text
  import opened Sorting
  import opened Seqs

  // ------------------------------------------------------------------
  // Normalising text

  /** No ASCII capital letters. */
  predicate NoUpper(s: string) {
    forall i :: 0 <= i < |s| ==> !('A' <= s[i] <= 'Z')
  }

  lemma {:induction false} CollapseNoUpper(s: string)
    requires NoUpper(s)
    ensures NoUpper(CollapseSpaces(s))
    decreases |s|
  {
    if |s| > 0 {
      if IsSpace(s[0]) {
        TrimLeftSpec(s);
        CollapseNoUpper(TrimLeft(s));
      } else {
        CollapseNoUpper(s[1..]);
      }
    }
  }

  /** Stripping keeps a string collapsed and free of capitals. */
  lemma StripCollapsed(s: string)
    requires Collapsed(s) && NoUpper(s)
    ensures Collapsed(Strip(s)) && NoUpper(Strip(s))
  {
    var lo, hi := StripSlice(s);
    SliceCollapsed(s, lo, hi);
  }

  /** `_normalize`: lower-cased, every run of whitespace made one space, then stripped. A missing
      string is the empty one. */
  function Normalize(s: string): (r: string)
    ensures NoUpper(r) && Collapsed(r) && Strip(r) == r
    ensures |r| <= |s|
  {
    var c := CollapseSpaces(Lower(s));
    CollapseNoUpper(Lower(s));
    CollapseIsCollapsed(Lower(s));
    StripCollapsed(c);
    StripSpec(c);
    StripUnchanged(Strip(c));
    Strip(c)
  }

  /** Normalising normalised text changes nothing. */
  lemma NormalizeIdempotent(s: string)
    ensures Normalize(Normalize(s)) == Normalize(s)
  {
    var n := Normalize(s);
    assert Lower(n) == n;
    CollapseCollapsed(n);
  }

  // ------------------------------------------------------------------
  // Tokens

  /** The characters of the token pattern `[a-z0-9_.%+-]`. */
  predicate TokenChar(c: char) {
    'a' <= c <= 'z' || '0' <= c <= '9' || c == '_' || c == '.' || c == '%' || c == '+' || c == '-'
  }

  predicate AllToken(s: string) {
    forall i :: 0 <= i < |s| ==> TokenChar(s[i])
  }

  /** The length of the run of token characters `s` starts with. */
  function RunLen(s: string): (k: nat)
    ensures k <= |s| && AllToken(s[..k])
    ensures k < |s| ==> !TokenChar(s[k])
  {
    if |s| > 0 && TokenChar(s[0]) then
      var k := RunLen(s[1..]);
      assert s[..k + 1] == [s[0]] + s[1..][..k];
      k + 1
    else 0
  }

  /** `re.findall(r"[a-z0-9_.%+-]+", s)`: the maximal runs of token characters, left to right. */
  function Runs(s: string): (r: seq<string>)
    ensures forall i :: 0 <= i < |r| ==> |r[i]| > 0 && AllToken(r[i])
    decreases |s|
  {
    if |s| == 0 then []
    else if !TokenChar(s[0]) then Runs(s[1..])
    else
      var k := RunLen(s);
      [s[..k]] + Runs(s[k..])
  }

  /** The token characters of `s`, in order. */
  function TokenChars(s: string): string {
    if |s| == 0 then ""
    else if TokenChar(s[0]) then [s[0]] + TokenChars(s[1..])
    else TokenChars(s[1..])
  }

  function Concat(parts: seq<string>): string {
    if |parts| == 0 then "" else parts[0] + Concat(parts[1..])
  }

  lemma {:induction false} TokenCharsAppend(a: string, b: string)
    ensures TokenChars(a + b) == TokenChars(a) + TokenChars(b)
    decreases |a|
  {
    if |a| > 0 {
      assert (a + b)[0] == a[0] && (a + b)[1..] == a[1..] + b;
      TokenCharsAppend(a[1..], b);
    } else {
      assert a + b == b;
    }
  }

  lemma {:induction false} TokenCharsAll(s: string)
    requires AllToken(s)
    ensures TokenChars(s) == s
    decreases |s|
  {
    if |s| > 0 {
      TokenCharsAll(s[1..]);
    }
  }

  /** The runs found are all of the token characters and nothing else: between them lie only
      characters outside the pattern. */
  lemma {:induction false} RunsCoverTokenChars(s: string)
    ensures Concat(Runs(s)) == TokenChars(s)
    decreases |s|
  {
    if |s| > 0 {
      if !TokenChar(s[0]) {
        RunsCoverTokenChars(s[1..]);
      } else {
        var k := RunLen(s);
        RunsCoverTokenChars(s[k..]);
        assert s == s[..k] + s[k..];
        TokenCharsAppend(s[..k], s[k..]);
        TokenCharsAll(s[..k]);
        assert Runs(s)[1..] == Runs(s[k..]);
      }
    }
  }

  /** Every run found occurs in the text. */
  lemma {:induction false} RunsOccur(s: string, i: int)
    requires 0 <= i < |Runs(s)|
    ensures Contains(s, Runs(s)[i])
    decreases |s|
  {
    if !TokenChar(s[0]) {
      RunsOccur(s[1..], i);
      assert s[1..|s|] == s[1..];
      ContainsInSlice(s, 1, |s|, Runs(s)[i]);
    } else {
      var k := RunLen(s);
      if i == 0 {
        ContainsAt(s, s[..k], 0);
      } else {
        RunsOccur(s[k..], i - 1);
        assert s[k..|s|] == s[k..];
        ContainsInSlice(s, k, |s|, Runs(s)[i]);
      }
    }
  }

  /** `_tokenize`: the distinct tokens of the normalised query, in first-occurrence order (the order
      is DistinctOrder's). */
  function Tokenize(query: string): (r: seq<string>)
    ensures forall i, j :: 0 <= i < j < |r| ==> r[i] != r[j]
    ensures forall i :: 0 <= i < |r| ==> |r[i]| > 0 && AllToken(r[i])
    ensures forall t :: t in r <==> t in Runs(Normalize(query))
  {
    var runs := Runs(Normalize(query));
    var r := Distinct(runs);
    forall t | t in r ensures |t| > 0 && AllToken(t) {
      var i :| 0 <= i < |runs| && runs[i] == t;
    }
    r
  }

  /** Every token occurs in the normalised query. */
  lemma TokensOccur(query: string, t: string)
    requires t in Tokenize(query)
    ensures Contains(Normalize(query), t)
  {
    var runs := Runs(Normalize(query));
    var i :| 0 <= i < |runs| && runs[i] == t;
    RunsOccur(Normalize(query), i);
  }

  // ------------------------------------------------------------------
  // Topic text

  /** A block of a help topic: its kind and its content, which may be missing. */
  type Block = (string, Option<string>)

  /** The contents that are present, in order. */
  function Present(blocks: seq<Block>): (r: seq<string>)
    ensures |r| <= |blocks|
  {
    if |blocks| == 0 then []
    else
      match blocks[0].1
      case Some(c) => [c] + Present(blocks[1..])
      case None => Present(blocks[1..])
  }

  /** `_flatten_topic_blocks`: the present contents joined by newlines. */
  function FlattenBlocks(blocks: seq<Block>): string {
    Join(Present(blocks), "\n")
  }

  lemma {:induction false} PresentHas(blocks: seq<Block>, i: int) returns (k: int)
    requires 0 <= i < |blocks| && blocks[i].1.Some?
    ensures 0 <= k < |Present(blocks)| && Present(blocks)[k] == blocks[i].1.value
    decreases |blocks|
  {
    if i == 0 {
      k := 0;
    } else {
      var j := PresentHas(blocks[1..], i - 1);
      k := if blocks[0].1.Some? then j + 1 else j;
    }
  }

  /** Every content a topic has is part of its flattened text. */
  lemma FlattenHasContents(blocks: seq<Block>, i: int)
    requires 0 <= i < |blocks| && blocks[i].1.Some?
    ensures Contains(FlattenBlocks(blocks), blocks[i].1.value)
  {
    var k := PresentHas(blocks, i);
    JoinContains(Present(blocks), "\n", k);
  }

  /** Missing contents add nothing: a topic whose blocks are all empty has no text. */
  lemma {:induction false} FlattenAllMissing(blocks: seq<Block>)
    requires forall i :: 0 <= i < |blocks| ==> blocks[i].1.None?
    ensures FlattenBlocks(blocks) == ""
    decreases |blocks|
  {
    if |blocks| > 0 {
      FlattenAllMissing(blocks[1..]);
    }
  }

  // ------------------------------------------------------------------
  // Scoring

  /** Tokens as `_tokenize` returns them: non-empty. */
  predicate Tokens(tokens: seq<string>) {
    forall i :: 0 <= i < |tokens| ==> |tokens[i]| > 0
  }

  /** 20 for every token found in the title. */
  function TitleScore(tokens: seq<string>, title: string): (n: nat)
    ensures n % 20 == 0 && n <= 20 * |tokens|
    ensures n > 0 <==> exists i :: 0 <= i < |tokens| && Contains(title, tokens[i])
  {
    if |tokens| == 0 then 0
    else
      var init := tokens[..|tokens| - 1];
      var rest := TitleScore(init, title);
      assert forall i :: 0 <= i < |init| ==> tokens[i] == init[i];
      rest + if Contains(title, tokens[|tokens| - 1]) then 20 else 0
  }

  /** The positions of the tokens found in the title. */
  function TitleHits(tokens: seq<string>, title: string): set<int> {
    set i | 0 <= i < |tokens| && Contains(title, tokens[i])
  }

  /** The title weight is 20 per token position found in the title. */
  lemma {:induction false} TitleScoreHits(tokens: seq<string>, title: string)
    ensures TitleScore(tokens, title) == 20 * |TitleHits(tokens, title)|
    decreases |tokens|
  {
    if |tokens| > 0 {
      TitleScoreHits(tokens[..|tokens| - 1], title);
      TitleHitsSnoc(tokens, title);
    } else {
      assert TitleHits(tokens, title) == {};
    }
  }

  /** A last token adds its position exactly when the title contains it. */
  lemma TitleHitsSnoc(tokens: seq<string>, title: string)
    requires |tokens| > 0
    ensures |TitleHits(tokens, title)| == |TitleHits(tokens[..|tokens| - 1], title)|
      + if Contains(title, tokens[|tokens| - 1]) then 1 else 0
  {
    var init := tokens[..|tokens| - 1];
    var last := if Contains(title, tokens[|tokens| - 1]) then {|tokens| - 1} else {};
    forall x ensures x in TitleHits(tokens, title) <==> x in TitleHits(init, title) + last {
      if 0 <= x < |init| {
        assert tokens[x] == init[x];
      }
    }
    assert TitleHits(tokens, title) == TitleHits(init, title) + last;
    assert |tokens| - 1 !in TitleHits(init, title);
  }

  /** 2 for every occurrence of every token in the body. */
  function BodyScore(tokens: seq<string>, body: string): (n: nat)
    requires Tokens(tokens)
    ensures n % 2 == 0
    ensures n > 0 <==> exists i :: 0 <= i < |tokens| && Contains(body, tokens[i])
  {
    if |tokens| == 0 then 0
    else
      var init := tokens[..|tokens| - 1];
      var rest := BodyScore(init, body);
      assert forall i :: 0 <= i < |init| ==> tokens[i] == init[i];
      var t := tokens[|tokens| - 1];
      rest + if Contains(body, t) then 2 * CountOccurrences(body, t) else 0
  }

  /** `body_text.count(t)` for each token, in token order. */
  function Occurrences(tokens: seq<string>, body: string): (r: seq<nat>)
    requires Tokens(tokens)
    ensures |r| == |tokens|
    ensures forall i :: 0 <= i < |r| ==> r[i] == CountOccurrences(body, tokens[i])
  {
    seq(|tokens|, i requires 0 <= i < |tokens| && Tokens(tokens) => CountOccurrences(body, tokens[i]))
  }

  /** The sum of a sequence of counts. */
  function Sum(xs: seq<nat>): nat {
    if |xs| == 0 then 0 else Sum(xs[..|xs| - 1]) + xs[|xs| - 1]
  }

  /** The body weight is twice the total number of occurrences: the `if t in body_text` guard
      changes nothing, since a token that is absent occurs zero times. */
  lemma {:induction false} BodyScoreSum(tokens: seq<string>, body: string)
    requires Tokens(tokens)
    ensures BodyScore(tokens, body) == 2 * Sum(Occurrences(tokens, body))
    decreases |tokens|
  {
    if |tokens| > 0 {
      var init := tokens[..|tokens| - 1];
      BodyScoreSum(init, body);
      var occ := Occurrences(tokens, body);
      assert occ[..|occ| - 1] == Occurrences(init, body);
    }
  }

  /** Every token is found in the title or the body. */
  predicate AllPresent(tokens: seq<string>, title: string, body: string) {
    forall i :: 0 <= i < |tokens| ==> Contains(title, tokens[i]) || Contains(body, tokens[i])
  }

  /** The score of one topic: title matches, body occurrences, and the bonus when every token is
      found somewhere. */
  function Score(tokens: seq<string>, title: string, body: string): nat
    requires Tokens(tokens)
  {
    TitleScore(tokens, title) + BodyScore(tokens, body) + (if AllPresent(tokens, title, body) then 10 else 0)
  }

  /** A topic's score is 20 per token position found in the title, 2 per occurrence of a token in
      the body, and 10 more when every token is found somewhere. */
  lemma ScoreExact(tokens: seq<string>, title: string, body: string)
    requires Tokens(tokens)
    ensures Score(tokens, title, body) == 20 * |TitleHits(tokens, title)| + 2 * Sum(Occurrences(tokens, body))
      + if AllPresent(tokens, title, body) then 10 else 0
  {
    TitleScoreHits(tokens, title);
    BodyScoreSum(tokens, body);
  }

  /** A topic scores exactly when some token is found in its title or body. */
  lemma ScorePositive(tokens: seq<string>, title: string, body: string)
    requires Tokens(tokens) && |tokens| > 0
    ensures Score(tokens, title, body) > 0
      <==> exists i :: 0 <= i < |tokens| && (Contains(title, tokens[i]) || Contains(body, tokens[i]))
  {
    if AllPresent(tokens, title, body) {
      assert Contains(title, tokens[0]) || Contains(body, tokens[0]);
    }
  }

  /** A one-token query found only in the title scores the title's 20 and the bonus's 10. */
  lemma SingleTitleMatch(t: string, title: string, body: string)
    requires |t| > 0 && Contains(title, t) && !Contains(body, t)
    ensures Score([t], title, body) == 30
  {
    assert [t][1..] == [];
  }

  // ------------------------------------------------------------------
  // Ranking

  /** `sections.get(topic, [])`. */
  function BlocksOf(sections: map<string, seq<Block>>, topic: string): seq<Block> {
    if topic in sections then sections[topic] else []
  }

  /** The score `rank_topics` gives a topic. */
  function TopicScore(tokens: seq<string>, sections: map<string, seq<Block>>, topic: string): nat
    requires Tokens(tokens)
  {
    Score(tokens, Normalize(topic), Normalize(FlattenBlocks(BlocksOf(sections, topic))))
  }

  /** The topics that score under `tokens`, in topic order: an independent filter of `topics`. */
  function ScoringTopics(tokens: seq<string>, sections: map<string, seq<Block>>, topics: seq<string>)
    : (s: seq<string>)
    requires Tokens(tokens)
  {
    if |topics| == 0 then []
    else
      var t := topics[|topics| - 1];
      assert topics == topics[..|topics| - 1] + [t];
      ScoringTopics(tokens, sections, topics[..|topics| - 1]) + if TopicScore(tokens, sections, t) > 0 then [t] else []
  }

  /** The topic of a scored entry. */
  function TopicOf(x: (nat, string)): string {
    x.1
  }

  /** The topics among the first `n` that score, each with its score, in topic order. */
  function Scored(tokens: seq<string>, sections: map<string, seq<Block>>, topics: seq<string>, n: nat)
    : (r: seq<(nat, string)>)
    requires Tokens(tokens) && n <= |topics|
    ensures |r| <= n
    ensures forall x :: x in r <==> x.1 in topics[..n] && x.0 == TopicScore(tokens, sections, x.1) && x.0 > 0
  {
    if n == 0 then []
    else
      var init := Scored(tokens, sections, topics, n - 1);
      var t := topics[n - 1];
      var sc := TopicScore(tokens, sections, t);
      assert topics[..n] == topics[..n - 1] + [t];
      if sc > 0 then init + [(sc, t)] else init
  }

  /** The scored topics are the scoring topics, once per occurrence and in topic order. */
  lemma {:induction false} ScoredTopics(tokens: seq<string>, sections: map<string, seq<Block>>, topics: seq<string>, n: nat)
    requires Tokens(tokens) && n <= |topics|
    ensures MapSeq(Scored(tokens, sections, topics, n), TopicOf) == ScoringTopics(tokens, sections, topics[..n])
  {
    if n > 0 {
      ScoredTopics(tokens, sections, topics, n - 1);
      ScoredTopicsStep(tokens, sections, topics, n);
    } else {
      assert topics[..n] == [];
    }
  }

  lemma ScoredTopicsStep(tokens: seq<string>, sections: map<string, seq<Block>>, topics: seq<string>, n: nat)
    requires Tokens(tokens) && 0 < n <= |topics|
    requires MapSeq(Scored(tokens, sections, topics, n - 1), TopicOf) == ScoringTopics(tokens, sections, topics[..n - 1])
    ensures MapSeq(Scored(tokens, sections, topics, n), TopicOf) == ScoringTopics(tokens, sections, topics[..n])
  {
    assert topics[..n][..n - 1] == topics[..n - 1];
    NamesSnoc(Scored(tokens, sections, topics, n - 1), topics[n - 1], TopicScore(tokens, sections, topics[n - 1]));
  }

  /** Appending a scored entry appends its topic; an entry that does not score appends nothing. */
  lemma NamesSnoc(init: seq<(nat, string)>, t: string, sc: nat)
    ensures MapSeq(init + (if sc > 0 then [(sc, t)] else []), TopicOf) ==
            MapSeq(init, TopicOf) + (if sc > 0 then [t] else [])
  {
    MapSeqAppend(init, if sc > 0 then [(sc, t)] else [], TopicOf);
  }

  /** The sort key `(-score, topic.lower())`: a higher score first, then by lower-cased name. */
  predicate ScoreFirst(a: (nat, string), b: (nat, string)) {
    a.0 > b.0 || (a.0 == b.0 && LexLessEq(Lower(a.1), Lower(b.1)))
  }

  lemma ScoreFirstIsPreorder()
    ensures TotalPreorder(ScoreFirst)
  {
    forall a: (nat, string), b: (nat, string) ensures ScoreFirst(a, b) || ScoreFirst(b, a) {
      LexLessTotal(Lower(a.1), Lower(b.1));
    }
    forall a: (nat, string), b: (nat, string), c: (nat, string) | ScoreFirst(a, b) && ScoreFirst(b, c)
      ensures ScoreFirst(a, c)
    {
      if a.0 == b.0 == c.0 && Lower(a.1) != Lower(b.1) && Lower(b.1) != Lower(c.1) {
        LexLessTransitive(Lower(a.1), Lower(b.1), Lower(c.1));
      }
    }
  }

  /** The query had no tokens to rank by: the topics are returned as they are. */
  predicate Unranked(query: string) {
    Blank(query) || Tokenize(Strip(query)) == []
  }

  /** Two topics that the sort key `(-score, topic.lower())` cannot tell apart. */
  predicate SameKey(tokens: seq<string>, sections: map<string, seq<Block>>, a: string, b: string)
    requires Tokens(tokens)
  {
    TopicScore(tokens, sections, a) == TopicScore(tokens, sections, b) && Lower(a) == Lower(b)
  }

  /** The topics of `s` with the same sort key as `c`, in their order in `s`. */
  function TiedWith(tokens: seq<string>, sections: map<string, seq<Block>>, s: seq<string>, c: string)
    : (r: seq<string>)
    requires Tokens(tokens)
    ensures |r| <= |s|
  {
    if |s| == 0 then []
    else (if SameKey(tokens, sections, s[0], c) then [s[0]] else []) + TiedWith(tokens, sections, s[1..], c)
  }

  /** The topics that score under `tokens`, best first, ties by lower-cased name. */
  function Ranked(tokens: seq<string>, sections: map<string, seq<Block>>, topics: seq<string>)
    : (r: seq<string>)
    requires Tokens(tokens)
    ensures forall t :: t in r <==> t in topics && TopicScore(tokens, sections, t) > 0
    ensures forall i, j :: 0 <= i < j < |r| ==>
      ScoreFirst((TopicScore(tokens, sections, r[i]), r[i]), (TopicScore(tokens, sections, r[j]), r[j]))
    ensures multiset(r) == multiset(ScoringTopics(tokens, sections, topics))
    ensures forall c :: TiedWith(tokens, sections, r, c) == TiedWith(tokens, sections, ScoringTopics(tokens, sections, topics), c)
  {
    var scored := Scored(tokens, sections, topics, |topics|);
    var ranked := Sort(scored, ScoreFirst);
    ScoreFirstIsPreorder();
    SortSorted(scored, ScoreFirst);
    SortKeeps(scored, ScoreFirst);
    assert topics[..|topics|] == topics;
    var r := seq(|ranked|, i requires 0 <= i < |ranked| => ranked[i].1);
    assert r == MapSeq(ranked, TopicOf);
    RankedNames(r, ranked, scored, tokens, sections, topics);
    ScoredTopics(tokens, sections, topics, |topics|);
    MapSeqPerm(ranked, scored, TopicOf);
    SortedTies(tokens, sections, scored);
    r
  }

  /** `rank_topics`: a blank or token-less query lists the topics unchanged; otherwise each topic that
      scores, as often as it occurs, best first, ties by lower-cased name and then in topic order. */
  function RankTopics(query: string, sections: map<string, seq<Block>>, topics: seq<string>)
    : (r: seq<string>)
    ensures Unranked(query) ==> r == topics
    ensures !Unranked(query) ==> var tokens := Tokenize(Strip(query));
      && (forall t :: t in r <==> t in topics && TopicScore(tokens, sections, t) > 0)
      && (forall i, j :: 0 <= i < j < |r| ==>
            ScoreFirst((TopicScore(tokens, sections, r[i]), r[i]), (TopicScore(tokens, sections, r[j]), r[j])))
      && multiset(r) == multiset(ScoringTopics(tokens, sections, topics))
      && (forall c :: TiedWith(tokens, sections, r, c) == TiedWith(tokens, sections, ScoringTopics(tokens, sections, topics), c))
  {
    StripSpec(query);
    if Strip(query) == [] then topics
    else
      var tokens := Tokenize(Strip(query));
      if tokens == [] then topics
      else Ranked(tokens, sections, topics)
  }

  /** Scored entries tie under the sort key exactly when their scores and lower-cased names agree. */
  lemma ScoreFirstTie(a: (nat, string), b: (nat, string))
    ensures ScoreFirst(a, b) && ScoreFirst(b, a) <==> a.0 == b.0 && Lower(a.1) == Lower(b.1)
  {
    if a.0 == b.0 && Lower(a.1) != Lower(b.1) && LexLess(Lower(a.1), Lower(b.1)) {
      LexLessAsymmetric(Lower(a.1), Lower(b.1));
    }
  }

  /** The stable sort keeps, for every topic, the order of the topics tied with it. */
  lemma SortedTies(tokens: seq<string>, sections: map<string, seq<Block>>, scored: seq<(nat, string)>)
    requires Tokens(tokens)
    requires forall i :: 0 <= i < |scored| ==> scored[i].0 == TopicScore(tokens, sections, scored[i].1)
    ensures forall c :: TiedWith(tokens, sections, MapSeq(Sort(scored, ScoreFirst), TopicOf), c) ==
                        TiedWith(tokens, sections, MapSeq(scored, TopicOf), c)
  {
    var ranked := Sort(scored, ScoreFirst);
    ScoreFirstIsPreorder();
    forall i | 0 <= i < |ranked| ensures ranked[i].0 == TopicScore(tokens, sections, ranked[i].1) {
      assert ranked[i] in multiset(scored);
    }
    forall c ensures TiedWith(tokens, sections, MapSeq(ranked, TopicOf), c) == TiedWith(tokens, sections, MapSeq(scored, TopicOf), c) {
      var cc := (TopicScore(tokens, sections, c), c);
      SortStable(scored, cc, ScoreFirst);
      ClassNames(tokens, sections, ranked, c);
      ClassNames(tokens, sections, scored, c);
    }
  }

  /** On entries carrying their own scores, the entries tied with `c`'s entry name the topics tied
      with `c`. */
  lemma {:induction false} ClassNames(tokens: seq<string>, sections: map<string, seq<Block>>, x: seq<(nat, string)>, c: string)
    requires Tokens(tokens)
    requires forall i :: 0 <= i < |x| ==> x[i].0 == TopicScore(tokens, sections, x[i].1)
    ensures MapSeq(Class(x, (TopicScore(tokens, sections, c), c), ScoreFirst), TopicOf) ==
            TiedWith(tokens, sections, MapSeq(x, TopicOf), c)
    decreases |x|
  {
    if |x| > 0 {
      var cc := (TopicScore(tokens, sections, c), c);
      var names := MapSeq(x, TopicOf);
      ClassNames(tokens, sections, x[1..], c);
      ScoreFirstTie(x[0], cc);
      var tied := ScoreFirst(x[0], cc) && ScoreFirst(cc, x[0]);
      assert tied <==> SameKey(tokens, sections, names[0], c);
      assert names[1..] == MapSeq(x[1..], TopicOf);
      var head := if tied then [x[0]] else [];
      assert Class(x, cc, ScoreFirst) == head + Class(x[1..], cc, ScoreFirst);
      MapSeqAppend(head, Class(x[1..], cc, ScoreFirst), TopicOf);
      assert MapSeq(head, TopicOf) == if tied then [names[0]] else [];
      assert TiedWith(tokens, sections, names, c) ==
        (if SameKey(tokens, sections, names[0], c) then [names[0]] else []) + TiedWith(tokens, sections, names[1..], c);
    }
  }

  lemma RankedNames(r: seq<string>, ranked: seq<(nat, string)>, scored: seq<(nat, string)>,
                    tokens: seq<string>, sections: map<string, seq<Block>>, topics: seq<string>)
    requires Tokens(tokens) && |r| == |ranked|
    requires forall i :: 0 <= i < |r| ==> r[i] == ranked[i].1
    requires forall x :: x in ranked <==> x in scored
    requires forall x :: x in scored <==> x.1 in topics && x.0 == TopicScore(tokens, sections, x.1) && x.0 > 0
    requires SortedBy(ranked, ScoreFirst)
    ensures forall t :: t in r <==> t in topics && TopicScore(tokens, sections, t) > 0
    ensures forall i, j :: 0 <= i < j < |r| ==>
      ScoreFirst((TopicScore(tokens, sections, r[i]), r[i]), (TopicScore(tokens, sections, r[j]), r[j]))
  {
    forall t ensures t in r <==> t in topics && TopicScore(tokens, sections, t) > 0 {
      if t in r {
        var i :| 0 <= i < |r| && r[i] == t;
        assert ranked[i] in ranked;
      }
      if t in topics && TopicScore(tokens, sections, t) > 0 {
        var x := (TopicScore(tokens, sections, t), t);
        assert x in scored;
        var i :| 0 <= i < |ranked| && ranked[i] == x;
        assert r[i] == t;
      }
    }
    forall i, j | 0 <= i < j < |r|
      ensures ScoreFirst((TopicScore(tokens, sections, r[i]), r[i]), (TopicScore(tokens, sections, r[j]), r[j]))
    {
      assert ranked[i] in ranked && ranked[j] in ranked;
      assert ScoreFirst(ranked[i], ranked[j]);
    }
  }
}

=== FILE: numeric.dfy ===
/** Reading numbers out of text, as Python's `float(str)` does for plain decimals. */
module Numeric {
  import opened Wrappers
  import opened Text

  predicate IsDigit(c: char) {
    '0' <= c <= '9'
  }

  predicate AllDigits(s: string) {
    forall i :: 0 <= i < |s| ==> IsDigit(s[i])
  }

  /** The natural number a run of decimal digits denotes. */
  function DigitsValue(s: string): nat
    requires AllDigits(s)
    decreases |s|
  {
    if |s| == 0 then 0 else DigitsValue(s[..|s| - 1]) * 10 + (s[|s| - 1] as int - '0' as int)
  }

  function Pow10(n: nat): (r: nat)
    ensures r > 0
  {
    if n == 0 then 1 else 10 * Pow10(n - 1)
  }

  /** Position of the first '.', or the length when there is none. */
  function DotIndex(s: string): (k: nat)
    ensures k <= |s|
    ensures k < |s| ==> s[k] == '.'
    ensures forall i :: 0 <= i < k ==> s[i] != '.'
  {
    if |s| == 0 || s[0] == '.' then 0 else 1 + DotIndex(s[1..])
  }

  /** Digits with at most one decimal point and at least one digit: "12", "12.5", "12.", ".5". */
  function ParseUnsigned(s: string): (r: Option<real>)
    ensures r.Some? ==> r.value >= 0.0
  {
    var k := DotIndex(s);
    var whole := s[..k];
    var frac := if k < |s| then s[k + 1..] else "";
    if AllDigits(whole) && AllDigits(frac) && |whole| + |frac| > 0 then
      Some(DigitsValue(whole) as real + DigitsValue(frac) as real / Pow10(|frac|) as real)
    else
      None
  }

  /** An optionally signed decimal. Exponents, `inf`, `nan` and digit separators are not part of the model. */
  function ParseDecimal(s: string): Option<real> {
    if |s| > 0 && s[0] == '-' then
      match ParseUnsigned(s[1..])
      case Some(v) => Some(-v)
      case None => None
    else if |s| > 0 && s[0] == '+' then ParseUnsigned(s[1..])
    else ParseUnsigned(s)
  }

  /** Text without a single digit is not a number. */
  lemma UnsignedNeedsDigit(s: string)
    requires forall i :: 0 <= i < |s| ==> !IsDigit(s[i])
    ensures ParseUnsigned(s) == None
  {
    var k := DotIndex(s);
    if k > 0 {
      assert s[..k][0] == s[0];
    }
    if k + 1 < |s| {
      assert s[k + 1..][0] == s[k + 1];
    }
  }

  lemma DecimalNeedsDigit(s: string)
    requires forall i :: 0 <= i < |s| ==> !IsDigit(s[i])
    ensures ParseDecimal(s) == None
  {
    if |s| > 0 {
      assert forall i :: 0 <= i < |s[1..]| ==> s[1..][i] == s[i + 1];
      UnsignedNeedsDigit(s[1..]);
    }
    UnsignedNeedsDigit(s);
  }

  /** Python's `float(s)`: surrounding whitespace is allowed; anything else that is not a decimal fails. */
  function ParseFloat(s: string): (r: Option<real>)
    ensures Blank(s) ==> r == None
  {
    StripSpec(s);
    ParseDecimal(Strip(s))
  }

  lemma {:induction false} DigitsValueNatText(n: nat)
    ensures AllDigits(NatText(n)) && DigitsValue(NatText(n)) == n
    decreases n
  {
    if n >= 10 {
      DigitsValueNatText(n / 10);
      var s := NatText(n);
      assert s[..|s| - 1] == NatText(n / 10);
    }
  }

  lemma ParseUnsignedNatText(n: nat)
    ensures ParseUnsigned(NatText(n)) == Some(n as real)
  {
    var s := NatText(n);
    DigitsValueNatText(n);
    assert forall i :: 0 <= i < |s| ==> s[i] != '.';
    assert s[..|s|] == s;
  }

  /** Reading back the decimal rendering of a natural number gives the number. */
  lemma ParseNatText(n: nat)
    ensures ParseFloat(NatText(n)) == Some(n as real)
  {
    var s := NatText(n);
    DigitsValueNatText(n);
    StripUnchanged(s);
    ParseUnsignedNatText(n);
  }

  /** The same with a leading minus sign. */
  lemma ParseNegativeNatText(n: nat)
    ensures ParseFloat("-" + NatText(n)) == Some(-(n as real))
  {
    var s := NatText(n);
    DigitsValueNatText(n);
    var m := "-" + s;
    assert m[1..] == s;
    StripUnchanged(m);
    ParseUnsignedNatText(n);
  }
}

=== FILE: pair_layout.dfy ===
/** The row layout shared by the two writers of a comparison-pair sheet: blocks of a title row, a
    header row and data rows, one blank row after each block, and Excel outline marks for
    expandable issue groups. Rows are 1-based worksheet rows; columns are left to each writer. */
module PairLayout {
  import opened Cells
  import opened Seqs

  /** One row of a pair frame, as the writers read it: the columns CaseType, Contingency,
      ResultingIssue, Limit, LeftPct, RightPct and DeltaDisplay. */
  datatype FrameRow = FrameRow(caseType: string, contingency: string, issue: string, limit: string,
                               left: Cell, right: Cell, delta: string)

  function CaseTypeOf(r: FrameRow): string {
    r.caseType
  }

  function IssueOf(r: FrameRow): string {
    r.issue
  }

  /** A data row to write: its frame row, whether its issue cell is filled in, whether it is bold,
      and its row outline marks: `detail` rows sit at outline level 1 and are hidden, and a
      `collapsed` row shows the expand button of the details below it. */
  datatype Item = Item(src: FrameRow, showIssue: bool, bold: bool, detail: bool, collapsed: bool)

  /** The frame rows the items are written from. */
  function Sources(items: seq<Item>): (r: seq<FrameRow>)
    ensures |r| == |items| && forall i :: 0 <= i < |items| ==> r[i] == items[i].src
  {
    seq(|items|, i requires 0 <= i < |items| => items[i].src)
  }

  lemma SourcesAppend(a: seq<Item>, b: seq<Item>)
    ensures Sources(a + b) == Sources(a) + Sources(b)
  {
  }

  /** One case-type block: its title and its data rows. */
  datatype Block = Block(title: string, items: seq<Item>)

  /** A written row. */
  datatype Line = Title(row: nat, text: string) | Header(row: nat) | Data(row: nat, item: Item) | Notice(row: nat, text: string)

  /** Each row written is the one after the previous, except that a title follows a blank row. */
  predicate Steps(lines: seq<Line>) {
    forall i :: 0 < i < |lines| ==> lines[i].row == lines[i - 1].row + (if lines[i].Title? then 2 else 1)
  }

  /** Header rows are exactly the rows right after a title. */
  predicate HeadedBlocks(lines: seq<Line>) {
    && (|lines| > 0 ==> !lines[0].Header?)
    && forall i :: 0 < i < |lines| ==> (lines[i].Header? <==> lines[i - 1].Title?)
  }

  /** The data rows' items, in row order. */
  function DataItems(lines: seq<Line>): (r: seq<Item>)
    ensures |r| <= |lines|
  {
    if |lines| == 0 then []
    else (if lines[0].Data? then [lines[0].item] else []) + DataItems(lines[1..])
  }

  lemma {:induction false} DataItemsAppend(a: seq<Line>, b: seq<Line>)
    ensures DataItems(a + b) == DataItems(a) + DataItems(b)
    decreases |a|
  {
    if |a| == 0 {
      assert a + b == b;
    } else {
      var c := a + b;
      assert c[0] == a[0] && c[1..] == a[1..] + b;
      DataItemsAppend(a[1..], b);
      var h := if a[0].Data? then [a[0].item] else [];
      assert DataItems(c) == h + DataItems(c[1..]);
      assert DataItems(a) == h + DataItems(a[1..]);
    }
  }

  /** The texts of the title rows, in row order. */
  function TitleTexts(lines: seq<Line>): (r: seq<string>)
    ensures |r| <= |lines|
  {
    if |lines| == 0 then []
    else (if lines[0].Title? then [lines[0].text] else []) + TitleTexts(lines[1..])
  }

  lemma {:induction false} TitleTextsAppend(a: seq<Line>, b: seq<Line>)
    ensures TitleTexts(a + b) == TitleTexts(a) + TitleTexts(b)
    decreases |a|
  {
    if |a| == 0 {
      assert a + b == b;
    } else {
      var c := a + b;
      assert c[0] == a[0] && c[1..] == a[1..] + b;
      TitleTextsAppend(a[1..], b);
      var h := if a[0].Title? then [a[0].text] else [];
      assert TitleTexts(c) == h + TitleTexts(c[1..]);
      assert TitleTexts(a) == h + TitleTexts(a[1..]);
    }
  }

  /** The data lines of items written from `row`. */
  function DataLines(items: seq<Item>, row: nat): (ls: seq<Line>)
    ensures |ls| == |items|
    ensures DataItems(ls) == items
    decreases |items|
  {
    if |items| == 0 then []
    else
      var rest := DataLines(items[1..], row + 1);
      assert [items[0]] + items[1..] == items;
      [Data(row, items[0])] + rest
  }

  /** The `i`-th data line writes the `i`-th item on the `i`-th row from `row`. */
  lemma {:induction false} DataLinesAt(items: seq<Item>, row: nat, i: int)
    requires 0 <= i < |items|
    ensures DataLines(items, row)[i] == Data(row + i, items[i])
    decreases |items|
  {
    if i > 0 {
      DataLinesAt(items[1..], row + 1, i - 1);
    }
  }

  /** `_write_title_row`, `_write_header_row` and `_write_data_row` for one block starting at `row`:
      the title, the header on the next row, then each data row on the row after the previous. */
  function BlockLines(b: Block, row: nat): (ls: seq<Line>)
    ensures |ls| == |b.items| + 2
    ensures ls[0] == Title(row, b.title) && ls[1] == Header(row + 1)
  {
    [Title(row, b.title), Header(row + 1)] + DataLines(b.items, row + 2)
  }

  /** Row `i` of a block's lines is written on the `i`-th row from `row`, and only its first line is a
      title and only its second a header. */
  lemma BlockLinesAt(b: Block, row: nat, i: int)
    requires 0 <= i < |b.items| + 2
    ensures var l := BlockLines(b, row)[i];
      && l.row == row + i && !l.Notice?
      && (l.Title? <==> i == 0) && (l.Header? <==> i == 1)
  {
    if i >= 2 {
      DataLinesAt(b.items, row + 2, i - 2);
    }
  }

  /** A block's lines step one row at a time and carry the header right after the title. */
  lemma BlockLinesSteps(b: Block, row: nat)
    ensures Steps(BlockLines(b, row)) && HeadedBlocks(BlockLines(b, row))
  {
    var ls := BlockLines(b, row);
    forall i | 0 < i < |ls|
      ensures ls[i].row == ls[i - 1].row + (if ls[i].Title? then 2 else 1)
      ensures ls[i].Header? <==> ls[i - 1].Title?
    {
      BlockLinesAt(b, row, i);
      BlockLinesAt(b, row, i - 1);
    }
    BlockLinesAt(b, row, 0);
  }

  /** No line of a block is a notice or lies above `row`. */
  lemma BlockLinesRows(b: Block, row: nat)
    ensures forall i :: 0 <= i < |BlockLines(b, row)| ==> !BlockLines(b, row)[i].Notice? && BlockLines(b, row)[i].row >= row
  {
    var ls := BlockLines(b, row);
    forall i | 0 <= i < |ls| ensures !ls[i].Notice? && ls[i].row >= row {
      BlockLinesAt(b, row, i);
    }
  }

  /** A block's data lines write its items, in order. */
  lemma BlockLinesItems(b: Block, row: nat)
    ensures DataItems(BlockLines(b, row)) == b.items
  {
    var head := [Title(row, b.title), Header(row + 1)];
    DataItemsAppend(head, DataLines(b.items, row + 2));
    assert DataItems(head) == [];
  }

  /** The items of all blocks, in order. */
  function AllItems(bs: seq<Block>): seq<Item> {
    if |bs| == 0 then [] else bs[0].items + AllItems(bs[1..])
  }

  /** The blocks written one after another from `row`, each followed by a blank row. */
  function PlaceBlocks(bs: seq<Block>, row: nat): (ls: seq<Line>)
    ensures |bs| > 0 ==> |ls| > 0 && ls[0] == Title(row, bs[0].title)
    ensures |bs| == 0 ==> ls == []
    decreases |bs|
  {
    if |bs| == 0 then []
    else BlockLines(bs[0], row) + PlaceBlocks(bs[1..], row + |bs[0].items| + 3)
  }

  /** The blocks' titles, in order. */
  function Titles(bs: seq<Block>): (r: seq<string>)
    ensures |r| == |bs| && forall j :: 0 <= j < |bs| ==> r[j] == bs[j].title
  {
    seq(|bs|, j requires 0 <= j < |bs| => bs[j].title)
  }

  /** Data lines hold no title. */
  lemma {:induction false} DataLinesNoTitles(items: seq<Item>, row: nat)
    ensures TitleTexts(DataLines(items, row)) == []
    decreases |items|
  {
    if |items| > 0 {
      DataLinesNoTitles(items[1..], row + 1);
      assert DataLines(items, row)[1..] == DataLines(items[1..], row + 1);
    }
  }

  /** A block's only title row is its own title. */
  lemma BlockLinesTitles(b: Block, row: nat)
    ensures TitleTexts(BlockLines(b, row)) == [b.title]
  {
    var ls := BlockLines(b, row);
    var data := DataLines(b.items, row + 2);
    DataLinesNoTitles(b.items, row + 2);
    assert ls[1..] == [Header(row + 1)] + data;
    assert ls[1..][1..] == data;
  }

  /** The title rows of the placed blocks are the blocks' titles, in block order. */
  lemma {:induction false} PlaceBlocksTitles(bs: seq<Block>, row: nat)
    ensures TitleTexts(PlaceBlocks(bs, row)) == Titles(bs)
    decreases |bs|
  {
    if |bs| > 0 {
      var next := row + |bs[0].items| + 3;
      var ls, rest := BlockLines(bs[0], row), PlaceBlocks(bs[1..], next);
      assert PlaceBlocks(bs, row) == ls + rest;
      PlaceBlocksTitles(bs[1..], next);
      TitleTextsAppend(ls, rest);
      BlockLinesTitles(bs[0], row);
      TitlesCons(bs);
    }
  }

  lemma TitlesCons(bs: seq<Block>)
    requires |bs| > 0
    ensures Titles(bs) == [bs[0].title] + Titles(bs[1..])
  {
  }

  /** The placed blocks step one row at a time with one blank row before each title after the
      first, and every title is followed by its header. */
  lemma {:induction false} PlaceBlocksSteps(bs: seq<Block>, row: nat)
    ensures Steps(PlaceBlocks(bs, row)) && HeadedBlocks(PlaceBlocks(bs, row))
    decreases |bs|
  {
    if |bs| > 0 {
      var ls := BlockLines(bs[0], row);
      var next := row + |bs[0].items| + 3;
      BlockLinesSteps(bs[0], row);
      BlockLinesAt(bs[0], row, |ls| - 1);
      PlaceBlocksSteps(bs[1..], next);
      StepsAppend(ls, PlaceBlocks(bs[1..], next));
    }
  }

  /** No placed line is a notice or lies above `row`. */
  lemma {:induction false} PlaceBlocksRows(bs: seq<Block>, row: nat)
    ensures forall i :: 0 <= i < |PlaceBlocks(bs, row)| ==> !PlaceBlocks(bs, row)[i].Notice? && PlaceBlocks(bs, row)[i].row >= row
    decreases |bs|
  {
    if |bs| > 0 {
      var next := row + |bs[0].items| + 3;
      BlockLinesRows(bs[0], row);
      PlaceBlocksRows(bs[1..], next);
      AppendRows(BlockLines(bs[0], row), PlaceBlocks(bs[1..], next), row, next);
    }
  }

  /** The placed blocks write the items of all blocks, in order. */
  lemma {:induction false} PlaceBlocksItems(bs: seq<Block>, row: nat)
    ensures DataItems(PlaceBlocks(bs, row)) == AllItems(bs)
    decreases |bs|
  {
    if |bs| > 0 {
      var ls := BlockLines(bs[0], row);
      var rest := PlaceBlocks(bs[1..], row + |bs[0].items| + 3);
      BlockLinesItems(bs[0], row);
      PlaceBlocksItems(bs[1..], row + |bs[0].items| + 3);
      DataItemsAppend(ls, rest);
    }
  }

  lemma AppendRows(a: seq<Line>, b: seq<Line>, row: nat, next: nat)
    requires row <= next
    requires forall i :: 0 <= i < |a| ==> !a[i].Notice? && a[i].row >= row
    requires forall i :: 0 <= i < |b| ==> !b[i].Notice? && b[i].row >= next
    ensures forall i :: 0 <= i < |a + b| ==> !(a + b)[i].Notice? && (a + b)[i].row >= row
  {
    forall i | 0 <= i < |a + b| ensures !(a + b)[i].Notice? && (a + b)[i].row >= row {
      if i >= |a| {
        assert (a + b)[i] == b[i - |a|];
      }
    }
  }

  lemma StepsAppend(a: seq<Line>, b: seq<Line>)
    requires Steps(a) && Steps(b) && HeadedBlocks(a) && HeadedBlocks(b)
    requires |a| >= 2 && (a[|a| - 1].Data? || a[|a| - 1].Header?)
    requires |b| > 0 ==> b[0].Title? && b[0].row == a[|a| - 1].row + 2
    ensures Steps(a + b) && HeadedBlocks(a + b)
  {
    var c := a + b;
    forall i | 0 < i < |c| ensures c[i].row == c[i - 1].row + (if c[i].Title? then 2 else 1) {
      if i >= |a| + 1 {
        assert c[i] == b[i - |a|] && c[i - 1] == b[i - 1 - |a|];
      }
    }
    forall i | 0 < i < |c| ensures c[i].Header? <==> c[i - 1].Title? {
      if i < |a| {
        assert c[i] == a[i] && c[i - 1] == a[i - 1];
      } else if i == |a| {
        assert c[i] == b[0] && c[i - 1] == a[|a| - 1];
      } else {
        assert c[i] == b[i - |a|] && c[i - 1] == b[i - 1 - |a|];
      }
    }
  }

  /** The frame rows of each block. */
  function BlockSources(bs: seq<Block>): (r: seq<seq<FrameRow>>)
    ensures |r| == |bs| && forall j :: 0 <= j < |bs| ==> r[j] == Sources(bs[j].items)
  {
    seq(|bs|, j requires 0 <= j < |bs| => Sources(bs[j].items))
  }

  /** The frame rows of the blocks are the rows written, block after block. */
  lemma {:induction false} AllSources(bs: seq<Block>)
    ensures Sources(AllItems(bs)) == Flatten(BlockSources(bs))
    decreases |bs|
  {
    if |bs| > 0 {
      AllSources(bs[1..]);
      SourcesAppend(bs[0].items, AllItems(bs[1..]));
      assert BlockSources(bs)[1..] == BlockSources(bs[1..]);
    }
  }

  /** The items of each block. */
  function ItemsOf(bs: seq<Block>): (r: seq<seq<Item>>)
    ensures |r| == |bs| && forall j :: 0 <= j < |bs| ==> r[j] == bs[j].items
  {
    seq(|bs|, j requires 0 <= j < |bs| => bs[j].items)
  }

  /** The items of the blocks, block after block. */
  lemma {:induction false} AllItemsFlatten(bs: seq<Block>)
    ensures AllItems(bs) == Flatten(ItemsOf(bs))
    decreases |bs|
  {
    if |bs| > 0 {
      AllItemsFlatten(bs[1..]);
      assert ItemsOf(bs)[1..] == ItemsOf(bs[1..]);
    }
  }

  // ------------------------------------------------------------------
  // Issue groups

  /** Row `i` starts an issue group: it is the first row or its issue differs from the row above. */
  predicate IsHead(rows: seq<FrameRow>, i: int)
    requires 0 <= i < |rows|
  {
    i == 0 || rows[i - 1].issue != rows[i].issue
  }

  /** A non-empty group of rows with one issue. */
  predicate OneIssue(g: seq<FrameRow>) {
    |g| > 0 && forall i :: 0 <= i < |g| ==> g[i].issue == g[0].issue
  }

  /** Groups as the writers form them: none empty, one issue per group, and neighbouring groups
      with different issues. */
  predicate IssueRuns(gs: seq<seq<FrameRow>>) {
    && (forall j :: 0 <= j < |gs| ==> OneIssue(gs[j]))
    && (forall j :: 0 < j < |gs| ==> gs[j][0].issue != gs[j - 1][0].issue)
  }

  /** The items of one group. The first row is the summary: its issue is shown, it is bold when
      `bold`, and it is marked collapsed when it has details or when `singles`. The other rows are
      details: hidden at outline level 1, never bold, with the issue shown only when `detailIssue`. */
  function GroupRows(g: seq<FrameRow>, bold: bool, detailIssue: bool, singles: bool): (items: seq<Item>)
    ensures |items| == |g|
    ensures forall i :: 0 <= i < |g| ==> (items[i] ==
      if i == 0 then Item(g[0], true, bold, false, singles || |g| > 1) else Item(g[i], detailIssue, false, true, false))
  {
    seq(|g|, i requires 0 <= i < |g| =>
      if i == 0 then Item(g[0], true, bold, false, singles || |g| > 1) else Item(g[i], detailIssue, false, true, false))
  }

  /** The items of the groups, one group after another. */
  function GroupedItems(gs: seq<seq<FrameRow>>, bold: bool, detailIssue: bool, singles: bool): (items: seq<Item>)
    ensures Sources(items) == Flatten(gs)
  {
    if |gs| == 0 then []
    else
      var h := GroupRows(gs[0], bold, detailIssue, singles);
      var rest := GroupedItems(gs[1..], bold, detailIssue, singles);
      SourcesAppend(h, rest);
      assert Sources(h) == gs[0];
      h + rest
  }

  /** Rows written one per line in the given order: every row with its issue, none bold or outlined. */
  function FlatItems(rows: seq<FrameRow>): (items: seq<Item>)
    ensures Sources(items) == rows
    ensures forall i :: 0 <= i < |items| ==> items[i].showIssue && !items[i].bold && !items[i].detail && !items[i].collapsed
  {
    seq(|rows|, i requires 0 <= i < |rows| => Item(rows[i], true, false, false, false))
  }

  /** Grouping rows by their issues, each issue once, gives issue runs. */
  lemma DistinctIssueRuns(s: seq<FrameRow>)
    ensures IssueRuns(GroupsOf(s, IssueOf, Distinct(MapSeq(s, IssueOf))))
  {
    var keys := Distinct(MapSeq(s, IssueOf));
    var gs := GroupsOf(s, IssueOf, keys);
    forall j | 0 <= j < |gs| ensures OneIssue(gs[j]) && gs[j][0].issue == keys[j] {
      assert keys[j] in MapSeq(s, IssueOf);
      var k :| 0 <= k < |s| && MapSeq(s, IssueOf)[k] == keys[j];
      assert s[k] in gs[j];
    }
  }

  lemma IssueRunsTail(gs: seq<seq<FrameRow>>)
    requires IssueRuns(gs) && |gs| > 0
    ensures IssueRuns(gs[1..])
    ensures |gs| > 1 ==> |Flatten(gs[1..])| > 0 && Flatten(gs[1..])[0] == gs[1][0]
  {
    var t := gs[1..];
    assert forall j :: 0 <= j < |t| ==> t[j] == gs[j + 1];
    if |gs| > 1 {
      assert OneIssue(t[0]);
      assert Flatten(t) == t[0] + Flatten(t[1..]);
    }
  }

  /** Where the groups start in their concatenation: at the first row, and where the later groups
      start. */
  lemma HeadsSplit(gs: seq<seq<FrameRow>>, i: int)
    requires IssueRuns(gs) && |gs| > 0
    requires 0 <= i < |Flatten(gs)|
    ensures Flatten(gs) == gs[0] + Flatten(gs[1..])
    ensures IsHead(Flatten(gs), i) <==> i == 0 || (i >= |gs[0]| && IsHead(Flatten(gs[1..]), i - |gs[0]|))
  {
    var rows, n, rr := Flatten(gs), |gs[0]|, Flatten(gs[1..]);
    IssueRunsTail(gs);
    assert OneIssue(gs[0]);
    if 0 < i < n {
      assert rows[i - 1] == gs[0][i - 1] && rows[i] == gs[0][i];
      assert gs[0][i - 1].issue == gs[0][0].issue == gs[0][i].issue;
    } else if i == n {
      assert rows[i - 1] == gs[0][n - 1] && rows[i] == rr[0] == gs[1][0];
      assert gs[0][n - 1].issue == gs[0][0].issue != gs[1][0].issue;
    } else if i > n {
      assert rows[i - 1] == rr[i - 1 - n] && rows[i] == rr[i - n];
    }
  }

  /** Summary rows are exactly the group starts, and detail rows exactly the others; a summary is
      marked collapsed when `singles` and otherwise exactly when a detail row follows it. */
  lemma {:induction false} GroupedMarks(gs: seq<seq<FrameRow>>, bold: bool, detailIssue: bool, singles: bool, i: int)
    requires IssueRuns(gs)
    requires 0 <= i < |Flatten(gs)|
    ensures var items, rows := GroupedItems(gs, bold, detailIssue, singles), Flatten(gs);
      && items[i].bold == (bold && IsHead(rows, i))
      && items[i].showIssue == (detailIssue || IsHead(rows, i))
      && items[i].detail == !IsHead(rows, i)
      && items[i].collapsed == (IsHead(rows, i) && (singles || (i + 1 < |rows| && !IsHead(rows, i + 1))))
    decreases |gs|
  {
    var items, rows := GroupedItems(gs, bold, detailIssue, singles), Flatten(gs);
    var h, n := GroupRows(gs[0], bold, detailIssue, singles), |gs[0]|;
    var rest, rr := GroupedItems(gs[1..], bold, detailIssue, singles), Flatten(gs[1..]);
    IssueRunsTail(gs);
    HeadsSplit(gs, i);
    assert items == h + rest;
    assert |rest| == |rr|;
    if i + 1 < |rows| {
      HeadsSplit(gs, i + 1);
    }
    if i >= n {
      assert items[i] == rest[i - n];
      GroupedMarks(gs[1..], bold, detailIssue, singles, i - n);
    } else {
      assert items[i] == h[i];
      if i + 1 == n && n < |rows| {
        assert IsHead(rr, 0);
      }
    }
  }
}

=== FILE: seqs.dfy ===
/** Counting and de-duplicating sequences: `value_counts`, `nunique`, `cumcount` and
    `drop_duplicates` in sequence terms. */
module Seqs {

  /** How many times `x` occurs in `s`. */
  function Occ<T(==)>(s: seq<T>, x: T): (n: nat)
    ensures n <= |s|
    ensures n == 0 <==> x !in s
  {
    if |s| == 0 then 0
    else Occ(s[..|s| - 1], x) + (if s[|s| - 1] == x then 1 else 0)
  }

  lemma {:induction false} OccAppend<T>(a: seq<T>, b: seq<T>, x: T)
    ensures Occ(a + b, x) == Occ(a, x) + Occ(b, x)
    decreases |b|
  {
    if |b| > 0 {
      assert (a + b)[..|a + b| - 1] == a + b[..|b| - 1];
      OccAppend(a, b[..|b| - 1], x);
    } else {
      assert a + b == a;
    }
  }

  /** The distinct elements of `s` in order of first occurrence. */
  function Distinct<T(==,!new)>(s: seq<T>): (d: seq<T>)
    ensures |d| <= |s|
    ensures forall i, j :: 0 <= i < j < |d| ==> d[i] != d[j]
    ensures forall x :: x in d <==> x in s
  {
    if |s| == 0 then []
    else
      var init := s[..|s| - 1];
      assert s == init + [s[|s| - 1]];
      var d := Distinct(init);
      if s[|s| - 1] in init then d else d + [s[|s| - 1]]
  }

  /** No value occurs twice. */
  predicate NoRepeats<T(==)>(s: seq<T>) {
    forall i, j :: 0 <= i < j < |s| ==> s[i] != s[j]
  }

  /** The position where `x` first occurs. */
  function FirstIndex<T(==)>(s: seq<T>, x: T): (k: nat)
    requires x in s
    ensures k < |s| && s[k] == x && x !in s[..k]
  {
    if s[0] == x then 0
    else
      var k := FirstIndex(s[1..], x);
      assert s[..k + 1] == [s[0]] + s[1..][..k];
      k + 1
  }

  lemma FirstIndexPrefix<T>(s: seq<T>, n: nat, x: T)
    requires n <= |s| && x in s[..n]
    ensures x in s && FirstIndex(s, x) == FirstIndex(s[..n], x)
  {
    var k := FirstIndex(s[..n], x);
    assert s[..n][..k] == s[..k];
    FirstIndexUnique(s, x, k);
  }

  lemma FirstIndexUnique<T>(s: seq<T>, x: T, k: nat)
    requires k < |s| && s[k] == x && x !in s[..k]
    ensures FirstIndex(s, x) == k
  {
    var f := FirstIndex(s, x);
    forall j | 0 <= j < k ensures s[j] != x {
      assert s[..k][j] == s[j];
    }
    forall j | 0 <= j < f ensures s[j] != x {
      assert s[..f][j] == s[j];
    }
  }

  /** The values are kept in the order of their first occurrences. */
  lemma {:induction false} DistinctOrder<T(!new)>(s: seq<T>)
    ensures forall i, j :: 0 <= i < j < |Distinct(s)| ==> FirstIndex(s, Distinct(s)[i]) < FirstIndex(s, Distinct(s)[j])
    decreases |s|
  {
    if |s| > 0 {
      var init := s[..|s| - 1];
      var x := s[|s| - 1];
      var d := Distinct(init);
      DistinctOrder(init);
      assert s[..|s| - 1] == init;
      forall y | y in d ensures y in s && FirstIndex(s, y) == FirstIndex(init, y) {
        FirstIndexPrefix(s, |s| - 1, y);
      }
      if x !in init {
        FirstIndexUnique(s, x, |s| - 1);
        var r := d + [x];
        forall i, j | 0 <= i < j < |r| ensures FirstIndex(s, r[i]) < FirstIndex(s, r[j]) {
          assert r[i] == d[i] && d[i] in d;
          if j < |d| {
            assert r[j] == d[j] && d[j] in d;
          } else {
            assert r[j] == x && FirstIndex(init, d[i]) < |init|;
          }
        }
      } else {
        forall i, j | 0 <= i < j < |d| ensures FirstIndex(s, d[i]) < FirstIndex(s, d[j]) {
          assert d[i] in d && d[j] in d;
          assert FirstIndex(init, d[i]) < FirstIndex(init, d[j]);
        }
      }
    }
  }

  /** A list without repeats is its own de-duplication. */
  lemma {:induction false} DistinctOfNoRepeats<T(!new)>(s: seq<T>)
    requires NoRepeats(s)
    ensures Distinct(s) == s
    decreases |s|
  {
    if |s| > 0 {
      var init := s[..|s| - 1];
      DistinctOfNoRepeats(init);
      assert s[|s| - 1] !in init;
      assert s == init + [s[|s| - 1]];
    }
  }

  /** The number of `true` entries. */
  function CountTrue(s: seq<bool>): (n: nat)
    ensures n <= |s|
  {
    if |s| == 0 then 0
    else CountTrue(s[..|s| - 1]) + (if s[|s| - 1] then 1 else 0)
  }

  /** For each position, whether it is the first occurrence of its value: `~s.duplicated()`. */
  function FirstMask<T(==)>(s: seq<T>): (m: seq<bool>)
    ensures |m| == |s| && forall i :: 0 <= i < |s| ==> (m[i] <==> s[i] !in s[..i])
  {
    seq(|s|, i requires 0 <= i < |s| => s[i] !in s[..i])
  }

  /** An element is new at `i` when no earlier position holds it. */
  lemma NotInPrefix<T>(s: seq<T>, i: int)
    requires 0 <= i < |s|
    ensures s[i] !in s[..i] <==> forall j :: 0 <= j < i ==> s[j] != s[i]
  {
    if s[i] in s[..i] {
      var j :| 0 <= j < i && s[..i][j] == s[i];
    }
  }

  /** The positions whose mask entry is set, in increasing order. */
  function TrueIndices(mask: seq<bool>): (idx: seq<nat>)
    ensures |idx| == CountTrue(mask)
    ensures forall k :: 0 <= k < |idx| ==> idx[k] < |mask| && mask[idx[k]]
    ensures forall k, l :: 0 <= k < l < |idx| ==> idx[k] < idx[l]
    ensures forall i :: 0 <= i < |mask| && mask[i] ==> i in idx
  {
    if |mask| == 0 then []
    else TrueIndices(mask[..|mask| - 1]) + (if mask[|mask| - 1] then [|mask| - 1] else [])
  }

  /** The elements of `s` at the positions `idx`, in that order: `s.iloc[idx]`. */
  function Gather<T>(s: seq<T>, idx: seq<nat>): (r: seq<T>)
    requires forall k :: 0 <= k < |idx| ==> idx[k] < |s|
    ensures |r| == |idx| && forall k :: 0 <= k < |idx| ==> r[k] == s[idx[k]]
  {
    seq(|idx|, k requires 0 <= k < |idx| => s[idx[k]])
  }

  lemma GatherPrefix<T>(s: seq<T>, n: nat, idx: seq<nat>)
    requires n <= |s| && forall k :: 0 <= k < |idx| ==> idx[k] < n
    ensures Gather(s[..n], idx) == Gather(s, idx)
  {
  }

  /** Keeping the first occurrences of `s` gives its distinct elements in order. */
  lemma {:induction false} GatherFirstIsDistinct<T(!new)>(s: seq<T>)
    ensures Gather(s, TrueIndices(FirstMask(s))) == Distinct(s)
    decreases |s|
  {
    if |s| > 0 {
      var n := |s| - 1;
      var init := s[..n];
      var head := TrueIndices(FirstMask(init));
      FirstIndicesStep(s);
      GatherFirstIsDistinct(init);
      GatherPrefix(s, n, head);
      DistinctSnoc(s);
      if s[n] !in init {
        GatherSnoc(s, head, n);
      }
    }
  }

  lemma DistinctSnoc<T(!new)>(s: seq<T>)
    requires |s| > 0
    ensures s[|s| - 1] in s[..|s| - 1] ==> Distinct(s) == Distinct(s[..|s| - 1])
    ensures s[|s| - 1] !in s[..|s| - 1] ==> Distinct(s) == Distinct(s[..|s| - 1]) + [s[|s| - 1]]
  {
  }

  lemma TrueIndicesSnoc(mask: seq<bool>)
    requires |mask| > 0
    ensures !mask[|mask| - 1] ==> TrueIndices(mask) == TrueIndices(mask[..|mask| - 1])
    ensures mask[|mask| - 1] ==> TrueIndices(mask) == TrueIndices(mask[..|mask| - 1]) + [|mask| - 1]
  {
    var n := |mask| - 1;
    if !mask[n] {
      assert TrueIndices(mask[..n]) + [] == TrueIndices(mask[..n]);
    }
  }

  lemma FirstIndicesStep<T>(s: seq<T>)
    requires |s| > 0
    ensures s[|s| - 1] in s[..|s| - 1] ==> TrueIndices(FirstMask(s)) == TrueIndices(FirstMask(s[..|s| - 1]))
    ensures s[|s| - 1] !in s[..|s| - 1] ==> TrueIndices(FirstMask(s)) == TrueIndices(FirstMask(s[..|s| - 1])) + [|s| - 1]
  {
    MaskPrefix(s, |s| - 1);
    TrueIndicesSnoc(FirstMask(s));
  }

  lemma GatherSnoc<T>(s: seq<T>, head: seq<nat>, n: nat)
    requires n < |s| && forall k :: 0 <= k < |head| ==> head[k] < |s|
    ensures Gather(s, head + [n]) == Gather(s, head) + [s[n]]
  {
  }

  lemma MaskPrefix<T>(s: seq<T>, n: nat)
    requires n <= |s|
    ensures FirstMask(s)[..n] == FirstMask(s[..n])
  {
    var m := FirstMask(s);
    forall i | 0 <= i < n ensures m[i] == FirstMask(s[..n])[i] {
      assert s[..n][..i] == s[..i];
    }
  }

  /** Every element is either the first of its value or a repeat: distinct count plus repeats is the length. */
  lemma {:induction false} DistinctPlusRepeats<T(!new)>(s: seq<T>)
    ensures |Distinct(s)| + CountTrue(seq(|s|, i requires 0 <= i < |s| => s[i] in s[..i])) == |s|
    decreases |s|
  {
    if |s| > 0 {
      var n := |s| - 1;
      var init := s[..n];
      DistinctPlusRepeats(init);
      var rs := seq(|s|, i requires 0 <= i < |s| => s[i] in s[..i]);
      var ri := seq(|init|, i requires 0 <= i < |init| => init[i] in init[..i]);
      assert rs[..n] == ri by {
        forall i | 0 <= i < n ensures rs[i] == ri[i] {
          assert init[..i] == s[..i];
        }
      }
      assert s[..n] == init;
    }
  }

  /** The elements before position `i` equal to `s[i]` are fewer than all of them. */
  lemma OccPrefixBound<T>(s: seq<T>, i: int)
    requires 0 <= i < |s|
    ensures Occ(s[..i], s[i]) + 1 <= Occ(s, s[i])
  {
    assert s == s[..i] + s[i..];
    OccAppend(s[..i], s[i..], s[i]);
    assert s[i..][0] == s[i];
  }

  /** Later equal elements have more equal predecessors. */
  lemma OccPrefixIncreasing<T>(s: seq<T>, i: int, j: int)
    requires 0 <= i < j < |s| && s[i] == s[j]
    ensures Occ(s[..i], s[i]) < Occ(s[..j], s[j])
  {
    assert s[..j] == s[..i] + s[i..j];
    OccAppend(s[..i], s[i..j], s[i]);
    assert s[i..j][0] == s[i];
  }

  /** The elements satisfying `p`, in order. */
  function Filter<T(!new)>(s: seq<T>, p: T -> bool): (r: seq<T>)
    ensures |r| <= |s|
    ensures forall x :: x in r <==> x in s && p(x)
  {
    if |s| == 0 then []
    else
      assert s == s[..|s| - 1] + [s[|s| - 1]];
      Filter(s[..|s| - 1], p) + (if p(s[|s| - 1]) then [s[|s| - 1]] else [])
  }

  lemma {:induction false} FilterNone<T(!new)>(s: seq<T>, p: T -> bool)
    requires forall i :: 0 <= i < |s| ==> !p(s[i])
    ensures Filter(s, p) == []
    decreases |s|
  {
    if |s| > 0 {
      FilterNone(s[..|s| - 1], p);
    }
  }

  /** Filtering a sequence with a first element: that element, when it satisfies `p`, then the
      rest filtered. */
  lemma {:induction false} FilterCons<T(!new)>(x: T, s: seq<T>, p: T -> bool)
    ensures Filter([x] + s, p) == (if p(x) then [x] else []) + Filter(s, p)
    decreases |s|
  {
    var t := [x] + s;
    if |s| > 0 {
      var init := s[..|s| - 1];
      FilterCons(x, init, p);
      assert t[..|t| - 1] == [x] + init;
      assert t[|t| - 1] == s[|s| - 1];
    } else {
      assert t[..|t| - 1] == [];
    }
  }

  /** An image of the filtered rest, with the image of a first element that satisfies `p` put in
      front, is the image of the filtered whole. */
  lemma FilteredCons<A(!new), B>(s: seq<A>, p: A -> bool, f: A -> B, rest: seq<B>)
    requires |s| > 0
    requires |rest| == |Filter(s[1..], p)|
    requires forall j :: 0 <= j < |rest| ==> rest[j] == f(Filter(s[1..], p)[j])
    ensures var r := if p(s[0]) then [f(s[0])] + rest else rest;
      |r| == |Filter(s, p)| && forall j :: 0 <= j < |r| ==> r[j] == f(Filter(s, p)[j])
  {
    FilterCons(s[0], s[1..], p);
    assert [s[0]] + s[1..] == s;
  }

  /** Filtering keeps a sequence free of repeats. */
  lemma {:induction false} FilterNoRepeats<T(!new)>(s: seq<T>, p: T -> bool)
    requires NoRepeats(s)
    ensures NoRepeats(Filter(s, p))
    decreases |s|
  {
    if |s| > 0 {
      var init := s[..|s| - 1];
      var last := s[|s| - 1];
      assert NoRepeats(init) by {
        forall i, j | 0 <= i < j < |init| ensures init[i] != init[j] {
          assert init[i] == s[i] && init[j] == s[j];
        }
      }
      FilterNoRepeats(init, p);
      assert last !in init by {
        forall i | 0 <= i < |init| ensures init[i] != last {
          assert init[i] == s[i];
        }
      }
    }
  }

  /** Positions picked by a mask of `p` are the elements satisfying `p`. */
  lemma {:induction false} GatherKeepMask<T(!new)>(s: seq<T>, p: T -> bool)
    ensures Gather(s, TrueIndices(MapSeq(s, p))) == Filter(s, p)
    decreases |s|
  {
    if |s| > 0 {
      var n := |s| - 1;
      var head := TrueIndices(MapSeq(s[..n], p));
      assert MapSeq(s, p)[..n] == MapSeq(s[..n], p);
      GatherKeepMask(s[..n], p);
      GatherPrefix(s, n, head);
      GatherSnoc(s, head, n);
    }
  }

  /** Every element satisfies `p` or not, never both: the two filters split `s`. */
  lemma {:induction false} FilterSplits<T(!new)>(s: seq<T>, p: T -> bool, q: T -> bool)
    requires forall x :: q(x) == !p(x)
    ensures multiset(Filter(s, p)) + multiset(Filter(s, q)) == multiset(s)
    decreases |s|
  {
    if |s| > 0 {
      var n := |s| - 1;
      FilterSplits(s[..n], p, q);
      assert s == s[..n] + [s[n]];
    }
  }

  /** `0, 1, .., n - 1`. */
  function Range(n: nat): (r: seq<nat>)
    ensures |r| == n && forall i :: 0 <= i < n ==> r[i] == i
  {
    seq(n, i requires 0 <= i < n => i)
  }

  lemma RangeSnoc(n: nat)
    ensures Range(n + 1) == Range(n) + [n]
  {
  }

  /** A mask set exactly below `k` selects the first `k` positions. */
  lemma {:induction false} TrueIndicesBelow(mask: seq<bool>, k: nat)
    requires k <= |mask| && forall i :: 0 <= i < |mask| ==> (mask[i] <==> i < k)
    ensures TrueIndices(mask) == Range(k)
    decreases |mask|
  {
    if |mask| > 0 {
      var n := |mask| - 1;
      TrueIndicesSnoc(mask);
      if k == |mask| {
        TrueIndicesBelow(mask[..n], n);
        RangeSnoc(n);
      } else {
        TrueIndicesBelow(mask[..n], k);
      }
    }
  }

  /** The sequences one after another. */
  function Flatten<T>(ss: seq<seq<T>>): (r: seq<T>)
    ensures |ss| == 1 ==> r == ss[0]
  {
    if |ss| == 0 then [] else ss[0] + Flatten(ss[1..])
  }

  lemma {:induction false} FlattenAppend<T>(a: seq<seq<T>>, b: seq<seq<T>>)
    ensures Flatten(a + b) == Flatten(a) + Flatten(b)
    decreases |a|
  {
    if |a| == 0 {
      assert a + b == b;
    } else {
      assert (a + b)[1..] == a[1..] + b;
      FlattenAppend(a[1..], b);
    }
  }

  /** The elements whose key is `k`, in order: one group of `groupby`. */
  function Group<T(==,!new), K(==)>(s: seq<T>, key: T -> K, k: K): (r: seq<T>)
    ensures |r| <= |s|
    ensures forall i :: 0 <= i < |r| ==> key(r[i]) == k
    ensures forall x :: x in r <==> x in s && key(x) == k
    decreases |s|
  {
    if |s| == 0 then []
    else
      assert s == s[..|s| - 1] + [s[|s| - 1]];
      Group(s[..|s| - 1], key, k) + (if key(s[|s| - 1]) == k then [s[|s| - 1]] else [])
  }

  /** The groups of the given keys, in the keys' order. */
  function GroupsOf<T(==,!new), K(==)>(s: seq<T>, key: T -> K, keys: seq<K>): (gs: seq<seq<T>>)
    ensures |gs| == |keys| && forall j :: 0 <= j < |keys| ==> gs[j] == Group(s, key, keys[j])
  {
    seq(|keys|, j requires 0 <= j < |keys| => Group(s, key, keys[j]))
  }

  /** Adding `x` to one of the sequences adds it once to their concatenation. */
  lemma {:induction false} FlattenAddOne<T>(gs: seq<seq<T>>, hs: seq<seq<T>>, j0: int, x: T)
    requires |gs| == |hs| && 0 <= j0 < |gs| && hs[j0] == gs[j0] + [x]
    requires forall j :: 0 <= j < |gs| && j != j0 ==> hs[j] == gs[j]
    ensures multiset(Flatten(hs)) == multiset(Flatten(gs)) + multiset{x}
    decreases |gs|
  {
    if j0 > 0 {
      FlattenAddOne(gs[1..], hs[1..], j0 - 1, x);
    } else {
      assert gs[1..] == hs[1..];
    }
  }

  /** Grouping by distinct keys keeps each element whose key is among them, once, and drops the others. */
  lemma {:induction false} GroupsSelect<T(!new), K>(s: seq<T>, key: T -> K, keys: seq<K>)
    requires NoRepeats(keys)
    ensures forall x :: multiset(Flatten(GroupsOf(s, key, keys)))[x] == if key(x) in keys then multiset(s)[x] else 0
    decreases |s|
  {
    if |s| == 0 {
      assert forall j :: 0 <= j < |keys| ==> GroupsOf(s, key, keys)[j] == [];
      FlattenEmpty(GroupsOf(s, key, keys));
    } else {
      var init := s[..|s| - 1];
      var x := s[|s| - 1];
      GroupsSelect(init, key, keys);
      GroupsSnoc(init, x, key, keys);
      assert s == init + [x];
      assert multiset(s) == multiset(init) + multiset{x};
    }
  }

  /** Appending `x` adds it once to the grouped elements when its key is among the keys, and
      changes nothing otherwise. */
  lemma GroupsSnoc<T(!new), K>(init: seq<T>, x: T, key: T -> K, keys: seq<K>)
    requires NoRepeats(keys)
    ensures multiset(Flatten(GroupsOf(init + [x], key, keys))) ==
      multiset(Flatten(GroupsOf(init, key, keys))) + if key(x) in keys then multiset{x} else multiset{}
  {
    var s := init + [x];
    assert s[..|s| - 1] == init && s[|s| - 1] == x;
    var gi, gs := GroupsOf(init, key, keys), GroupsOf(s, key, keys);
    if key(x) in keys {
      var j0 :| 0 <= j0 < |keys| && keys[j0] == key(x);
      FlattenAddOne(gi, gs, j0, x);
    } else {
      forall j | 0 <= j < |keys| ensures gs[j] == gi[j] {
        assert key(s[|s| - 1]) != keys[j];
      }
      assert gs == gi;
    }
  }

  /** Grouping by distinct keys that cover every element neither loses nor repeats an element. */
  lemma GroupsPartition<T(!new), K>(s: seq<T>, key: T -> K, keys: seq<K>)
    requires NoRepeats(keys)
    requires forall i :: 0 <= i < |s| ==> key(s[i]) in keys
    ensures multiset(Flatten(GroupsOf(s, key, keys))) == multiset(s)
  {
    GroupsSelect(s, key, keys);
    forall x | x in multiset(s) ensures key(x) in keys {
      var i :| 0 <= i < |s| && s[i] == x;
    }
  }

  lemma {:induction false} FlattenEmpty<T>(gs: seq<seq<T>>)
    requires forall j :: 0 <= j < |gs| ==> gs[j] == []
    ensures Flatten(gs) == []
    decreases |gs|
  {
    if |gs| > 0 {
      FlattenEmpty(gs[1..]);
    }
  }

  /** Sequences that hold the same elements group by group hold the same elements together. */
  lemma {:induction false} FlattenSameElements<T>(gs: seq<seq<T>>, hs: seq<seq<T>>)
    requires |gs| == |hs| && forall j :: 0 <= j < |gs| ==> multiset(gs[j]) == multiset(hs[j])
    ensures multiset(Flatten(gs)) == multiset(Flatten(hs))
    decreases |gs|
  {
    if |gs| > 0 {
      FlattenSameElements(gs[1..], hs[1..]);
    }
  }

  /** `key` applied to every element. */
  function MapSeq<T, K>(s: seq<T>, key: T -> K): (r: seq<K>)
    ensures |r| == |s| && forall i :: 0 <= i < |s| ==> r[i] == key(s[i])
  {
    seq(|s|, i requires 0 <= i < |s| => key(s[i]))
  }

  lemma MapSeqAppend<T, K>(a: seq<T>, b: seq<T>, key: T -> K)
    ensures MapSeq(a + b, key) == MapSeq(a, key) + MapSeq(b, key)
  {
  }

  /** Applying `key` to two orderings of the same elements gives two orderings of the same keys. */
  lemma {:induction false} MapSeqPerm<T, K>(a: seq<T>, b: seq<T>, key: T -> K)
    requires multiset(a) == multiset(b)
    ensures multiset(MapSeq(a, key)) == multiset(MapSeq(b, key))
    decreases |a|
  {
    if |a| == 0 {
      assert |multiset(b)| == 0;
    } else {
      var x := a[0];
      assert x in multiset(b);
      var k :| 0 <= k < |b| && b[k] == x;
      var rest := b[..k] + b[k + 1..];
      assert b == b[..k] + [x] + b[k + 1..];
      assert a == [x] + a[1..];
      assert multiset(b) == multiset(rest) + multiset{x};
      assert multiset(a) == multiset(a[1..]) + multiset{x};
      assert multiset(a[1..]) == multiset(a) - multiset{x};
      assert multiset(rest) == multiset(b) - multiset{x};
      MapSeqPerm(a[1..], rest, key);
      MapSeqAppend([x], a[1..], key);
      MapSeqAppend(b[..k] + [x], b[k + 1..], key);
      MapSeqAppend(b[..k], [x], key);
      MapSeqAppend(b[..k], b[k + 1..], key);
    }
  }

  /** The distinct keys of `s` in first-appearance order cover every element: the groups of
      `groupby(sort=False)`. */
  lemma KeysCover<T, K(!new)>(s: seq<T>, key: T -> K)
    ensures NoRepeats(Distinct(MapSeq(s, key)))
    ensures forall i :: 0 <= i < |s| ==> key(s[i]) in Distinct(MapSeq(s, key))
  {
    var ks := MapSeq(s, key);
    forall i | 0 <= i < |s| ensures key(s[i]) in Distinct(ks) {
      assert ks[i] in ks;
    }
  }
}

=== FILE: sorting.dfy ===
/** A stable sort, the model of pandas' `sort_values(kind="mergesort")` and Python's `list.sort`.
    Orderings are given as "may come before" relations that are total preorders. */
module Sorting {
  import opened Seqs

  ghost predicate TotalPreorder<T(!new)>(le: (T, T) -> bool) {
    && (forall a, b :: le(a, b) || le(b, a))
    && (forall a, b, c {:trigger le(a, b), le(b, c)} :: le(a, b) && le(b, c) ==> le(a, c))
  }

  predicate SortedBy<T>(s: seq<T>, le: (T, T) -> bool) {
    forall i, j :: 0 <= i < j < |s| ==> le(s[i], s[j])
  }

  /** Insert `x` after every element that may come before it. */
  function Insert<T>(x: T, s: seq<T>, le: (T, T) -> bool): (r: seq<T>)
    ensures |r| == |s| + 1
  {
    if |s| == 0 then [x]
    else if le(s[0], x) then [s[0]] + Insert(x, s[1..], le)
    else [x] + s
  }

  /** Insertion sort: each element goes after the equivalent ones already placed. */
  function InsertionSort<T>(s: seq<T>, le: (T, T) -> bool): (r: seq<T>)
    ensures |r| == |s|
  {
    if |s| == 0 then []
    else Insert(s[|s| - 1], InsertionSort(s[..|s| - 1], le), le)
  }

  /** The stable sort: a permutation of its input. The permutation is stated here rather than on
      the insertion sort, so that the proofs about orders do not carry multisets along. */
  function Sort<T>(s: seq<T>, le: (T, T) -> bool): (r: seq<T>)
    ensures multiset(r) == multiset(s)
    ensures |r| == |s|
  {
    InsertionSortPerm(s, le);
    InsertionSort(s, le)
  }

  lemma {:induction false} InsertPerm<T>(x: T, s: seq<T>, le: (T, T) -> bool)
    ensures multiset(Insert(x, s, le)) == multiset(s) + multiset{x}
    decreases |s|
  {
    if |s| > 0 && le(s[0], x) {
      InsertPerm(x, s[1..], le);
      assert s == [s[0]] + s[1..];
    }
  }

  lemma {:induction false} InsertionSortPerm<T>(s: seq<T>, le: (T, T) -> bool)
    ensures multiset(InsertionSort(s, le)) == multiset(s)
    decreases |s|
  {
    if |s| > 0 {
      var init, x := s[..|s| - 1], s[|s| - 1];
      var si := InsertionSort(init, le);
      InsertionSortPerm(init, le);
      InsertPerm(x, si, le);
      assert InsertionSort(s, le) == Insert(x, si, le);
      assert s == init + [x];
      assert multiset(s) == multiset(init) + multiset{x};
    }
  }

  lemma {:induction false} InsertSorted<T(!new)>(x: T, s: seq<T>, le: (T, T) -> bool)
    requires TotalPreorder(le) && SortedBy(s, le)
    ensures SortedBy(Insert(x, s, le), le)
    decreases |s|
  {
    if |s| > 0 {
      if le(s[0], x) {
        InsertSorted(x, s[1..], le);
        var t := Insert(x, s[1..], le);
        InsertPerm(x, s[1..], le);
        forall j | 0 <= j < |t| ensures le(s[0], t[j]) {
          assert t[j] in multiset(t);
          assert t[j] == x || t[j] in multiset(s[1..]);
          if t[j] != x {
            var k :| 0 <= k < |s[1..]| && s[1..][k] == t[j];
            assert s[k + 1] == t[j];
          }
        }
        assert Insert(x, s, le) == [s[0]] + t;
      } else {
        assert le(x, s[0]);
      }
    }
  }

  lemma {:induction false} InsertionSortSorted<T(!new)>(s: seq<T>, le: (T, T) -> bool)
    requires TotalPreorder(le)
    ensures SortedBy(InsertionSort(s, le), le)
    decreases |s|
  {
    if |s| > 0 {
      InsertionSortSorted(s[..|s| - 1], le);
      InsertSorted(s[|s| - 1], InsertionSort(s[..|s| - 1], le), le);
    }
  }

  lemma SortSorted<T(!new)>(s: seq<T>, le: (T, T) -> bool)
    requires TotalPreorder(le)
    ensures SortedBy(Sort(s, le), le)
  {
    InsertionSortSorted(s, le);
  }

  /** The elements of `s` equivalent to `c`, in their order in `s`. */
  function Class<T>(s: seq<T>, c: T, le: (T, T) -> bool): (r: seq<T>)
    ensures |r| <= |s|
  {
    if |s| == 0 then []
    else (if le(s[0], c) && le(c, s[0]) then [s[0]] else []) + Class(s[1..], c, le)
  }

  lemma {:induction false} ClassAppend<T>(a: seq<T>, b: seq<T>, c: T, le: (T, T) -> bool)
    ensures Class(a + b, c, le) == Class(a, c, le) + Class(b, c, le)
    decreases |a|
  {
    if |a| > 0 {
      assert (a + b)[0] == a[0];
      assert (a + b)[1..] == a[1..] + b;
      ClassAppend(a[1..], b, c, le);
    } else {
      assert a + b == b;
    }
  }

  lemma {:induction false} ClassNone<T>(s: seq<T>, c: T, le: (T, T) -> bool)
    requires forall i :: 0 <= i < |s| ==> !(le(s[i], c) && le(c, s[i]))
    ensures Class(s, c, le) == []
    decreases |s|
  {
    if |s| > 0 {
      ClassNone(s[1..], c, le);
    }
  }

  lemma {:induction false} InsertClass<T(!new)>(x: T, s: seq<T>, c: T, le: (T, T) -> bool)
    requires TotalPreorder(le) && SortedBy(s, le)
    ensures Class(Insert(x, s, le), c, le)
         == Class(s, c, le) + (if le(x, c) && le(c, x) then [x] else [])
    decreases |s|
  {
    if |s| > 0 {
      var cx := if le(x, c) && le(c, x) then [x] else [];
      if le(s[0], x) {
        var t := Insert(x, s[1..], le);
        var h := if le(s[0], c) && le(c, s[0]) then [s[0]] else [];
        assert SortedBy(s[1..], le);
        InsertClass(x, s[1..], c, le);
        ClassCons(s[0], t, c, le);
        assert Class(s, c, le) == h + Class(s[1..], c, le);
        assert h + (Class(s[1..], c, le) + cx) == (h + Class(s[1..], c, le)) + cx;
      } else {
        InsertFirstClass(x, s, c, le);
      }
    }
  }

  lemma ClassCons<T>(h: T, t: seq<T>, c: T, le: (T, T) -> bool)
    ensures Class([h] + t, c, le) == (if le(h, c) && le(c, h) then [h] else []) + Class(t, c, le)
  {
    assert ([h] + t)[1..] == t;
  }

  /** An element inserted in front of a sorted sequence adds itself to its class and nothing else. */
  lemma InsertFirstClass<T(!new)>(x: T, s: seq<T>, c: T, le: (T, T) -> bool)
    requires TotalPreorder(le) && SortedBy(s, le) && |s| > 0 && !le(s[0], x)
    ensures Class(Insert(x, s, le), c, le) == Class(s, c, le) + (if le(x, c) && le(c, x) then [x] else [])
  {
    ClassCons(x, s, c, le);
    if le(x, c) && le(c, x) {
      forall i | 0 <= i < |s| ensures !(le(s[i], c) && le(c, s[i])) {
        NotBefore(s, x, c, i, le);
      }
      ClassNone(s, c, le);
    }
  }

  /** In a sorted sequence whose head may not come before `x`, nothing is tied with an element
      `c` that may come before `x`. */
  lemma NotBefore<T(!new)>(s: seq<T>, x: T, c: T, i: int, le: (T, T) -> bool)
    requires TotalPreorder(le) && SortedBy(s, le)
    requires 0 <= i < |s| && !le(s[0], x) && le(c, x)
    ensures !(le(s[i], c) && le(c, s[i]))
  {
    var a, b := s[0], s[i];
    assert le(b, c) ==> le(b, x);
    assert le(a, b) || i == 0;
  }

  lemma {:induction false} InsertionSortStable<T(!new)>(s: seq<T>, c: T, le: (T, T) -> bool)
    requires TotalPreorder(le)
    ensures Class(InsertionSort(s, le), c, le) == Class(s, c, le)
    decreases |s|
  {
    if |s| > 0 {
      var init, x := s[..|s| - 1], s[|s| - 1];
      var si := InsertionSort(init, le);
      InsertionSortStable(init, c, le);
      InsertionSortSorted(init, le);
      InsertClass(x, si, c, le);
      assert s == init + [x];
      ClassAppend(init, [x], c, le);
      ClassSingle(x, c, le);
    }
  }

  /** Stability: sorting keeps the relative order of equivalent elements. */
  lemma SortStable<T(!new)>(s: seq<T>, c: T, le: (T, T) -> bool)
    requires TotalPreorder(le)
    ensures Class(Sort(s, le), c, le) == Class(s, c, le)
  {
    InsertionSortStable(s, c, le);
  }

  lemma ClassSingle<T>(x: T, c: T, le: (T, T) -> bool)
    ensures Class([x], c, le) == if le(x, c) && le(c, x) then [x] else []
  {
    assert [x][1..] == [];
  }

  /** The first element of `s` that may come before all others. */
  function FirstLeast<T>(s: seq<T>, le: (T, T) -> bool): T
    requires |s| > 0
  {
    if |s| == 1 then s[0]
    else
      var m := FirstLeast(s[..|s| - 1], le);
      if le(m, s[|s| - 1]) then m else s[|s| - 1]
  }

  lemma {:induction false} FirstLeastIsFirst<T(!new)>(s: seq<T>, le: (T, T) -> bool) returns (k: int)
    requires TotalPreorder(le) && |s| > 0
    ensures 0 <= k < |s| && s[k] == FirstLeast(s, le)
    ensures forall j :: 0 <= j < |s| ==> le(s[k], s[j])
    ensures forall j :: 0 <= j < k ==> !le(s[j], s[k])
    decreases |s|
  {
    if |s| == 1 {
      k := 0;
    } else {
      var init := s[..|s| - 1];
      var k0 := FirstLeastIsFirst(init, le);
      if le(s[k0], s[|s| - 1]) {
        k := k0;
      } else {
        k := |s| - 1;
        forall j | 0 <= j < k ensures !le(s[j], s[k]) {
          assert le(s[k0], s[j]);
        }
      }
    }
  }

  /** The head of the sorted sequence is the first least element of the input. */
  lemma {:induction false} SortHead<T(!new)>(s: seq<T>, le: (T, T) -> bool)
    requires TotalPreorder(le) && |s| > 0
    ensures Sort(s, le)[0] == FirstLeast(s, le)
    decreases |s|
  {
    if |s| > 1 {
      SortHead(s[..|s| - 1], le);
    }
  }

  /** A sort keeps the elements it is given. */
  lemma SortKeeps<T>(s: seq<T>, le: (T, T) -> bool)
    ensures forall x :: x in Sort(s, le) <==> x in s
  {
    var r := Sort(s, le);
    forall x ensures x in r <==> x in s {
      assert x in r <==> x in multiset(r);
      assert x in s <==> x in multiset(s);
    }
  }

  /** Inserting an element that may come after every element appends it. */
  lemma {:induction false} InsertAfterAll<T>(x: T, s: seq<T>, le: (T, T) -> bool)
    requires forall i :: 0 <= i < |s| ==> le(s[i], x)
    ensures Insert(x, s, le) == s + [x]
    decreases |s|
  {
    if |s| > 0 {
      InsertAfterAll(x, s[1..], le);
    }
  }

  /** Sorting a sorted sequence leaves it as it is. */
  lemma {:induction false} SortOfSorted<T>(s: seq<T>, le: (T, T) -> bool)
    requires SortedBy(s, le)
    ensures Sort(s, le) == s
    decreases |s|
  {
    if |s| > 0 {
      var init := s[..|s| - 1];
      SortOfSorted(init, le);
      InsertAfterAll(s[|s| - 1], init, le);
      assert s == init + [s[|s| - 1]];
    }
  }

  /** A group taken out of a sorted sequence is sorted. */
  lemma {:induction false} GroupSorted<T(!new), K>(s: seq<T>, key: T -> K, k: K, le: (T, T) -> bool)
    requires SortedBy(s, le)
    ensures SortedBy(Group(s, key, k), le)
    decreases |s|
  {
    if |s| > 0 {
      var init, x := s[..|s| - 1], s[|s| - 1];
      var g := Group(init, key, k);
      GroupSorted(init, key, k, le);
      if key(x) == k {
        forall i | 0 <= i < |g| ensures le(g[i], x) {
          assert g[i] in init;
          var p :| 0 <= p < |init| && init[p] == g[i];
        }
        assert SortedBy(g + [x], le);
      }
    }
  }

  /** The ties of `c` inside its group are its ties in the whole sequence, in the same order, when
      being tied under `le1` means having the same key and being tied under `le2`. */
  lemma {:induction false} ClassOfGroup<T(!new), K>(s: seq<T>, key: T -> K, c: T, le1: (T, T) -> bool, le2: (T, T) -> bool)
    requires forall x :: (le1(x, c) && le1(c, x)) <==> key(x) == key(c) && le2(x, c) && le2(c, x)
    ensures Class(Group(s, key, key(c)), c, le2) == Class(s, c, le1)
    decreases |s|
  {
    if |s| > 0 {
      var init, x := s[..|s| - 1], s[|s| - 1];
      ClassOfGroup(init, key, c, le1, le2);
      assert s == init + [x];
      ClassAppend(init, [x], c, le1);
      var tail := if key(x) == key(c) then [x] else [];
      ClassAppend(Group(init, key, key(c)), tail, c, le2);
      assert [x][1..] == [];
      if key(x) == key(c) {
        assert tail[1..] == [];
      }
    }
  }
}

=== FILE: text.dfy ===
/** String helpers shared by the model: whitespace, case, substrings and ordering.
    Characters are compared by code point, as Python compares `str` values.
    Whitespace and case conversion cover ASCII only. */
module Text {

  /** The ASCII characters for which Python's `str.isspace()` holds, and so the ones `str.strip()`,
      `str.split()` and the regex class `\s` treat as whitespace: space, tab, the line breaks, vertical
      tab, form feed, and the four separators U+001C..U+001F. */
  predicate IsSpace(c: char) {
    c == ' ' || c == '\t' || c == '\n' || c == '\r' || c == '\U{000B}' || c == '\U{000C}'
    || ('\U{001C}' <= c <= '\U{001F}')
  }

  /** Every character of `s` is whitespace (so `s.strip()` is empty). */
  predicate Blank(s: string) {
    forall i :: 0 <= i < |s| ==> IsSpace(s[i])
  }

  /** `s` without its leading whitespace. */
  function TrimLeft(s: string): (r: string)
    ensures |r| <= |s|
    ensures |s| > 0 && IsSpace(s[0]) ==> |r| < |s|
  {
    if |s| > 0 && IsSpace(s[0]) then TrimLeft(s[1..]) else s
  }

  /** `s` without its trailing whitespace. */
  function TrimRight(s: string): (r: string)
    ensures |r| <= |s|
  {
    if |s| > 0 && IsSpace(s[|s| - 1]) then TrimRight(s[..|s| - 1]) else s
  }

  /** TrimLeft drops exactly the leading run of whitespace. */
  lemma {:induction false} TrimLeftSpec(s: string)
    ensures TrimLeft(s) == s[|s| - |TrimLeft(s)|..]
    ensures forall i :: 0 <= i < |s| - |TrimLeft(s)| ==> IsSpace(s[i])
    ensures TrimLeft(s) == [] || !IsSpace(TrimLeft(s)[0])
    decreases |s|
  {
    if |s| > 0 && IsSpace(s[0]) {
      TrimLeftSpec(s[1..]);
    }
  }

  /** TrimRight drops exactly the trailing run of whitespace. */
  lemma {:induction false} TrimRightSpec(s: string)
    ensures TrimRight(s) == s[..|TrimRight(s)|]
    ensures forall i :: |TrimRight(s)| <= i < |s| ==> IsSpace(s[i])
    ensures TrimRight(s) == [] || !IsSpace(TrimRight(s)[|TrimRight(s)| - 1])
    decreases |s|
  {
    if |s| > 0 && IsSpace(s[|s| - 1]) {
      TrimRightSpec(s[..|s| - 1]);
    }
  }

  /** Python's `str.strip()`. Its properties are stated by StripSpec, so that a use of Strip does
      not bring quantifiers along. */
  function Strip(s: string): (r: string)
    ensures |r| <= |s|
  {
    TrimRight(TrimLeft(s))
  }

  /** The strip is empty exactly for a blank string, and otherwise starts and ends with a non-space. */
  lemma StripSpec(s: string)
    ensures Strip(s) == [] <==> Blank(s)
    ensures Strip(s) == [] || (!IsSpace(Strip(s)[0]) && !IsSpace(Strip(s)[|Strip(s)| - 1]))
  {
    var l := TrimLeft(s);
    TrimLeftSpec(s);
    TrimRightSpec(l);
    if Strip(s) != [] {
      assert Strip(s)[0] == l[0];
    }
  }

  /** A string that starts and ends with a non-space is its own strip. */
  lemma StripUnchanged(s: string)
    requires s == [] || (!IsSpace(s[0]) && !IsSpace(s[|s| - 1]))
    ensures Strip(s) == s
  {
  }

  /** The strip of `s` is a contiguous part of it. */
  lemma StripSlice(s: string) returns (lo: nat, hi: nat)
    ensures lo <= hi <= |s| && Strip(s) == s[lo..hi]
  {
    var l := TrimLeft(s);
    TrimLeftSpec(s);
    TrimRightSpec(l);
    lo := |s| - |l|;
    hi := lo + |TrimRight(l)|;
  }

  function LowerChar(c: char): char {
    if 'A' <= c <= 'Z' then (c as int + 32) as char else c
  }

  function UpperChar(c: char): char {
    if 'a' <= c <= 'z' then (c as int - 32) as char else c
  }

  /** Python's `str.lower()` on ASCII letters. */
  function Lower(s: string): (r: string)
    ensures |r| == |s| && forall i :: 0 <= i < |s| ==> r[i] == LowerChar(s[i])
  {
    seq(|s|, i requires 0 <= i < |s| => LowerChar(s[i]))
  }

  /** Python's `str.upper()` on ASCII letters. */
  function Upper(s: string): (r: string)
    ensures |r| == |s| && forall i :: 0 <= i < |s| ==> r[i] == UpperChar(s[i])
  {
    seq(|s|, i requires 0 <= i < |s| => UpperChar(s[i]))
  }

  /** Every occurrence of `a` replaced by `b` (`str.replace` with one-character arguments). */
  function ReplaceChar(s: string, a: char, b: char): (r: string)
    ensures |r| == |s|
    ensures forall i :: 0 <= i < |s| ==> r[i] == (if s[i] == a then b else s[i])
  {
    seq(|s|, i requires 0 <= i < |s| => if s[i] == a then b else s[i])
  }

  /** `s.replace(c, "")`. */
  function RemoveChar(s: string, c: char): (r: string)
    ensures c !in r
    ensures forall x :: x in r <==> x in s && x != c
  {
    if |s| == 0 then []
    else if s[0] == c then RemoveChar(s[1..], c)
    else [s[0]] + RemoveChar(s[1..], c)
  }

  /** Python's `p in s` on strings: `p` occurs in `s` as a contiguous substring. */
  predicate Contains(s: string, p: string)
    decreases |s|
  {
    p <= s || (|s| > 0 && Contains(s[1..], p))
  }

  /** `Contains` agrees with "there is a position where `p` starts". */
  lemma {:induction false} ContainsAt(s: string, p: string, i: int)
    requires 0 <= i <= |s| - |p| && s[i..i + |p|] == p
    ensures Contains(s, p)
    decreases i
  {
    if i > 0 {
      assert s[1..][i - 1..i - 1 + |p|] == s[i..i + |p|];
      ContainsAt(s[1..], p, i - 1);
    }
  }

  /** Conversely, a substring has a starting position. */
  lemma {:induction false} ContainsWitness(s: string, p: string) returns (i: int)
    requires Contains(s, p)
    ensures 0 <= i <= |s| - |p| && s[i..i + |p|] == p
    decreases |s|
  {
    if p <= s {
      i := 0;
    } else {
      var j := ContainsWitness(s[1..], p);
      assert s[1..][j..j + |p|] == s[j + 1..j + 1 + |p|];
      i := j + 1;
    }
  }

  /** Nothing longer than `s` occurs in it. */
  lemma {:induction false} ContainsShorter(s: string, p: string)
    requires Contains(s, p)
    ensures |p| <= |s|
    decreases |s|
  {
    if !(p <= s) {
      ContainsShorter(s[1..], p);
    }
  }

  /** A string found in a part of `s` is found in `s`. */
  lemma ContainsInSlice(s: string, lo: int, hi: int, p: string)
    requires 0 <= lo <= hi <= |s| && Contains(s[lo..hi], p)
    ensures Contains(s, p)
  {
    var j := ContainsWitness(s[lo..hi], p);
    assert s[lo + j..lo + j + |p|] == p by {
      forall k | 0 <= k < |p|
        ensures s[lo + j + k] == p[k]
      {
        assert s[lo..hi][j..j + |p|][k] == p[k];
      }
    }
    ContainsAt(s, p, lo + j);
  }

  /** `s.endswith(suffix)`. */
  predicate EndsWith(s: string, suffix: string) {
    |suffix| <= |s| && s[|s| - |suffix|..] == suffix
  }

  /** `str.count(t)`: the number of non-overlapping occurrences, scanning left to right. */
  function CountOccurrences(s: string, t: string): (n: nat)
    requires |t| > 0
    ensures n > 0 <==> Contains(s, t)
    ensures n * |t| <= |s|
    decreases |s|
  {
    if |s| < |t| then
      assert !Contains(s, t) by {
        if Contains(s, t) { var i := ContainsWitness(s, t); }
      }
      0
    else if t <= s then 1 + CountOccurrences(s[|t|..], t)
    else
      var n := CountOccurrences(s[1..], t);
      assert Contains(s, t) ==> Contains(s[1..], t);
      n
  }

  /** Python's `a < b` on strings: lexicographic by code point, a proper prefix first. */
  predicate LexLess(a: string, b: string) {
    |b| > 0 && (|a| == 0 || a[0] < b[0] || (a[0] == b[0] && LexLess(a[1..], b[1..])))
  }

  lemma LexLessIrreflexive(a: string)
    ensures !LexLess(a, a)
  {
  }

  lemma {:induction false} LexLessTransitive(a: string, b: string, c: string)
    requires LexLess(a, b) && LexLess(b, c)
    ensures LexLess(a, c)
    decreases |a|
  {
    if |a| > 0 && a[0] == b[0] && b[0] == c[0] {
      LexLessTransitive(a[1..], b[1..], c[1..]);
    }
  }

  lemma {:induction false} LexLessTotal(a: string, b: string)
    ensures a == b || LexLess(a, b) || LexLess(b, a)
    decreases |a|
  {
    if |a| > 0 && |b| > 0 && a[0] == b[0] {
      LexLessTotal(a[1..], b[1..]);
      if a[1..] == b[1..] {
        assert a == [a[0]] + a[1..] && b == [b[0]] + b[1..];
      }
    }
  }

  lemma {:induction false} LexLessAsymmetric(a: string, b: string)
    requires LexLess(a, b)
    ensures !LexLess(b, a)
    decreases |a|
  {
    if |a| > 0 && a[0] == b[0] {
      LexLessAsymmetric(a[1..], b[1..]);
    }
  }

  /** `a <= b` on Python strings. */
  predicate LexLessEq(a: string, b: string) {
    a == b || LexLess(a, b)
  }

  /** `sep.join(parts)`. */
  function Join(parts: seq<string>, sep: string): (r: string)
    ensures |parts| == 1 ==> r == parts[0]
  {
    if |parts| == 0 then ""
    else if |parts| == 1 then parts[0]
    else parts[0] + sep + Join(parts[1..], sep)
  }

  /** Every part is found in the joined string. */
  lemma {:induction false} JoinContains(parts: seq<string>, sep: string, i: int)
    requires 0 <= i < |parts|
    ensures Contains(Join(parts, sep), parts[i])
    decreases |parts|
  {
    var j := Join(parts, sep);
    if |parts| == 1 {
      ContainsAt(j, parts[0], 0);
    } else if i == 0 {
      assert j[0..|parts[0]|] == parts[0];
      ContainsAt(j, parts[0], 0);
    } else {
      var rest := Join(parts[1..], sep);
      JoinContains(parts[1..], sep, i - 1);
      var k := |parts[0] + sep|;
      assert j[k..|j|] == rest;
      ContainsInSlice(j, k, |j|, parts[i]);
    }
  }

  /** `re.sub(r"\s+", " ", s)`: every maximal run of whitespace becomes one space. */
  function CollapseSpaces(s: string): (r: string)
    ensures |r| <= |s|
    decreases |s|
  {
    if |s| == 0 then []
    else if IsSpace(s[0]) then " " + CollapseSpaces(TrimLeft(s))
    else [s[0]] + CollapseSpaces(s[1..])
  }

  /** No whitespace but single spaces between non-spaces. */
  predicate Collapsed(s: string) {
    forall i :: 0 <= i < |s| && IsSpace(s[i]) ==> s[i] == ' ' && (i + 1 < |s| ==> !IsSpace(s[i + 1]))
  }

  /** The collapsed string keeps the first character's kind. */
  lemma {:induction false} CollapseHead(s: string)
    requires |s| > 0
    ensures |CollapseSpaces(s)| > 0
    ensures IsSpace(CollapseSpaces(s)[0]) <==> IsSpace(s[0])
  {
  }

  lemma {:induction false} CollapseIsCollapsed(s: string)
    ensures Collapsed(CollapseSpaces(s))
    decreases |s|
  {
    if |s| > 0 {
      if IsSpace(s[0]) {
        var t := TrimLeft(s);
        TrimLeftSpec(s);
        CollapseIsCollapsed(t);
        if |t| > 0 { CollapseHead(t); }
      } else {
        CollapseIsCollapsed(s[1..]);
      }
    }
  }

  /** A string that ends with a non-space collapses to one that ends with a non-space. */
  lemma {:induction false} CollapseLast(s: string)
    requires |s| > 0 && !IsSpace(s[|s| - 1])
    ensures |CollapseSpaces(s)| > 0 && !IsSpace(CollapseSpaces(s)[|CollapseSpaces(s)| - 1])
    decreases |s|
  {
    var c := CollapseSpaces(s);
    if IsSpace(s[0]) {
      var t := TrimLeft(s);
      TrimLeftSpec(s);
      assert |t| > 0;
      CollapseLast(t);
      var ct := CollapseSpaces(t);
      assert c == " " + ct;
      assert c[|c| - 1] == ct[|ct| - 1];
    } else if |s| > 1 {
      CollapseLast(s[1..]);
      var ct := CollapseSpaces(s[1..]);
      assert c == [s[0]] + ct;
      assert c[|c| - 1] == ct[|ct| - 1];
    }
  }

  /** Collapsing a collapsed string changes nothing. */
  lemma {:induction false} CollapseCollapsed(s: string)
    requires Collapsed(s)
    ensures CollapseSpaces(s) == s
    decreases |s|
  {
    if |s| > 0 {
      if IsSpace(s[0]) {
        assert |s| > 1 ==> !IsSpace(s[1]);
        assert TrimLeft(s) == s[1..];
      }
      assert Collapsed(s[1..]) by {
        forall i | 0 <= i < |s[1..]| && IsSpace(s[1..][i])
          ensures s[1..][i] == ' ' && (i + 1 < |s[1..]| ==> !IsSpace(s[1..][i + 1]))
        {
          assert s[1..][i] == s[i + 1];
        }
      }
      CollapseCollapsed(s[1..]);
    }
  }

  /** A contiguous part of a collapsed string is collapsed. */
  lemma SliceCollapsed(s: string, lo: int, hi: int)
    requires Collapsed(s) && 0 <= lo <= hi <= |s|
    ensures Collapsed(s[lo..hi])
  {
    var t := s[lo..hi];
    forall i | 0 <= i < |t| && IsSpace(t[i]) ensures t[i] == ' ' && (i + 1 < |t| ==> !IsSpace(t[i + 1])) {
      assert t[i] == s[lo + i];
      assert i + 1 < |t| ==> t[i + 1] == s[lo + i + 1];
    }
  }

  /** The decimal digits of a natural number, most significant first. */
  function NatText(n: nat): (r: string)
    ensures |r| > 0
    decreases n
  {
    if n < 10 then [('0' as int + n) as char]
    else NatText(n / 10) + [('0' as int + n % 10) as char]
  }
}

=== FILE: trends.dfy ===
/** Trend aggregation over a workbook of study sheets: the category blocks of each sheet, the worst
    percent per issue in a sheet, and the per-issue series across sheets. */
module Trends {
  import opened Wrappers
  import opened Text
  import opened Cells

  // ------------------------------------------------------------------
  // Normalisation

  /** `normalize_header` and `normalize_issue_key` (the two have the same code): stripped, newlines as
      spaces, whitespace runs as one space, upper case. */
  function NormalizeText(s: string): string {
    Upper(CollapseSpaces(ReplaceChar(Strip(s), '\n', ' ')))
  }

  predicate IsUpperOnly(s: string) {
    forall i :: 0 <= i < |s| ==> !('a' <= s[i] <= 'z')
  }

  lemma UpperCharSpace(c: char)
    ensures IsSpace(UpperChar(c)) <==> IsSpace(c)
    ensures UpperChar(c) == ' ' <==> c == ' '
  {
  }

  /** Upper-casing keeps every whitespace character where it is. */
  lemma UpperKeepsCollapsed(s: string)
    requires Collapsed(s)
    ensures Collapsed(Upper(s))
  {
    var u := Upper(s);
    forall i | 0 <= i < |u| && IsSpace(u[i]) ensures u[i] == ' ' && (i + 1 < |u| ==> !IsSpace(u[i + 1])) {
      UpperCharSpace(s[i]);
      if i + 1 < |u| {
        UpperCharSpace(s[i + 1]);
      }
    }
  }

  /** The normal form is upper case, has no surrounding whitespace and no whitespace but single spaces
      between words; hence normalising twice changes nothing. */
  lemma NormalizeSpec(s: string)
    ensures var n := NormalizeText(s);
      && IsUpperOnly(n)
      && Strip(n) == n
      && Collapsed(n)
      && NormalizeText(n) == n
  {
    var t := ReplaceChar(Strip(s), '\n', ' ');
    var c := CollapseSpaces(t);
    var n := Upper(c);
    StripSpec(s);
    var st := Strip(s);
    CollapseIsCollapsed(t);
    UpperKeepsCollapsed(c);
    if |t| > 0 {
      assert !IsSpace(t[0]) && !IsSpace(t[|t| - 1]);
      CollapseHead(t);
      CollapseLast(t);
      UpperCharSpace(c[0]);
      UpperCharSpace(c[|c| - 1]);
    } else {
      assert c == [];
    }
    NormalizeOfNormal(n);
    UpperIdempotent(c);
  }

  lemma UpperIdempotent(s: string)
    ensures Upper(Upper(s)) == Upper(s)
  {
    var u := Upper(s);
    forall i | 0 <= i < |u| ensures Upper(u)[i] == u[i] {
      assert u[i] == UpperChar(s[i]);
    }
  }

  /** A string that is stripped, has no newline and only single spaces normalises to its upper case. */
  lemma NormalizeOfNormal(s: string)
    requires Strip(s) == s && Collapsed(s)
    ensures NormalizeText(s) == Upper(s)
  {
    assert ReplaceChar(s, '\n', ' ') == s;
    CollapseCollapsed(s);
  }

  /** The normal form of a header cell. A missing cell and the number 0 read as "" (`s or ""`); any other
      number makes `.strip()` raise, which is `None` here. */
  function HeaderText(c: Cell): (r: Option<string>)
    ensures c.Str? ==> r == Some(NormalizeText(c.s))
    ensures r.None? <==> c.Num? && c.value != 0.0
  {
    match c
    case Empty => Some("")
    case Str(s) => Some(NormalizeText(s))
    case Num(v, _) => if v == 0.0 then Some("") else None
  }

  // ------------------------------------------------------------------
  // Header vocabulary

  /** The categories a trend can be built for, keyed as in the source. */
  datatype Category = AccaLongTerm | Acca | DcwAc

  /** The label that opens a block of each category. */
  function Label(k: Category): string {
    match k
    case AccaLongTerm => "ACCA LongTerm"
    case Acca => "ACCA"
    case DcwAc => "DCwAC"
  }

  /** The category whose normalised label is `h`. */
  function LabelKey(h: string): (k: Option<Category>)
    ensures k.Some? ==> h == Upper(Label(k.value))
  {
    if h == "ACCA LONGTERM" then Some(AccaLongTerm)
    else if h == "ACCA" then Some(Acca)
    else if h == "DCWAC" then Some(DcwAc)
    else None
  }

  /** The lookup table the source builds from the normalised labels: each label leads back to its
      category. */
  lemma LabelKeyOfLabel(k: Category)
    ensures LabelKey(NormalizeText(Label(k))) == Some(k)
  {
    var l := Label(k);
    LabelIsNormal(k);
    match k
    case AccaLongTerm => assert Upper(l) == "ACCA LONGTERM";
    case Acca => assert Upper(l) == "ACCA";
    case DcwAc => assert Upper(l) == "DCWAC";
  }

  /** A label normalises to its upper-case form. */
  lemma LabelIsNormal(k: Category)
    ensures NormalizeText(Label(k)) == Upper(Label(k))
  {
    var l := Label(k);
    StripUnchanged(l);
    assert Collapsed(l);
    NormalizeOfNormal(l);
  }

  const PercentHeaders: set<string> :=
    {"PERCENT LOADING", "LIMVIOLPCT", "LIMITVIOLPCT", "LIM VIOL PCT", "PCT", "PERCENT"}

  const IssueHeaders: set<string> := {"RESULTING ISSUE", "RESULTINGISSUE", "ISSUE"}

  const ContHeaders: set<string> := {"CONTINGENCY EVENTS", "CONTINGENCY", "CTGLABEL", "CONTINGENCY EVENT"}

  const ValueHeaders: set<string> := {"CONTINGENCY VALUE", "CONTINGENCY VALUE (MVA)", "LIMVIOLVALUE", "VALUE"}

  // ------------------------------------------------------------------
  // Per-issue series

  /** A trend line: the issue's key, the text first shown for it, and its worst percent per sheet in
      sheet order (`None` where the sheet lacks the issue). */
  datatype IssueTrend = IssueTrend(key: string, display: string, perSheet: seq<Option<real>>)

  /** `IssueTrend.max_value`: the largest present value, `None` when none is present. */
  function MaxValue(vals: seq<Option<real>>): (m: Option<real>)
    ensures m.None? <==> forall i :: 0 <= i < |vals| ==> vals[i].None?
    ensures m.Some? ==> (exists i :: 0 <= i < |vals| && vals[i] == m)
    ensures m.Some? ==> forall i :: 0 <= i < |vals| && vals[i].Some? ==> vals[i].value <= m.value
  {
    if |vals| == 0 then None
    else
      var init := vals[..|vals| - 1];
      var last := vals[|vals| - 1];
      var m := MaxValue(init);
      assert forall i :: 0 <= i < |init| ==> vals[i] == init[i];
      if last.None? then m
      else if m.None? || last.value > m.value then last
      else m
  }

  /** `IssueTrend.count_present`: the number of present values. */
  function CountPresent(vals: seq<Option<real>>): (n: nat)
    ensures n <= |vals|
    ensures n == 0 <==> MaxValue(vals).None?
  {
    if |vals| == 0 then 0
    else CountPresent(vals[..|vals| - 1]) + (if vals[|vals| - 1].Some? then 1 else 0)
  }

  /** The positions of the present values. */
  function PresentAt(vals: seq<Option<real>>): set<int> {
    set i | 0 <= i < |vals| && vals[i].Some?
  }

  /** `count_present` is the number of positions holding a value. */
  lemma {:induction false} CountPresentSpec(vals: seq<Option<real>>)
    ensures CountPresent(vals) == |PresentAt(vals)|
    decreases |vals|
  {
    if |vals| > 0 {
      CountPresentSpec(vals[..|vals| - 1]);
      PresentAtSnoc(vals);
    } else {
      assert PresentAt(vals) == {};
    }
  }

  /** A last value adds its position exactly when it is present. */
  lemma PresentAtSnoc(vals: seq<Option<real>>)
    requires |vals| > 0
    ensures |PresentAt(vals)| == |PresentAt(vals[..|vals| - 1])| + if vals[|vals| - 1].Some? then 1 else 0
  {
    var init := vals[..|vals| - 1];
    var last := if vals[|vals| - 1].Some? then {|vals| - 1} else {};
    forall x ensures x in PresentAt(vals) <==> x in PresentAt(init) + last {
      if 0 <= x < |init| {
        assert vals[x] == init[x];
      }
    }
    assert PresentAt(vals) == PresentAt(init) + last;
    assert |vals| - 1 !in PresentAt(init);
  }

  // ------------------------------------------------------------------
  // Category blocks

  /** Why building trends raises: a header cell holding a non-zero number, met while looking for a
      header row. */
  datatype TrendError = NumericHeaderCell(row: int)

  /** Labels are looked for in columns 1..min(10, max_column). */
  function LabelCols(ws: Sheet): nat {
    if ws.maxCol < 10 then ws.maxCol else 10
  }

  /** The category of the first label cell of row `r` from column `c` on. */
  function RowLabelFrom(ws: Sheet, r: int, c: nat): (k: Option<Category>)
    decreases LabelCols(ws) + 1 - c
  {
    if c == 0 || c > LabelCols(ws) then None
    else
      var v := At(ws, r, c);
      if v.Empty? then RowLabelFrom(ws, r, c + 1)
      else
        match LabelKey(NormalizeText(CellText(v)))
        case Some(k) => Some(k)
        case None => RowLabelFrom(ws, r, c + 1)
  }

  /** The category label of row `r`, if it has one. */
  function RowLabel(ws: Sheet, r: int): Option<Category> {
    RowLabelFrom(ws, r, 1)
  }

  /** The normalised header texts of columns 1..n of row `r`, or `None` if one of them raises. */
  function HeaderTexts(ws: Sheet, r: int, n: nat): (hs: Option<seq<string>>)
    ensures hs.Some? ==> |hs.value| == n && forall c :: 0 <= c < n ==> HeaderText(At(ws, r, c + 1)) == Some(hs.value[c])
    ensures hs.None? <==> exists c :: 1 <= c <= n && HeaderText(At(ws, r, c)).None?
  {
    if n == 0 then Some([])
    else
      match HeaderTexts(ws, r, n - 1)
      case None => None
      case Some(hs) =>
        match HeaderText(At(ws, r, n))
        case None => None
        case Some(h) => Some(hs + [h])
  }

  /** A header row names an issue, a percent and a contingency column. */
  predicate IsHeaderRow(hs: seq<string>) {
    (exists h :: h in hs && h in IssueHeaders)
    && (exists h :: h in hs && h in PercentHeaders)
    && (exists h :: h in hs && h in ContHeaders)
  }

  /** Blankness is judged on columns 1..min(max_column, 12). */
  function BlankCols(ws: Sheet): nat {
    if ws.maxCol < 12 then ws.maxCol else 12
  }

  /** Every judged cell is missing or blank text. */
  predicate BlankRow(ws: Sheet, r: int) {
    forall c :: 1 <= c <= BlankCols(ws) ==> StrippedText(At(ws, r, c)) == ""
  }

  /** What the block scan reads from one row: its label, whether it is blank, and its header texts
      (`None` when reading them as headers raises). */
  datatype RowInfo = RowInfo(category: Option<Category>, blank: bool, headers: Option<seq<string>>)

  /** The scan of rows 0..max_row (row 0 is never looked at). */
  function ScanRows(ws: Sheet): (rows: seq<RowInfo>)
    ensures |rows| == ws.maxRow + 1
  {
    seq(ws.maxRow + 1, r => RowInfo(RowLabel(ws, r), BlankRow(ws, r), HeaderTexts(ws, r, ws.maxCol)))
  }

  /** Rows listed in increasing order. */
  predicate Increasing(labels: seq<(int, Category)>) {
    forall i, j :: 0 <= i < j < |labels| ==> labels[i].0 < labels[j].0
  }

  /** The labelled rows among rows `r`.., in row order. */
  function LabelRows(rows: seq<RowInfo>, r: nat): (labels: seq<(int, Category)>)
    requires r <= |rows|
    ensures forall i :: 0 <= i < |labels| ==> r <= labels[i].0 < |rows| && rows[labels[i].0].category == Some(labels[i].1)
    decreases |rows| - r
  {
    if r == |rows| then []
    else
      var rest := LabelRows(rows, r + 1);
      match rows[r].category
      case Some(k) =>
        var labels := [(r, k)] + rest;
        assert forall i :: 0 <= i < |rest| ==> labels[i + 1] == rest[i];
        labels
      case None => rest
  }

  /** The labelled rows are listed in row order. */
  lemma {:induction false} LabelRowsIncreasing(rows: seq<RowInfo>, r: nat)
    requires r <= |rows|
    ensures Increasing(LabelRows(rows, r))
    decreases |rows| - r
  {
    if r < |rows| {
      LabelRowsIncreasing(rows, r + 1);
      var rest := LabelRows(rows, r + 1);
      var labels := LabelRows(rows, r);
      if rows[r].category.Some? {
        assert labels == [(r, rows[r].category.value)] + rest;
        forall i, j | 0 <= i < j < |labels| ensures labels[i].0 < labels[j].0 {
          assert labels[j] == rest[j - 1];
          if i > 0 {
            assert labels[i] == rest[i - 1];
          }
        }
      } else {
        assert labels == rest;
      }
    }
  }

  /** Every labelled row from `r` on is listed. */
  lemma {:induction false} LabelRowsComplete(rows: seq<RowInfo>, r: nat, x: int)
    requires r <= x < |rows| && rows[x].category.Some?
    ensures exists i :: 0 <= i < |LabelRows(rows, r)| && LabelRows(rows, r)[i].0 == x
    decreases x - r
  {
    var labels := LabelRows(rows, r);
    if x == r {
      assert labels[0].0 == r;
    } else {
      var rest := LabelRows(rows, r + 1);
      LabelRowsComplete(rows, r + 1, x);
      var i :| 0 <= i < |rest| && rest[i].0 == x;
      if rows[r].category.Some? {
        assert labels[i + 1] == rest[i];
      } else {
        assert labels == rest;
      }
    }
  }

  /** The first header row among rows `rr`..`stop - 1`; a row whose headers raise before one is found
      makes the whole scan fail. */
  function FindHeader(rows: seq<RowInfo>, rr: int, stop: int): (r: Result<Option<(int, seq<string>)>, TrendError>)
    requires 0 <= rr && stop <= |rows|
    ensures r.Success? && r.value.Some? ==>
      && rr <= r.value.value.0 < stop
      && rows[r.value.value.0].headers == Some(r.value.value.1)
      && IsHeaderRow(r.value.value.1)
    ensures r.Success? ==> forall x :: rr <= x < stop && (r.value.None? || x < r.value.value.0) ==>
      rows[x].headers.Some? && !IsHeaderRow(rows[x].headers.value)
    ensures r.Failure? ==> rr <= r.error.row < stop && rows[r.error.row].headers.None?
    decreases stop - rr
  {
    if rr >= stop then Success(None)
    else
      match rows[rr].headers
      case None => Failure(NumericHeaderCell(rr))
      case Some(hs) => if IsHeaderRow(hs) then Success(Some((rr, hs))) else FindHeader(rows, rr + 1, stop)
  }

  /** A row that continues a block: neither labelled nor blank. */
  predicate DataRow(info: RowInfo) {
    info.category.None? && !info.blank
  }

  /** The last data row from `rr` on: data stops before a labelled row, a blank row, or `stop`. */
  function DataEnd(rows: seq<RowInfo>, rr: int, stop: int): (e: int)
    requires 0 <= rr <= stop <= |rows|
    ensures rr - 1 <= e < stop
    ensures forall x :: rr <= x <= e ==> DataRow(rows[x])
    ensures rr - 1 <= e < stop - 1 ==> !DataRow(rows[e + 1])
    decreases stop - rr
  {
    if rr >= stop || !DataRow(rows[rr]) then rr - 1
    else DataEnd(rows, rr + 1, stop)
  }

  /** The first labelled row after row `r`, or one past the sheet: where the block opened at `r` must
      end. */
  function NextLabel(rows: seq<RowInfo>, r: nat): (n: nat)
    requires r < |rows|
    ensures r < n <= |rows|
    ensures n < |rows| ==> rows[n].category.Some?
    ensures forall x :: r < x < n ==> rows[x].category.None?
    decreases |rows| - r
  {
    if r + 1 == |rows| || rows[r + 1].category.Some? then r + 1 else NextLabel(rows, r + 1)
  }

  /** In an increasing list, a row strictly between two neighbours, or after the last, is not listed. */
  lemma NotListed(labels: seq<(int, Category)>, i: nat, x: int)
    requires Increasing(labels) && i < |labels| && labels[i].0 < x
    requires i + 1 < |labels| ==> x < labels[i + 1].0
    ensures forall t :: 0 <= t < |labels| ==> labels[t].0 != x
  {
    forall t | 0 <= t < |labels| ensures labels[t].0 != x {
      if t < i {
        assert labels[t].0 < labels[i].0;
      } else if i + 1 < t {
        assert labels[i + 1].0 < labels[t].0;
      }
    }
  }

  /** Following the list of labelled rows, as the source does, finds the same next label. */
  lemma NextLabelInList(rows: seq<RowInfo>, i: nat)
    requires 1 <= |rows| && i < |LabelRows(rows, 1)|
    ensures var labels := LabelRows(rows, 1);
      NextLabel(rows, labels[i].0) == if i + 1 < |labels| then labels[i + 1].0 else |rows|
  {
    var labels := LabelRows(rows, 1);
    LabelRowsIncreasing(rows, 1);
    var n := NextLabel(rows, labels[i].0);
    if i + 1 < |labels| {
      var m := labels[i + 1].0;
      assert rows[m].category.Some?;
      if n < m {
        LabelRowsComplete(rows, 1, n);
        NotListed(labels, i, n);
      }
    } else if n < |rows| {
      LabelRowsComplete(rows, 1, n);
      NotListed(labels, i, n);
    }
  }

  /** One block of a category: the row of its label, its header row and header texts, and its last data
      row. */
  datatype Block = Block(category: Category, labelRow: int, headerRow: int, headers: seq<string>, endRow: int)

  /** What a block satisfies: its label names its category; its header row is the first of the five rows
      after the label (and before the next label) that names the three required columns, and no row
      before it raises; its data rows are non-blank unlabelled rows, ending before a blank row, a label
      or the end of the sheet. */
  predicate BlockIn(rows: seq<RowInfo>, b: Block) {
    && 0 <= b.labelRow < |rows|
    && rows[b.labelRow].category == Some(b.category)
    && var stop := NextLabel(rows, b.labelRow);
    && b.labelRow < b.headerRow < b.labelRow + 6 && b.headerRow < b.endRow < stop
    && rows[b.headerRow].headers == Some(b.headers) && IsHeaderRow(b.headers)
    && (forall x :: b.labelRow < x < b.headerRow ==> rows[x].headers.Some? && !IsHeaderRow(rows[x].headers.value))
    && (forall x :: b.headerRow < x <= b.endRow ==> DataRow(rows[x]))
    && (b.endRow + 1 < stop ==> !DataRow(rows[b.endRow + 1]))
  }

  /** The block opened by the label at row `r0`, if any. */
  function BlockOf(rows: seq<RowInfo>, r0: nat, k: Category): (r: Result<Option<Block>, TrendError>)
    requires r0 < |rows| && rows[r0].category == Some(k)
    ensures r.Success? && r.value.Some? ==> BlockIn(rows, r.value.value) && r.value.value.labelRow == r0
  {
    var stop := NextLabel(rows, r0);
    var found :- FindHeader(rows, r0 + 1, if r0 + 6 < stop then r0 + 6 else stop);
    match found
    case None => Success(None)
    case Some((h, hs)) =>
      var e := DataEnd(rows, h + 1, stop);
      if e >= h + 1 then Success(Some(Block(k, r0, h, hs, e))) else Success(None)
  }

  /** Blocks whose label rows strictly increase. */
  predicate InRowOrder(bs: seq<Block>) {
    forall k, l :: 0 <= k < l < |bs| ==> bs[k].labelRow < bs[l].labelRow
  }

  /** The results `open(i)`, .., `open(n - 1)` in order, keeping the present values, or the error of
      the first that failed: the shape of the block scan with what opens a block left abstract. */
  function CollectSome<B, E>(open: int -> Result<Option<B>, E>, i: int, n: int): Result<seq<B>, E>
    decreases n - i
  {
    if i >= n then Success([])
    else
      match open(i)
      case Failure(e) => Failure(e)
      case Success(b) =>
        match CollectSome(open, i + 1, n)
        case Failure(e) => Failure(e)
        case Success(rest) => Success(if b.Some? then [b.value] + rest else rest)
  }

  /** The collection fails exactly when one of the results it collects failed. */
  lemma {:induction false} CollectSomeFails<B, E>(open: int -> Result<Option<B>, E>, i: int, n: int)
    ensures CollectSome(open, i, n).Failure? <==> exists j :: i <= j < n && open(j).Failure?
    decreases n - i
  {
    if i < n {
      CollectSomeFails(open, i + 1, n);
      if open(i).Success? {
        assert forall j :: i <= j < n && open(j).Failure? ==> i + 1 <= j;
      }
    }
  }

  /** A successful collection holds exactly the values present in the results it collects. */
  lemma {:induction false} CollectSomeHolds<B, E>(open: int -> Result<Option<B>, E>, i: int, n: int)
    ensures CollectSome(open, i, n).Success? ==> forall b :: b in CollectSome(open, i, n).value <==>
      exists j :: i <= j < n && open(j) == Success(Some(b))
    decreases n - i
  {
    if i < n && CollectSome(open, i, n).Success? {
      CollectSomeHolds(open, i + 1, n);
      var rest := CollectSome(open, i + 1, n).value;
      var r := CollectSome(open, i, n).value;
      assert r == if open(i).value.Some? then [open(i).value.value] + rest else rest;
      forall b ensures b in r <==> exists j :: i <= j < n && open(j) == Success(Some(b)) {
        if b in r && b !in rest {
          assert open(i) == Success(Some(b));
        }
        if exists j :: i <= j < n && open(j) == Success(Some(b)) {
          var j :| i <= j < n && open(j) == Success(Some(b));
          if j > i {
            assert b in rest;
          }
        }
      }
    }
  }

  /** A result holding a value. */
  predicate Present<B, E>(x: Result<Option<B>, E>) {
    x.Success? && x.value.Some?
  }

  /** The index of a result that holds a collected value. */
  lemma CollectedFrom<B, E>(open: int -> Result<Option<B>, E>, i: int, n: int, x: B) returns (j: int)
    requires CollectSome(open, i, n).Success? && x in CollectSome(open, i, n).value
    ensures i <= j < n && open(j) == Success(Some(x))
  {
    CollectSomeHolds(open, i, n);
    j :| i <= j < n && open(j) == Success(Some(x));
  }

  /** What holds of every value present in the results holds of every collected value. */
  lemma CollectSomeAll<B, E>(open: int -> Result<Option<B>, E>, i: int, n: int, p: B -> bool)
    requires forall j :: i <= j < n && Present(open(j)) ==> p(open(j).value.value)
    ensures CollectSome(open, i, n).Success? ==> forall k :: 0 <= k < |CollectSome(open, i, n).value| ==> p(CollectSome(open, i, n).value[k])
  {
    CollectSomeHolds(open, i, n);
    if CollectSome(open, i, n).Success? {
      var r := CollectSome(open, i, n).value;
      forall k | 0 <= k < |r| ensures p(r[k]) {
        var j := CollectedFrom(open, i, n, r[k]);
        assert Present(open(j)) && open(j).value.value == r[k];
      }
    }
  }

  /** When the values present in the results have increasing ranks, so do the collected values. */
  lemma {:induction false} CollectSomeOrdered<B, E>(open: int -> Result<Option<B>, E>, i: int, n: int, rank: B -> int)
    requires forall j1, j2 :: i <= j1 < j2 < n && Present(open(j1)) && Present(open(j2)) ==>
      rank(open(j1).value.value) < rank(open(j2).value.value)
    ensures CollectSome(open, i, n).Success? ==>
      forall k, l :: 0 <= k < l < |CollectSome(open, i, n).value| ==>
        rank(CollectSome(open, i, n).value[k]) < rank(CollectSome(open, i, n).value[l])
    decreases n - i
  {
    if i < n && CollectSome(open, i, n).Success? {
      CollectSomeOrdered(open, i + 1, n, rank);
      CollectSomeHolds(open, i + 1, n);
      assert CollectSome(open, i + 1, n).Success?;
      var rest := CollectSome(open, i + 1, n).value;
      var r := CollectSome(open, i, n).value;
      if open(i).value.Some? {
        var b := open(i).value.value;
        assert r == [b] + rest;
        forall l | 1 <= l < |r| ensures rank(b) < rank(r[l]) {
          assert r[l] == rest[l - 1] && r[l] in rest;
          var j := CollectedFrom(open, i + 1, n, r[l]);
          assert Present(open(i)) && Present(open(j));
        }
        forall k, l | 0 <= k < l < |r| ensures rank(r[k]) < rank(r[l]) {
          if k > 0 {
            assert r[k] == rest[k - 1] && r[l] == rest[l - 1];
          }
        }
      }
    }
  }

  /** What opens the block of the label listed at index `j`. */
  function OpenLabel(rows: seq<RowInfo>, labels: seq<(int, Category)>): (open: int -> Result<Option<Block>, TrendError>)
    requires forall j :: 0 <= j < |labels| ==> 0 <= labels[j].0 < |rows| && rows[labels[j].0].category == Some(labels[j].1)
    ensures forall j :: 0 <= j < |labels| ==> open(j) == BlockOf(rows, labels[j].0, labels[j].1)
  {
    j => if 0 <= j < |labels| && 0 <= labels[j].0 < |rows| && rows[labels[j].0].category == Some(labels[j].1)
         then BlockOf(rows, labels[j].0, labels[j].1) else Success(None)
  }

  /** The blocks opened by the labels at `labels[i..]`, in order; a label without a header row or
      without data rows opens none, and the first label whose header search raises ends the scan with
      its error. Each block lies at or below the label at `i`, and the blocks are in row order. */
  function BlocksFrom(rows: seq<RowInfo>, labels: seq<(int, Category)>, i: nat): (r: Result<seq<Block>, TrendError>)
    requires i <= |labels| && Increasing(labels)
    requires forall j :: 0 <= j < |labels| ==> 0 <= labels[j].0 < |rows| && rows[labels[j].0].category == Some(labels[j].1)
    ensures r.Success? ==> forall k :: 0 <= k < |r.value| ==> BlockIn(rows, r.value[k])
    ensures r.Success? ==> forall k :: 0 <= k < |r.value| ==> i < |labels| && labels[i].0 <= r.value[k].labelRow
    ensures r.Success? ==> InRowOrder(r.value)
  {
    var open := OpenLabel(rows, labels);
    OpenedBlocks(rows, labels, i);
    CollectSomeAll(open, i, |labels|, (b: Block) => BlockIn(rows, b) && i < |labels| && labels[i].0 <= b.labelRow);
    CollectSomeOrdered(open, i, |labels|, (b: Block) => b.labelRow);
    CollectSome(open, i, |labels|)
  }

  /** A block the label at `j` opens satisfies the block conditions and starts at that label's row. */
  lemma OpenedBlocks(rows: seq<RowInfo>, labels: seq<(int, Category)>, i: nat)
    requires i <= |labels| && Increasing(labels)
    requires forall j :: 0 <= j < |labels| ==> 0 <= labels[j].0 < |rows| && rows[labels[j].0].category == Some(labels[j].1)
    ensures forall j :: i <= j < |labels| && Present(OpenLabel(rows, labels)(j)) ==>
      var b := OpenLabel(rows, labels)(j).value.value;
      BlockIn(rows, b) && b.labelRow == labels[j].0 && labels[i].0 <= b.labelRow
  {
  }

  /** The blocks are exactly those the listed labels open: the scan fails exactly when opening one of
      them fails, and otherwise holds every block a label opens and nothing else. */
  lemma BlocksFromSpec(rows: seq<RowInfo>, labels: seq<(int, Category)>, i: nat)
    requires i <= |labels| && Increasing(labels)
    requires forall j :: 0 <= j < |labels| ==> 0 <= labels[j].0 < |rows| && rows[labels[j].0].category == Some(labels[j].1)
    ensures BlocksFrom(rows, labels, i).Failure? <==>
      exists j :: i <= j < |labels| && BlockOf(rows, labels[j].0, labels[j].1).Failure?
    ensures BlocksFrom(rows, labels, i).Success? ==> forall b :: b in BlocksFrom(rows, labels, i).value <==>
      exists j :: i <= j < |labels| && BlockOf(rows, labels[j].0, labels[j].1) == Success(Some(b))
  {
    var open := OpenLabel(rows, labels);
    CollectSomeFails(open, i, |labels|);
    CollectSomeHolds(open, i, |labels|);
  }

  /** The blocks of every category found in a scan, in row order. */
  function CategoryBlocks(rows: seq<RowInfo>): (r: Result<seq<Block>, TrendError>)
    requires |rows| >= 1
    ensures r.Success? ==> forall k :: 0 <= k < |r.value| ==> BlockIn(rows, r.value[k])
    ensures r.Success? ==> InRowOrder(r.value)
  {
    LabelRowsIncreasing(rows, 1);
    BlocksFrom(rows, LabelRows(rows, 1), 0)
  }

  /** Every labelled row below row 0 opens its block: the scan fails exactly when opening one of them
      fails, and otherwise holds exactly the blocks they open, in row order. */
  lemma CategoryBlocksSpec(rows: seq<RowInfo>)
    requires |rows| >= 1
    ensures CategoryBlocks(rows).Failure? <==>
      exists x :: 1 <= x < |rows| && rows[x].category.Some? && BlockOf(rows, x, rows[x].category.value).Failure?
    ensures CategoryBlocks(rows).Success? ==> forall b :: b in CategoryBlocks(rows).value <==>
      exists x :: 1 <= x < |rows| && rows[x].category.Some? && BlockOf(rows, x, rows[x].category.value) == Success(Some(b))
  {
    var labels := LabelRows(rows, 1);
    LabelRowsIncreasing(rows, 1);
    BlocksFromSpec(rows, labels, 0);
    forall x | 1 <= x < |rows| && rows[x].category.Some?
      ensures exists j :: 0 <= j < |labels| && labels[j] == (x, rows[x].category.value)
    {
      LabelRowsComplete(rows, 1, x);
    }
  }

  /** `_find_category_blocks`: the blocks of every category, in row order. */
  function FindCategoryBlocks(ws: Sheet): Result<seq<Block>, TrendError> {
    CategoryBlocks(ScanRows(ws))
  }

  // ------------------------------------------------------------------
  // Worst percent per issue in one sheet

  /** The 1-based column of the last header in `names`. The source's role chain keeps the last column
      for each role; the role vocabularies are disjoint, so the order of its tests does not matter. */
  function LastColumn(hs: seq<string>, names: set<string>): (c: Option<nat>)
    ensures c.Some? ==> 1 <= c.value <= |hs| && hs[c.value - 1] in names
    ensures c.Some? ==> forall j :: c.value <= j < |hs| ==> hs[j] !in names
    ensures c.None? <==> forall j :: 0 <= j < |hs| ==> hs[j] !in names
  {
    if |hs| == 0 then None
    else if hs[|hs| - 1] in names then Some(|hs|)
    else
      var c := LastColumn(hs[..|hs| - 1], names);
      assert forall j :: 0 <= j < |hs| - 1 ==> hs[j] == hs[..|hs| - 1][j];
      c
  }

  /** One issue row of a block: the key it is grouped under, the issue text as shown, and its
      percent. */
  datatype Entry = Entry(key: string, display: string, pct: real)

  /** The entry of row `rr`, if the row has an issue and a numeric percent. */
  function RowEntry(ws: Sheet, rr: int, issueCol: int, pctCol: int): (x: Option<Entry>)
    ensures x.Some? <==> (At(ws, rr, issueCol) != Empty && StrippedText(At(ws, rr, issueCol)) != ""
      && ToNumber(At(ws, rr, pctCol)).Some?)
    ensures x.Some? ==> x.value.display == StrippedText(At(ws, rr, issueCol))
    ensures x.Some? ==> x.value.key == NormalizeText(x.value.display)
    ensures x.Some? ==> Some(x.value.pct) == ToNumber(At(ws, rr, pctCol))
  {
    var issueRaw := At(ws, rr, issueCol);
    if issueRaw.Empty? then None
    else
      var display := StrippedText(issueRaw);
      if display == "" then None
      else
        match ToNumber(At(ws, rr, pctCol))
        case None => None
        case Some(p) => Some(Entry(NormalizeText(display), display, p))
  }

  /** The entries of rows `lo`..`hi`, in row order. */
  function RowEntries(ws: Sheet, lo: int, hi: int, issueCol: int, pctCol: int): (e: seq<Entry>)
    ensures |e| <= if hi < lo then 0 else hi - lo + 1
    ensures forall x :: x in e ==> exists rr :: lo <= rr <= hi && RowEntry(ws, rr, issueCol, pctCol) == Some(x)
    decreases hi - lo + 1
  {
    if hi < lo then []
    else
      var init := RowEntries(ws, lo, hi - 1, issueCol, pctCol);
      match RowEntry(ws, hi, issueCol, pctCol)
      case None => init
      case Some(x) => init + [x]
  }

  /** The entries of an earlier end row begin the entries of a later one. */
  lemma {:induction false} RowEntriesPrefix(ws: Sheet, lo: int, mid: int, hi: int, issueCol: int, pctCol: int)
    requires mid <= hi
    ensures RowEntries(ws, lo, mid, issueCol, pctCol) <= RowEntries(ws, lo, hi, issueCol, pctCol)
    decreases hi - mid
  {
    if mid < hi {
      RowEntriesPrefix(ws, lo, mid, hi - 1, issueCol, pctCol);
    }
  }

  /** Every row in range with an issue and a numeric percent gives its entry, placed after the entries
      of the rows above it; so the entries follow the rows in order. */
  lemma RowEntriesComplete(ws: Sheet, lo: int, hi: int, issueCol: int, pctCol: int, rr: int)
    requires lo <= rr <= hi && RowEntry(ws, rr, issueCol, pctCol).Some?
    ensures var before := RowEntries(ws, lo, rr - 1, issueCol, pctCol);
      |before| < |RowEntries(ws, lo, hi, issueCol, pctCol)|
      && RowEntries(ws, lo, hi, issueCol, pctCol)[|before|] == RowEntry(ws, rr, issueCol, pctCol).value
  {
    RowEntriesPrefix(ws, lo, rr, hi, issueCol, pctCol);
  }

  /** Of two rows with entries, the upper one's entry comes first. */
  lemma RowEntriesOrder(ws: Sheet, lo: int, hi: int, issueCol: int, pctCol: int, r1: int, r2: int)
    requires lo <= r1 < r2 <= hi
    requires RowEntry(ws, r1, issueCol, pctCol).Some? && RowEntry(ws, r2, issueCol, pctCol).Some?
    ensures |RowEntries(ws, lo, r1 - 1, issueCol, pctCol)| < |RowEntries(ws, lo, r2 - 1, issueCol, pctCol)|
  {
    RowEntriesPrefix(ws, lo, r1, r2 - 1, issueCol, pctCol);
  }

  /** The entries of one block; a block whose header row lacks an issue or a percent column gives
      none. */
  function BlockEntries(ws: Sheet, b: Block): seq<Entry> {
    match (LastColumn(b.headers, IssueHeaders), LastColumn(b.headers, PercentHeaders))
    case (Some(ic), Some(pc)) => RowEntries(ws, b.headerRow + 1, b.endRow, ic, pc)
    case _ => []
  }

  /** The entries of the blocks of category `key`, in block order. */
  function CategoryEntries(ws: Sheet, blocks: seq<Block>, key: Category): seq<Entry>
    decreases |blocks|
  {
    if |blocks| == 0 then []
    else
      var init := CategoryEntries(ws, blocks[..|blocks| - 1], key);
      var b := blocks[|blocks| - 1];
      if b.category == key then init + BlockEntries(ws, b) else init
  }

  /** One step of the fold: an entry replaces the kept one only with a strictly larger percent. */
  function Keep(m: map<string, Entry>, x: Entry): map<string, Entry> {
    var k := x.key;
    if k !in m || x.pct > m[k].pct then m[k := x] else m
  }

  /** The entry kept per key after folding the entries in order. */
  function SheetMax(e: seq<Entry>): map<string, Entry>
    decreases |e|
  {
    if |e| == 0 then map[] else Keep(SheetMax(e[..|e| - 1]), e[|e| - 1])
  }

  /** What `SheetMax` keeps for key `k`: it is present exactly when some entry has key `k`; the kept
      entry is one of those entries, no entry with key `k` has a larger percent, and every entry with
      key `k` before it has a strictly smaller percent (the first entry attaining the maximum wins). */
  predicate KeepsFirstMax(e: seq<Entry>, m: map<string, Entry>, k: string) {
    && (k in m <==> exists i :: 0 <= i < |e| && e[i].key == k)
    && (k in m ==> forall i :: 0 <= i < |e| && e[i].key == k ==> e[i].pct <= m[k].pct)
    && (k in m ==> m[k].key == k)
    && (k in m ==> exists j :: 0 <= j < |e| && e[j] == m[k] && (forall i :: 0 <= i < j && e[i].key == k ==> e[i].pct < m[k].pct))
  }

  lemma {:induction false} SheetMaxAt(e: seq<Entry>, k: string)
    ensures KeepsFirstMax(e, SheetMax(e), k)
    decreases |e|
  {
    if |e| > 0 {
      var init := e[..|e| - 1];
      var x := e[|e| - 1];
      var m0 := SheetMax(init);
      var m := SheetMax(e);
      SheetMaxAt(init, k);
      assert forall i :: 0 <= i < |init| ==> e[i] == init[i];
      if x.key != k {
        assert k in m <==> k in m0;
        if k in m {
          var j :| 0 <= j < |init| && init[j] == m0[k] && forall i :: 0 <= i < j && init[i].key == k ==> init[i].pct < m0[k].pct;
          assert e[j] == m[k];
        }
      } else if k !in m0 || x.pct > m0[k].pct {
        assert m[k] == x && e[|e| - 1] == x;
      } else {
        var j :| 0 <= j < |init| && init[j] == m0[k] && forall i :: 0 <= i < j && init[i].key == k ==> init[i].pct < m0[k].pct;
        assert e[j] == m[k];
      }
    }
  }

  /** The fold keeps, for every key, the first entry with the largest percent. */
  lemma SheetMaxSpec(e: seq<Entry>)
    ensures forall k :: KeepsFirstMax(e, SheetMax(e), k)
  {
    forall k {
      SheetMaxAt(e, k);
    }
  }

  /** `_extract_sheet_category_max`: issue key to the entry with the worst percent among the category's
      blocks of the sheet; it raises exactly when finding the blocks does. */
  function ExtractSheetCategoryMax(ws: Sheet, key: Category): (r: Result<map<string, Entry>, TrendError>)
    ensures r.Failure? <==> FindCategoryBlocks(ws).Failure?
    ensures r.Success? ==> forall k :: KeepsFirstMax(CategoryEntries(ws, FindCategoryBlocks(ws).value, key), r.value, k)
  {
    var blocks :- FindCategoryBlocks(ws);
    var e := CategoryEntries(ws, blocks, key);
    SheetMaxSpec(e);
    Success(SheetMax(e))
  }

  // ------------------------------------------------------------------
  // Trends across sheets

  /** The result of building trends: the category, the sheet names in workbook order, and the trend of
      every issue kept, by key. */
  datatype TrendResult = TrendResult(category: Category, sheetOrder: seq<string>, issues: map<string, IssueTrend>)

  /** The values of results `i`.., in order, or the error of the first that failed. */
  function Collect<T, E>(rs: seq<Result<T, E>>, i: nat): (r: Result<seq<T>, E>)
    requires i <= |rs|
    ensures r.Success? ==> |r.value| == |rs| - i
    ensures r.Success? ==> forall j :: i <= j < |rs| ==> rs[j] == Success(r.value[j - i])
    ensures r.Failure? ==> exists j :: i <= j < |rs| && rs[j] == Failure(r.error) && forall t :: i <= t < j ==> rs[t].Success?
    decreases |rs| - i
  {
    if i == |rs| then Success([])
    else
      match rs[i]
      case Failure(e) => Failure(e)
      case Success(m) =>
        match Collect(rs, i + 1)
        case Failure(e) => Failure(e)
        case Success(rest) =>
          var vals := [m] + rest;
          assert forall j :: 0 <= j < |rest| ==> vals[j + 1] == rest[j];
          Success(vals)
  }

  /** The per-sheet results, in sheet order. */
  function SheetResults(wb: Workbook, key: Category): (rs: seq<Result<map<string, Entry>, TrendError>>)
    ensures |rs| == |wb|
  {
    seq(|wb|, j requires 0 <= j < |wb| => ExtractSheetCategoryMax(wb[j].1, key))
  }



  /** Every key of the first `n` sheet maps. */
  function KeysUpTo(maps: seq<map<string, Entry>>, n: nat): (ks: set<string>)
    requires n <= |maps|
    ensures forall k :: k in ks <==> exists i :: 0 <= i < n && k in maps[i]
  {
    if n == 0 then {} else KeysUpTo(maps, n - 1) + maps[n - 1].Keys
  }

  /** The display text recorded for `k` by the first of sheets `i`.. that has it (the source keeps the
      first one seen). */
  function FirstDisplay(maps: seq<map<string, Entry>>, k: string, i: nat): (d: string)
    requires i <= |maps|
    decreases |maps| - i
  {
    if i == |maps| then ""
    else if k in maps[i] then maps[i][k].display
    else FirstDisplay(maps, k, i + 1)
  }

  /** The first sheet holding `k` determines the display text. */
  lemma {:induction false} FirstDisplayIsFirst(maps: seq<map<string, Entry>>, k: string, i: nat, j: nat)
    requires i <= j < |maps| && k in maps[j]
    requires forall t :: i <= t < j ==> k !in maps[t]
    ensures FirstDisplay(maps, k, i) == maps[j][k].display
    decreases j - i
  {
    if i < j {
      FirstDisplayIsFirst(maps, k, i + 1, j);
    }
  }

  /** The percent of `k` in each sheet, `None` where the sheet lacks it. */
  function PerSheet(maps: seq<map<string, Entry>>, k: string): (vals: seq<Option<real>>)
    ensures |vals| == |maps|
    ensures forall i :: 0 <= i < |maps| ==> (vals[i].Some? <==> k in maps[i])
    ensures forall i :: 0 <= i < |maps| && k in maps[i] ==> vals[i] == Some(maps[i][k].pct)
  {
    seq(|maps|, i requires 0 <= i < |maps| => if k in maps[i] then Some(maps[i][k].pct) else None)
  }

  /** An issue is kept when its worst percent over all sheets reaches the threshold. */
  predicate Reaches(vals: seq<Option<real>>, minPercent: real) {
    MaxValue(vals).Some? && MaxValue(vals).value >= minPercent
  }

  /** The trends of the issues that reach the threshold. */
  function Issues(maps: seq<map<string, Entry>>, minPercent: real): map<string, IssueTrend> {
    map k | k in KeysUpTo(maps, |maps|) && Reaches(PerSheet(maps, k), minPercent)
      :: IssueTrend(k, FirstDisplay(maps, k, 0), PerSheet(maps, k))
  }

  /** `build_trends`: the sheet names in order and the trend of every issue whose worst percent in some
      sheet reaches `minPercent`; it raises with the error of the first sheet whose block scan raises. */
  function BuildTrends(wb: Workbook, key: Category, minPercent: real): (r: Result<TrendResult, TrendError>)
    ensures r.Failure? ==> exists j :: 0 <= j < |wb| && SheetResults(wb, key)[j] == Failure(r.error) &&
                                      forall t :: 0 <= t < j ==> SheetResults(wb, key)[t].Success?
    ensures (forall j :: 0 <= j < |wb| ==> SheetResults(wb, key)[j].Success?) ==> r.Success?
    ensures r.Success? ==> r.value.category == key
    ensures r.Success? ==> |r.value.sheetOrder| == |wb| && forall j :: 0 <= j < |wb| ==> r.value.sheetOrder[j] == wb[j].0
    ensures r.Success? ==> forall k :: k in r.value.issues ==> r.value.issues[k].key == k
    ensures r.Success? ==> forall k :: k in r.value.issues ==> |r.value.issues[k].perSheet| == |wb|
    ensures r.Success? ==> forall k :: k in r.value.issues ==> Reaches(r.value.issues[k].perSheet, minPercent)
  {
    var maps :- Collect(SheetResults(wb, key), 0);
    Success(TrendResult(key, seq(|wb|, j requires 0 <= j < |wb| => wb[j].0), Issues(maps, minPercent)))
  }

  /** How the kept issues relate to the per-sheet maps: an issue is kept exactly when some sheet has it
      and its worst percent reaches the threshold; its value in each sheet is that sheet's worst percent,
      or absent; and it shows the text recorded by the first sheet that has it. */
  lemma IssuesSpec(maps: seq<map<string, Entry>>, minPercent: real, k: string)
    ensures var issues := Issues(maps, minPercent);
      && (k in issues <==> (exists i :: 0 <= i < |maps| && k in maps[i]) && Reaches(PerSheet(maps, k), minPercent))
      && (k in issues ==> forall i :: 0 <= i < |maps| ==>
            issues[k].perSheet[i] == if k in maps[i] then Some(maps[i][k].pct) else None)
      && (forall j :: 0 <= j < |maps| && k in maps[j] && k in issues && (forall i :: 0 <= i < j ==> k !in maps[i]) ==>
            issues[k].display == maps[j][k].display)
  {
    forall j | 0 <= j < |maps| && k in maps[j] && (forall i :: 0 <= i < j ==> k !in maps[i]) {
      FirstDisplayIsFirst(maps, k, 0, j);
    }
  }

  /** An issue's worst percent reaches the threshold exactly when one of its present values does. */
  lemma ReachesSome(vals: seq<Option<real>>, minPercent: real)
    ensures Reaches(vals, minPercent) <==> exists i :: 0 <= i < |vals| && vals[i].Some? && vals[i].value >= minPercent
  {
    if !Reaches(vals, minPercent) {
      forall i | 0 <= i < |vals| && vals[i].Some? ensures vals[i].value < minPercent {
        assert MaxValue(vals).Some?;
      }
    }
  }

  /** An issue is kept exactly when some sheet's worst percent for it reaches the threshold. */
  lemma IssuesKeptIff(maps: seq<map<string, Entry>>, minPercent: real, k: string)
    ensures k in Issues(maps, minPercent) <==> exists j :: 0 <= j < |maps| && k in maps[j] && maps[j][k].pct >= minPercent
  {
    IssuesSpec(maps, minPercent, k);
    ReachesSome(PerSheet(maps, k), minPercent);
  }

  /** Once every sheet reads, `build_trends` works on the sheets' maps, in sheet order. */
  lemma BuildTrendsMaps(wb: Workbook, key: Category, minPercent: real) returns (maps: seq<map<string, Entry>>)
    requires BuildTrends(wb, key, minPercent).Success?
    ensures |maps| == |wb|
    ensures forall j :: 0 <= j < |wb| ==> SheetResults(wb, key)[j] == Success(maps[j])
    ensures BuildTrends(wb, key, minPercent).value.issues == Issues(maps, minPercent)
  {
    maps := Collect(SheetResults(wb, key), 0).value;
  }

  /** For collected per-sheet results: an issue is kept exactly when some sheet's worst percent for it
      reaches `minPercent`. */
  lemma CollectedKept(rs: seq<Result<map<string, Entry>, TrendError>>, maps: seq<map<string, Entry>>, minPercent: real, k: string)
    requires |rs| == |maps| && forall j :: 0 <= j < |rs| ==> rs[j] == Success(maps[j])
    ensures forall j :: 0 <= j < |rs| ==> rs[j].Success?
    ensures k in Issues(maps, minPercent) <==> exists j :: 0 <= j < |rs| && k in rs[j].value && rs[j].value[k].pct >= minPercent
  {
    assert forall j :: 0 <= j < |rs| ==> rs[j].Success? && rs[j].value == maps[j];
    IssuesKeptIff(maps, minPercent, k);
  }

  /** For collected per-sheet results: a kept issue's value in each sheet is that sheet's worst
      percent, or absent. */
  lemma CollectedValues(rs: seq<Result<map<string, Entry>, TrendError>>, maps: seq<map<string, Entry>>, minPercent: real, k: string, t: IssueTrend)
    requires |rs| == |maps| && forall j :: 0 <= j < |rs| ==> rs[j] == Success(maps[j])
    requires k in Issues(maps, minPercent) && t == Issues(maps, minPercent)[k]
    ensures forall j :: 0 <= j < |rs| ==> rs[j].Success?
    ensures forall j :: 0 <= j < |rs| ==> t.perSheet[j] == if k in rs[j].value then Some(rs[j].value[k].pct) else None
  {
    assert t.perSheet == PerSheet(maps, k);
    forall j | 0 <= j < |rs|
      ensures rs[j].Success? && t.perSheet[j] == if k in rs[j].value then Some(rs[j].value[k].pct) else None
    {
      assert rs[j] == Success(maps[j]);
    }
  }


  /** For collected per-sheet results: a kept issue shows the text of the first sheet that has it. */
  lemma CollectedDisplay(rs: seq<Result<map<string, Entry>, TrendError>>, maps: seq<map<string, Entry>>, minPercent: real, k: string, j: int)
    requires |rs| == |maps| && forall i :: 0 <= i < |rs| ==> rs[i] == Success(maps[i])
    requires k in Issues(maps, minPercent) && 0 <= j < |rs|
    ensures forall i :: 0 <= i < |rs| ==> rs[i].Success?
    ensures k in rs[j].value && (forall i :: 0 <= i < j ==> k !in rs[i].value) ==>
      Issues(maps, minPercent)[k].display == rs[j].value[k].display
  {
    forall i | 0 <= i < |rs| ensures rs[i].Success? {
      assert rs[i] == Success(maps[i]);
    }
    if k in rs[j].value && forall i :: 0 <= i < j ==> k !in rs[i].value {
      forall i | 0 <= i < j ensures k !in maps[i] {
        assert rs[i] == Success(maps[i]);
      }
      assert rs[j] == Success(maps[j]);
      FirstDisplayIsFirst(maps, k, 0, j);
      assert Issues(maps, minPercent)[k].display == FirstDisplay(maps, k, 0);
    }
  }

  /** `build_trends` keeps an issue exactly when some sheet's worst percent for it reaches `minPercent`. */
  lemma BuildTrendsKept(wb: Workbook, key: Category, minPercent: real, k: string)
    requires BuildTrends(wb, key, minPercent).Success?
    ensures forall j :: 0 <= j < |wb| ==> SheetResults(wb, key)[j].Success?
    ensures var rs := SheetResults(wb, key);
      k in BuildTrends(wb, key, minPercent).value.issues <==>
        exists j :: 0 <= j < |rs| && k in rs[j].value && rs[j].value[k].pct >= minPercent
  {
    var maps := BuildTrendsMaps(wb, key, minPercent);
    CollectedKept(SheetResults(wb, key), maps, minPercent, k);
  }

  /** A kept issue's value in sheet `j` is that sheet's worst percent for it, or absent when the
      sheet does not list it; every sheet was read successfully. */
  lemma BuildTrendsValues(wb: Workbook, key: Category, minPercent: real, k: string, j: int)
    requires BuildTrends(wb, key, minPercent).Success?
    requires k in BuildTrends(wb, key, minPercent).value.issues
    requires 0 <= j < |wb|
    ensures forall i :: 0 <= i < |wb| ==> SheetResults(wb, key)[i].Success?
    ensures var rj := SheetResults(wb, key)[j].value;
      BuildTrends(wb, key, minPercent).value.issues[k].perSheet[j] == if k in rj then Some(rj[k].pct) else None
  {
    var maps := BuildTrendsMaps(wb, key, minPercent);
    var rs := SheetResults(wb, key);
    var t := BuildTrends(wb, key, minPercent).value.issues[k];
    assert t == Issues(maps, minPercent)[k];
    CollectedValues(rs, maps, minPercent, k, t);
    assert t.perSheet[j] == if k in rs[j].value then Some(rs[j].value[k].pct) else None;
  }

  /** A kept issue shows the text recorded by the first sheet that has it. */
  lemma BuildTrendsDisplay(wb: Workbook, key: Category, minPercent: real, k: string, j: int)
    requires BuildTrends(wb, key, minPercent).Success?
    requires k in BuildTrends(wb, key, minPercent).value.issues
    requires 0 <= j < |wb|
    ensures forall i :: 0 <= i < |wb| ==> SheetResults(wb, key)[i].Success?
    ensures var rs := SheetResults(wb, key);
      k in rs[j].value && (forall i :: 0 <= i < j ==> k !in rs[i].value) ==>
        BuildTrends(wb, key, minPercent).value.issues[k].display == rs[j].value[k].display
  {
    var maps := BuildTrendsMaps(wb, key, minPercent);
    CollectedDisplay(SheetResults(wb, key), maps, minPercent, k, j);
  }
}

=== FILE: trends_view.dfy ===
/** The pure helpers of the trends view: reading a violation sheet into per-case-type issue rows,
    merging the sheets of a workbook, the two input fields, and the top-N ranking behind the plot. */
module TrendsView {
  import opened Wrappers
  import opened Text
  import opened Numeric
  import opened Cells
  import opened Sorting
  import Trends

  // ------------------------------------------------------------------
  // Cell helpers

  /** `_safe_float`: missing, blank and unparseable values give `None`; numbers pass through; text is
      stripped and loses its '%' signs before it is parsed. */
  function SafeFloat(c: Cell): (r: Option<real>)
    ensures c.Empty? ==> r.None?
    ensures c.Num? ==> r == Some(c.value)
    ensures c.Str? && Blank(c.s) ==> r.None?
  {
    match c
    case Empty => None
    case Num(v, _) => Some(v)
    case Str(s) =>
      StripSpec(s);
      var t := RemoveChar(Strip(s), '%');
      if t == "" then None else ParseFloat(t)
  }

  /** The view's reading of a cell agrees with the trend builder's, although the two strip and drop '%'
      in a different order. */
  lemma SafeFloatIsToNumber(c: Cell)
    ensures SafeFloat(c) == ToNumber(c)
  {
    if c.Str? {
      var t := Strip(c.s);
      if t == "" {
        assert RemoveChar(t, '%') == "";
      } else if RemoveChar(t, '%') == "" {
        assert Blank("");
      }
    }
  }

  /** `_contains`: case-insensitive substring test. */
  predicate ContainsCI(a: string, b: string) {
    Contains(Lower(a), Lower(b))
  }

  // ------------------------------------------------------------------
  // The text grid

  /** The grid covers columns 1..min(max_column, 30). */
  function GridWidth(ws: Sheet): nat {
    if ws.maxCol < 30 then ws.maxCol else 30
  }

  /** Row `r` of the grid: the stripped text of each covered cell (`_norm`). */
  function GridRow(ws: Sheet, r: int): (row: seq<string>)
    ensures |row| == GridWidth(ws)
    ensures forall c :: 0 <= c < |row| ==> row[c] == StrippedText(At(ws, r, c + 1))
  {
    seq(GridWidth(ws), c requires 0 <= c < GridWidth(ws) => StrippedText(At(ws, r, c + 1)))
  }

  /** The row's cells joined as the source joins them for searching. */
  function Joined(row: seq<string>): string {
    Join(row, " | ")
  }

  /** A table header row mentions "Resulting Issue" and "Percent" or "Loading", in any case. */
  predicate IsTableHeader(row: seq<string>) {
    var j := Joined(row);
    ContainsCI(j, "Resulting Issue") && (ContainsCI(j, "Percent") || ContainsCI(j, "Loading"))
  }

  // ------------------------------------------------------------------
  // Case type of a table

  /** The case type a lower-cased line names. "acca" is part of "acca longterm", so the long-term
      names are tested first, then "dcwac", then "acca". */
  function LineCaseType(j: string): (k: Option<Trends.Category>)
    ensures Contains(j, "acca longterm") || Contains(j, "acca long term") ==> k == Some(Trends.AccaLongTerm)
    ensures k == Some(Trends.DcwAc) <==>
      !Contains(j, "acca longterm") && !Contains(j, "acca long term") && Contains(j, "dcwac")
    ensures k == Some(Trends.Acca) <==>
      !Contains(j, "acca longterm") && !Contains(j, "acca long term") && !Contains(j, "dcwac") && Contains(j, "acca")
  {
    if Contains(j, "acca longterm") || Contains(j, "acca long term") then Some(Trends.AccaLongTerm)
    else if Contains(j, "dcwac") then Some(Trends.DcwAc)
    else if Contains(j, "acca") then Some(Trends.Acca)
    else None
  }

  /** Each case type's own label, lower-cased, is read as that case type. */
  lemma LabelNamesItsCaseType(k: Trends.Category)
    ensures LineCaseType(Lower(Trends.Label(k))) == Some(k)
  {
    match k
    case AccaLongTerm =>
      assert Lower(Trends.Label(k)) == "acca longterm";
      LongTermLine();
    case DcwAc =>
      assert Lower(Trends.Label(k)) == "dcwac";
      DcwAcLine();
    case Acca =>
      assert Lower(Trends.Label(k)) == "acca";
      AccaLine();
  }

  lemma LongTermLine()
    ensures LineCaseType("acca longterm") == Some(Trends.AccaLongTerm)
  {
    assert "acca longterm" <= "acca longterm";
  }

  lemma DcwAcLine()
    ensures LineCaseType("dcwac") == Some(Trends.DcwAc)
  {
    var j := "dcwac";
    if Contains(j, "acca longterm") {
      ContainsShorter(j, "acca longterm");
    }
    if Contains(j, "acca long term") {
      ContainsShorter(j, "acca long term");
    }
    assert "dcwac" <= j;
  }

  lemma AccaLine()
    ensures LineCaseType("acca") == Some(Trends.Acca)
  {
    var j := "acca";
    if Contains(j, "acca longterm") {
      ContainsShorter(j, "acca longterm");
    }
    if Contains(j, "acca long term") {
      ContainsShorter(j, "acca long term");
    }
    if Contains(j, "dcwac") {
      ContainsShorter(j, "dcwac");
    }
    assert "acca" <= j;
  }

  /** The case type grid row `r` names. */
  function RowCaseType(ws: Sheet, r: int): Option<Trends.Category> {
    LineCaseType(Lower(Joined(GridRow(ws, r))))
  }

  /** The case type named by the first of rows `rr`..`hr - 1` that names one. */
  function InferFrom(ws: Sheet, rr: int, hr: int): (k: Option<Trends.Category>)
    ensures k.None? <==> forall x :: rr <= x < hr ==> RowCaseType(ws, x).None?
    ensures k.Some? ==> exists x :: (rr <= x < hr && RowCaseType(ws, x) == k
      && forall y :: rr <= y < x ==> RowCaseType(ws, y).None?)
    decreases hr - rr
  {
    if rr >= hr then None
    else
      match RowCaseType(ws, rr)
      case Some(k) => Some(k)
      case None => InferFrom(ws, rr + 1, hr)
  }

  /** `_infer_case_type`: the first of the (up to) six rows above the header row, top to bottom, that
      names a case type decides it. */
  function InferCaseType(ws: Sheet, hr: int): Option<Trends.Category> {
    InferFrom(ws, if hr - 6 > 1 then hr - 6 else 1, hr)
  }

  // ------------------------------------------------------------------
  // Issue and percent columns

  /** The last position whose text satisfies `p`. */
  function LastWhere(hdr: seq<string>, p: string -> bool): (i: Option<nat>)
    ensures i.Some? ==> i.value < |hdr| && p(hdr[i.value]) && forall j :: i.value < j < |hdr| ==> !p(hdr[j])
    ensures i.None? <==> forall j :: 0 <= j < |hdr| ==> !p(hdr[j])
  {
    if |hdr| == 0 then None
    else if p(hdr[|hdr| - 1]) then Some(|hdr| - 1)
    else
      var i := LastWhere(hdr[..|hdr| - 1], p);
      assert forall j :: 0 <= j < |hdr| - 1 ==> hdr[j] == hdr[..|hdr| - 1][j];
      i
  }

  /** The first position whose text satisfies `p`. */
  function FirstWhere(hdr: seq<string>, p: string -> bool): (i: Option<nat>)
    ensures i.Some? ==> i.value < |hdr| && p(hdr[i.value]) && forall j :: 0 <= j < i.value ==> !p(hdr[j])
    ensures i.None? <==> forall j :: 0 <= j < |hdr| ==> !p(hdr[j])
  {
    if |hdr| == 0 then None
    else if p(hdr[0]) then Some(0)
    else
      var i := FirstWhere(hdr[1..], p);
      assert forall j :: 1 <= j < |hdr| ==> hdr[j] == hdr[1..][j - 1];
      if i.Some? then Some(i.value + 1) else None
  }

  predicate IsIssueHeader(t: string) {
    Contains(Lower(t), "resulting issue")
  }

  /** The percent-loading test of the source, all three of its alternatives. */
  predicate IsPctHeader(t: string) {
    var l := Lower(t);
    (Contains(l, "percent") && Contains(l, "load")) || Strip(l) == "percent loading"
    || (Contains(l, "loading") && Contains(l, "percent"))
  }

  predicate IsLoosePctHeader(t: string) {
    Contains(Lower(t), "percent")
  }

  /** `_find_issue_and_pct_cols`: 0-based columns of the issue and the percent. The issue is the last
      column naming "resulting issue"; the percent is the last column naming percent loading, or else
      the first naming "percent". */
  function FindIssueAndPctCols(hdr: seq<string>): (cols: (Option<nat>, Option<nat>))
    ensures cols.0.Some? ==> (cols.0.value < |hdr| && IsIssueHeader(hdr[cols.0.value])
      && forall j :: cols.0.value < j < |hdr| ==> !IsIssueHeader(hdr[j]))
    ensures cols.0.None? <==> forall j :: 0 <= j < |hdr| ==> !IsIssueHeader(hdr[j])
    ensures (exists j :: 0 <= j < |hdr| && IsPctHeader(hdr[j])) ==>
      (cols.1.Some? && cols.1.value < |hdr| && IsPctHeader(hdr[cols.1.value])
      && forall j :: cols.1.value < j < |hdr| ==> !IsPctHeader(hdr[j]))
    ensures (forall j :: 0 <= j < |hdr| ==> !IsPctHeader(hdr[j])) ==>
      (cols.1.Some? ==> (cols.1.value < |hdr| && IsLoosePctHeader(hdr[cols.1.value])
        && forall j :: 0 <= j < cols.1.value ==> !IsLoosePctHeader(hdr[j])))
      && (cols.1.None? <==> forall j :: 0 <= j < |hdr| ==> !IsLoosePctHeader(hdr[j]))
  {
    var issue := LastWhere(hdr, IsIssueHeader);
    var pct := LastWhere(hdr, IsPctHeader);
    if pct.Some? then (issue, pct) else (issue, FirstWhere(hdr, IsLoosePctHeader))
  }

  // ------------------------------------------------------------------
  // Reading the rows of a table

  /** What the table reader sees in one row: the issue text and the percent. */
  datatype Line = Line(issue: string, pct: Option<real>)

  /** Rows 0..max_row as the reader sees them, for issue column `ic` and percent column `pc` (0-based). */
  function TableLines(ws: Sheet, ic: nat, pc: nat): (lines: seq<Line>)
    ensures |lines| == ws.maxRow + 1
    ensures forall r :: 0 <= r < |lines| ==> lines[r] == Line(StrippedText(At(ws, r, ic + 1)), SafeFloat(At(ws, r, pc + 1)))
  {
    seq(ws.maxRow + 1, r => Line(StrippedText(At(ws, r, ic + 1)), SafeFloat(At(ws, r, pc + 1))))
  }

  /** A row with neither an issue nor a percent. */
  predicate BlankLine(l: Line) {
    l.issue == "" && l.pct.None?
  }

  /** The table ends at row `r` when it and the (up to) three rows after it are blank. */
  predicate StopsAt(lines: seq<Line>, r: nat)
    requires r < |lines|
  {
    forall x :: r <= x <= (if r + 3 < |lines| - 1 then r + 3 else |lines| - 1) ==> BlankLine(lines[x])
  }

  /** The issue row a line gives: both an issue and a percent are needed. */
  function PairOf(l: Line): (x: Option<(string, real)>)
    ensures x.Some? <==> l.issue != "" && l.pct.Some?
    ensures x.Some? ==> x.value == (l.issue, l.pct.value)
  {
    if l.issue != "" && l.pct.Some? then Some((l.issue, l.pct.value)) else None
  }

  /** The issue rows of rows `r`.., until the table ends or the sheet does. */
  function ReadRows(lines: seq<Line>, r: nat): (rows: seq<(string, real)>)
    ensures forall i :: 0 <= i < |rows| ==> rows[i].0 != ""
    decreases |lines| - r
  {
    if r >= |lines| || StopsAt(lines, r) then []
    else
      var rest := ReadRows(lines, r + 1);
      match PairOf(lines[r])
      case Some(x) => [x] + rest
      case None => rest
  }

  /** Reference: the issue rows of rows `lo`..`hi - 1`, with no notion of the table ending. */
  function PairsBetween(lines: seq<Line>, lo: nat, hi: nat): seq<(string, real)>
    requires lo <= hi <= |lines|
    decreases hi - lo
  {
    if hi == lo then []
    else
      var init := PairsBetween(lines, lo, hi - 1);
      match PairOf(lines[hi - 1])
      case Some(x) => init + [x]
      case None => init
  }

  lemma {:induction false} PairsBetweenFirst(lines: seq<Line>, lo: nat, hi: nat)
    requires lo < hi <= |lines|
    ensures PairsBetween(lines, lo, hi)
      == (if PairOf(lines[lo]).Some? then [PairOf(lines[lo]).value] else []) + PairsBetween(lines, lo + 1, hi)
    decreases hi - lo
  {
    if lo + 1 < hi {
      PairsBetweenFirst(lines, lo, hi - 1);
    }
  }

  /** Reading stops exactly at the first row where the table ends: the rows read are the issue rows of
      every row before it, and nothing at or after it is read. */
  lemma {:induction false} ReadRowsUntilStop(lines: seq<Line>, r: nat, s: nat)
    requires r <= s <= |lines|
    requires forall x :: r <= x < s ==> !StopsAt(lines, x)
    requires s < |lines| ==> StopsAt(lines, s)
    ensures ReadRows(lines, r) == PairsBetween(lines, r, s)
    decreases s - r
  {
    if r < s {
      ReadRowsUntilStop(lines, r + 1, s);
      PairsBetweenFirst(lines, r, s);
    }
  }

  // ------------------------------------------------------------------
  // Parsing a sheet

  /** A table found at header row `hr`: its case type and its issue rows. A header row whose case type
      cannot be inferred, or whose issue or percent column cannot be found, gives no table. */
  function TableAt(ws: Sheet, hr: nat): (t: Option<(Trends.Category, seq<(string, real)>)>)
    ensures var cols := FindIssueAndPctCols(GridRow(ws, hr));
      t.Some? <==> IsTableHeader(GridRow(ws, hr)) && InferCaseType(ws, hr).Some? && cols.0.Some? && cols.1.Some?
    ensures t.Some? ==> InferCaseType(ws, hr) == Some(t.value.0)
    ensures var cols := FindIssueAndPctCols(GridRow(ws, hr));
      t.Some? ==> t.value.1 == ReadRows(TableLines(ws, cols.0.value, cols.1.value), hr + 1)
    ensures t.Some? ==> forall i :: 0 <= i < |t.value.1| ==> t.value.1[i].0 != ""
  {
    var row := GridRow(ws, hr);
    if !IsTableHeader(row) then None
    else
      match InferCaseType(ws, hr)
      case None => None
      case Some(k) =>
        match FindIssueAndPctCols(row)
        case (Some(ic), Some(pc)) => Some((k, ReadRows(TableLines(ws, ic, pc), hr + 1)))
        case _ => None
  }

  /** A map holding the three case types holds every case type. */
  lemma EveryCategoryIn<V>(m: map<Trends.Category, V>)
    requires Trends.AccaLongTerm in m && Trends.Acca in m && Trends.DcwAc in m
    ensures forall k :: k in m
  {
    forall k: Trends.Category ensures k in m {
      match k
      case AccaLongTerm =>
      case Acca =>
      case DcwAc =>
    }
  }

  /** Per case type, the rows of the tables of header rows 1..n, in row order. */
  function ParseUpTo(ws: Sheet, n: nat): (m: map<Trends.Category, seq<(string, real)>>)
    ensures forall k :: k in m
    ensures forall k, i :: 0 <= i < |m[k]| ==> m[k][i].0 != ""
  {
    if n == 0 then
      var m := map[Trends.AccaLongTerm := [], Trends.Acca := [], Trends.DcwAc := []];
      EveryCategoryIn(m);
      m
    else
      var prev := ParseUpTo(ws, n - 1);
      match TableAt(ws, n)
      case None => prev
      case Some((k, rows)) => prev[k := prev[k] + rows]
  }

  /** What parsing one sheet gives: the sheet's name and, per case type, its issue rows. */
  datatype Parsed = Parsed(caseName: string, rows: map<Trends.Category, seq<(string, real)>>)

  /** `_parse_sheet`. */
  function ParseSheet(ws: Sheet, name: string): (p: Parsed)
    ensures p.caseName == name && forall k :: k in p.rows
    ensures forall k, i :: 0 <= i < |p.rows[k]| ==> p.rows[k][i].0 != ""
  {
    Parsed(name, ParseUpTo(ws, ws.maxRow))
  }

  /** What the header row `hr` gives to case type `k`: the rows of its table when that table is of
      case type `k`, nothing otherwise. */
  function TableRowsFor(ws: Sheet, hr: nat, k: Trends.Category): seq<(string, real)> {
    match TableAt(ws, hr)
    case Some((k', rows)) => if k' == k then rows else []
    case None => []
  }

  /** What each of the header rows 1..n gives to case type `k`, in row order. */
  function TablesFor(ws: Sheet, n: nat, k: Trends.Category): (ts: seq<seq<(string, real)>>)
    ensures |ts| == n
    ensures forall i :: 0 <= i < n ==> ts[i] == TableRowsFor(ws, i + 1, k)
  {
    if n == 0 then [] else TablesFor(ws, n - 1, k) + [TableRowsFor(ws, n, k)]
  }

  /** Every header row up to `n` with a table contributes exactly that table's rows, to its own case type
      and in row order. */
  lemma {:induction false} ParseUpToSpec(ws: Sheet, n: nat, k: Trends.Category)
    ensures ParseUpTo(ws, n)[k] == Seqs.Flatten(TablesFor(ws, n, k))
    decreases n
  {
    if n == 0 {
      assert TablesFor(ws, 0, k) == [];
    } else {
      ParseUpToSpec(ws, n - 1, k);
      Seqs.FlattenAppend(TablesFor(ws, n - 1, k), [TableRowsFor(ws, n, k)]);
    }
  }

  /** The rows of a parsed sheet for each case type are those of its tables, in row order. */
  lemma ParseSheetSpec(ws: Sheet, name: string)
    ensures forall k :: ParseSheet(ws, name).rows[k] == Seqs.Flatten(TablesFor(ws, ws.maxRow, k))
  {
    forall k {
      ParseUpToSpec(ws, ws.maxRow, k);
    }
  }

  // ------------------------------------------------------------------
  // Merging parsed sheets

  /** The points of each issue, by key, with the keys in the order they were first seen. */
  datatype IssueTable = IssueTable(order: seq<string>, points: map<string, seq<(string, real)>>)

  /** The keys listed are exactly the keys held, each listed once. */
  predicate TableOk(t: IssueTable) {
    && (forall k :: k in t.points ==> k in t.order)
    && (forall k :: k in t.order ==> k in t.points)
    && (forall i, j :: 0 <= i < j < |t.order| ==> t.order[i] != t.order[j])
  }

  /** The data of one case type: its issues and the names of the sheets merged into it. */
  datatype CaseData = CaseData(issues: IssueTable, cases: seq<string>)

  /** `issues.setdefault(key, []).append(point)`. */
  function AddPoint(t: IssueTable, key: string, p: (string, real)): (r: IssueTable)
    requires TableOk(t)
    ensures TableOk(r)
  {
    if key in t.points then IssueTable(t.order, t.points[key := t.points[key] + [p]])
    else IssueTable(t.order + [key], t.points[key := [p]])
  }

  /** The points of `rows` under their stripped issue keys, appended in row order. */
  function AddRows(t: IssueTable, caseName: string, rows: seq<(string, real)>): (r: IssueTable)
    requires TableOk(t)
    ensures TableOk(r)
    decreases |rows|
  {
    if |rows| == 0 then t
    else
      var last := rows[|rows| - 1];
      AddPoint(AddRows(t, caseName, rows[..|rows| - 1]), Strip(last.0), (caseName, last.1))
  }

  /** Reference: the points `rows` give to `key`. */
  function PointsFor(rows: seq<(string, real)>, key: string, caseName: string): seq<(string, real)>
    decreases |rows|
  {
    if |rows| == 0 then []
    else if Strip(rows[0].0) == key then [(caseName, rows[0].1)] + PointsFor(rows[1..], key, caseName)
    else PointsFor(rows[1..], key, caseName)
  }

  lemma {:induction false} PointsForSnoc(rows: seq<(string, real)>, x: (string, real), key: string, caseName: string)
    ensures PointsFor(rows + [x], key, caseName)
      == PointsFor(rows, key, caseName) + (if Strip(x.0) == key then [(caseName, x.1)] else [])
    decreases |rows|
  {
    if |rows| > 0 {
      assert (rows + [x])[1..] == rows[1..] + [x];
      PointsForSnoc(rows[1..], x, key, caseName);
    }
  }

  lemma PointsForLast(rows: seq<(string, real)>, key: string, caseName: string)
    requires |rows| > 0
    ensures var n := |rows| - 1;
      PointsFor(rows, key, caseName)
      == PointsFor(rows[..n], key, caseName) + (if Strip(rows[n].0) == key then [(caseName, rows[n].1)] else [])
  {
    var n := |rows| - 1;
    assert rows == rows[..n] + [rows[n]];
    PointsForSnoc(rows[..n], rows[n], key, caseName);
  }

  /** The points an issue holds, none if it is not held. */
  function PointsOf(t: IssueTable, key: string): seq<(string, real)> {
    if key in t.points then t.points[key] else []
  }

  /** Merging rows appends to each key exactly the points of the rows with that key, in row order;
      keys seen for the first time go after the known ones. */
  lemma {:induction false} AddRowsSpec(t: IssueTable, caseName: string, rows: seq<(string, real)>, key: string)
    requires TableOk(t)
    ensures PointsOf(AddRows(t, caseName, rows), key) == PointsOf(t, key) + PointsFor(rows, key, caseName)
    ensures key in AddRows(t, caseName, rows).points <==> key in t.points || PointsFor(rows, key, caseName) != []
    ensures t.order <= AddRows(t, caseName, rows).order
    decreases |rows|
  {
    if |rows| > 0 {
      var init := rows[..|rows| - 1];
      var last := rows[|rows| - 1];
      var mid := AddRows(t, caseName, init);
      AddRowsSpec(t, caseName, init, key);
      PointsForLast(rows, key, caseName);
      AddPointSpec(mid, Strip(last.0), (caseName, last.1), key);
      var extra := if Strip(last.0) == key then [(caseName, last.1)] else [];
      assert PointsOf(AddRows(t, caseName, rows), key) == PointsOf(mid, key) + extra;
      assert PointsFor(rows, key, caseName) == PointsFor(init, key, caseName) + extra;
      assert PointsOf(t, key) + PointsFor(init, key, caseName) + extra == PointsOf(t, key) + (PointsFor(init, key, caseName) + extra);
    }
  }

  /** Adding a point appends it to its own key only, and lists a new key last. */
  lemma AddPointSpec(t: IssueTable, k: string, p: (string, real), key: string)
    requires TableOk(t)
    ensures PointsOf(AddPoint(t, k, p), key) == PointsOf(t, key) + (if k == key then [p] else [])
    ensures key in AddPoint(t, k, p).points <==> key in t.points || k == key
    ensures t.order <= AddPoint(t, k, p).order
  {
  }

  /** Merge one sheet's rows into a case type: the sheet is listed once, and its rows are appended. */
  function MergeCase(d: CaseData, caseName: string, rows: seq<(string, real)>): (r: CaseData)
    requires TableOk(d.issues)
    ensures TableOk(r.issues)
    ensures caseName in r.cases && forall c :: c in r.cases <==> c in d.cases || c == caseName
    ensures (forall i, j :: 0 <= i < j < |d.cases| ==> d.cases[i] != d.cases[j]) ==>
      forall i, j :: 0 <= i < j < |r.cases| ==> r.cases[i] != r.cases[j]
    ensures forall key :: PointsOf(r.issues, key) == PointsOf(d.issues, key) + PointsFor(rows, key, caseName)
  {
    forall key ensures PointsOf(AddRows(d.issues, caseName, rows), key) == PointsOf(d.issues, key) + PointsFor(rows, key, caseName) {
      AddRowsSpec(d.issues, caseName, rows, key);
    }
    CaseData(AddRows(d.issues, caseName, rows), if caseName in d.cases then d.cases else d.cases + [caseName])
  }

  /** Well-formed view data: each case type has its table in order. */
  predicate DataOk(data: map<Trends.Category, CaseData>) {
    forall k :: k in data ==> TableOk(data[k].issues)
  }

  /** `_merge_parsed`: every case type of the parsed sheet merged into its own data. */
  function MergeParsed(data: map<Trends.Category, CaseData>, p: Parsed): (r: map<Trends.Category, CaseData>)
    requires DataOk(data)
    ensures DataOk(r) && r.Keys == data.Keys
    ensures forall k :: k in r && k in p.rows ==> r[k] == MergeCase(data[k], p.caseName, p.rows[k])
    ensures forall k :: k in r && k !in p.rows ==> r[k] == data[k]
  {
    map k | k in data :: if k in p.rows then MergeCase(data[k], p.caseName, p.rows[k]) else data[k]
  }

  // ------------------------------------------------------------------
  // Input fields

  /** Python's `int()` on a float: truncation toward zero. */
  function Trunc(v: real): (n: int)
    ensures v >= 0.0 ==> 0 <= n && n as real <= v < n as real + 1.0
    ensures v < 0.0 ==> n <= 0 && n as real - 1.0 < v <= n as real
  {
    if v >= 0.0 then v.Floor else -((-v).Floor)
  }

  /** `_get_topn`: the entry read as a number, truncated and clamped to 1..50; 8 when it is not a
      number. */
  function GetTopN(text: string): (n: int)
    ensures 1 <= n <= 50
    ensures ParseFloat(Strip(text)).None? ==> n == 8
    ensures ParseFloat(Strip(text)).Some? ==> var t := Trunc(ParseFloat(Strip(text)).value);
      n == (if t < 1 then 1 else if t > 50 then 50 else t)
  {
    match ParseFloat(Strip(text))
    case None => 8
    case Some(v) =>
      var t := Trunc(v);
      if t < 1 then 1 else if t > 50 then 50 else t
  }

  /** `_get_min_pct`: the entry read as a number; 80 when it is not one. */
  function GetMinPct(text: string): (m: real)
    ensures ParseFloat(Strip(text)).None? ==> m == 80.0
    ensures ParseFloat(Strip(text)).Some? ==> m == ParseFloat(Strip(text)).value
  {
    match ParseFloat(Strip(text))
    case None => 80.0
    case Some(v) => v
  }

  /** A count written in digits is read as itself, and is kept when it is within range. */
  lemma InputReadsNat(n: nat)
    ensures GetMinPct(NatText(n)) == n as real
    ensures 1 <= n <= 50 ==> GetTopN(NatText(n)) == n
  {
    var s := NatText(n);
    DigitsValueNatText(n);
    assert IsDigit(s[0]) && IsDigit(s[|s| - 1]);
    StripUnchanged(s);
    ParseNatText(n);
  }

  /** The fields' initial texts read as the defaults the code falls back to. */
  lemma InputDefaults()
    ensures GetMinPct("80") == 80.0 && GetTopN("8") == 8
  {
    InputReadsNat(80);
    InputReadsNat(8);
    NatTextDefaults();
  }

  lemma NatTextDefaults()
    ensures NatText(80) == "80" && NatText(8) == "8"
  {
    assert NatText(8) == "8";
    assert NatText(80) == NatText(8) + "0";
  }

  // ------------------------------------------------------------------
  // Top-N ranking

  /** The largest percent among the points. */
  function MaxPoint(pts: seq<(string, real)>): (m: real)
    requires |pts| > 0
    ensures exists i :: 0 <= i < |pts| && pts[i].1 == m
    ensures forall i :: 0 <= i < |pts| ==> pts[i].1 <= m
  {
    if |pts| == 1 then pts[0].1
    else
      var m := MaxPoint(pts[..|pts| - 1]);
      assert forall i :: 0 <= i < |pts| - 1 ==> pts[i] == pts[..|pts| - 1][i];
      if pts[|pts| - 1].1 > m then pts[|pts| - 1].1 else m
  }

  /** An issue is a candidate when it has points and its largest percent reaches the threshold. */
  predicate Candidate(t: IssueTable, minPct: real, key: string) {
    key in t.points && |t.points[key]| > 0 && MaxPoint(t.points[key]) >= minPct
  }

  /** The candidates among the first `n` keys, in key order, with their largest percent. */
  function CandidatesUpTo(t: IssueTable, minPct: real, n: nat): (c: seq<(string, real)>)
    requires n <= |t.order|
    ensures forall x :: x in c <==> x.0 in t.order[..n] && Candidate(t, minPct, x.0) && x.1 == MaxPoint(t.points[x.0])
  {
    if n == 0 then []
    else
      var init := CandidatesUpTo(t, minPct, n - 1);
      var k := t.order[n - 1];
      assert t.order[..n] == t.order[..n - 1] + [k];
      if Candidate(t, minPct, k) then init + [(k, MaxPoint(t.points[k]))] else init
  }

  /** The positions among the first `n` keys whose issue is a candidate, in increasing order. */
  function CandidatePositions(t: IssueTable, minPct: real, n: nat): (ps: seq<nat>)
    requires n <= |t.order|
    ensures forall m :: 0 <= m < |ps| ==> ps[m] < n && Candidate(t, minPct, t.order[ps[m]])
    ensures forall m, m' :: 0 <= m < m' < |ps| ==> ps[m] < ps[m']
    ensures forall i :: 0 <= i < n && Candidate(t, minPct, t.order[i]) ==> i in ps
  {
    if n == 0 then []
    else
      var init := CandidatePositions(t, minPct, n - 1);
      if Candidate(t, minPct, t.order[n - 1]) then init + [n - 1] else init
  }

  /** `c` lists, in turn, the issue at each position of `ps` with its largest percent. */
  predicate ListsPositions(t: IssueTable, minPct: real, c: seq<(string, real)>, ps: seq<nat>) {
    && |c| == |ps|
    && forall m :: 0 <= m < |c| ==>
      ps[m] < |t.order| && Candidate(t, minPct, t.order[ps[m]]) && c[m] == (t.order[ps[m]], MaxPoint(t.points[t.order[ps[m]]]))
  }

  /** The candidates come in key order: the `m`-th is the issue at the `m`-th candidate position. */
  lemma {:induction false} CandidatesInKeyOrder(t: IssueTable, minPct: real, n: nat)
    requires n <= |t.order|
    ensures var c := CandidatesUpTo(t, minPct, n);
      var ps := CandidatePositions(t, minPct, n);
      && |c| == |ps|
      && forall m :: 0 <= m < |c| ==> c[m] == (t.order[ps[m]], MaxPoint(t.points[t.order[ps[m]]]))
  {
    ListedAtPositions(t, minPct, n);
  }

  lemma {:induction false} ListedAtPositions(t: IssueTable, minPct: real, n: nat)
    requires n <= |t.order|
    ensures ListsPositions(t, minPct, CandidatesUpTo(t, minPct, n), CandidatePositions(t, minPct, n))
  {
    if n > 0 {
      ListedAtPositions(t, minPct, n - 1);
      var k := t.order[n - 1];
      if Candidate(t, minPct, k) {
        ListsPositionsSnoc(t, minPct, CandidatesUpTo(t, minPct, n - 1), CandidatePositions(t, minPct, n - 1), n - 1);
      }
    }
  }

  lemma ListsPositionsSnoc(t: IssueTable, minPct: real, c: seq<(string, real)>, ps: seq<nat>, p: nat)
    requires ListsPositions(t, minPct, c, ps)
    requires p < |t.order| && Candidate(t, minPct, t.order[p])
    ensures ListsPositions(t, minPct, c + [(t.order[p], MaxPoint(t.points[t.order[p]]))], ps + [p])
  {
    var c', ps' := c + [(t.order[p], MaxPoint(t.points[t.order[p]]))], ps + [p];
    forall m | 0 <= m < |c'|
      ensures ps'[m] < |t.order| && Candidate(t, minPct, t.order[ps'[m]]) && c'[m] == (t.order[ps'[m]], MaxPoint(t.points[t.order[ps'[m]]]))
    {
      if m < |c| {
        assert c'[m] == c[m] && ps'[m] == ps[m];
      }
    }
  }

  /** Larger percent first. */
  predicate HigherFirst(a: (string, real), b: (string, real)) {
    a.1 >= b.1
  }

  lemma HigherFirstIsPreorder()
    ensures TotalPreorder(HigherFirst)
  {
  }

  /** Cutting a sequence sorted highest first keeps everything higher than what it keeps. */
  lemma SortedKeepsHigher(ranked: seq<(string, real)>, n: nat)
    requires SortedBy(ranked, HigherFirst)
    ensures forall x, y :: x in Take(ranked, n) && y in ranked && y.1 > x.1 ==> y in Take(ranked, n)
  {
    var r := Take(ranked, n);
    forall x, y | x in r && y in ranked && y.1 > x.1 ensures y in r {
      var i :| 0 <= i < |r| && r[i] == x;
      var j :| 0 <= j < |ranked| && ranked[j] == y;
      assert ranked[i] == x;
      assert j < |r|;
      assert r[j] == y;
    }
  }

  /** `lst[:n]`. */
  function Take<T>(s: seq<T>, n: nat): (r: seq<T>)
    ensures |r| == (if n < |s| then n else |s|)
    ensures r <= s
  {
    if n < |s| then s[..n] else s
  }

  /** The ranking behind `_auto_plot_top`: the candidate issues sorted by largest percent, highest
      first and ties in key order, cut to the first `topn`. */
  function RankTop(t: IssueTable, minPct: real, topn: nat): (r: seq<(string, real)>)
    ensures var cands := CandidatesUpTo(t, minPct, |t.order|);
      && |r| == (if topn < |cands| then topn else |cands|)
      && SortedBy(r, HigherFirst)
      && (forall x :: x in r ==> x in cands)
      && (forall x, y :: x in r && y in cands && y.1 > x.1 ==> y in r)
      && (topn >= |cands| ==> forall x :: x in cands ==> x in r)
      && multiset(r) <= multiset(cands)
      && (forall c :: Class(r, c, HigherFirst) <= Class(cands, c, HigherFirst))
  {
    var cands := CandidatesUpTo(t, minPct, |t.order|);
    HigherFirstIsPreorder();
    SortSorted(cands, HigherFirst);
    SortKeeps(cands, HigherFirst);
    SortedKeepsHigher(Sort(cands, HigherFirst), topn);
    TakeKeepsTies(cands, topn);
    Take(Sort(cands, HigherFirst), topn)
  }

  /** Cutting the stable sort of `s` keeps part of `s`, and of the elements tied with any `c` it keeps
      the first ones in their order in `s`. */
  lemma TakeKeepsTies(s: seq<(string, real)>, n: nat)
    ensures var r := Take(Sort(s, HigherFirst), n);
      && multiset(r) <= multiset(s)
      && forall c :: Class(r, c, HigherFirst) <= Class(s, c, HigherFirst)
  {
    var sorted := Sort(s, HigherFirst);
    var r := Take(sorted, n);
    var rest := sorted[|r|..];
    assert sorted == r + rest;
    HigherFirstIsPreorder();
    forall c ensures Class(r, c, HigherFirst) <= Class(s, c, HigherFirst) {
      SortStable(s, c, HigherFirst);
      ClassAppend(r, rest, c, HigherFirst);
    }
    assert multiset(sorted) == multiset(r) + multiset(rest);
  }

  /** `_auto_plot_top` with the two entry fields: at most fifty issues, each reaching the threshold. */
  function AutoPlotTop(t: IssueTable, minText: string, topText: string): (r: seq<(string, real)>)
    requires TableOk(t)
    ensures |r| <= 50 && |r| <= |t.order|
    ensures forall x :: x in r ==> x.0 in t.points && x.1 >= GetMinPct(minText)
  {
    var r := RankTop(t, GetMinPct(minText), GetTopN(topText));
    CandidatesBound(t, GetMinPct(minText), |t.order|);
    r
  }

  lemma {:induction false} CandidatesBound(t: IssueTable, minPct: real, n: nat)
    requires n <= |t.order|
    ensures |CandidatesUpTo(t, minPct, n)| <= n
  {
    if n > 0 {
      CandidatesBound(t, minPct, n - 1);
    }
  }

  /** The number of distinct sheets among an issue's points. */
  function CaseCount(pts: seq<(string, real)>): nat {
    |set p | p in pts :: p.0|
  }

  /** `_refresh_issue_lists` for one case type: the uncut ranking, each issue with its largest percent
      and the number of sheets it appears on. */
  function IssueList(t: IssueTable, minPct: real): (r: seq<(string, real, nat)>)
    ensures var ranked := RankTop(t, minPct, |t.order|);
      && |r| == |ranked|
      && (forall i :: 0 <= i < |r| ==> (r[i].0, r[i].1) == ranked[i])
      && (forall i :: 0 <= i < |r| ==> r[i].0 in t.points && r[i].2 == CaseCount(t.points[r[i].0]))
  {
    var ranked := RankTop(t, minPct, |t.order|);
    seq(|ranked|, i requires 0 <= i < |ranked| => (ranked[i].0, ranked[i].1, CaseCount(t.points[ranked[i].0])))
  }

  /** The issue list holds exactly the candidates, highest first. */
  lemma IssueListSpec(t: IssueTable, minPct: real)
    ensures var r := IssueList(t, minPct);
      var cands := CandidatesUpTo(t, minPct, |t.order|);
      && |r| == |cands|
      && (forall x :: x in cands ==> exists i :: 0 <= i < |r| && (r[i].0, r[i].1) == x)
      && (forall i :: 0 <= i < |r| ==> (r[i].0, r[i].1) in cands)
      && (forall i, j :: 0 <= i < j < |r| ==> r[i].1 >= r[j].1)
  {
    CandidatesBound(t, minPct, |t.order|);
    ListedInOrder(IssueList(t, minPct), RankTop(t, minPct, |t.order|), CandidatesUpTo(t, minPct, |t.order|));
  }

  lemma ListedInOrder(r: seq<(string, real, nat)>, ranked: seq<(string, real)>, cands: seq<(string, real)>)
    requires |r| == |ranked| == |cands| && SortedBy(ranked, HigherFirst)
    requires forall i :: 0 <= i < |r| ==> (r[i].0, r[i].1) == ranked[i]
    requires forall x :: x in ranked <==> x in cands
    ensures forall x :: x in cands ==> exists i :: 0 <= i < |r| && (r[i].0, r[i].1) == x
    ensures forall i :: 0 <= i < |r| ==> (r[i].0, r[i].1) in cands
    ensures forall i, j :: 0 <= i < j < |r| ==> r[i].1 >= r[j].1
  {
    forall x | x in cands ensures exists i :: 0 <= i < |r| && (r[i].0, r[i].1) == x {
      var i :| 0 <= i < |ranked| && ranked[i] == x;
      assert (r[i].0, r[i].1) == x;
    }
    forall i | 0 <= i < |r| ensures (r[i].0, r[i].1) in cands {
      assert ranked[i] in ranked;
    }
    forall i, j | 0 <= i < j < |r| ensures r[i].1 >= r[j].1 {
      assert HigherFirst(ranked[i], ranked[j]);
    }
  }
}

=== FILE: wrappers.dfy ===
/** Option and Result values shared by every module of the model. */
module Wrappers {

  /** A value that may be missing: Python's `None`, and pandas' NaN wherever the source treats NaN as absent. */
  datatype Option<+T> = None | Some(value: T) {

    /** The wrapped value, or `default` when missing. */
    function GetOr(default: T): T {
      match this
      case Some(v) => v
      case None => default
    }
  }

  /** The outcome of an operation that can raise: `Failure` stands for the Python exception. */
  datatype Result<+R, +E> = Success(value: R) | Failure(error: E) {

    predicate IsFailure() {
      Failure?
    }

    function PropagateFailure<U>(): Result<U, E>
      requires Failure?
    {
      Failure(error)
    }

    function Extract(): R
      requires Success?
    {
      value
    }
  }
}
